=== FILE: README.md ===
# Football data scrapers: a Dafny model of their deterministic core

The system scrapes football data into a PostgreSQL database, which then feeds a match predictor.
It gets player ratings and market values from sofifa, match pages and lineups from soccerway and
football-lineups, and results and odds CSV files from football-data. Each scraper is a
short Python script that does three things: it requests pages, it derives facts from fields it
found in them, and it writes rows. Several scripts are near-copies of one another.

This project models what lies between the HTTP request and the SQL statement:

- **name resolution**: an exact dictionary lookup first. Otherwise the first candidate with
  the highest similarity, with a similarity function that stays abstract. `odds.py` adds a
  greedy one-to-one assignment of club names.
- **link generation and discovery**: the fixed period tables; slicing them from a seed URL;
  the two-digit season tags; substituting the period into the URL; the product of leagues and
  game editions; filtering candidates by probe outcome; and `offset=` pagination.
- **match-page facts**: the status marker, the single-digit scoreline, the lineup completeness
  rule, date reformatting, season compression, and the classification of HTTP outcomes.
- **store effects**: the `match`, `league` and `club` tables as maps held by classes. The
  effects are insert-if-absent, upsert on `(league, season)`, update-by-key of odds, overwrite
  of a result, and a club cache that inserts each new name once.
- **small transforms**: CSV row padding, grouping player rows by club, de-duplicating stripped
  club names, and player market values.

The shared modules are:

- `Common`: results, errors, digits, `str`/`int`, `strip`, and first-error folds.
- `Dicts`: an insertion-ordered dict as a sequence of pairs.
- `Resolution`: the `closest` loop and exact-first lookup.
- `Http`: the four ways the scripts read a response.
- `Store`: the tables.
- `Catalog`: the rows the SELECTs read.
- `MatchInfo`: page facts.
- `Seasons` and `PeriodTables`: regex search and substitution over periods.
- `SofifaLinks` and `SofifaValues`: sofifa URLs and value cells.

Then there is one module per script:

| module | script |
|---|---|
| `Odds` | `alpha3/odds.py` |
| `MatchRefresher` | `database/match_refresher.py` |
| `LineupFlask` | `alpha3/lineupFlask.py` |
| `Predict` | `analysis/predict.py` |
| `SWLineupScraper` | `alpha2/SWLineupScraper.py` |
| `SWLinkGen` | `alpha3/SWLinkGenFlask.py` |
| `FootballLineups` | `GCF_lineups.py` and `v0.1/GCF_lineups.py` |
| `Players` | `alpha3/playersFlask.py` and `alpha1/GCF_players.py` |
| `Datasets` | `GCF_datasets.py` |

How the Python is represented:

- A page is the record of fields a scraper reads from it. A request is a `Fetch`: either a
  connection error or a reply with a status and a page.
- An exception is an `Err` carrying the Python exception it stands for: `KeyError`,
  `AttributeError`, an HTTP status, a SQL error, and so on.
- `SequenceMatcher(None, a, b).ratio()` is a parameter `sim`.
- Where a script writes to the database, the model has a class whose methods change its tables.
- A thread-pool runner is a loop over its items in submission order.

What the code does with stored matches and a few of its quirks, as modelled:

- Result columns can go back to empty. `updateMatch` in `database/match_refresher.py:58-83`
  overwrites the goals and all 22 slots of a match, whatever they held
  (`MatchRefresher.Refresher.UpdateMatch`). `insertMatch` in `alpha3/lineupFlask.py` does
  nothing when the key is already stored (`Store.MatchTable.InsertIfAbsent`).
- Lineup slots are bound positionally. Each match statement gets one flat parameter tuple, so
  psycopg2 sees only the total number of slot values. Fewer than 22 raise `IndexError`, more
  raise `TypeError`, and 22 are split after the eleventh, even when the sides held 10 and 12
  (`Store.BindSlots`).
- A failed statement aborts the connection's transaction, and `alpha2/SWLineupScraper.py` never
  rolls it back. After a caught unique violation, every later page raises at its club query
  (`SWLineupScraper.AbortedRunFails`).
- `fetchUpcomingMatches` passes `(league, season)` to `fetchPlayerIds(season, league)`. The
  swapped query finds no rows (`MatchRefresher.SwappedRefetchFails`).
- `extractMatchInfo` in `match_refresher.py` returns a bare `None` for short lineups, and its
  caller's four-way unpacking raises `TypeError`. The model raises the same error.

## Model

| member | source | states |
|---|---|---|
| Resolution.ScanSpec | alpha3/lineupFlask.py:101-110 | The `closest` loop returns -1 with score 0.0 exactly when no candidate scores above 0. Otherwise it returns the first candidate whose score is maximal, so a later equal score never replaces it. |
| Resolution.MostSimilar | database/match_refresher.py:182-186 | The loop over the keys returns the first maximal key and its score, or `""` and 0.0 when every score is 0. |
| Resolution.SimilarSpec | alpha3/lineupFlask.py:101-110 | `searchSimilar` returns the id of the first maximal key. When every score is 0 it looks up `""`, which gives that key's id if `""` is a key and `KeyError` otherwise. |
| Resolution.SearchSimilar | analysis/predict.py:185-194 | The loop computes exactly `Similar`. |
| Resolution.ResolveSpec | alpha3/lineupFlask.py:57-66 | A name that is a key resolves to its own id. Any other name goes through `searchSimilar`. |
| Resolution.Squad | database/match_refresher.py:191 | `dict(self._player_ids[club])` succeeds exactly when the club is cached, and is then the dict of its pairs, last value winning. |
| Resolution.ResolveAllSpec | database/match_refresher.py:192-213 | Resolution succeeds exactly when every name does. The ids then keep the length and order of the names: `None` gives `None`, an exact name gives its id, and any other name gives the most similar id. |
| Resolution.ResolveLineup | analysis/predict.py:158-167 | The append loop computes `ResolveAll`, with the same length and `None` at exactly the `None` names. |
| Resolution.SquadLineup | alpha3/lineupFlask.py:69-80 | An uncached club raises `KeyError` on its id. Otherwise the ids are one per name. |
| Resolution.ResolveMatchSpec | alpha3/lineupFlask.py:52-99 | An empty club map raises before anything else. A match that resolves has team ids resolved exact-first, and lineups resolved against each team's squad. |
| Resolution.ResolveMatchIds | analysis/predict.py:140-183 | The method computes `ResolveMatch`. It raises on an empty club map, and keeps both lineup lengths. |
| Dicts.GetEntry | alpha3/lineupFlask.py:138-145 | In a dict with distinct keys, a pair is present exactly when its key is present with that value. |
| Dicts.Put | alpha3/odds.py:253 | After assignment the key maps to the value. A new key is appended, an old key keeps its place, other entries are unchanged, and keys stay distinct. |
| Dicts.PutOther | alpha3/odds.py:253 | Assigning one key leaves every other key's value alone. |
| Dicts.Remove | alpha3/odds.py:226 | `pop` removes exactly the entries with that key and keeps keys distinct. |
| Dicts.RemoveAbsent | alpha3/odds.py:226 | Popping a key that is absent changes nothing. |
| Dicts.RemoveOther | alpha3/odds.py:240 | Popping one key leaves every other key's value alone. |
| Dicts.Dedup | alpha3/odds.py:221 | The distinct elements of a list, with the same members, no longer than it. |
| Dicts.DedupOrder | alpha3/lineupFlask.py:121 | The distinct elements keep the order of their first occurrences. |
| Dicts.FromPairsKeys | alpha3/lineupFlask.py:121 | `dict(rows)` has the distinct row names as keys, in first-occurrence order. |
| Dicts.FromPairsLast | analysis/predict.py:205 | For a name in the rows, `dict(rows)` holds the value of its last row. |
| Dicts.GroupedSpec | database/match_refresher.py:232-236 | The grouping appends to the cache. A club is present when it was cached or has a row, and its list is the old list followed by its rows in row order. |
| Dicts.RowsOfAbsent | alpha3/lineupFlask.py:138-145 | A club without rows gets no pairs. |
| Dicts.GroupedTwice | database/match_refresher.py:232-236 | Reading the same rows twice duplicates them: the list becomes the cached list followed by the club's rows twice. |
| Dicts.GroupRows | analysis/predict.py:222-229 | The loop computes `Grouped`: which clubs are present, and each club's list in row order. |
| Catalog.ClubsIn | alpha3/lineupFlask.py:112-121 | The `(club_name, club_id)` rows of a league and season are exactly the clubs with that league code and season. |
| Catalog.ClubsOfLeague | alpha3/odds.py:288-297 | The club rows of a `league_id` are exactly the clubs with that id. |
| Catalog.PlayersIn | alpha3/lineupFlask.py:123-137 | The `(club_id, name, player_id)` rows are exactly the players of that season and league. |
| Catalog.SquadOf | alpha2/SWLineupScraper.py:170-178 | The `(name, player_id)` rows of a club are exactly its players. |
| Catalog.SwappedQueryEmpty | database/match_refresher.py:51 | With league codes and season tags disjoint, asking for season := league code and league := season tag finds no player. |
| Common.ParseNatToString | alpha3/playersFlask.py:137-138 | Reading the digits that `str` writes gives the number back. |
| Common.StripSpec | alpha3/odds.py:211-212 | `strip` removes exactly the leading and trailing whitespace. The result starts and ends with non-whitespace, and is the input with only whitespace cut from either end. |
| Common.StripIdempotent | alpha3/odds.py:221 | Stripping twice is stripping once. |
| Common.FirstError | alpha2/SWLineupScraper.py:71-73 | The runner succeeds exactly when every item does. A failure is the error of some failed item. |
| Common.FirstErrorNext | alpha3/lineupFlask.py:41-48 | Handling one more item keeps the error of an earlier failing item; otherwise the runner raises the new item's error if it fails and nothing if it succeeds. |
| Common.CollectOk | v0.1/GCF_lineups.py:103-129 | A loop that stops at the first exception succeeds exactly when every step succeeds. |
| Common.CollectFirstError | v0.1/GCF_lineups.py:103-129 | It raises the error of the first failing step. |
| Common.CollectKept | v0.1/GCF_lineups.py:103-129 | On success it holds exactly the values of the steps that produced one, no more of them than steps. |
| Http.SkipServerErrors | analysis/predict.py:61-76 | A connection error or status 500 gives `None`, any other non-200 status raises, and 200 gives the page. |
| Http.Lenient | alpha3/playersFlask.py:80-93 | A connection error or any non-200 status gives `None`, and 200 gives the page. |
| Http.Strict | alpha1/GCF_players.py:69-79 | A connection error leaves `response` as `None`, so reading its status raises `AttributeError`. A non-200 status raises, and 200 gives the page. |
| Http.Probe | alpha3/SWLinkGenFlask.py:71-81 | A connection error raises `AttributeError`, a non-200 status gives `False`, and 200 gives the URL. |
| Http.PoliciesAgree | analysis/predict.py:61-76 | The four readings agree on which replies are pages. Where the skipping reader raises, the strict one raises too and the lenient one gives `None`. |
| Store.KeptTaken | alpha3/lineupFlask.py:159 | A key stored before a change that keeps rows is still stored after it. |
| Store.OddsFor | alpha3/odds.py:313-326 | The odds a key gets: `None` exactly when no payload row has that key, and otherwise those of a payload row with that key. |
| Store.WithOddsSpec | alpha3/odds.py:313-326 | The odds update inserts no row and changes only the odds of rows whose key is in the payload. Every other row is unchanged. |
| Store.BindSlots | alpha3/lineupFlask.py:150-161 | The flat tuple's slot values bind positionally: fewer than 22 raise `IndexError`, more raise `TypeError`, and 22 are split into two sides of 11 whose concatenation is the home values followed by the away values. |
| Store.Bound | alpha2/SWLineupScraper.py:183-192 | The stored row is the given row with its slots re-split, the same key and other columns. It fails exactly when the two lineups do not hold 22 values together, and it is the row itself when both sides hold 11. |
| Store.MatchTable.InsertIfAbsent | alpha3/lineupFlask.py:147-162 | Slots that do not bind raise `IndexError` or `TypeError` before the statement is sent, and nothing changes. A taken `(home_id, away_id, game_date)` leaves the table unchanged but draws an id. Otherwise the bound row is added under a fresh id. |
| Store.MatchTable.InsertReturning | alpha2/SWLineupScraper.py:180-195 | A plain insert, bound the same way. A taken key raises a unique violation and changes nothing. Otherwise the bound row is stored under the returned fresh id. |
| Store.MatchTable.LinkClubs | alpha2/SWLineupScraper.py:196-201 | Two `club_match` rows are appended, home club then away club, both for the match. |
| Store.KeyedSpec | alpha3/odds.py:320-323 | The payload rows that can meet a stored match are exactly the `(key, odds)` of the rows with both teams given as ids; a NULL team never compares equal. |
| Store.NullRowInert | alpha3/odds.py:320-326 | Adding a row with a NULL team to an accepted update leaves it accepted and changes nothing it does. |
| Store.MatchTable.UpdateOdds | alpha3/odds.py:309-327 | The statement is refused, changing nothing, when `VALUES` is empty (syntax error), when a key column mixes ids and quoted names (invalid integer input), or when a key column holds no id at all (it is typed text and cannot be compared with the integer key). Otherwise the table becomes `WithOdds` of the keyed rows: same ids, no insert. |
| Store.MatchTable.UpdateResult | database/match_refresher.py:58-83 | Slot values that do not bind raise `IndexError` or `TypeError` and change nothing. Otherwise the row with that `match_id` gets both goals and all 22 slots overwritten, and every other row is unchanged. |
| Store.UpsertedSpec | alpha3/SWLinkGenFlask.py:86-88 | An upsert adds the batch's keys. It sets only the named location column of each batch key, whether the row is new or existing, and leaves rows outside the batch unchanged. |
| Store.FirstLocation | GCF_lineups.py:45-50 | The location a key gets is that of a payload row with that key, and none exactly when no row has it; the model takes the first such row. |
| Store.UpdatedLocationsSpec | GCF_lineups.py:42-53 | The update never inserts. A key matched by the batch gets that row's location, and any other key is unchanged. |
| Store.LeagueTable.Upsert | GCF_datasets.py:62-83 | An empty batch is a syntax error. A batch with a repeated key is the "cannot affect row a second time" error. Both change nothing. Otherwise the table becomes `Upserted`. |
| Store.LeagueTable.UpdateExisting | alpha1/GCF_players.py:46-57 | An empty batch is a syntax error. Otherwise the table becomes `UpdatedLocations`, with the same keys. |
| Store.ClubInsertSpec | alpha3/playersFlask.py:228-238 | The insert fails exactly when the league already has that club name, and then adds no row. `ON CONFLICT DO NOTHING` returns no row, so reading its id is a `TypeError`; without it the name is a unique violation. A new name is stored under an unused id, and each (league, name) keeps a single id. |
| Store.ClubTable.InsertClub | alpha1/GCF_players.py:181-190 | The method performs `ClubInsert` on the table and keeps it valid. |
| MatchInfo.StatusOf | alpha2/SWLineupScraper.py:102-108 | `FT` or `AET` gives `FT`, `KO` gives `UPCOMING`, and anything else gives `STARTED`: all three directions. |
| MatchInfo.ScoreIndex | alpha2/SWLineupScraper.py:110 | The leftmost position of `\d - \d`, or -1 exactly when there is none. |
| MatchInfo.Scoreline | alpha2/SWLineupScraper.py:110-115 | The two single digits of the first `d - d`, or `None` exactly when the text has none. |
| MatchInfo.ScorelineOf | database/match_refresher.py:149-153 | A text whose first score is `h - a` gives goals `(h, a)`. |
| MatchInfo.FullLineups | analysis/predict.py:118-127 | Fewer than 12 rows on either side gives `None`. Otherwise each side is its first 11 rows, in order. |
| MatchInfo.Named | database/match_refresher.py:169-174 | Each name becomes a present slot, keeping length and order. |
| MatchInfo.NoLineup | analysis/predict.py:129-131 | Eleven `None` slots. |
| MatchInfo.ReformatDayFirst | analysis/predict.py:100-101 | A valid date from year 1 on, written day/month/year with any day form `%d` reads (two digits, one digit, or a space and a digit) and any month form `%m` reads (two digits or one), becomes `YYYY-MM-DD`. |
| MatchInfo.ReformatAccepts | alpha2/SWLineupScraper.py:117-118 | Every date `strptime(date, '%d/%m/%Y')` accepts is such a form of a valid date from year 1 on, and it becomes that date's `YYYY-MM-DD`. |
| MatchRefresher.PageInfo | database/match_refresher.py:139-176 | Goals are set exactly when the marker is `FT` or `AET` and a `d - d` is found, and then they are its digits. A lineup block with a short side gives the bare `None`. A full block gives the first 11 names of each side, and no block gives `None` lineups. |
| MatchRefresher.Extraction | database/match_refresher.py:128-135 | A connection error or a 500 gives four `None`s, and another non-200 status raises. A page gives its `PageInfo`. |
| MatchRefresher.ExtractMatchInfo | database/match_refresher.py:124-176 | The method computes `Extraction`. |
| MatchRefresher.Refreshed | database/match_refresher.py:53-56 | A bare `None` raises `TypeError` on unpacking, and an incomplete extraction changes nothing. Only the row with that `match_id` may change. |
| MatchRefresher.RefreshAllFrame | database/match_refresher.py:49-56 | Refreshing keeps the match ids, leaves rows of matches not due unchanged, and only ever extends cached clubs' lists. |
| MatchRefresher.SwappedRefetchFails | database/match_refresher.py:50-53 | When neither club is cached, the swapped refetch finds nothing, and resolving the home lineup raises `KeyError` on the home id. |
| MatchRefresher.RefreshAllErr | database/match_refresher.py:49-56 | After the first exception no later match is processed. |
| MatchRefresher.Refresher.constructor | database/match_refresher.py:21-23 | The player cache starts empty. |
| MatchRefresher.Refresher.FetchPlayerIds | database/match_refresher.py:217-236 | Each row is appended to its club's cached list, and the list is created on first sight. |
| MatchRefresher.Refresher.MatchPlayerIds | database/match_refresher.py:189-215 | An uncached home or away club raises. The two id lists keep the lengths and `None` positions of the name lists. |
| MatchRefresher.Refresher.UpdateMatch | database/match_refresher.py:58-83 | `UpdateResult` on the store: fewer than 22 slot values raise `IndexError` and more raise `TypeError`; 22 overwrite that match's goals and slots only. |
| MatchRefresher.Refresher.RefreshOne | database/match_refresher.py:49-56 | One loop turn has the effect and outcome `Step` describes: refetch when a club is uncached, extract, update only complete matches. |
| MatchRefresher.Refresher.FetchUpcomingMatches | database/match_refresher.py:36-56 | The loop has the cache, rows and outcome of `RefreshAll`. |
| LineupFlask.Plan | alpha3/lineupFlask.py:52-99 | The row handed to `insertMatch` exists exactly when resolution succeeds. It carries the resolved ids, the date, the status, the link and the goals. |
| LineupFlask.FirstFailure | alpha3/lineupFlask.py:33-49 | The runner succeeds exactly when every non-`None` match succeeds, and `None` entries are skipped. |
| LineupFlask.FirstFailureAt | alpha3/lineupFlask.py:41-48 | The runner raises the first failing match's error. |
| LineupFlask.LandedKept | alpha3/lineupFlask.py:159 | A stored match key stays stored through later inserts. |
| LineupFlask.MatchTableBuilder.constructor | alpha3/lineupFlask.py:15-20 | The builder reads the league's club dict and groups the league's players by club. |
| LineupFlask.MatchTableBuilder.ExtractLineups | alpha3/lineupFlask.py:52-99 | A failure raises and writes nothing; lineups that do not bind 22 slots raise `IndexError` or `TypeError`. A success inserts-if-absent, slots bound positionally, and returns 200. Either way, rows are kept and a successful match's key is stored. |
| LineupFlask.MatchTableBuilder.Runner | alpha3/lineupFlask.py:33-49 | Every match is handled in order, and the result is the first failure. The rows are kept and every successful match has landed. |
| Predict.PageLineups | analysis/predict.py:111-132 | No lineup block gives 11 `None`s a side. A short side gives `None`. Otherwise each side is the first 11 names. |
| Predict.ExtractMatchInfo | analysis/predict.py:84-138 | The request outcome is classified as in `requestPage`. A missing match-info block gives `None`. A date `strptime` refuses raises `ValueError`; an accepted one is rewritten year first. The lineups follow `PageLineups`. |
| Predict.ExtractMatchInfoDate | analysis/predict.py:100-101 | A page with full or absent lineups whose date is any form `strptime` reads of a valid date is returned, with its date stored as `YYYY-MM-DD`. |
| Predict.ResolvedLineupsFit | analysis/predict.py:113-132 | A returned match has 11 slots a side, and so do its resolved lineups. |
| Predict.Predictor.constructor | analysis/predict.py:19-26 | The predictor reads the league's club dict and groups its players by club. |
| Predict.Predictor.ExtractLineups | analysis/predict.py:140-183 | `ResolveMatch`: it raises on an empty club map and keeps the lineup lengths. |
| SWLineupScraper.SeasonIndex | alpha2/SWLineupScraper.py:159 | The leftmost run of eight digits, or -1 exactly when there is none. |
| SWLineupScraper.ShortSeason | alpha2/SWLineupScraper.py:159-160 | It raises `AttributeError` exactly when there is no run of eight digits. Otherwise it gives four digits. |
| SWLineupScraper.ShortSeasonOfYears | alpha2/SWLineupScraper.py:159-160 | `YYyyYYyy` compresses to the two-digit endings of both years. |
| SWLineupScraper.ShortSeasonExample | alpha2/SWLineupScraper.py:211 | `20202021` becomes `2021`. |
| SWLineupScraper.ClubIdsFor | alpha2/SWLineupScraper.py:157-168 | It fails exactly when compression fails. Otherwise it gives the distinct club names of the league in the compressed season. |
| SWLineupScraper.FirstRows | alpha2/SWLineupScraper.py:126 | At most the first 11 rows, in order. |
| SWLineupScraper.HeadingOf | alpha2/SWLineupScraper.py:79-118 | The heading has the page's scoretime, lineups and date as `strptime` reads it. A page without match details raises `AttributeError`. On an aborted transaction the club query raises once the season compresses. |
| SWLineupScraper.ScrapedSpec | alpha2/SWLineupScraper.py:75-147 | A page that does not raise met a live transaction and had a 200 reply, match details, a scoretime and a lineups block. A row exists exactly when a scoreline was found: without goals the insert's `KeyError` is caught and no row is written. |
| SWLineupScraper.ScrapedRow | alpha2/SWLineupScraper.py:79-118 | The row's key is the two resolved club names and the reformatted date. Its goals are the two digits of the first `d - d` of the heading. |
| SWLineupScraper.ScrapedSlots | alpha2/SWLineupScraper.py:120-138 | Each side holds one id per lineup row, at most 11. Each is the row's name looked up exactly, else by similarity, in its club's squad. |
| SWLineupScraper.SideSlots | alpha2/SWLineupScraper.py:126-131 | The loop over one side's first 11 rows gives one id per row, each resolved on its own. |
| SWLineupScraper.Run | alpha2/SWLineupScraper.py:67-73 | One outcome per link, in link order, each page meeting the state the pages before it left. |
| SWLineupScraper.ScrapeStepSpec | alpha2/SWLineupScraper.py:142-147 | A page keeps every stored row and link and, on a live transaction, lands a row whose slots bind. It leaves the transaction aborted exactly when it was aborted already or its row binds and its key is stored (a unique violation nothing rolls back). |
| SWLineupScraper.AbortedPageFails | alpha2/SWLineupScraper.py:87 | On an aborted transaction every page raises. |
| SWLineupScraper.AbortedRunFails | alpha2/SWLineupScraper.py:63-73 | Once the transaction is aborted, every later page raises and the tables and connection state stay as they are. |
| SWLineupScraper.RunUnfold | alpha2/SWLineupScraper.py:67-68 | Each page's outcome is computed on the state the earlier pages left, and the rest of the run continues from the state it leaves. |
| SWLineupScraper.PageLands | alpha2/SWLineupScraper.py:142-147 | Whatever state a page meets, it keeps stored rows and links and lands its row when the slots bind. |
| SWLineupScraper.LineupScraper.constructor | alpha2/SWLineupScraper.py:22-26 | The scraper holds league, season and the rows it reads. |
| SWLineupScraper.LineupScraper.InsertMatch | alpha2/SWLineupScraper.py:180-201 | On an aborted transaction it raises and changes nothing. Slots that do not bind raise `IndexError` or `TypeError` and change nothing. A taken key raises a unique violation and aborts the transaction. Otherwise it writes the bound row, returns its fresh id and adds two `club_match` rows for that id. |
| SWLineupScraper.LineupScraper.ExtractLineups | alpha2/SWLineupScraper.py:75-147 | It raises exactly when the page does on the current connection state. Otherwise it returns 200, whether or not a row was written. The tables and the aborted flag change as `ScrapeStep` says. |
| SWLineupScraper.LineupScraper.Runner | alpha2/SWLineupScraper.py:63-73 | Every page is handled, then the first error is raised. The tables and the aborted flag end as `Run` says. Rows are kept, links only grow, and every written row whose slots bind has landed. |
| Seasons.MatchLenSpec | alpha3/SWLinkGenFlask.py:36 | `\d{4}<sep>\d{4}` matches at a position exactly when some separator fits there, and then with the first one tried. |
| Seasons.FindLeftmost | alpha3/SWLinkGenFlask.py:36 | `re.search` finds the leftmost match, and none exactly when no position matches. |
| Seasons.Search | GCF_lineups.py:34 | `group(0)` is the text of the leftmost match, or `None` when there is none. |
| Seasons.Tag | GCF_lineups.py:36-38 | A four-character tag exactly when the period matches. |
| Seasons.TagOfPeriod | alpha3/SWLinkGenFlask.py:38-40 | A period made of two four-digit years is tagged with the last two digits of each. |
| Seasons.SubNoMatch | alpha3/SWLinkGenFlask.py:40 | `re.sub` leaves a string without a match as it is. |
| Seasons.SubSkip | GCF_lineups.py:38 | One step of `re.sub` from a position where nothing matches keeps that character. |
| Seasons.SubFirst | GCF_lineups.py:38 | Up to the first match the string is kept, the match becomes the replacement, and the rest is substituted in turn. |
| Seasons.LinksFromSpec | GCF_lineups.py:35-39 | One link per period from the start, in table order, each with its tag and substituted URL. |
| Seasons.SeasonLinksSpec | GCF_lineups.py:33-40 | The links are each league's links in league order. |
| Seasons.LeagueLinksSpec | v0.1/GCF_lineups.py:44-50 | A seed naming a period of the table gives one link for each period from that one to the end of the table, starting with it. |
| Seasons.LeagueLinksOutcome | GCF_lineups.py:34-35 | A seed without a period raises `AttributeError`. A period not in the table raises `ValueError`. Otherwise the league succeeds. |
| Seasons.SeedRewritten | alpha3/SWLinkGenFlask.py:40 | Each link is the seed with its period replaced by that link's period. |
| Seasons.SeedKept | GCF_lineups.py:35-39 | A seed with one period keeps the rest of its text in every link. |
| Seasons.LeagueFrom | GCF_lineups.py:33-39 | A seed naming the `k`-th period gives one link per period from the `k`-th on, each with that period's tag and the seed rewritten. |
| Seasons.PlainSeedKept | alpha3/SWLinkGenFlask.py:40 | A seed without a period the substitution rewrites is every link of its league. |
| Seasons.FirstLinkFrom | GCF_lineups.py:35-39 | A seed with a single period is the first link of its league. |
| Seasons.FetchSeasonLinks | GCF_lineups.py:30-40 | The outer loop computes `SeasonLinks`: each league's links after the previous ones, stopping at the first league that raises. |
| Seasons.FetchLeagueLinks | GCF_lineups.py:33-39 | One league computes `LeagueLinks`: the seed's period is looked up, then one link per period from there on. |
| PeriodTables.SoccerwayTable | alpha3/SWLinkGenFlask.py:34 | Ten chronological seasons, from `2011-2012` to `20202021`, each tagged with its two year endings. |
| PeriodTables.LineupsTable | GCF_lineups.py:32 | Thirty-one chronological seasons, from `1990--1991` to `2020--2021`, each tagged with its two year endings. |
| PeriodTables.TablesDistinct | v0.1/GCF_lineups.py:43-46 | No season appears twice, so `years.index` finds each one at its own place. |
| PeriodTables.SoccerwayLeague | alpha3/SWLinkGenFlask.py:35-41 | A seed naming season `k` gives `10 - k` links, tagged with consecutive year endings. |
| PeriodTables.SoccerwayPlainSeed | alpha3/SWLinkGenFlask.py:40 | A seed without a hyphenated period is left unchanged in every link. |
| PeriodTables.LineupsLeague | GCF_lineups.py:33-39 | A seed naming season `k` gives `31 - k` links, tagged with consecutive year endings. |
| PeriodTables.LineupsFirstLink | GCF_lineups.py:35-39 | A league's first link is the seed itself. |
| SWLinkGen.SurvivorsSpec | alpha3/SWLinkGenFlask.py:56 | The filter keeps exactly the candidates whose URL worked, and drops one exactly when some URL failed. |
| SWLinkGen.SurvivorsConcat | alpha3/SWLinkGenFlask.py:56 | The filter keeps candidate order: filtering a concatenation is concatenating the filtered parts. |
| SWLinkGen.FetchedLinksSpec | alpha3/SWLinkGenFlask.py:32-58 | It raises when generation does or a connection fails. Otherwise the result is exactly the candidates whose page answered 200, and it is shorter exactly when one did not. |
| SWLinkGen.LinkRows | alpha3/SWLinkGenFlask.py:83-90 | One `(league, season, match_location)` row per link. |
| SWLinkGen.LinkGenerator.ProbeAll | alpha3/SWLinkGenFlask.py:44-52 | Probing raises exactly when a connection fails. Otherwise it gives the set of URLs that answered. |
| SWLinkGen.LinkGenerator.SeasonLinkFetcher | alpha3/SWLinkGenFlask.py:32-58 | The method computes `FetchedLinks`. |
| SWLinkGen.LinkGenerator.InsertLinkIntoDB | alpha3/SWLinkGenFlask.py:83-91 | An upsert on `(league, season)` of `match_location`, with the empty-batch and repeated-key errors. |
| FootballLineups.GoalsSpec | v0.1/GCF_lineups.py:108-115 | The first score pattern (a digit or a dash, a colon, a digit or a dash) decides. A `-` on either side or no match skips the row. Otherwise the goals are the two digits. |
| FootballLineups.MonthNumberSpec | v0.1/GCF_lineups.py:119 | `%b` accepts exactly the twelve English abbreviations, numbered 1 to 12. |
| FootballLineups.Century | v0.1/GCF_lineups.py:119 | `%y` maps 69-99 to 19xx and 00-68 to 20xx. |
| FootballLineups.ShortDateRoundTrip | v0.1/GCF_lineups.py:117-119 | `DD-Mon-YY` for a valid date becomes that date's `YYYY-MM-DD`. |
| FootballLineups.ShortDateAccepts | v0.1/GCF_lineups.py:119 | Every accepted short date is a valid calendar day between 1969 and 2068. |
| FootballLineups.GameDateSpec | v0.1/GCF_lineups.py:118 | No `\d\d-[A-Z][a-z][a-z]-\d\d` in the cell raises `AttributeError`. Otherwise the leftmost match is parsed. |
| FootballLineups.RowFixtureSpec | v0.1/GCF_lineups.py:105-115 | A row is skipped exactly when it has no result cell or no complete score. |
| FootballLineups.GameDateAccepts | v0.1/GCF_lineups.py:117-119 | A date read from a date cell is a valid calendar day between 1969 and 2068, written year first. |
| FootballLineups.RowFixtureLink | v0.1/GCF_lineups.py:127-128 | A scored row whose clubs resolve raises `AttributeError` when its result cell has no anchor and `TypeError` when the anchor has no `href`; otherwise it gives a fixture. |
| FootballLineups.RowFixtureFields | v0.1/GCF_lineups.py:105-128 | A fixture has the score's digits, a valid date, both resolved club ids, and the link `https://m.football-lineups.com` followed by the href. |
| FootballLineups.ScrapeLineup | v0.1/GCF_lineups.py:133-144 | The page succeeds exactly when it replies 200 with at least two lineup tables. |
| FootballLineups.FixturesSpec | v0.1/GCF_lineups.py:103-129 | The row loop raises the first row's exception. Otherwise it yields exactly the fixtures of the rows that were not skipped. |
| FootballLineups.LineupScraper.SeasonLinkFetcher | GCF_lineups.py:30-40 | `SeasonLinks` over the 31-season table with `\d{4}--\d{4}`. |
| FootballLineups.LineupScraper.InsertLinksToDB | GCF_lineups.py:42-53 | `lineups_location` is updated by `(league, season)`. Nothing is inserted, and an empty batch is a syntax error. |
| FootballLineups.LineupScraper.FindMostSimilarClubName | v0.1/GCF_lineups.py:147-157 | The exact id for a key, otherwise the first maximal similarity, as `Resolve`. |
| FootballLineups.LineupScraper.FixtureLinkScraper | v0.1/GCF_lineups.py:92-129 | The season page is read strictly, and its rows as in `Fixtures`. |
| Odds.FindMostSimilarClubName | alpha3/odds.py:299-307 | An empty list raises. Otherwise it returns the first candidate of maximal similarity, or `""` when every score is 0. |
| Odds.JoinSplit | alpha3/odds.py:155 | Splitting on commas loses nothing: joining the fields with commas gives the line back. |
| Odds.Fitted | alpha3/odds.py:157-160 | Exactly `width` fields: the prefix is kept, short rows are padded with `''`, and long rows are truncated. |
| Odds.PadRow | alpha3/odds.py:155-160 | The `while`/append loop and slice compute `Fitted`. |
| Odds.ParseRows | alpha3/odds.py:150-160 | No lines raises `IndexError`. Otherwise there is one row per data line, each fitted to the header width. |
| Odds.StripAll | alpha3/odds.py:221 | Every club name is stripped again, one for one. |
| Odds.CsvClubsSpec | alpha3/odds.py:220-221 | The CSV club list is duplicate-free, each name stripped and non-empty. It holds exactly the stripped non-empty team names. |
| Odds.KnownAnomaliesWellFormed | alpha3/odds.py:232-236 | No alias in the table is itself a key of the table. |
| Odds.LeagueClubsWithoutBury | alpha3/odds.py:225-226 | Dropping `Bury` from league 39 changes nothing when it is absent. |
| Odds.RenamedSpec | alpha3/odds.py:238-240 | The rename fails exactly when an alias collides with a stored name. Otherwise each name in the table is replaced by its alias with the same id, and the other names are untouched. |
| Odds.RenameAnomalies | alpha3/odds.py:238-240 | The loop computes `Renamed` over the stored names. |
| Odds.FilterEntries | alpha3/odds.py:243 | The comprehension keeps exactly the entries whose name passes, and keys stay distinct. |
| Odds.FilterNames | alpha3/odds.py:246 | The comprehension keeps exactly the names that pass, and stays duplicate-free. |
| Odds.PartitionSpec | alpha3/odds.py:243-247 | The matched entries are the stored entries named in the CSV. The remaining CSV names and the unmatched entries are the complements. |
| Odds.RemoveFirst | alpha3/odds.py:254 | `list.remove` drops one occurrence: one shorter, the multiset minus that name. |
| Odds.AssignRemaining | alpha3/odds.py:251-256 | The greedy loop computes `Assign`. |
| Odds.AssignShape | alpha3/odds.py:251-256 | More unmatched names than pool names raises. A success has one chosen name per unmatched name, the pool shrinking by one per step. |
| Odds.AssignExclusive | alpha3/odds.py:251-256 | No CSV name is bound twice, and each chosen name came from the pool. |
| Odds.AssignBinds | alpha3/odds.py:253 | Each chosen name is bound to its stored club's id, and earlier matches are kept. |
| Odds.AssignKeys | alpha3/odds.py:251-256 | The bound names are the earlier matches plus the chosen names. |
| Odds.MatchClubNames | alpha3/odds.py:220-256 | Club names are matched with the known anomaly table. |
| Odds.ClubIdsSpec | alpha3/odds.py:224-256 | After a success, every stored club's id is bound to some CSV name. |
| Odds.TeamId | alpha3/odds.py:261-264 | A matched name is replaced by its id, and an empty name becomes NULL. Any other name is left as text. |
| Odds.PayloadSpec | alpha3/odds.py:261-272 | Both team columns are stripped (lines 211-212) before their names are replaced by ids, so every condition is on the stripped names. Every row stays in the payload, because the `!= None` filter is true for every row. The update is accepted exactly when the file has rows, no team cell holds an unmatched name, and some row has a matched home team and some row a matched away team. It then sets the odds for exactly the `(key, odds)` of the rows with both teams matched. |
| Odds.BlankHomeTeamsRefused | alpha3/odds.py:264-272 | A file whose home cells are all blank (empty, or only whitespace before the strip at line 211) sends a home column of NULLs only. That column is typed text and cannot be compared with the integer key. |
| Odds.PaddedNamesMatch | alpha3/odds.py:211-212 | A one-row file whose team names carry stray whitespace around two known club names is accepted by the update at lines 261-272. Its odds are the one update, keyed by the match between those two clubs. |
| Odds.OddsOutcomeOnlyOdds | alpha3/odds.py:139-272 | A successful `parseCSV` changes only odds columns and inserts no match. |
| Odds.OddsBuilder.InsertMatches | alpha3/odds.py:309-327 | `UpdateOdds` on the store: an empty payload is a syntax error, a refused statement changes nothing, and an accepted one sets the odds of the keyed rows. |
| Odds.OddsBuilder.ParseCsv | alpha3/odds.py:139-272 | The store ends as `OddsOutcome` says, or unchanged when it raises. |
| SofifaLinks.ProductSpec | alpha3/playersFlask.py:40-50 | Leagues are the outer loop: the links come in blocks of one per edition, block `i` being league `i`, each link with the URL of its league and edition. |
| SofifaLinks.ProductFirstPages | alpha3/playersFlask.py:44-48 | Every generated URL ends with `offset=0`. |
| SofifaLinks.MainLinks | alpha1/GCF_players.py:209-235 | Ten editions and ten leagues give 100 links, the first being Belgium's 2011-12 edition. |
| SofifaLinks.NextLinkOffset | alpha3/playersFlask.py:137-138 | The page at `offset=n` is followed by the page at `offset=n + 60`, the rest of the URL kept. |
| SofifaLinks.NextLinkDefined | alpha1/GCF_players.py:113-114 | A next link exists exactly when the URL ends with `offset=` and digits. Otherwise it raises `AttributeError`. |
| SofifaValues.PyIntRoundTrip | alpha3/playersFlask.py:195 | `int` reads back what `str` writes. |
| SofifaValues.RemoveChar | alpha1/GCF_players.py:151 | `replace(c, "")` deletes exactly the occurrences of `c`, and keeps every other character. |
| SofifaValues.FractionValue | alpha3/playersFlask.py:195 | The printed fraction has the value `f / 1000`, with trailing zeros dropped. |
| SofifaValues.ThousandthsValue | alpha3/playersFlask.py:195 | `str(n / 1000)` is digits, a point and a fraction whose value is `n / 1000`. |
| SofifaValues.ValueThousands | alpha3/playersFlask.py:191-197 | `€nK` becomes `n / 1000` in the later scraper and `n` in the earlier one. |
| SofifaValues.ValueMillions | alpha3/playersFlask.py:191-194 | `€xM` becomes `x` in both scrapers. |
| SofifaValues.ValuePlain | alpha3/playersFlask.py:196-197 | A value without euro, `M` or `K` is kept. |
| SofifaValues.Alpha1NoSuffix | alpha1/GCF_players.py:151 | The earlier scraper always succeeds and leaves no `M` or `K`. |
| Players.Tuple | alpha3/playersFlask.py:203-205 | The 9-tuple exists exactly when every field was set. Otherwise it raises `KeyError` for the first missing field, in tuple order. |
| Players.ClubIdSpec | alpha3/playersFlask.py:168-175 | A cached club reuses its id. A new club is inserted once, under the next id, and cached. The cache stays consistent with the table. |
| Players.ClubIdReuse | alpha1/GCF_players.py:133-139 | Looking up the same club twice gives the same id and inserts nothing more. |
| Players.RowTupleOrder | alpha3/playersFlask.py:160-205 | A seven-cell row gives the tuple in the fixed column order, with the name rule, the club id, the cells' own strings for the rating, potential, age and total, and the value rule. |
| Players.CellsConsistent | alpha3/playersFlask.py:160-201 | A row keeps the club cache consistent, and fails only with `KeyError("class")` or `ValueError`. |
| Players.RowsSpec | alpha3/playersFlask.py:146-207 | Parsing a page keeps the cache consistent and gives one tuple per row. |
| Players.StrictNeverNone | alpha1/GCF_players.py:99-118 | The earlier scraper never gives `None`: failures raise. |
| Players.LenientFirstPage | alpha3/playersFlask.py:124-126 | A failed first request gives `None` and inserts no club. |
| Players.PagesConsistent | alpha3/playersFlask.py:130-142 | Paging keeps the club cache consistent. |
| Players.PlayerLinkRows | alpha3/playersFlask.py:58-62 | One `(league, season, players_location)` row per link. |
| Players.PlayerScraper.constructor | alpha3/playersFlask.py:23-24 | The scraper holds its version, league table and club table. |
| Players.PlayerScraper.LinkGenerator | alpha1/GCF_players.py:35-44 | The nested loops compute the product of leagues and editions. |
| Players.PlayerScraper.InsertLinksToDB | alpha1/GCF_players.py:46-57 | The later scraper upserts `players_location`. The earlier one only updates existing rows. |
| Players.PlayerScraper.ParseRow | alpha3/playersFlask.py:160-205 | One row's tuple and the new cache and club table are `RowParse`. |
| Players.PlayerScraper.ParseHTML | alpha1/GCF_players.py:120-160 | The row loop computes `RowsFrom`: the tuples, the cache and the club table. |
| Players.PlayerScraper.Preprocess | alpha3/playersFlask.py:117-144 | The paging loop's result and club table are `ListPlayers`: pages until the sentinel, offset plus 60, and `None` on a failed page. |
| Players.PlayerScraper.TurnPage | alpha3/playersFlask.py:130-141 | One turn of the paging loop is `PageTurn`: the page's tuples, then the next page at offset plus 60, with `AttributeError` for a URL without an offset and `None` for a failed request. |
| Datasets.CsvHrefSpec | GCF_datasets.py:23 | A link counts as a CSV link exactly when `re.search` finds `.+.csv\Z` in its href: it ends in `csv` after at least two characters other than a newline. |
| Datasets.CsvAnchors | GCF_datasets.py:23 | Exactly the anchors whose href `.+.csv\Z` matches, as `(text, href)`. |
| Datasets.LinkDatasetSpec | GCF_datasets.py:35-44 | No `/\d{4}/[A-Z]\d.csv` gives nothing. The first match gives its four-digit season and its capital-and-digit league. |
| Datasets.FootballDataHref | GCF_datasets.py:35-44 | `p/SSSS/Ld.csv` gives season `SSSS` and league `Ld`. |
| Datasets.ReceivedConcat | GCF_datasets.py:31-44 | The loop keeps link order: the datasets of two runs of links are concatenated. |
| Datasets.ReceivedSpec | GCF_datasets.py:31-44 | Exactly the datasets of the matching links, at most one per link. |
| Datasets.ScrapedSpec | GCF_datasets.py:12-46 | A connection error raises. A non-200 status or no CSV link gives `False`. Otherwise the datasets come from CSV anchors on the page. |
| Datasets.GatheredSpec | GCF_datasets.py:49-59 | The runner succeeds exactly when every page gives a list. It then holds exactly their datasets. Otherwise it raises the first failure, and `+= False` is a `TypeError`. |
| Datasets.GatheredErrors | GCF_datasets.py:49-59 | The runner never raises a SQL error. |
| Datasets.DatasetRows | GCF_datasets.py:80-82 | One `(league, season, name, results_location)` row per dataset. |
| Datasets.FetchLinks | GCF_datasets.py:12-46 | The loop computes `Scraped`. |
| Datasets.Runner | GCF_datasets.py:49-59 | The loop computes `Gathered` over the pages in order. |
| Datasets.DatasetScraper.WriteToDB | GCF_datasets.py:62-83 | An upsert on `(league, season)`. A new key gets `results_location` and the league name. An existing key gets only the new `results_location` and keeps its league name (the `DO UPDATE` at lines 80-82). |
| Datasets.DatasetScraper.ScrapeAll | GCF_datasets.py:86-115 | A runner failure is raised. An empty result writes nothing. Otherwise the datasets are upserted, so the empty-batch error never occurs. |

## Left out
- HTTP transport, user agents, BeautifulSoup, Selenium and aiohttp: the requests, their payloads and their outcomes (`Fetch`) are inputs.
- Thread pools: runners are loops in submission order, because completion order is not determined by the scripts.
- psycopg2 and SQL text: the tables are maps, and SELECT results are the record sequences in `Catalog` or are passed in.
- The `exit(1)` on a failed connection, logging, timers, `print`, and the `sample.csv` file `parseCSV` writes for every league.
- `difflib.SequenceMatcher`: similarity is a parameter, because its ratio is a floating-point library computation.
- pandas in `alpha3/odds.py`: broker max/idxmax, numeric conversion, dates and NaN cleaning. The odds of a CSV row are an opaque value.
- `analysis/model_runner.py`, prediction, betting and the neural network: floating-point numerics.
- Odds.CsvClubsSpec: the order of `list(set(...))` is hash order in CPython; the model uses first-occurrence order, so the greedy assignment's tie-breaking between equally similar names may differ.
- Odds.RenameAnomalies: `d[alias] = d.pop(name)` inside `for name in d` keeps the dict's size, so on CPython 3.8 and later the iterator reaches the appended alias after yielding as many keys as the dict holds and raises `RuntimeError: dictionary keys changed during iteration`; `parseCSV` as written then raises for a league with a renamed club. The model treats the rename as one pass over the original names and keeps only the failure of an alias that collides with a stored name (`RenameStep`).
- Players.ListPlayers: pagination carries a fuel bound (`OutOfFuel`), because the source loop need not terminate.
- Players.PlayerScraper.Preprocess: the runner that appends each league's list (`+= None` raising `TypeError`) is not modelled; `selectLeagueID` and `fetchClubIds` are inputs (`leagueId`, the cache).
- SofifaValues.ThousandthsValue: `Thousandths(n)` is Python's `str(n / 1000)` only for `abs(n) < 10^15`. From 10^15 on, Python rounds the fraction to the shortest digits that read back (`1234567890123456789` prints as `1234567890123456.8`), and from 10^19 on it prints exponent form. `ValueText` for alpha3 inherits this bound.
- SofifaValues.ValueThousands: the alpha3 value `Thousandths(n)` is what Python prints only for `abs(n) < 10^15`, as on the line above.
- SofifaValues.PyIntRoundTrip: `int()` on underscores and non-ASCII digits is not modelled.
- FootballLineups.MonthNumberSpec: `%b` is the English locale only.
- FootballLineups.FixturesSpec: the fixtures the v0.1 scraper builds are discarded by the source; `scrapeLineup` only prints its rows, so only whether it raises is modelled.
- MatchRefresher.Refresher.UpdateMatch: the 25 values are bound as one row of the `VALUES` list, the evident intent; the statement as written lists them without row parentheses. `database/match_refresher.py` also never calls `commit()`, so even that intended update is rolled back when the connection closes; the store effects of `RefreshAll` describe the transaction's own view, not what the database keeps.
- Store.FirstLocation and Store.OddsFor: when several payload rows match one stored key, PostgreSQL's `UPDATE ... FROM` applies an unpredictable one of them; the model takes the first.
- MatchInfo.ReformatDate: years below 1000 are printed with four digits, as CPython 3.13 and later do; older CPython on glibc prints them unpadded.
- Odds.TeamId: a quoted name made only of digits would be read by PostgreSQL as that number in an integer column; such names are treated like any other unmatched name.
- `\d` is ASCII digits only throughout.

=== FILE: catalog.dfy ===
/** What the scrapers read back from the store: the rows of the club and player queries,
    in the order the store returns them. */
module Catalog {
  import opened Common

  /** One row of `club JOIN league`. */
  datatype ClubRecord = ClubRecord(clubName: string, clubId: int, leagueId: int, league: string, season: string)

  /** One row of `player JOIN club JOIN league`. */
  datatype PlayerRecord = PlayerRecord(clubId: int, name: string, playerId: int, league: string, season: string)

  /** `SELECT club_name, club_id ... WHERE league.league = league AND league.season = season`. */
  function ClubsIn(clubs: seq<ClubRecord>, league: string, season: string): (r: seq<(string, int)>)
    ensures forall x :: x in r <==> exists c :: c in clubs && c.league == league && c.season == season && x == (c.clubName, c.clubId)
    decreases |clubs|
  {
    if clubs == [] then []
    else
      var c := clubs[0];
      assert forall x :: x in clubs <==> x == c || x in clubs[1..];
      (if c.league == league && c.season == season then [(c.clubName, c.clubId)] else []) + ClubsIn(clubs[1..], league, season)
  }

  /** `SELECT club_name, club_id ... WHERE league.league_id = leagueId`. */
  function ClubsOfLeague(clubs: seq<ClubRecord>, leagueId: int): (r: seq<(string, int)>)
    ensures forall x :: x in r <==> exists c :: c in clubs && c.leagueId == leagueId && x == (c.clubName, c.clubId)
    decreases |clubs|
  {
    if clubs == [] then []
    else
      var c := clubs[0];
      assert forall x :: x in clubs <==> x == c || x in clubs[1..];
      (if c.leagueId == leagueId then [(c.clubName, c.clubId)] else []) + ClubsOfLeague(clubs[1..], leagueId)
  }

  /** `SELECT club.club_id, player.name, player.player_id ... WHERE league.season = season
      AND league.league = league`. */
  function PlayersIn(players: seq<PlayerRecord>, season: string, league: string): (r: seq<(int, string, int)>)
    ensures forall x :: x in r <==> exists p :: p in players && p.season == season && p.league == league && x == (p.clubId, p.name, p.playerId)
    decreases |players|
  {
    if players == [] then []
    else
      var p := players[0];
      assert forall x :: x in players <==> x == p || x in players[1..];
      (if p.season == season && p.league == league then [(p.clubId, p.name, p.playerId)] else []) + PlayersIn(players[1..], season, league)
  }

  /** `SELECT name, player_id FROM player WHERE club_id = club`. */
  function SquadOf(players: seq<PlayerRecord>, club: int): (r: seq<(string, int)>)
    ensures forall x :: x in r <==> exists p :: p in players && p.clubId == club && x == (p.name, p.playerId)
    decreases |players|
  {
    if players == [] then []
    else
      var p := players[0];
      assert forall x :: x in players <==> x == p || x in players[1..];
      (if p.clubId == club then [(p.name, p.playerId)] else []) + SquadOf(players[1..], club)
  }

  /** Asking for a league code as the season finds no players when every stored season is
      a digit string and the code is not. */
  lemma {:induction false} SwappedQueryEmpty(players: seq<PlayerRecord>, code: string, seasonTag: string)
    requires forall p :: p in players ==> AllDigits(p.season)
    requires !AllDigits(code)
    ensures PlayersIn(players, code, seasonTag) == []
    decreases |players|
  {
    if players != [] {
      assert players[0] in players;
      assert forall p :: p in players[1..] ==> p in players;
      SwappedQueryEmpty(players[1..], code, seasonTag);
    }
  }
}

=== FILE: common.dfy ===
/** Shared vocabulary: optional values, the Python exceptions the scrapers raise,
    and the few string primitives (digits, `str(int)`, `int(str)`, `str.strip`) they use. */
module Common {

  datatype Option<T> = None | Some(value: T)

  /** The exceptions the modelled code raises or lets escape. */
  datatype Error =
    | KeyError(key: string)      // dict lookup of a missing name
    | KeyErrorId(id: int)        // dict lookup of a missing club id
    | ValueError                 // list.index / list.remove / strptime / int() on bad input
    | TypeError                  // unpacking or subscripting None, `list += False`
    | AttributeError             // calling a method on the None of a failed regex search or request
    | IndexError                 // indexing an empty list
    | HttpStatus(code: int)      // `raise Exception("RESPONSE ...")` on a non-200 status
    | Raised(reason: string)     // any other `raise Exception(...)`
    | SqlError(reason: string)   // the store rejects the statement
    | OutOfFuel                  // the model's page budget ran out (see README, Left out)

  datatype Result<T> = Ok(value: T) | Err(error: Error)

  predicate IsDigit(c: char) { '0' <= c <= '9' }

  predicate AllDigits(s: string) { forall i :: 0 <= i < |s| ==> IsDigit(s[i]) }

  predicate IsUpper(c: char) { 'A' <= c <= 'Z' }

  predicate IsLower(c: char) { 'a' <= c <= 'z' }

  function DigitValue(c: char): (d: nat)
    requires IsDigit(c)
    ensures d < 10
  {
    (c as int - '0' as int) as nat
  }

  function DigitChar(d: nat): (c: char)
    requires d < 10
    ensures IsDigit(c) && DigitValue(c) == d
  {
    ('0' as int + d) as char
  }

  /** `str(n)` for a natural number: decimal digits, no leading zeros. */
  function NatToString(n: nat): (s: string)
    ensures |s| >= 1 && AllDigits(s)
    ensures n < 10 <==> |s| == 1
    decreases n
  {
    if n < 10 then [DigitChar(n)] else NatToString(n / 10) + [DigitChar(n % 10)]
  }

  /** `str(n)` for any integer. */
  function IntToString(n: int): (s: string)
    ensures |s| >= 1
    ensures (s[0] == '-') <==> n < 0
  {
    if n < 0 then "-" + NatToString(-n) else NatToString(n)
  }

  /** `int(s)` for a string made of decimal digits only. */
  function ParseDigits(s: string): nat
    requires AllDigits(s)
    decreases |s|
  {
    if s == [] then 0 else 10 * ParseDigits(s[..|s| - 1]) + DigitValue(s[|s| - 1])
  }

  /** Reading back what `str` wrote gives the number again. */
  lemma {:induction false} ParseNatToString(n: nat)
    ensures ParseDigits(NatToString(n)) == n
    decreases n
  {
    var s := NatToString(n);
    if n >= 10 {
      ParseNatToString(n / 10);
      assert s[..|s| - 1] == NatToString(n / 10);
    }
  }

  /** A number between 1000 and 9999 prints as exactly its four decimal digits. */
  lemma FourDigits(n: nat)
    requires 1000 <= n < 10000
    ensures NatToString(n) == [DigitChar(n / 1000), DigitChar(n / 100 % 10), DigitChar(n / 10 % 10), DigitChar(n % 10)]
  {
    assert n / 10 / 10 == n / 100 && n / 100 / 10 == n / 1000;
    var a := NatToString(n / 1000);
    assert a == [DigitChar(n / 1000)];
    var b := NatToString(n / 100);
    assert b == a + [DigitChar(n / 100 % 10)];
    var c := NatToString(n / 10);
    assert c == b + [DigitChar(n / 10 % 10)];
    assert NatToString(n) == c + [DigitChar(n % 10)];
  }

  /** The characters `str.strip()` removes: those `str.isspace()` accepts. */
  predicate IsSpace(c: char)
  {
    || c == ' ' || c == '\t' || c == '\n' || c == '\r' || c == '\U{000B}' || c == '\U{000C}'
    || ('\U{001C}' <= c <= '\U{001F}') || c == '\U{0085}' || c == '\U{00A0}' || c == '\U{1680}'
    || ('\U{2000}' <= c <= '\U{200A}') || c == '\U{2028}' || c == '\U{2029}' || c == '\U{202F}'
    || c == '\U{205F}' || c == '\U{3000}'
  }

  function StripLeft(s: string): (r: string)
    ensures |r| <= |s| && r == s[|s| - |r|..]
    ensures r == [] || !IsSpace(r[0])
    ensures forall i :: 0 <= i < |s| - |r| ==> IsSpace(s[i])
    decreases |s|
  {
    if s != [] && IsSpace(s[0]) then StripLeft(s[1..]) else s
  }

  function StripRight(s: string): (r: string)
    ensures |r| <= |s| && r == s[..|r|]
    ensures r == [] || !IsSpace(r[|r| - 1])
    ensures forall i :: |r| <= i < |s| ==> IsSpace(s[i])
    decreases |s|
  {
    if s != [] && IsSpace(s[|s| - 1]) then StripRight(s[..|s| - 1]) else s
  }

  /** `str.strip()`: the longest infix that neither starts nor ends with whitespace,
      obtained by removing only whitespace. */
  function Strip(s: string): (r: string)
  {
    StripRight(StripLeft(s))
  }

  predicate IsStripped(s: string) { s == [] || (!IsSpace(s[0]) && !IsSpace(s[|s| - 1])) }

  lemma StripSpec(s: string)
    ensures IsStripped(Strip(s))
    ensures exists i, j ::
              && 0 <= i <= j <= |s| && Strip(s) == s[i..j]
              && (forall k :: 0 <= k < i ==> IsSpace(s[k]))
              && (forall k :: j <= k < |s| ==> IsSpace(s[k]))
  {
    var l := StripLeft(s);
    var r := StripRight(l);
    var i := |s| - |l|;
    assert r == s[i..i + |r|];
    if r != [] {
      assert r[0] == l[0];
    }
  }

  /** Stripping twice is stripping once. */
  lemma StripIdempotent(s: string)
    ensures Strip(Strip(s)) == Strip(s)
  {
    StripSpec(s);
    var r := Strip(s);
    assert StripLeft(r) == r;
    assert StripRight(r) == r;
  }

  /** A prefix one longer is the prefix and the next element. */
  lemma PrefixSnoc<T>(s: seq<T>, j: nat)
    requires j < |s|
    ensures s[..j + 1] == s[..j] + [s[j]]
  {
  }

  lemma AppendAssoc<T>(x: seq<T>, y: seq<T>, z: seq<T>)
    ensures x + (y + z) == x + y + z
  {
  }

  // Runners

  /** What a runner raises after every task has finished: the first failure, in submission
      order. */
  function FirstError<T>(rs: seq<Result<T>>): (r: Result<()>)
    ensures r.Ok? <==> forall i :: 0 <= i < |rs| ==> rs[i].Ok?
    ensures r.Ok? ==> r == Ok(())
    ensures r.Err? ==> exists i :: 0 <= i < |rs| && rs[i].Err? && rs[i].error == r.error
    decreases |rs|
  {
    if rs == [] then Ok(())
    else
      assert forall i :: 1 <= i < |rs| ==> rs[i] == rs[1..][i - 1];
      if rs[0].Err? then Err(rs[0].error) else FirstError(rs[1..])
  }

  /** One more element: an earlier failure stays the one raised, otherwise the new element's. */
  lemma {:induction false} FirstErrorNext<T>(rs: seq<Result<T>>, i: nat)
    requires i < |rs|
    ensures FirstError(rs[..i + 1]) ==
              if FirstError(rs[..i]).Err? then FirstError(rs[..i])
              else if rs[i].Err? then Err(rs[i].error) else Ok(())
    decreases i
  {
    if i == 0 {
      assert rs[..1][1..] == [];
    } else {
      assert rs[..i + 1][0] == rs[..i][0] == rs[0];
      assert rs[..i + 1][1..] == rs[1..][..i];
      assert rs[..i][1..] == rs[1..][..i - 1];
      FirstErrorNext(rs[1..], i - 1);
    }
  }

  /** A loop over steps that each fail, skip or produce a value: it stops at the first failure
      and otherwise keeps the produced values in step order. */
  function Collect<T>(os: seq<Result<Option<T>>>): Result<seq<T>>
    decreases |os|
  {
    if os == [] then Ok([])
    else
      var n := |os| - 1;
      match Collect(os[..n])
      case Err(e) => Err(e)
      case Ok(prev) =>
        match os[n]
        case Err(e) => Err(e)
        case Ok(o) => Ok(prev + (if o.Some? then [o.value] else []))
  }

  /** One more step after a prefix that did not fail. */
  lemma CollectStep<T>(os: seq<Result<Option<T>>>, i: nat)
    requires i < |os| && Collect(os[..i]).Ok?
    ensures os[i].Err? ==> Collect(os[..i + 1]) == Err(os[i].error)
    ensures os[i].Ok? ==>
              Collect(os[..i + 1]) == Ok(Collect(os[..i]).value + (if os[i].value.Some? then [os[i].value.value] else []))
  {
    assert os[..i + 1][..i] == os[..i];
    assert os[..i + 1][i] == os[i];
  }

  /** A failure in a prefix is the failure of the whole loop. */
  lemma {:induction false} CollectErr<T>(os: seq<Result<Option<T>>>, j: nat, e: Error)
    requires j <= |os| && Collect(os[..j]) == Err(e)
    ensures Collect(os) == Err(e)
    decreases |os| - j
  {
    if j < |os| {
      assert os[..j + 1][..j] == os[..j];
      CollectErr(os, j + 1, e);
    } else {
      assert os[..j] == os;
    }
  }

  /** The loop completes exactly when no step fails. */
  lemma {:induction false} CollectOk<T>(os: seq<Result<Option<T>>>)
    ensures Collect(os).Ok? <==> forall i :: 0 <= i < |os| ==> os[i].Ok?
    decreases |os|
  {
    if os != [] {
      var n := |os| - 1;
      CollectOk(os[..n]);
      assert forall i :: 0 <= i < n ==> os[..n][i] == os[i];
    }
  }

  /** A failing loop fails with the first failing step's error. */
  lemma {:induction false} CollectFirstError<T>(os: seq<Result<Option<T>>>)
    requires Collect(os).Err?
    ensures exists i :: 0 <= i < |os| && os[i] == Err(Collect(os).error) && forall j :: 0 <= j < i ==> os[j].Ok?
    decreases |os|
  {
    var n := |os| - 1;
    var pre := os[..n];
    assert forall i :: 0 <= i < n ==> pre[i] == os[i];
    if Collect(pre).Err? {
      CollectFirstError(pre);
      var i :| 0 <= i < |pre| && pre[i] == Err(Collect(pre).error) && forall j :: 0 <= j < i ==> pre[j].Ok?;
      assert os[i] == Err(Collect(os).error);
    } else {
      CollectOk(pre);
      assert os[n] == Err(Collect(os).error);
    }
  }

  /** A completed loop holds exactly the values the steps produced, at most one per step. */
  lemma {:induction false} CollectKept<T>(os: seq<Result<Option<T>>>)
    requires Collect(os).Ok?
    ensures |Collect(os).value| <= |os|
    ensures forall x :: x in Collect(os).value ==> exists i :: 0 <= i < |os| && os[i] == Ok(Some(x))
    ensures forall i :: 0 <= i < |os| && os[i].Ok? && os[i].value.Some? ==> os[i].value.value in Collect(os).value
    decreases |os|
  {
    if os != [] {
      var n := |os| - 1;
      var pre := os[..n];
      assert os == os[..n + 1];
      CollectStep(os, n);
      CollectKept(pre);
      var all := Collect(os).value;
      forall x | x in all
        ensures exists i :: 0 <= i < |os| && os[i] == Ok(Some(x))
      {
        if x in Collect(pre).value {
          var i :| 0 <= i < |pre| && pre[i] == Ok(Some(x));
          assert os[i] == pre[i];
        } else {
          assert os[n] == Ok(Some(x));
        }
      }
      forall i | 0 <= i < |os| && os[i].Ok? && os[i].value.Some?
        ensures os[i].value.value in all
      {
        if i < n {
          assert pre[i] == os[i];
        }
      }
    }
  }
}

=== FILE: datasets.dfy ===
/** The football-data.co.uk results scraper: every country page lists one CSV file per league
    and season; each link whose path names the season and league becomes a `league` row with
    its `results_location`. */
module Datasets {
  import opened Common
  import opened Http
  import opened Store

  /** An `<a>` tag: its text and its `href`, if it has one. */
  datatype Anchor = Anchor(text: string, href: Option<string>)

  /** `(league, season, name, href)`. */
  datatype Dataset = Dataset(league: string, season: string, name: string, href: string)

  // The CSV filter: `.+.csv\Z` found anywhere in the href.

  predicate NoNewline(s: string) { forall i :: 0 <= i < |s| ==> s[i] != '\n' }

  /** `.+.csv\Z` matches from `i`: at least two characters other than a newline, then `csv`
      at the very end. */
  predicate CsvMatchAt(h: string, i: nat)
  {
    i + 5 <= |h| && NoNewline(h[i..|h| - 3]) && h[|h| - 3..] == "csv"
  }

  /** The filter as the scraper evaluates it: the two characters before the final `csv`. */
  predicate CsvHref(h: string)
  {
    |h| >= 5 && h[|h| - 3..] == "csv" && h[|h| - 4] != '\n' && h[|h| - 5] != '\n'
  }

  /** The shortcut agrees with searching for the pattern at every position. */
  lemma CsvHrefSpec(h: string)
    ensures CsvHref(h) <==> exists i: nat :: CsvMatchAt(h, i)
  {
    if CsvHref(h) {
      assert h[|h| - 5..|h| - 3] == [h[|h| - 5], h[|h| - 4]];
      assert CsvMatchAt(h, |h| - 5);
    }
    if exists i: nat :: CsvMatchAt(h, i) {
      var i: nat :| CsvMatchAt(h, i);
      assert h[|h| - 4] == h[i..|h| - 3][|h| - 4 - i];
      assert h[|h| - 5] == h[i..|h| - 3][|h| - 5 - i];
    }
  }

  /** `soup.find_all("a", href=...)`: the text and href of the CSV links, in page order. */
  function CsvAnchors(anchors: seq<Anchor>): (links: seq<(string, string)>)
    ensures forall l :: l in links <==> Anchor(l.0, Some(l.1)) in anchors && CsvHref(l.1)
    decreases |anchors|
  {
    if anchors == [] then []
    else
      var a := anchors[0];
      var rest := CsvAnchors(anchors[1..]);
      assert forall x :: x in anchors <==> x == a || x in anchors[1..];
      (if a.href.Some? && CsvHref(a.href.value) then [(a.text, a.href.value)] else []) + rest
  }

  // The season: the leftmost `/(\d\d\d\d)/([A-Z]\d).csv`.

  predicate SeasonMatchAt(h: string, i: nat)
  {
    && i + 12 <= |h|
    && h[i] == '/' && IsDigit(h[i + 1]) && IsDigit(h[i + 2]) && IsDigit(h[i + 3]) && IsDigit(h[i + 4])
    && h[i + 5] == '/' && IsUpper(h[i + 6]) && IsDigit(h[i + 7]) && h[i + 8] != '\n'
    && h[i + 9..i + 12] == "csv"
  }

  function SeasonSearch(h: string, from: nat): (i: int)
    ensures i == -1 || (from <= i && SeasonMatchAt(h, i))
    decreases |h| - from
  {
    if |h| < from + 12 then -1
    else if SeasonMatchAt(h, from) then from
    else SeasonSearch(h, from + 1)
  }

  lemma {:induction false} SeasonSearchLeftmost(h: string, from: nat)
    ensures SeasonSearch(h, from) == -1 ==> forall j: nat :: from <= j ==> !SeasonMatchAt(h, j)
    ensures SeasonSearch(h, from) != -1 ==> forall j: nat :: from <= j < SeasonSearch(h, from) ==> !SeasonMatchAt(h, j)
    decreases |h| - from
  {
    if |h| >= from + 12 && !SeasonMatchAt(h, from) {
      SeasonSearchLeftmost(h, from + 1);
    }
  }

  /** One CSV link: group 2 is the league, group 1 the season; a link without the pattern is
      skipped. */
  function LinkDataset(name: string, href: string): Option<Dataset>
  {
    var i := SeasonSearch(href, 0);
    if i == -1 then None else Some(Dataset(href[i + 6..i + 8], href[i + 1..i + 5], name, href))
  }

  predicate FirstSeasonAt(h: string, i: nat)
  {
    SeasonMatchAt(h, i) && forall j: nat :: j < i ==> !SeasonMatchAt(h, j)
  }

  /** A link is skipped exactly when its href has no match; otherwise the leftmost match gives a
      four-digit season and a capital-and-digit league code, with the link's text and href. */
  lemma LinkDatasetSpec(name: string, href: string)
    ensures LinkDataset(name, href).None? <==> forall j: nat :: !SeasonMatchAt(href, j)
    ensures forall i: nat :: FirstSeasonAt(href, i) ==>
              LinkDataset(name, href) == Some(Dataset(href[i + 6..i + 8], href[i + 1..i + 5], name, href))
    ensures LinkDataset(name, href).Some? ==>
              var d := LinkDataset(name, href).value;
              && |d.season| == 4 && AllDigits(d.season)
              && |d.league| == 2 && IsUpper(d.league[0]) && IsDigit(d.league[1])
              && d.name == name && d.href == href
  {
    SeasonSearchLeftmost(href, 0);
    var k := SeasonSearch(href, 0);
    forall i: nat | FirstSeasonAt(href, i)
      ensures k == i
    {
      FirstSeasonFound(href, i);
    }
    if k != -1 {
      SeasonShape(href, k);
    }
  }

  /** The search stops at the first match. */
  lemma FirstSeasonFound(h: string, i: nat)
    requires FirstSeasonAt(h, i)
    ensures SeasonSearch(h, 0) == i
  {
    SeasonSearchLeftmost(h, 0);
    var k := SeasonSearch(h, 0);
    assert k != -1;
    assert !(k < i);
    assert !(i < k);
  }

  /** What a match holds: four digits of season, a capital and a digit of league. */
  lemma SeasonShape(h: string, i: nat)
    requires SeasonMatchAt(h, i)
    ensures |h[i + 1..i + 5]| == 4 && AllDigits(h[i + 1..i + 5])
    ensures |h[i + 6..i + 8]| == 2 && IsUpper(h[i + 6..i + 8][0]) && IsDigit(h[i + 6..i + 8][1])
  {
  }

  /** The links football-data.co.uk serves, `mmz4281/1920/E1.csv`: a path without a `/` before
      the season gives that season and league. */
  lemma FootballDataHref(p: string, season: string, league: string, name: string)
    requires '/' !in p
    requires |season| == 4 && AllDigits(season) && |league| == 2 && IsUpper(league[0]) && IsDigit(league[1])
    ensures var href := p + "/" + season + "/" + league + ".csv";
            LinkDataset(name, href) == Some(Dataset(league, season, name, href))
  {
    var href := p + "/" + season + "/" + league + ".csv";
    var i := |p|;
    assert href[i + 1..i + 5] == season;
    assert href[i + 6..i + 8] == league;
    assert href[i + 9..i + 12] == "csv";
    assert SeasonMatchAt(href, i);
    forall j: nat | j < i
      ensures !SeasonMatchAt(href, j)
    {
      assert href[j] == p[j];
    }
    assert FirstSeasonAt(href, i);
    LinkDatasetSpec(name, href);
  }

  /** `received`: the datasets of the matching links, in link order. */
  function Received(links: seq<(string, string)>): seq<Dataset>
    decreases |links|
  {
    if links == [] then []
    else
      var d := LinkDataset(links[0].0, links[0].1);
      (if d.Some? then [d.value] else []) + Received(links[1..])
  }

  /** Order follows the links: the datasets of two runs of links are those of each run. */
  lemma {:induction false} ReceivedConcat(a: seq<(string, string)>, b: seq<(string, string)>)
    ensures Received(a + b) == Received(a) + Received(b)
    decreases |a|
  {
    if a == [] {
      assert a + b == b;
    } else {
      var d := LinkDataset(a[0].0, a[0].1);
      var h := if d.Some? then [d.value] else [];
      assert (a + b)[0] == a[0];
      assert (a + b)[1..] == a[1..] + b;
      assert Received(a + b) == h + Received(a[1..] + b);
      ReceivedConcat(a[1..], b);
      AppendAssoc(h, Received(a[1..]), Received(b));
    }
  }

  /** A dataset is received exactly when some link yields it, and there are never more
      datasets than links. */
  lemma {:induction false} ReceivedSpec(links: seq<(string, string)>)
    ensures |Received(links)| <= |links|
    ensures forall d :: d in Received(links) <==> exists i :: 0 <= i < |links| && LinkDataset(links[i].0, links[i].1) == Some(d)
    decreases |links|
  {
    if links != [] {
      ReceivedSpec(links[1..]);
      assert forall i :: 1 <= i < |links| ==> links[i] == links[1..][i - 1];
      forall d | exists i :: 0 <= i < |links| && LinkDataset(links[i].0, links[i].1) == Some(d)
        ensures d in Received(links)
      {
        var i :| 0 <= i < |links| && LinkDataset(links[i].0, links[i].1) == Some(d);
        if i > 0 {
          assert LinkDataset(links[1..][i - 1].0, links[1..][i - 1].1) == Some(d);
        }
      }
    }
  }

  /** `fetchLinks`: a connection error escapes; a non-200 page and a page without CSV links
      give `False` (`None` here); otherwise the datasets of its links. */
  function Scraped(f: Fetch<seq<Anchor>>): Result<Option<seq<Dataset>>>
  {
    match f
    case ConnectionError => Err(Raised("ConnectionError"))
    case Reply(status, page) =>
      if status != 200 then Ok(None)
      else
        var links := CsvAnchors(page);
        if links == [] then Ok(None) else Ok(Some(Received(links)))
  }

  /** The outcomes of one page, and every received dataset comes from a CSV link of the page
      with the season and league in its path. */
  lemma ScrapedSpec(f: Fetch<seq<Anchor>>)
    ensures f.ConnectionError? ==> Scraped(f) == Err(Raised("ConnectionError"))
    ensures f.Reply? && f.status != 200 ==> Scraped(f) == Ok(None)
    ensures IsOk(f) && (forall a :: a in f.page ==> !(a.href.Some? && CsvHref(a.href.value))) ==> Scraped(f) == Ok(None)
    ensures Scraped(f).Ok? && Scraped(f).value.Some? ==>
              IsOk(f)
              && forall d :: d in Scraped(f).value.value ==>
                   Anchor(d.name, Some(d.href)) in f.page && CsvHref(d.href) && LinkDataset(d.name, d.href) == Some(d)
  {
    if IsOk(f) {
      var links := CsvAnchors(f.page);
      if links != [] {
        assert links[0] in links;
      }
      ReceivedSpec(links);
      forall d | d in Received(links)
        ensures Anchor(d.name, Some(d.href)) in f.page && CsvHref(d.href) && LinkDataset(d.name, d.href) == Some(d)
      {
        var i :| 0 <= i < |links| && LinkDataset(links[i].0, links[i].1) == Some(d);
        LinkDatasetSpec(links[i].0, links[i].1);
        assert links[i] in links;
      }
    }
  }

  /** `runner`, one page after another: a page's `False` makes `+=` raise `TypeError`. */
  function Gathered(results: seq<Result<Option<seq<Dataset>>>>): Result<seq<Dataset>>
    decreases |results|
  {
    if results == [] then Ok([])
    else
      var n := |results| - 1;
      match Gathered(results[..n])
      case Err(e) => Err(e)
      case Ok(acc) =>
        match results[n]
        case Err(e) => Err(e)
        case Ok(None) => Err(TypeError)
        case Ok(Some(ds)) => Ok(acc + ds)
  }

  /** The error a failed page makes the runner raise. */
  function Failure(r: Result<Option<seq<Dataset>>>): Error
  {
    if r.Err? then r.error else TypeError
  }

  /** The runner succeeds exactly when every page gave a list; it then holds exactly the
      datasets of those lists. Otherwise it raises what the first failed page raises. */
  lemma {:induction false} GatheredSpec(results: seq<Result<Option<seq<Dataset>>>>)
    ensures Gathered(results).Ok? <==> forall i :: 0 <= i < |results| ==> results[i].Ok? && results[i].value.Some?
    ensures Gathered(results).Ok? ==>
              forall d :: d in Gathered(results).value <==>
                exists i :: 0 <= i < |results| && d in results[i].value.value
    ensures Gathered(results).Err? ==>
              exists i :: 0 <= i < |results| && !(results[i].Ok? && results[i].value.Some?)
                && Gathered(results).error == Failure(results[i])
                && forall j :: 0 <= j < i ==> results[j].Ok? && results[j].value.Some?
    decreases |results|
  {
    if results != [] {
      var n := |results| - 1;
      var pre := results[..n];
      GatheredSpec(pre);
      assert forall i :: 0 <= i < n ==> pre[i] == results[i];
      if Gathered(pre).Ok? && results[n].Ok? && results[n].value.Some? {
        var acc := Gathered(pre).value;
        forall d
          ensures d in acc + results[n].value.value <==> exists i :: 0 <= i < |results| && d in results[i].value.value
        {
          if exists i :: 0 <= i < |results| && d in results[i].value.value {
            var i :| 0 <= i < |results| && d in results[i].value.value;
            if i < n {
              assert d in pre[i].value.value;
            }
          }
        }
      }
    }
  }

  /** The store rows of the datasets: `(league, season, league_name, results_location)`. */
  function DatasetRows(ds: seq<Dataset>): (rows: seq<LinkRow>)
    ensures |rows| == |ds|
    ensures forall i :: 0 <= i < |ds| ==> rows[i] == LinkRow(LeagueKey(ds[i].league, ds[i].season), Some(ds[i].name), ds[i].href)
  {
    seq(|ds|, i requires 0 <= i < |ds| => LinkRow(LeagueKey(ds[i].league, ds[i].season), Some(ds[i].name), ds[i].href))
  }

  /** The country pages of the deployed scraper. */
  const CountryPages: seq<string> := [
    "https://www.football-data.co.uk/englandm.php", "https://www.football-data.co.uk/scotlandm.php",
    "https://www.football-data.co.uk/germanym.php", "https://www.football-data.co.uk/italym.php",
    "https://www.football-data.co.uk/spainm.php", "https://www.football-data.co.uk/francem.php",
    "https://www.football-data.co.uk/netherlandsm.php", "https://www.football-data.co.uk/belgiumm.php",
    "https://www.football-data.co.uk/portugalm.php", "https://www.football-data.co.uk/turkeym.php",
    "https://www.football-data.co.uk/greecem.php"]

  /** What each page answers. */
  function PageResults(server: string -> Fetch<seq<Anchor>>, pages: seq<string>): (rs: seq<Result<Option<seq<Dataset>>>>)
    ensures |rs| == |pages| && forall i :: 0 <= i < |pages| ==> rs[i] == Scraped(server(pages[i]))
  {
    seq(|pages|, i requires 0 <= i < |pages| => Scraped(server(pages[i])))
  }

  /** `fetchLinks`, the append loop over the CSV links. */
  method FetchLinks(f: Fetch<seq<Anchor>>) returns (r: Result<Option<seq<Dataset>>>)
    ensures r == Scraped(f)
  {
    if f.ConnectionError? {
      return Err(Raised("ConnectionError"));
    }
    if f.status != 200 {
      return Ok(None);
    }
    var links := CsvAnchors(f.page);
    if links == [] {
      return Ok(None);
    }
    var received: seq<Dataset> := [];
    for i := 0 to |links|
      invariant received == Received(links[..i])
    {
      var d := LinkDataset(links[i].0, links[i].1);
      ReceivedConcat(links[..i], [links[i]]);
      assert links[..i + 1] == links[..i] + [links[i]];
      assert Received([links[i]]) == (if d.Some? then [d.value] else []) + Received([]);
      if d.Some? {
        received := received + [d.value];
      }
    }
    assert links[..|links|] == links;
    r := Ok(Some(received));
  }

  /** `runner`, the pages fetched one after another. */
  method Runner(server: string -> Fetch<seq<Anchor>>, pages: seq<string>) returns (r: Result<seq<Dataset>>)
    ensures r == Gathered(PageResults(server, pages))
  {
    ghost var rs := PageResults(server, pages);
    var receivedData: seq<Dataset> := [];
    for i := 0 to |pages|
      invariant Gathered(rs[..i]) == Ok(receivedData)
    {
      var result := FetchLinks(server(pages[i]));
      assert rs[..i + 1][..i] == rs[..i];
      if result.Err? {
        GatheredPrefix(rs, i + 1);
        return Err(result.error);
      }
      if result.value.None? {
        GatheredPrefix(rs, i + 1);
        return Err(TypeError);
      }
      receivedData := receivedData + result.value.value;
    }
    assert rs[..|pages|] == rs;
    r := Ok(receivedData);
  }

  /** A prefix's error is the whole run's error. */
  lemma {:induction false} GatheredPrefix(rs: seq<Result<Option<seq<Dataset>>>>, j: nat)
    requires j <= |rs| && Gathered(rs[..j]).Err?
    ensures Gathered(rs) == Gathered(rs[..j])
    decreases |rs| - j
  {
    if j < |rs| {
      assert rs[..j + 1][..j] == rs[..j];
      GatheredPrefix(rs, j + 1);
    } else {
      assert rs[..j] == rs;
    }
  }

  class DatasetScraper {
    const store: LeagueTable

    constructor (store: LeagueTable)
      ensures this.store == store
    {
      this.store := store;
    }

    /** `writeToDB`: insert-or-update on `(league, season)` of `results_location`. */
    method WriteToDB(datasets: seq<Dataset>) returns (r: Result<()>)
      modifies store
      ensures datasets == [] ==> r == Err(SqlError("syntax error at end of VALUES")) && store.rows == old(store.rows)
      ensures datasets != [] && !DistinctLinkKeys(DatasetRows(datasets)) ==>
                r == Err(SqlError("ON CONFLICT DO UPDATE command cannot affect row a second time"))
                && store.rows == old(store.rows)
      ensures datasets != [] && DistinctLinkKeys(DatasetRows(datasets)) ==>
                r == Ok(()) && store.rows == Upserted(old(store.rows), DatasetRows(datasets), ResultsLocation)
    {
      r := store.Upsert(DatasetRows(datasets), ResultsLocation);
    }

    /** `main`: scrape every country page and write only when something was received, so the
        empty statement is never sent. */
    method ScrapeAll(server: string -> Fetch<seq<Anchor>>) returns (r: Result<()>)
      modifies store
      ensures var g := Gathered(PageResults(server, CountryPages));
              && (g.Err? ==> r == Err(g.error) && store.rows == old(store.rows))
              && (g.Ok? && g.value == [] ==> r == Ok(()) && store.rows == old(store.rows))
              && (g.Ok? && g.value != [] && !DistinctLinkKeys(DatasetRows(g.value)) ==>
                    r == Err(SqlError("ON CONFLICT DO UPDATE command cannot affect row a second time"))
                    && store.rows == old(store.rows))
              && (g.Ok? && g.value != [] && DistinctLinkKeys(DatasetRows(g.value)) ==>
                    r == Ok(()) && store.rows == Upserted(old(store.rows), DatasetRows(g.value), ResultsLocation))
      ensures r != Err(SqlError("syntax error at end of VALUES"))
    {
      var datasets := Runner(server, CountryPages);
      if datasets.Err? {
        GatheredErrors(PageResults(server, CountryPages));
        return Err(datasets.error);
      }
      if |datasets.value| > 0 {
        r := WriteToDB(datasets.value);
      } else {
        r := Ok(());
      }
    }
  }

  /** The runner raises only what a page raises or the `TypeError` of a `False` page; never
      a store error. */
  lemma GatheredErrors(results: seq<Result<Option<seq<Dataset>>>>)
    requires forall i :: 0 <= i < |results| ==> results[i].Err? ==> !results[i].error.SqlError?
    ensures Gathered(results).Err? ==> !Gathered(results).error.SqlError?
  {
    GatheredSpec(results);
  }
}

=== FILE: dicts.dfy ===
/** Python dictionaries as the scrapers use them. A dict iterates in insertion order, and
    that order decides which of two equally similar names wins, so a dict is kept as the
    sequence of its entries rather than as a Dafny `map`. */
module Dicts {
  import opened Common

  /** The entries of a Python dict from names to ids, in insertion order. */
  type Dict = seq<(string, int)>

  function Keys(d: Dict): (ks: seq<string>)
    ensures |ks| == |d|
    ensures forall i :: 0 <= i < |d| ==> ks[i] == d[i].0
  {
    seq(|d|, i requires 0 <= i < |d| => d[i].0)
  }

  /** The keys of an entry followed by a dictionary. */
  lemma KeysCons(e: (string, int), d: Dict)
    ensures Keys([e] + d) == [e.0] + Keys(d)
  {
    assert forall i :: 1 <= i <= |d| ==> ([e] + d)[i] == d[i - 1];
  }

  /** The keys of a dictionary are the keys of all but its last entry, then the last key. */
  lemma KeysSnoc(d: Dict)
    requires d != []
    ensures Keys(d) == Keys(d[..|d| - 1]) + [d[|d| - 1].0]
    ensures Keys(d)[..|d| - 1] == Keys(d[..|d| - 1])
  {
    assert forall i :: 0 <= i < |d| - 1 ==> d[..|d| - 1][i] == d[i];
  }

  /** The keys of a dictionary are its first key and the keys of the rest. */
  lemma KeysTail(d: Dict)
    requires d != []
    ensures Keys(d) == [d[0].0] + Keys(d[1..])
  {
    KeysCons(d[0], d[1..]);
    assert [d[0]] + d[1..] == d;
  }

  predicate DistinctKeys(d: Dict)
  {
    forall i, j :: 0 <= i < j < |d| ==> d[i].0 != d[j].0
  }

  /** Position of the entry for `k`. */
  function IndexOf(d: Dict, k: string): (i: nat)
    requires k in Keys(d)
    ensures i < |d| && d[i].0 == k
    ensures forall j :: 0 <= j < i ==> d[j].0 != k
    decreases |d|
  {
    if d[0].0 == k then 0
    else
      KeysTail(d);
      1 + IndexOf(d[1..], k)
  }

  /** `d[k]` for a key that is present. */
  function Get(d: Dict, k: string): int
    requires k in Keys(d)
  {
    d[IndexOf(d, k)].1
  }

  /** In a dict with distinct keys, `d[k] == v` exactly when `(k, v)` is one of its entries. */
  lemma GetEntry(d: Dict, k: string, v: int)
    requires DistinctKeys(d)
    ensures (k, v) in d <==> k in Keys(d) && Get(d, k) == v
  {
    if (k, v) in d {
      var j :| 0 <= j < |d| && d[j] == (k, v);
      assert Keys(d)[j] == k;
      assert IndexOf(d, k) == j;
    }
  }

  /** `d[k] = v`: an existing key keeps its position, a new key goes last. */
  function Put(d: Dict, k: string, v: int): (r: Dict)
    ensures k in Keys(r) && Get(r, k) == v
    ensures Keys(r) == if k in Keys(d) then Keys(d) else Keys(d) + [k]
    ensures forall j :: 0 <= j < |d| && d[j].0 != k ==> r[j] == d[j]
    ensures DistinctKeys(d) ==> DistinctKeys(r)
  {
    if k in Keys(d) then
      var i := IndexOf(d, k);
      var r := d[i := (k, v)];
      assert Keys(r) == Keys(d);
      assert IndexOf(r, k) == i;
      r
    else
      var r := d + [(k, v)];
      assert Keys(r) == Keys(d) + [k];
      assert IndexOf(r, k) == |d|;
      r
  }

  /** Writing one key leaves every other key's value alone. */
  lemma PutOther(d: Dict, k: string, v: int, k': string)
    requires k' != k && k' in Keys(d)
    ensures k' in Keys(Put(d, k, v)) && Get(Put(d, k, v), k') == Get(d, k')
  {
    var r := Put(d, k, v);
    var i := IndexOf(d, k');
    assert r[i] == d[i];
    assert Keys(r)[i] == k';
    assert IndexOf(r, k') == i;
  }

  /** `d.pop(k, None)`: drop the entry for `k`, if any. */
  function Remove(d: Dict, k: string): (r: Dict)
    ensures k !in Keys(r)
    ensures forall e :: e in r <==> e in d && e.0 != k
    ensures forall k' :: k' in Keys(r) <==> k' in Keys(d) && k' != k
    ensures DistinctKeys(d) ==> DistinctKeys(r)
    decreases |d|
  {
    if d == [] then []
    else
      var rest := Remove(d[1..], k);
      var r := if d[0].0 == k then rest else [d[0]] + rest;
      RemoveConsEntries(d, k, rest, r);
      RemoveConsKeys(d, k, rest, r);
      RemoveConsDistinct(d, k, rest, r);
      r
  }

  /** The first entry is dropped or kept in front of what popping from the others leaves:
      the entries that remain. */
  lemma RemoveConsEntries(d: Dict, k: string, rest: Dict, r: Dict)
    requires d != []
    requires forall e :: e in rest <==> e in d[1..] && e.0 != k
    requires r == if d[0].0 == k then rest else [d[0]] + rest
    ensures forall e :: e in r <==> e in d && e.0 != k
  {
    assert d == [d[0]] + d[1..];
  }

  /** The same, for the keys that remain. */
  lemma RemoveConsKeys(d: Dict, k: string, rest: Dict, r: Dict)
    requires d != []
    requires forall k' :: k' in Keys(rest) <==> k' in Keys(d[1..]) && k' != k
    requires r == if d[0].0 == k then rest else [d[0]] + rest
    ensures forall k' :: k' in Keys(r) <==> k' in Keys(d) && k' != k
  {
    KeysTail(d);
    if d[0].0 != k {
      KeysCons(d[0], rest);
    }
  }

  /** The same, for distinct keys. */
  lemma RemoveConsDistinct(d: Dict, k: string, rest: Dict, r: Dict)
    requires d != []
    requires DistinctKeys(d[1..]) ==> DistinctKeys(rest)
    requires forall k' :: k' in Keys(rest) ==> k' in Keys(d[1..])
    requires r == if d[0].0 == k then rest else [d[0]] + rest
    ensures DistinctKeys(d) ==> DistinctKeys(r)
  {
    if !DistinctKeys(d) {
      return;
    }
    assert DistinctKeys(d[1..]) by {
      forall i, j | 0 <= i < j < |d[1..]|
        ensures d[1..][i].0 != d[1..][j].0
      {
        assert d[1..][i] == d[i + 1] && d[1..][j] == d[j + 1];
      }
    }
    if d[0].0 != k {
      forall j | 0 < j < |r|
        ensures r[0].0 != r[j].0
      {
        assert Keys(rest)[j - 1] == r[j].0;
        var m := IndexOf(d[1..], r[j].0);
        assert d[0].0 != d[m + 1].0;
      }
      forall i, j | 0 <= i < j < |r|
        ensures r[i].0 != r[j].0
      {
        if i > 0 {
          assert r[i] == rest[i - 1] && r[j] == rest[j - 1];
        }
      }
    }
  }

  /** Popping a key that is not there changes nothing. */
  lemma {:induction false} RemoveAbsent(d: Dict, k: string)
    requires k !in Keys(d)
    ensures Remove(d, k) == d
    decreases |d|
  {
    if d != [] {
      KeysTail(d);
      RemoveAbsent(d[1..], k);
    }
  }

  /** Dropping one key leaves every other key's value alone. */
  lemma RemoveOther(d: Dict, k: string, k': string)
    requires DistinctKeys(d) && k' != k && k' in Keys(d)
    ensures k' in Keys(Remove(d, k)) && Get(Remove(d, k), k') == Get(d, k')
  {
    GetEntry(d, k', Get(d, k'));
    GetEntry(Remove(d, k), k', Get(d, k'));
  }

  /** A sequence of names without repeats. */
  predicate Distinct(xs: seq<string>)
  {
    forall i, j :: 0 <= i < j < |xs| ==> xs[i] != xs[j]
  }

  /** The elements of `xs` in the order they first occur. */
  function Dedup(xs: seq<string>): (r: seq<string>)
    ensures forall x :: x in r <==> x in xs
    ensures Distinct(r)
    ensures |r| <= |xs|
    decreases |xs|
  {
    if xs == [] then []
    else
      var p := Dedup(xs[..|xs| - 1]);
      assert xs == xs[..|xs| - 1] + [xs[|xs| - 1]];
      if xs[|xs| - 1] in p then p else p + [xs[|xs| - 1]]
  }

  /** Whether `x` occurs in `xs` before any occurrence of `y`. */
  predicate Before(xs: seq<string>, x: string, y: string)
  {
    exists a :: 0 <= a < |xs| && xs[a] == x && y !in xs[..a + 1]
  }

  /** The distinct elements keep the order of their first occurrences. */
  lemma {:induction false} DedupOrder(xs: seq<string>)
    ensures forall i, j :: 0 <= i < j < |Dedup(xs)| ==> Before(xs, Dedup(xs)[i], Dedup(xs)[j])
    decreases |xs|
  {
    if xs != [] {
      var p := xs[..|xs| - 1];
      var z := xs[|xs| - 1];
      DedupOrder(p);
      var d := Dedup(p);
      forall x, y | Before(p, x, y)
        ensures Before(xs, x, y)
      {
        var a :| 0 <= a < |p| && p[a] == x && y !in p[..a + 1];
        assert xs[..a + 1] == p[..a + 1];
      }
      if z !in d {
        forall i | 0 <= i < |d|
          ensures Before(xs, d[i], z)
        {
          assert d[i] in p;
          var a :| 0 <= a < |p| && p[a] == d[i];
          assert xs[..a + 1] == p[..a + 1];
        }
      }
    }
  }

  /** `dict(pairs)`: one entry per distinct key. */
  function FromPairs(ps: seq<(string, int)>): (r: Dict)
    ensures DistinctKeys(r)
    decreases |ps|
  {
    if ps == [] then [] else Put(FromPairs(ps[..|ps| - 1]), ps[|ps| - 1].0, ps[|ps| - 1].1)
  }

  /** The value of the last pair whose key is `k`. */
  function LastValue(ps: seq<(string, int)>, k: string): int
    requires k in Keys(ps)
    decreases |ps|
  {
    var n := |ps| - 1;
    if ps[n].0 == k then ps[n].1
    else
      KeysSnoc(ps);
      LastValue(ps[..n], k)
  }

  /** `dict(pairs)` lists each key once, where it first occurs. */
  lemma {:induction false} FromPairsKeys(ps: seq<(string, int)>)
    ensures Keys(FromPairs(ps)) == Dedup(Keys(ps))
    decreases |ps|
  {
    if ps != [] {
      var n := |ps| - 1;
      FromPairsKeys(ps[..n]);
      KeysSnoc(ps);
    }
  }

  /** `dict(pairs)` gives each key the value of its last pair. */
  lemma {:induction false} FromPairsLast(ps: seq<(string, int)>, k: string)
    requires k in Keys(ps)
    ensures k in Keys(FromPairs(ps)) && Get(FromPairs(ps), k) == LastValue(ps, k)
    decreases |ps|
  {
    var n := |ps| - 1;
    var d := FromPairs(ps[..n]);
    assert FromPairs(ps) == Put(d, ps[n].0, ps[n].1);
    if ps[n].0 != k {
      KeysSnoc(ps);
      FromPairsLast(ps[..n], k);
      PutOther(d, ps[n].0, ps[n].1, k);
    }
  }

  /** The players of each club, in the order of the rows: `rows` holds
      `(club_id, player_name, player_id)` triples. */
  function RowsOf(rows: seq<(int, string, int)>, club: int): (r: seq<(string, int)>)
    ensures |r| <= |rows|
    decreases |rows|
  {
    if rows == [] then []
    else
      var last := rows[|rows| - 1];
      RowsOf(rows[..|rows| - 1], club) + (if last.0 == club then [(last.1, last.2)] else [])
  }

  predicate HasClub(rows: seq<(int, string, int)>, club: int)
  {
    exists i :: 0 <= i < |rows| && rows[i].0 == club
  }

  /** The grouping loop of `fetchPlayerIds`: each row is appended to its club's list,
      which is created on first sight; lists already in `cache` are extended. */
  function Grouped(cache: map<int, seq<(string, int)>>, rows: seq<(int, string, int)>): map<int, seq<(string, int)>>
    decreases |rows|
  {
    if rows == [] then cache
    else
      var g := Grouped(cache, rows[..|rows| - 1]);
      var (c, name, id) := rows[|rows| - 1];
      if c in g then g[c := g[c] + [(name, id)]] else g[c := [(name, id)]]
  }

  /** After grouping, a club has a list exactly when it had one or appears in a row, and the
      list is the old one followed by that club's rows, in row order. */
  lemma {:induction false} GroupedSpec(cache: map<int, seq<(string, int)>>, rows: seq<(int, string, int)>)
    ensures forall c :: c in Grouped(cache, rows) <==> c in cache || HasClub(rows, c)
    ensures forall c :: c in Grouped(cache, rows) ==>
              Grouped(cache, rows)[c] == (if c in cache then cache[c] else []) + RowsOf(rows, c)
    decreases |rows|
  {
    if rows != [] {
      var n := |rows| - 1;
      var init := rows[..n];
      GroupedSpec(cache, init);
      var g := Grouped(cache, init);
      var (c0, name, id) := rows[n];
      assert Grouped(cache, rows) == if c0 in g then g[c0 := g[c0] + [(name, id)]] else g[c0 := [(name, id)]];
      forall c
        ensures HasClub(rows, c) <==> HasClub(init, c) || c0 == c
        ensures RowsOf(rows, c) == RowsOf(init, c) + (if c0 == c then [(name, id)] else [])
      {
        RowsSnoc(rows, c);
      }
      if c0 !in g {
        assert !HasClub(init, c0) && c0 !in cache;
        assert RowsOf(init, c0) == [] by {
          RowsOfAbsent(init, c0);
        }
      }
    }
  }

  /** One more row: its club appears, and its `(name, id)` ends that club's rows. */
  lemma RowsSnoc(rows: seq<(int, string, int)>, c: int)
    requires rows != []
    ensures var n := |rows| - 1;
            && (HasClub(rows, c) <==> HasClub(rows[..n], c) || rows[n].0 == c)
            && RowsOf(rows, c) == RowsOf(rows[..n], c) + (if rows[n].0 == c then [(rows[n].1, rows[n].2)] else [])
  {
    var n := |rows| - 1;
    if HasClub(rows, c) && rows[n].0 != c {
      var i :| 0 <= i < |rows| && rows[i].0 == c;
      assert rows[..n][i].0 == c;
    }
    if HasClub(rows[..n], c) {
      var i :| 0 <= i < n && rows[..n][i].0 == c;
      assert rows[i].0 == c;
    }
  }

  lemma {:induction false} RowsOfAbsent(rows: seq<(int, string, int)>, club: int)
    requires !HasClub(rows, club)
    ensures RowsOf(rows, club) == []
    decreases |rows|
  {
    if rows != [] {
      var n := |rows| - 1;
      assert rows[n].0 != club;
      forall i | 0 <= i < n
        ensures rows[..n][i].0 != club
      {
        assert rows[..n][i] == rows[i];
      }
      RowsOfAbsent(rows[..n], club);
    }
  }

  /** Grouping the same rows twice lists every one of them twice. */
  lemma GroupedTwice(cache: map<int, seq<(string, int)>>, rows: seq<(int, string, int)>, c: int)
    requires c in cache
    ensures c in Grouped(Grouped(cache, rows), rows)
    ensures Grouped(Grouped(cache, rows), rows)[c] == cache[c] + RowsOf(rows, c) + RowsOf(rows, c)
  {
    GroupedSpec(cache, rows);
    GroupedSpec(Grouped(cache, rows), rows);
  }

  /** The grouping loop itself. */
  method GroupRows(cache: map<int, seq<(string, int)>>, rows: seq<(int, string, int)>)
    returns (groups: map<int, seq<(string, int)>>)
    ensures groups == Grouped(cache, rows)
    ensures forall c :: c in groups <==> c in cache || HasClub(rows, c)
    ensures forall c :: c in groups ==> groups[c] == (if c in cache then cache[c] else []) + RowsOf(rows, c)
  {
    groups := cache;
    for i := 0 to |rows|
      invariant groups == Grouped(cache, rows[..i])
    {
      assert rows[..i + 1][..i] == rows[..i];
      var (c, name, id) := rows[i];
      if c in groups {
        groups := groups[c := groups[c] + [(name, id)]];
      } else {
        groups := groups[c := [(name, id)]];
      }
    }
    assert rows[..|rows|] == rows;
    GroupedSpec(cache, rows);
  }
}

=== FILE: football_lineups.dfy ===
/** The football-lineups scraper: season links from one `YYYY--YYYY` seed per league, written
    to the `lineups_location` column of existing `league` rows, and (in the first version) the
    fixture rows of a season page turned into score, date, club ids and a fixture link. */
module FootballLineups {
  import opened Common
  import opened Dicts
  import opened Http
  import opened Resolution
  import opened Seasons
  import opened PeriodTables
  import opened Store
  import MatchInfo

  // The score cell: the leftmost match of `(\d|-):(\d|-)`.

  predicate ScoreChar(c: char) { IsDigit(c) || c == '-' }

  predicate ScoreMatchAt(s: string, i: nat)
  {
    i + 3 <= |s| && ScoreChar(s[i]) && s[i + 1] == ':' && ScoreChar(s[i + 2])
  }

  /** The leftmost score match at or after `from`, or -1. */
  function ScoreSearch(s: string, from: nat): (i: int)
    ensures i == -1 || (from <= i && ScoreMatchAt(s, i))
    decreases |s| - from
  {
    if |s| < from + 3 then -1
    else if ScoreMatchAt(s, from) then from
    else ScoreSearch(s, from + 1)
  }

  lemma {:induction false} ScoreSearchLeftmost(s: string, from: nat)
    ensures ScoreSearch(s, from) == -1 ==> forall j: nat :: from <= j ==> !ScoreMatchAt(s, j)
    ensures ScoreSearch(s, from) != -1 ==> forall j: nat :: from <= j < ScoreSearch(s, from) ==> !ScoreMatchAt(s, j)
    decreases |s| - from
  {
    if |s| >= from + 3 && !ScoreMatchAt(s, from) {
      ScoreSearchLeftmost(s, from + 1);
    }
  }

  /** The two goal counts of a finished match, as the one-character groups the scraper keeps;
      `None` when the cell has no score or either side is `-` (the row is skipped). */
  function Goals(text: string): Option<(char, char)>
  {
    var i := ScoreSearch(text, 0);
    if i == -1 then None
    else if text[i] == '-' || text[i + 2] == '-' then None
    else Some((text[i], text[i + 2]))
  }

  predicate FirstScoreAt(s: string, i: nat)
  {
    ScoreMatchAt(s, i) && forall j: nat :: j < i ==> !ScoreMatchAt(s, j)
  }

  /** A cell without a score is skipped; otherwise only the leftmost score counts: it is kept
      when both sides are digits and skipped when either is `-`. */
  lemma GoalsSpec(text: string)
    ensures (forall j: nat :: !ScoreMatchAt(text, j)) ==> Goals(text) == None
    ensures forall i: nat :: FirstScoreAt(text, i) ==>
              Goals(text) == if IsDigit(text[i]) && IsDigit(text[i + 2]) then Some((text[i], text[i + 2])) else None
  {
    ScoreSearchLeftmost(text, 0);
    var k := ScoreSearch(text, 0);
    forall i: nat | FirstScoreAt(text, i)
      ensures k == i
    {
      assert k != -1;
      assert !(k < i);
      assert !(i < k);
    }
    if k != -1 {
      assert ScoreMatchAt(text, k);
    }
  }

  // The date cell: the leftmost match of `\d\d-[A-Z][a-z][a-z]-\d\d`, read with `%d-%b-%y`.

  predicate DateMatchAt(s: string, i: nat)
  {
    && i + 9 <= |s|
    && IsDigit(s[i]) && IsDigit(s[i + 1]) && s[i + 2] == '-'
    && IsUpper(s[i + 3]) && IsLower(s[i + 4]) && IsLower(s[i + 5]) && s[i + 6] == '-'
    && IsDigit(s[i + 7]) && IsDigit(s[i + 8])
  }

  /** The leftmost date match at or after `from`, or -1. */
  function DateSearch(s: string, from: nat): (i: int)
    ensures i == -1 || (from <= i && DateMatchAt(s, i))
    decreases |s| - from
  {
    if |s| < from + 9 then -1
    else if DateMatchAt(s, from) then from
    else DateSearch(s, from + 1)
  }

  lemma {:induction false} DateSearchLeftmost(s: string, from: nat)
    ensures DateSearch(s, from) == -1 ==> forall j: nat :: from <= j ==> !DateMatchAt(s, j)
    ensures DateSearch(s, from) != -1 ==> forall j: nat :: from <= j < DateSearch(s, from) ==> !DateMatchAt(s, j)
    decreases |s| - from
  {
    if |s| >= from + 9 && !DateMatchAt(s, from) {
      DateSearchLeftmost(s, from + 1);
    }
  }

  /** The English month abbreviations `%b` accepts. */
  const MonthAbbrs: seq<string> := ["Jan", "Feb", "Mar", "Apr", "May", "Jun", "Jul", "Aug", "Sep", "Oct", "Nov", "Dec"]

  /** The number of the month abbreviated `abbr`, searching from month `k + 1`; 0 when none. */
  function MonthFrom(abbr: string, k: nat): (m: nat)
    ensures m == 0 || (k < m <= 12 && MonthAbbrs[m - 1] == abbr)
    decreases 12 - k
  {
    if k >= 12 then 0
    else if MonthAbbrs[k] == abbr then k + 1
    else MonthFrom(abbr, k + 1)
  }

  function MonthNumber(abbr: string): (m: nat)
    ensures m <= 12
  {
    MonthFrom(abbr, 0)
  }

  /** Every month's abbreviation reads back as that month, and nothing else is a month. */
  lemma MonthNumberSpec(abbr: string)
    ensures MonthNumber(abbr) == 0 <==> abbr !in MonthAbbrs
    ensures forall k :: 0 <= k < 12 ==> MonthNumber(MonthAbbrs[k]) == k + 1
  {
    MonthFromMiss(abbr, 0);
    forall k | 0 <= k < 12
      ensures MonthNumber(MonthAbbrs[k]) == k + 1
    {
      MonthFromFirst(k, 0);
    }
  }

  lemma {:induction false} MonthFromMiss(abbr: string, k: nat)
    requires k <= 12
    ensures MonthFrom(abbr, k) == 0 <==> forall j :: k <= j < 12 ==> MonthAbbrs[j] != abbr
    decreases 12 - k
  {
    if k < 12 && MonthAbbrs[k] != abbr {
      MonthFromMiss(abbr, k + 1);
    }
  }

  lemma {:induction false} MonthFromFirst(m: nat, k: nat)
    requires k <= m < 12
    ensures MonthFrom(MonthAbbrs[m], k) == m + 1
    decreases 12 - k
  {
    if k < m {
      assert MonthAbbrs[k] != MonthAbbrs[m] by { AbbrsDiffer(k, m); }
      MonthFromFirst(m, k + 1);
    }
  }

  lemma AbbrsDiffer(i: nat, j: nat)
    requires i < j < 12
    ensures MonthAbbrs[i] != MonthAbbrs[j]
  {
    assert MonthAbbrs[i][0] != MonthAbbrs[j][0] || MonthAbbrs[i][1] != MonthAbbrs[j][1] || MonthAbbrs[i][2] != MonthAbbrs[j][2];
  }

  /** `%y`: 00-68 are in the 2000s, 69-99 in the 1900s. */
  function Century(yy: nat): (y: nat)
    requires yy < 100
    ensures 1969 <= y <= 2068 && y % 100 == yy
  {
    if yy <= 68 then 2000 + yy else 1900 + yy
  }

  /** `datetime.strptime(date, '%d-%b-%y').strftime("%Y-%m-%d")` on a matched `DD-Mon-YY`:
      an unknown month or a day the month does not have is a `ValueError`. */
  function ShortDate(s: string): Result<string>
    requires |s| == 9 && DateMatchAt(s, 0)
  {
    MatchInfo.DigitsRoundTrip2(s[..2]);
    MatchInfo.DigitsRoundTrip2(s[7..]);
    var d := ParseDigits(s[..2]);
    var m := MonthNumber(s[3..6]);
    var y := Century(ParseDigits(s[7..]));
    if m != 0 && MatchInfo.ValidDate(y, m, d) then Ok(MatchInfo.YearFirst(y, m, d)) else Err(ValueError)
  }

  /** A date printed `DD-Mon-YY`. */
  function ShortText(y: nat, m: nat, d: nat): string
    requires 1 <= m <= 12 && d < 100
  {
    MatchInfo.Two(d) + "-" + MonthAbbrs[m - 1] + "-" + MatchInfo.Two(y % 100)
  }

  /** Every valid date of the hundred years `%y` covers, printed `DD-Mon-YY`, is stored as the
      same date, year first. */
  lemma ShortDateRoundTrip(y: nat, m: nat, d: nat)
    requires 1969 <= y <= 2068 && MatchInfo.ValidDate(y, m, d)
    ensures |ShortText(y, m, d)| == 9 && DateMatchAt(ShortText(y, m, d), 0)
    ensures ShortDate(ShortText(y, m, d)) == Ok(MatchInfo.YearFirst(y, m, d))
  {
    var s := ShortText(y, m, d);
    ShortTextParts(y, m, d);
    MatchInfo.ParseTwo(d);
    MatchInfo.ParseTwo(y % 100);
    MonthFromFirst(m - 1, 0);
    CenturyOf(y);
  }

  /** The two-digit year of a year `%y` covers is read back as that year. */
  lemma CenturyOf(y: nat)
    requires 1969 <= y <= 2068
    ensures Century(y % 100) == y
  {
    if y < 2000 {
      assert y % 100 == y - 1900;
    } else {
      assert y % 100 == y - 2000;
    }
  }

  lemma ShortTextParts(y: nat, m: nat, d: nat)
    requires 1 <= m <= 12 && d < 100
    ensures var s := ShortText(y, m, d);
            && |s| == 9 && DateMatchAt(s, 0)
            && s[..2] == MatchInfo.Two(d) && s[3..6] == MonthAbbrs[m - 1] && s[7..] == MatchInfo.Two(y % 100)
  {
    var s := ShortText(y, m, d);
    var abbr := MonthAbbrs[m - 1];
    assert |abbr| == 3 && IsUpper(abbr[0]) && IsLower(abbr[1]) && IsLower(abbr[2]);
    assert s[3] == abbr[0] && s[4] == abbr[1] && s[5] == abbr[2];
    assert s[..2] == MatchInfo.Two(d) && s[3..6] == abbr && s[7..] == MatchInfo.Two(y % 100);
  }

  /** And only such strings are accepted: an accepted match is a valid date of those years. */
  lemma ShortDateAccepts(s: string)
    requires |s| == 9 && DateMatchAt(s, 0) && ShortDate(s).Ok?
    ensures exists y: nat, m: nat, d: nat ::
              && 1969 <= y <= 2068 && MatchInfo.ValidDate(y, m, d)
              && s == ShortText(y, m, d) && ShortDate(s) == Ok(MatchInfo.YearFirst(y, m, d))
  {
    MatchInfo.DigitsRoundTrip2(s[..2]);
    MatchInfo.DigitsRoundTrip2(s[7..]);
    var d := ParseDigits(s[..2]);
    var m := MonthNumber(s[3..6]);
    var y := Century(ParseDigits(s[7..]));
    assert s == s[..2] + "-" + s[3..6] + "-" + s[7..];
    assert s == ShortText(y, m, d);
  }

  /** The date cell: no `DD-Mon-YY` in it is an `AttributeError` (`None.group`), otherwise the
      leftmost one is read. */
  function GameDate(text: string): Result<string>
  {
    var i := DateSearch(text, 0);
    if i == -1 then Err(AttributeError) else ShortDate(text[i..i + 9])
  }

  lemma GameDateSpec(text: string)
    ensures GameDate(text) == Err(AttributeError) <==> forall j: nat :: !DateMatchAt(text, j)
    ensures forall i: nat :: DateMatchAt(text, i) && (forall j: nat :: j < i ==> !DateMatchAt(text, j)) ==>
              DateMatchAt(text[i..i + 9], 0) && GameDate(text) == ShortDate(text[i..i + 9])
  {
    DateSearchLeftmost(text, 0);
    var k := DateSearch(text, 0);
    if k != -1 {
      assert DateMatchAt(text[k..k + 9], 0);
      assert ShortDate(text[k..k + 9]) != Err(AttributeError);
    }
    forall i: nat | DateMatchAt(text, i) && (forall j: nat :: j < i ==> !DateMatchAt(text, j))
      ensures DateMatchAt(text[i..i + 9], 0) && GameDate(text) == ShortDate(text[i..i + 9])
    {
      assert k != -1;
      assert !(k < i);
      assert !(i < k);
    }
  }

  // Fixture rows

  /** The anchor of the `td_resul` cell: none at all, or an `a` tag whose `href` attribute may
      be missing (`get("href")` then gives `None`). */
  datatype CellAnchor = NoAnchor | CellAnchor(href: Option<string>)

  /** The `td_resul` cell: its text and its anchor. */
  datatype ResultCell = ResultCell(text: string, anchor: CellAnchor)

  /** One `tr` of the fixture table: the result cell if the row has one, the text of the date
      cell and of the right- and left-aligned club cells. */
  datatype FixtureRow = FixtureRow(result: Option<ResultCell>, dateText: string, homeName: string, awayName: string)

  /** What the scraper assembles for a finished match. */
  datatype Fixture = Fixture(homeGoals: string, awayGoals: string, gameDate: string, homeId: int, awayId: int, link: string)

  const LinkPrefix: string := "https://m.football-lineups.com"

  /** One row of the fixture table: skipped (`None`), a fixture, or what it raises. */
  function RowFixture(row: FixtureRow, clubIds: Dict, sim: Similarity): Result<Option<Fixture>>
  {
    match row.result
    case None => Ok(None)
    case Some(cell) =>
      match Goals(cell.text)
      case None => Ok(None)
      case Some(goals) =>
        match GameDate(row.dateText)
        case Err(e) => Err(e)
        case Ok(date) =>
          match Resolve(clubIds, row.homeName, sim)
          case Err(e) => Err(e)
          case Ok(home) =>
            match Resolve(clubIds, row.awayName, sim)
            case Err(e) => Err(e)
            case Ok(away) =>
              match cell.anchor
              case NoAnchor => Err(AttributeError)
              case CellAnchor(None) => Err(TypeError)
              case CellAnchor(Some(href)) => Ok(Some(Fixture([goals.0], [goals.1], date, home, away, LinkPrefix + href)))
  }

  /** A row is skipped exactly when it has no result cell or no complete score. */
  lemma RowFixtureSpec(row: FixtureRow, clubIds: Dict, sim: Similarity)
    ensures RowFixture(row, clubIds, sim) == Ok(None) <==> row.result.None? || Goals(row.result.value.text).None?
  {
  }

  /** A scored row whose clubs resolve raises for its link: `AttributeError` when the result
      cell has no anchor (`None.get`), `TypeError` when the anchor has no `href` (`str + None`). */
  lemma RowFixtureLink(row: FixtureRow, clubIds: Dict, sim: Similarity)
    requires row.result.Some? && Goals(row.result.value.text).Some? && GameDate(row.dateText).Ok?
    requires Resolve(clubIds, row.homeName, sim).Ok? && Resolve(clubIds, row.awayName, sim).Ok?
    ensures row.result.value.anchor.NoAnchor? ==> RowFixture(row, clubIds, sim) == Err(AttributeError)
    ensures row.result.value.anchor == CellAnchor(None) ==> RowFixture(row, clubIds, sim) == Err(TypeError)
    ensures row.result.value.anchor.CellAnchor? && row.result.value.anchor.href.Some? ==>
              RowFixture(row, clubIds, sim).Ok? && RowFixture(row, clubIds, sim).value.Some?
  {
  }

  /** A fixture carries the score's digits, a stored-form date of a valid calendar day, the
      resolved ids of both clubs and a link on the mobile site ending in the cell's `href`. */
  lemma RowFixtureFields(row: FixtureRow, clubIds: Dict, sim: Similarity, fx: Fixture)
    requires RowFixture(row, clubIds, sim) == Ok(Some(fx))
    ensures |fx.homeGoals| == 1 && IsDigit(fx.homeGoals[0])
    ensures |fx.awayGoals| == 1 && IsDigit(fx.awayGoals[0])
    ensures exists y: nat, m: nat, d: nat :: 1969 <= y <= 2068 && MatchInfo.ValidDate(y, m, d) && fx.gameDate == MatchInfo.YearFirst(y, m, d)
    ensures Resolve(clubIds, row.homeName, sim) == Ok(fx.homeId)
    ensures Resolve(clubIds, row.awayName, sim) == Ok(fx.awayId)
    ensures row.result.Some? && row.result.value.anchor.CellAnchor? && row.result.value.anchor.href.Some?
    ensures fx.link == LinkPrefix + row.result.value.anchor.href.value
  {
    GameDateAccepts(row.dateText, fx.gameDate);
  }

  /** A date read from a date cell is a valid calendar day of the years `%y` covers. */
  lemma GameDateAccepts(text: string, date: string)
    requires GameDate(text) == Ok(date)
    ensures exists y: nat, m: nat, d: nat :: 1969 <= y <= 2068 && MatchInfo.ValidDate(y, m, d) && date == MatchInfo.YearFirst(y, m, d)
  {
    var i := DateSearch(text, 0);
    ShortDateAccepts(text[i..i + 9]);
  }

  /** `scrapeLineup`: the fixture page is requested (raising like `requestPage`) and its first
      two lineup tables are read; `tables` counts them. The rows are only printed. */
  function ScrapeLineup(f: Fetch<nat>): (r: Result<()>)
    ensures r.Ok? <==> f.Reply? && f.status == 200 && 2 <= f.page
  {
    match Strict(f)
    case Err(e) => Err(e)
    case Ok(tables) => if tables < 2 then Err(IndexError) else Ok(())
  }

  /** One iteration of the row loop: the row's fixture, after its lineup page was scraped. */
  function RowStep(row: FixtureRow, clubIds: Dict, lineups: string -> Fetch<nat>, sim: Similarity): Result<Option<Fixture>>
  {
    match RowFixture(row, clubIds, sim)
    case Err(e) => Err(e)
    case Ok(None) => Ok(None)
    case Ok(Some(fx)) =>
      match ScrapeLineup(lineups(fx.link))
      case Err(e) => Err(e)
      case Ok(_) => Ok(Some(fx))
  }

  /** The outcome of each row of the table. */
  function RowSteps(rows: seq<FixtureRow>, clubIds: Dict, lineups: string -> Fetch<nat>, sim: Similarity): (os: seq<Result<Option<Fixture>>>)
    ensures |os| == |rows|
    ensures forall i :: 0 <= i < |rows| ==> os[i] == RowStep(rows[i], clubIds, lineups, sim)
  {
    seq(|rows|, i requires 0 <= i < |rows| => RowStep(rows[i], clubIds, lineups, sim))
  }

  /** The row loop: fixtures in row order, stopping at the first row that raises. */
  function Fixtures(rows: seq<FixtureRow>, clubIds: Dict, lineups: string -> Fetch<nat>, sim: Similarity): Result<seq<Fixture>>
  {
    Collect(RowSteps(rows, clubIds, lineups, sim))
  }

  /** The loop raises exactly when some row does, and then what the first such row raises;
      otherwise it yields exactly the fixtures of the rows not skipped. */
  lemma FixturesSpec(rows: seq<FixtureRow>, clubIds: Dict, lineups: string -> Fetch<nat>, sim: Similarity)
    ensures Fixtures(rows, clubIds, lineups, sim).Ok? <==> forall i :: 0 <= i < |rows| ==> RowStep(rows[i], clubIds, lineups, sim).Ok?
    ensures Fixtures(rows, clubIds, lineups, sim).Err? ==>
              exists i :: 0 <= i < |rows| && RowStep(rows[i], clubIds, lineups, sim) == Err(Fixtures(rows, clubIds, lineups, sim).error)
                && forall j :: 0 <= j < i ==> RowStep(rows[j], clubIds, lineups, sim).Ok?
    ensures Fixtures(rows, clubIds, lineups, sim).Ok? ==>
              && |Fixtures(rows, clubIds, lineups, sim).value| <= |rows|
              && forall fx :: fx in Fixtures(rows, clubIds, lineups, sim).value <==>
                   exists i :: 0 <= i < |rows| && RowStep(rows[i], clubIds, lineups, sim) == Ok(Some(fx))
  {
    var os := RowSteps(rows, clubIds, lineups, sim);
    CollectOk(os);
    if Collect(os).Err? {
      CollectFirstError(os);
    } else {
      CollectKept(os);
    }
  }

  /** The fixture table of a season page: requesting it raises like `requestPage`. */
  function SeasonFixtures(page: Fetch<seq<FixtureRow>>, clubIds: Dict, lineups: string -> Fetch<nat>, sim: Similarity): Result<seq<Fixture>>
  {
    match Strict(page)
    case Err(e) => Err(e)
    case Ok(rows) => Fixtures(rows, clubIds, lineups, sim)
  }

  class LineupScraper {
    const store: LeagueTable

    constructor (store: LeagueTable)
      ensures this.store == store
    {
      this.store := store;
    }

    /** `seasonLinkFetcher`: the links of the `"1990--1991"` to `"2020--2021"` periods. */
    method SeasonLinkFetcher(urls: seq<(string, string)>) returns (r: Result<seq<SeasonLink>>)
      ensures r == SeasonLinks(urls, LineupsYears, LineupsFormat)
    {
      r := FetchSeasonLinks(urls, LineupsYears, LineupsFormat);
    }

    /** `insertLinksToDB`: sets `lineups_location` of the stored `(league, season)` rows only. */
    method InsertLinksToDB(links: seq<SeasonLink>) returns (r: Result<()>)
      modifies store
      ensures links == [] ==> r == Err(SqlError("syntax error at end of VALUES")) && store.rows == old(store.rows)
      ensures links != [] ==> r == Ok(()) && store.rows == UpdatedLocations(old(store.rows), LinkPairs(links), LineupsLocation)
      ensures store.rows.Keys == old(store.rows).Keys
    {
      r := store.UpdateExisting(LinkPairs(links), LineupsLocation);
    }

    /** `findMostSimilarClubName`. */
    method FindMostSimilarClubName(clubName: string, clubIds: Dict, sim: Similarity) returns (r: Result<int>)
      ensures r == Resolve(clubIds, clubName, sim)
    {
      if clubName in Keys(clubIds) {
        return Ok(Get(clubIds, clubName));
      }
      r := SearchSimilar(clubIds, clubName, sim);
    }

    /** `fixtureLinkScraper` over the season page's rows, given the club ids of the season
        and the lineup page of each fixture link. */
    method FixtureLinkScraper(page: Fetch<seq<FixtureRow>>, clubIds: Dict, lineups: string -> Fetch<nat>, sim: Similarity)
      returns (r: Result<seq<Fixture>>)
      ensures r == SeasonFixtures(page, clubIds, lineups, sim)
    {
      var fetched := Strict(page);
      if fetched.Err? {
        return Err(fetched.error);
      }
      var rows := fetched.value;
      ghost var os := RowSteps(rows, clubIds, lineups, sim);
      var fixtures: seq<Fixture> := [];
      for i := 0 to |rows|
        invariant Collect(os[..i]) == Ok(fixtures)
      {
        var step := RowStep(rows[i], clubIds, lineups, sim);
        CollectStep(os, i);
        if step.Err? {
          CollectErr(os, i + 1, step.error);
          return Err(step.error);
        }
        fixtures := fixtures + (if step.value.Some? then [step.value.value] else []);
      }
      assert os[..|rows|] == os;
      r := Ok(fixtures);
    }
  }

  /** The `(league, season, link)` payload rows of an update. */
  function LinkPairs(links: seq<SeasonLink>): (ps: seq<(LeagueKey, string)>)
    ensures |ps| == |links|
    ensures forall i :: 0 <= i < |links| ==> ps[i] == (LeagueKey(links[i].code, links[i].tag), links[i].url)
  {
    seq(|links|, i requires 0 <= i < |links| => (LeagueKey(links[i].code, links[i].tag), links[i].url))
  }
}

=== FILE: http.dfy ===
/** What the scrapers do with the outcome of one `requests.get`. The transport is not
    modelled: a request's outcome is an input. The files differ in how they treat failures,
    and each variant below is the one its file uses. */
module Http {
  import opened Common

  /** The outcome of a request: the connection failed, or a reply with its status code and
      whatever the caller reads from it (`P`). */
  datatype Fetch<P> = ConnectionError | Reply(status: int, page: P)

  predicate IsOk<P>(f: Fetch<P>) { f.Reply? && f.status == 200 }

  /** `requestPage` of the match refresher and the predictor: a failed connection and a 500
      are skipped (`None`), any other non-200 status raises, 200 gives the reply. */
  function SkipServerErrors<P>(f: Fetch<P>): (r: Result<Option<P>>)
    ensures r.Err? <==> f.Reply? && f.status != 200 && f.status != 500
    ensures r.Err? ==> r.error == HttpStatus(f.status)
    ensures r.Ok? && r.value.Some? <==> IsOk(f)
    ensures IsOk(f) ==> r == Ok(Some(f.page))
  {
    match f
    case ConnectionError => Ok(None)
    case Reply(status, page) =>
      if status == 500 then Ok(None)
      else if status != 200 then Err(HttpStatus(status))
      else Ok(Some(page))
  }

  /** `requestPage` of the player scraper and the odds builder: any failure is `None`. */
  function Lenient<P>(f: Fetch<P>): (r: Option<P>)
    ensures r.Some? <==> IsOk(f)
    ensures IsOk(f) ==> r == Some(f.page)
  {
    match f
    case ConnectionError => None
    case Reply(status, page) => if status != 200 then None else Some(page)
  }

  /** `requestPage` of the older scrapers: the connection error is logged and `response`
      stays `None`, so reading its status raises `AttributeError`; a non-200 status raises. */
  function Strict<P>(f: Fetch<P>): (r: Result<P>)
    ensures r.Ok? <==> IsOk(f)
    ensures IsOk(f) ==> r == Ok(f.page)
    ensures f.ConnectionError? ==> r == Err(AttributeError)
    ensures f.Reply? && f.status != 200 ==> r == Err(HttpStatus(f.status))
  {
    match f
    case ConnectionError => Err(AttributeError)
    case Reply(status, page) => if status != 200 then Err(HttpStatus(status)) else Ok(page)
  }

  /** The link generator's probe: the URL itself on 200, `False` (here `None`) on any other
      status, and `AttributeError` on a failed connection. */
  function Probe<P>(f: Fetch<P>, url: string): (r: Result<Option<string>>)
    ensures r.Err? <==> f.ConnectionError?
    ensures r == Ok(Some(url)) <==> IsOk(f)
    ensures f.Reply? && f.status != 200 ==> r == Ok(None)
  {
    match f
    case ConnectionError => Err(AttributeError)
    case Reply(status, _) => if status != 200 then Ok(None) else Ok(Some(url))
  }

  /** The four policies agree on what counts as a usable page; they differ only in whether a
      failure is skipped or raised. */
  lemma PoliciesAgree<P>(f: Fetch<P>, url: string)
    ensures Lenient(f).Some? <==> Strict(f).Ok?
    ensures Lenient(f).Some? || f.ConnectionError? ==> SkipServerErrors(f) == Ok(Lenient(f))
    ensures Probe(f, url) == Ok(Some(url)) <==> Lenient(f).Some?
    ensures SkipServerErrors(f).Err? ==> Strict(f).Err? && Lenient(f).None?
  {
  }
}

=== FILE: lineup_flask.dfy ===
/** The lineup writer of the cloud service: for one league and season it resolves each scraped
    match's team and player names to stored ids and inserts the match, unless a match with the
    same teams and date is already stored. */
module LineupFlask {
  import opened Common
  import opened Dicts
  import opened Resolution
  import opened Store
  import opened Catalog

  /** The `match_info` dict of one scraped match. */
  datatype MatchFacts = MatchFacts(
    homeTeam: string, awayTeam: string, gameDate: string, status: Option<string>, link: Option<string>,
    homeLineup: seq<Option<string>>, awayLineup: seq<Option<string>>, homeGoals: Option<int>, awayGoals: Option<int>)

  /** The match row `extractLineups` hands to `insertMatch`. */
  function Plan(clubIds: Dict, playerIds: map<int, seq<(string, int)>>, season: string, league: string,
                info: MatchFacts, sim: Similarity): (r: Result<MatchRow>)
    ensures r.Err? <==> ResolveMatch(clubIds, playerIds, season, league, info.homeTeam, info.awayTeam, info.homeLineup, info.awayLineup, sim).Err?
    ensures r.Ok? ==>
              var m := ResolveMatch(clubIds, playerIds, season, league, info.homeTeam, info.awayTeam, info.homeLineup, info.awayLineup, sim).value;
              && r.value.key == MatchKey(m.homeId, m.awayId, info.gameDate)
              && r.value.homeSlots == m.homeIds && r.value.awaySlots == m.awayIds
              && r.value.status == info.status && r.value.link == info.link
              && r.value.homeGoals == info.homeGoals && r.value.awayGoals == info.awayGoals && r.value.odds == NoOdds
  {
    match ResolveMatch(clubIds, playerIds, season, league, info.homeTeam, info.awayTeam, info.homeLineup, info.awayLineup, sim)
    case Err(e) => Err(e)
    case Ok(m) =>
      Ok(MatchRow(MatchKey(m.homeId, m.awayId, info.gameDate), info.status, info.link, m.homeIds, m.awayIds,
                  info.homeGoals, info.awayGoals, NoOdds))
  }

  /** What `extractLineups` returns for one match, whatever the table holds: the insert
      raises when the two lineups together do not bind the 22 slots. */
  function Outcome(clubIds: Dict, playerIds: map<int, seq<(string, int)>>, season: string, league: string,
                   info: MatchFacts, sim: Similarity): Result<()>
  {
    match Plan(clubIds, playerIds, season, league, info, sim)
    case Err(e) => Err(e)
    case Ok(row) =>
      match Bound(row)
      case Err(e) => Err(e)
      case Ok(_) => Ok(())
  }

  /** The first failure among the submitted matches, in submission order; `None` entries are
      not submitted. */
  function FirstFailure(clubIds: Dict, playerIds: map<int, seq<(string, int)>>, season: string, league: string,
                        infos: seq<Option<MatchFacts>>, sim: Similarity): (r: Result<()>)
    ensures r.Ok? <==> forall i :: 0 <= i < |infos| && infos[i].Some? ==>
                         Outcome(clubIds, playerIds, season, league, infos[i].value, sim).Ok?
    ensures r.Ok? ==> r == Ok(())
    decreases |infos|
  {
    if infos == [] then Ok(())
    else
      assert forall i :: 1 <= i < |infos| ==> infos[i] == infos[1..][i - 1];
      if infos[0].Some? && Outcome(clubIds, playerIds, season, league, infos[0].value, sim).Err? then
        Outcome(clubIds, playerIds, season, league, infos[0].value, sim)
      else FirstFailure(clubIds, playerIds, season, league, infos[1..], sim)
  }

  /** Whether a match that succeeds has its key stored in `rows`. */
  predicate Landed(clubIds: Dict, playerIds: map<int, seq<(string, int)>>, season: string, league: string, sim: Similarity,
                   rows: map<int, MatchRow>, info: MatchFacts)
  {
    Outcome(clubIds, playerIds, season, league, info, sim).Ok? ==>
      KeyTaken(rows, Plan(clubIds, playerIds, season, league, info, sim).value.key)
  }

  /** The change one match makes to the `match` rows: none when it fails; when it succeeds,
      none if its key is stored already, and otherwise its row, slots bound positionally,
      under the next `match_id`. */
  predicate InsertEffect(clubIds: Dict, playerIds: map<int, seq<(string, int)>>, season: string, league: string, sim: Similarity,
                         info: MatchFacts, before: map<int, MatchRow>, nextId: int, after: map<int, MatchRow>)
  {
    if Outcome(clubIds, playerIds, season, league, info, sim).Err? then after == before
    else
      var row := Plan(clubIds, playerIds, season, league, info, sim).value;
      after == if KeyTaken(before, row.key) then before else before[nextId := Bound(row).value]
  }

  class MatchTableBuilder {
    const season: string
    const league: string
    /** `_club_ids`: the league's club names and ids, read once. */
    const clubIds: Dict
    /** `_player_ids`: per club of the league, its players, read once. */
    const playerIds: map<int, seq<(string, int)>>
    /** The database the builder writes to. */
    const store: MatchTable

    /** Reads the league's clubs (`fetchClubIds`) and groups its players by club
        (`fetchPlayerIds`) from the stored rows. */
    constructor (store: MatchTable, clubs: seq<ClubRecord>, players: seq<PlayerRecord>, league: string, season: string)
      ensures this.store == store && this.league == league && this.season == season
      ensures clubIds == FromPairs(ClubsIn(clubs, league, season))
      ensures playerIds == Grouped(map[], PlayersIn(players, season, league))
      ensures forall c :: c in playerIds <==> HasClub(PlayersIn(players, season, league), c)
      ensures forall c :: c in playerIds ==> playerIds[c] == RowsOf(PlayersIn(players, season, league), c)
    {
      this.store := store;
      this.league := league;
      this.season := season;
      clubIds := FromPairs(ClubsIn(clubs, league, season));
      var groups := GroupRows(map[], PlayersIn(players, season, league));
      playerIds := groups;
    }

    /** `extractLineups` for one match: 200 once the insert-if-absent has run. */
    method ExtractLineups(info: MatchFacts, sim: Similarity) returns (r: Result<int>)
      requires store.Valid()
      modifies store
      ensures store.Valid()
      ensures store.clubMatch == old(store.clubMatch)
      ensures InsertEffect(clubIds, playerIds, season, league, sim, info, old(store.rows), old(store.nextId), store.rows)
      ensures Kept(old(store.rows), store.rows)
      ensures Landed(clubIds, playerIds, season, league, sim, store.rows, info)
      ensures r.Ok? <==> Outcome(clubIds, playerIds, season, league, info, sim).Ok?
      ensures r.Err? ==> r.error == Outcome(clubIds, playerIds, season, league, info, sim).error
      ensures r.Ok? ==> r.value == 200
    {
      var ids := ResolveMatchIds(clubIds, playerIds, season, league, info.homeTeam, info.awayTeam, info.homeLineup, info.awayLineup, sim);
      if ids.Err? {
        return Err(ids.error);
      }
      var m := ids.value;
      var row := MatchRow(MatchKey(m.homeId, m.awayId, info.gameDate), info.status, info.link,
                          m.homeIds, m.awayIds, info.homeGoals, info.awayGoals, NoOdds);
      var inserted := store.InsertIfAbsent(row);
      if inserted.Err? {
        return Err(inserted.error);
      }
      r := Ok(200);
      assert KeyTaken(store.rows, row.key) by {
        if inserted == Ok(true) {
          assert store.rows[old(store.nextId)].key == row.key;
        }
      }
    }

    /** `runner`: every non-`None` match is handled, and the runner then raises the first
        failure. Rows already stored are never changed, and every match that succeeded has its
        key stored afterwards. */
    method Runner(infos: seq<Option<MatchFacts>>, sim: Similarity) returns (r: Result<()>)
      requires store.Valid()
      modifies store
      ensures store.Valid()
      ensures store.clubMatch == old(store.clubMatch)
      ensures r == FirstFailure(clubIds, playerIds, season, league, infos, sim)
      ensures Kept(old(store.rows), store.rows)
      ensures AllLanded(clubIds, playerIds, season, league, sim, store.rows, infos, |infos|)
    {
      ghost var rows0 := store.rows;
      r := Ok(());
      for i := 0 to |infos|
        invariant store.Valid()
        invariant store.clubMatch == old(store.clubMatch)
        invariant Kept(rows0, store.rows)
        invariant AllLanded(clubIds, playerIds, season, league, sim, store.rows, infos, i)
        invariant r.Ok? ==> r == FirstFailure(clubIds, playerIds, season, league, infos[..i], sim)
        invariant r.Err? ==> r == FirstFailure(clubIds, playerIds, season, league, infos, sim)
      {
        ghost var before := store.rows;
        if infos[i].Some? {
          var status := ExtractLineups(infos[i].value, sim);
          if status.Err? && r.Ok? {
            r := Err(status.error);
            FirstFailureAt(clubIds, playerIds, season, league, infos, i, sim);
          }
        }
        AllLandedStep(clubIds, playerIds, season, league, sim, before, store.rows, infos, i);
        if r.Ok? {
          FirstFailureStep(clubIds, playerIds, season, league, infos, i, sim);
        }
      }
      if r.Ok? {
        assert infos[..|infos|] == infos;
      }
    }
  }

  /** Whether every submitted match among the first `n` that succeeds has its key in `rows`. */
  ghost predicate AllLanded(clubIds: Dict, playerIds: map<int, seq<(string, int)>>, season: string, league: string, sim: Similarity,
                            rows: map<int, MatchRow>, infos: seq<Option<MatchFacts>>, n: int)
    requires n <= |infos|
  {
    forall j :: 0 <= j < n && infos[j].Some? ==> Landed(clubIds, playerIds, season, league, sim, rows, infos[j].value)
  }

  lemma AllLandedStep(clubIds: Dict, playerIds: map<int, seq<(string, int)>>, season: string, league: string, sim: Similarity,
                      before: map<int, MatchRow>, after: map<int, MatchRow>, infos: seq<Option<MatchFacts>>, i: nat)
    requires i < |infos|
    requires Kept(before, after)
    requires AllLanded(clubIds, playerIds, season, league, sim, before, infos, i)
    requires infos[i].Some? ==> Landed(clubIds, playerIds, season, league, sim, after, infos[i].value)
    ensures AllLanded(clubIds, playerIds, season, league, sim, after, infos, i + 1)
  {
    forall j | 0 <= j < i && infos[j].Some?
      ensures Landed(clubIds, playerIds, season, league, sim, after, infos[j].value)
    {
      LandedKept(clubIds, playerIds, season, league, sim, before, after, infos[j].value);
    }
  }

  /** A stored key stays stored when the rows are kept. */
  lemma LandedKept(clubIds: Dict, playerIds: map<int, seq<(string, int)>>, season: string, league: string, sim: Similarity,
                   before: map<int, MatchRow>, after: map<int, MatchRow>, info: MatchFacts)
    requires Kept(before, after)
    requires Landed(clubIds, playerIds, season, league, sim, before, info)
    ensures Landed(clubIds, playerIds, season, league, sim, after, info)
  {
    if Outcome(clubIds, playerIds, season, league, info, sim).Ok? {
      KeptTaken(before, after, Plan(clubIds, playerIds, season, league, info, sim).value.key);
    }
  }

  /** The first failure of a prefix with no failure, one entry longer. */
  lemma {:induction false} FirstFailureStep(clubIds: Dict, playerIds: map<int, seq<(string, int)>>, season: string, league: string,
                                            infos: seq<Option<MatchFacts>>, i: nat, sim: Similarity)
    requires i < |infos|
    requires FirstFailure(clubIds, playerIds, season, league, infos[..i], sim).Ok?
    requires infos[i].None? || Outcome(clubIds, playerIds, season, league, infos[i].value, sim).Ok?
    ensures FirstFailure(clubIds, playerIds, season, league, infos[..i + 1], sim) == Ok(())
  {
    var p := infos[..i + 1];
    forall j | 0 <= j < |p| && p[j].Some?
      ensures Outcome(clubIds, playerIds, season, league, p[j].value, sim).Ok?
    {
      if j < i {
        assert p[j] == infos[..i][j];
      }
    }
  }

  /** A first failure at position `i` after a prefix without failures is the failure of the
      whole list. */
  lemma {:induction false} FirstFailureAt(clubIds: Dict, playerIds: map<int, seq<(string, int)>>, season: string, league: string,
                                          infos: seq<Option<MatchFacts>>, i: nat, sim: Similarity)
    requires i < |infos| && infos[i].Some?
    requires FirstFailure(clubIds, playerIds, season, league, infos[..i], sim).Ok?
    requires Outcome(clubIds, playerIds, season, league, infos[i].value, sim).Err?
    ensures FirstFailure(clubIds, playerIds, season, league, infos, sim) == Outcome(clubIds, playerIds, season, league, infos[i].value, sim)
    decreases i
  {
    if i > 0 {
      assert infos[0] == infos[..i][0];
      assert infos[0].None? || Outcome(clubIds, playerIds, season, league, infos[0].value, sim).Ok?;
      assert infos[1..][..i - 1] == infos[..i][1..];
      FirstFailureAt(clubIds, playerIds, season, league, infos[1..], i - 1, sim);
    }
  }
}

=== FILE: match_refresher.dfy ===
/** The match refresher: for every stored match still marked upcoming whose date has come, it
    reads the match page, and when the page shows a final score and both full lineups it
    writes the goals and the 22 player ids onto the match row. */
module MatchRefresher {
  import opened Common
  import opened Dicts
  import opened Resolution
  import opened Http
  import opened Store
  import opened Catalog
  import opened MatchInfo

  /** What `extractMatchInfo` returns: the four values (goals as the digits read, lineups as
      the first eleven names), or the bare `None` of an incomplete lineup. */
  datatype Extracted =
    | Info(homeGoals: Option<nat>, awayGoals: Option<nat>, homeLineup: Option<seq<string>>, awayLineup: Option<seq<string>>)
    | BareNone

  /** Whether the page shows a finished match with a readable single-digit score. */
  predicate GoalsShown(page: MatchPage)
  {
    && page.details.Some? && page.details.value.scoretime.Some?
    && var st := page.details.value.scoretime.value;
       && (st.marker == "FT" || st.marker == "AET")
       && exists j :: 0 <= j < |st.text| && ScoreAt(st.text, j)
  }

  /** The facts of a fetched page. */
  function PageInfo(page: MatchPage): (r: Extracted)
    ensures r.BareNone? <==>
              page.lineups.Some? && (|page.lineups.value.homeRows| < 12 || |page.lineups.value.awayRows| < 12)
    ensures r.Info? ==> (r.homeGoals.Some? <==> GoalsShown(page)) && (r.awayGoals.Some? <==> GoalsShown(page))
    ensures r.Info? && GoalsShown(page) ==>
              var text := page.details.value.scoretime.value.text;
              exists j :: && ScoreAt(text, j) && (forall j' :: 0 <= j' < j ==> !ScoreAt(text, j'))
                          && r.homeGoals == Some(DigitValue(text[j])) && r.awayGoals == Some(DigitValue(text[j + 4]))
    ensures r.Info? ==> (r.homeLineup.Some? <==> page.lineups.Some?) && (r.awayLineup.Some? <==> page.lineups.Some?)
    ensures r.Info? && page.lineups.Some? ==>
              r.homeLineup.value == page.lineups.value.homeRows[..Starters]
              && r.awayLineup.value == page.lineups.value.awayRows[..Starters]
  {
    var goals :=
      if GoalsShown(page) then Scoreline(page.details.value.scoretime.value.text) else None;
    match page.lineups
    case None => Info(if goals.Some? then Some(goals.value.0) else None, if goals.Some? then Some(goals.value.1) else None, None, None)
    case Some(block) =>
      match FullLineups(block)
      case None => BareNone
      case Some((home, away)) =>
        Info(if goals.Some? then Some(goals.value.0) else None, if goals.Some? then Some(goals.value.1) else None, Some(home), Some(away))
  }

  /** `extractMatchInfo` on the outcome of the page request: a failed connection or a 500
      gives four `None`s, any other failure raises. */
  function Extraction(f: Fetch<MatchPage>): (r: Result<Extracted>)
    ensures f.ConnectionError? || f.status == 500 ==> r == Ok(Info(None, None, None, None))
    ensures f.Reply? && f.status != 200 && f.status != 500 ==> r == Err(HttpStatus(f.status))
    ensures IsOk(f) ==> r == Ok(PageInfo(f.page))
  {
    match SkipServerErrors(f)
    case Err(e) => Err(e)
    case Ok(None) => Ok(Info(None, None, None, None))
    case Ok(Some(page)) => Ok(PageInfo(page))
  }

  /** `extractMatchInfo`, setting its four locals step by step. */
  method ExtractMatchInfo(f: Fetch<MatchPage>) returns (r: Result<Extracted>)
    ensures r == Extraction(f)
  {
    var reply := SkipServerErrors(f);
    if reply.Err? {
      return Err(reply.error);
    }
    if reply.value.None? {
      return Ok(Info(None, None, None, None));
    }
    var page := reply.value.value;
    var homeGoals: Option<nat> := None;
    var awayGoals: Option<nat> := None;
    var homeLineup: Option<seq<string>> := None;
    var awayLineup: Option<seq<string>> := None;
    if page.details.Some? && page.details.value.scoretime.Some? {
      var st := page.details.value.scoretime.value;
      if st.marker == "FT" || st.marker == "AET" {
        var score := Scoreline(st.text);
        if score.Some? {
          homeGoals := Some(score.value.0);
          awayGoals := Some(score.value.1);
        }
      }
    }
    if page.lineups.Some? {
      var block := page.lineups.value;
      if |block.homeRows| < 12 || |block.awayRows| < 12 {
        return Ok(BareNone);
      }
      homeLineup := Some(block.homeRows[..11]);
      awayLineup := Some(block.awayRows[..11]);
    }
    r := Ok(Info(homeGoals, awayGoals, homeLineup, awayLineup));
  }

  /** Whether all four extracted values are present. */
  predicate Complete(x: Extracted)
  {
    x.Info? && x.homeGoals.Some? && x.awayGoals.Some? && x.homeLineup.Some? && x.awayLineup.Some?
  }

  /** `matchPlayerIds`: the home lineup against the home squad, then the away lineup against
      the away squad. */
  function LineupPair(cache: map<int, seq<(string, int)>>, homeId: int, awayId: int,
                      homeLineup: seq<Option<string>>, awayLineup: seq<Option<string>>, sim: Similarity)
    : Result<(seq<Option<int>>, seq<Option<int>>)>
  {
    match LineupIds(cache, homeId, homeLineup, sim)
    case Err(e) => Err(e)
    case Ok(home) =>
      match LineupIds(cache, awayId, awayLineup, sim)
      case Err(e) => Err(e)
      case Ok(away) => Ok((home, away))
  }

  /** One row of the upcoming-match query. */
  datatype Upcoming = Upcoming(matchId: int, homeId: int, awayId: int, link: string, league: string, season: string)

  /** The player cache after the refetch check. `fetchPlayerIds(season, league)` is called as
      `fetchPlayerIds(league, season)`, so its query compares the season column with the league
      code and the league column with the season. */
  function CacheFor(cache: map<int, seq<(string, int)>>, players: seq<PlayerRecord>, m: Upcoming): map<int, seq<(string, int)>>
  {
    if m.homeId !in cache || m.awayId !in cache then Grouped(cache, PlayersIn(players, m.league, m.season))
    else cache
  }

  /** The match rows after one upcoming match is handled, with the cache already refreshed. */
  function Refreshed(cache: map<int, seq<(string, int)>>, rows: map<int, MatchRow>, m: Upcoming, f: Fetch<MatchPage>, sim: Similarity)
    : (r: Result<map<int, MatchRow>>)
    ensures Extraction(f) == Ok(BareNone) ==> r == Err(TypeError)
    ensures Extraction(f).Ok? && Extraction(f).value.Info? && !Complete(Extraction(f).value) ==> r == Ok(rows)
    ensures r.Ok? ==> r.value.Keys == rows.Keys && forall id :: id in rows && id != m.matchId ==> r.value[id] == rows[id]
  {
    match Extraction(f)
    case Err(e) => Err(e)
    case Ok(BareNone) => Err(TypeError)
    case Ok(x) =>
      if Complete(x) then
        match LineupPair(cache, m.homeId, m.awayId, Named(x.homeLineup.value), Named(x.awayLineup.value), sim)
        case Err(e) => Err(e)
        case Ok((home, away)) =>
          match BindSlots(home, away)
          case Err(e) => Err(e)
          case Ok(_) => Ok(WithResult(rows, m.matchId, x.homeGoals.value, x.awayGoals.value, home + away))
      else Ok(rows)
  }

  /** The refresher's state: its player cache and the `match` table. */
  datatype RefreshState = RefreshState(cache: map<int, seq<(string, int)>>, rows: map<int, MatchRow>)

  /** One turn of the loop of `fetchUpcomingMatches`, and the exception it raises, if any. */
  function Step(s: RefreshState, m: Upcoming, players: seq<PlayerRecord>, fetch: string -> Fetch<MatchPage>, sim: Similarity)
    : (RefreshState, Option<Error>)
  {
    var cache := CacheFor(s.cache, players, m);
    match Refreshed(cache, s.rows, m, fetch(m.link), sim)
    case Err(e) => (RefreshState(cache, s.rows), Some(e))
    case Ok(rows) => (RefreshState(cache, rows), None)
  }

  /** The loop over the upcoming matches: the first exception ends it, and what was done
      before stays done. */
  function RefreshAll(s: RefreshState, due: seq<Upcoming>, players: seq<PlayerRecord>, fetch: string -> Fetch<MatchPage>, sim: Similarity)
    : (RefreshState, Option<Error>)
    decreases |due|
  {
    if due == [] then (s, None)
    else
      var (p, e) := RefreshAll(s, due[..|due| - 1], players, fetch, sim);
      if e.Some? then (p, e) else Step(p, due[|due| - 1], players, fetch, sim)
  }

  function AsResult(e: Option<Error>): Result<()>
  {
    if e.Some? then Err(e.value) else Ok(())
  }

  /** Whether every list of `cache` is still there in `cache'`, possibly extended. */
  predicate CacheGrows(cache: map<int, seq<(string, int)>>, cache': map<int, seq<(string, int)>>)
  {
    forall c :: c in cache ==> c in cache' && cache[c] <= cache'[c]
  }

  /** The refresher adds no match and removes none, touches only the matches it was given, and
      never forgets a cached player. */
  lemma {:induction false} RefreshAllFrame(s: RefreshState, due: seq<Upcoming>, players: seq<PlayerRecord>,
                                          fetch: string -> Fetch<MatchPage>, sim: Similarity)
    ensures RefreshAll(s, due, players, fetch, sim).0.rows.Keys == s.rows.Keys
    ensures forall id :: id in s.rows && (forall i :: 0 <= i < |due| ==> due[i].matchId != id) ==>
              RefreshAll(s, due, players, fetch, sim).0.rows[id] == s.rows[id]
    ensures CacheGrows(s.cache, RefreshAll(s, due, players, fetch, sim).0.cache)
    decreases |due|
  {
    if due != [] {
      var n := |due| - 1;
      RefreshAllFrame(s, due[..n], players, fetch, sim);
      var (p, e) := RefreshAll(s, due[..n], players, fetch, sim);
      if e.None? {
        StepFrame(p, due[n], players, fetch, sim);
        forall id | id in s.rows && (forall i :: 0 <= i < |due| ==> due[i].matchId != id)
          ensures RefreshAll(s, due, players, fetch, sim).0.rows[id] == s.rows[id]
        {
          assert forall i :: 0 <= i < n ==> due[..n][i].matchId != id;
        }
      }
    }
  }

  /** One turn keeps the table's ids, leaves the other matches alone and only adds to the
      cache. */
  lemma StepFrame(p: RefreshState, m: Upcoming, players: seq<PlayerRecord>, fetch: string -> Fetch<MatchPage>, sim: Similarity)
    ensures Step(p, m, players, fetch, sim).0.rows.Keys == p.rows.Keys
    ensures forall id :: id in p.rows && id != m.matchId ==> Step(p, m, players, fetch, sim).0.rows[id] == p.rows[id]
    ensures CacheGrows(p.cache, Step(p, m, players, fetch, sim).0.cache)
  {
    GroupedSpec(p.cache, PlayersIn(players, m.league, m.season));
    assert CacheGrows(p.cache, CacheFor(p.cache, players, m));
  }

  /** With the swapped arguments the refetch finds nothing when the stored seasons are
      numeric and the league code is not, so a club missing from the cache stays missing and
      its match fails with a `KeyError`. */
  lemma SwappedRefetchFails(cache: map<int, seq<(string, int)>>, rows: map<int, MatchRow>, players: seq<PlayerRecord>,
                            m: Upcoming, f: Fetch<MatchPage>, sim: Similarity)
    requires forall p :: p in players ==> AllDigits(p.season)
    requires !AllDigits(m.league)
    requires m.homeId !in cache
    requires Extraction(f).Ok? && Complete(Extraction(f).value)
    ensures CacheFor(cache, players, m) == cache
    ensures Refreshed(CacheFor(cache, players, m), rows, m, f, sim) == Err(KeyErrorId(m.homeId))
  {
    SwappedQueryEmpty(players, m.league, m.season);
  }

  class Refresher {
    /** `_player_ids`: per club, its `(name, player_id)` pairs in the order they were read. */
    var playerIds: map<int, seq<(string, int)>>
    /** The database the refresher writes to. */
    const store: MatchTable
    /** The player rows the player query reads, with their club's league and season. */
    const players: seq<PlayerRecord>

    constructor (store: MatchTable, players: seq<PlayerRecord>)
      ensures this.store == store && this.players == players && playerIds == map[]
    {
      this.store := store;
      this.players := players;
      playerIds := map[];
    }

    /** `fetchPlayerIds(season, league)`: every selected row is appended to its club's list,
        which is created on first sight; lists already cached keep their entries. */
    method FetchPlayerIds(season: string, league: string)
      modifies this
      ensures playerIds == Grouped(old(playerIds), PlayersIn(players, season, league))
      ensures forall c :: c in playerIds <==> c in old(playerIds) || HasClub(PlayersIn(players, season, league), c)
      ensures forall c :: c in playerIds ==>
                playerIds[c] == (if c in old(playerIds) then old(playerIds)[c] else []) + RowsOf(PlayersIn(players, season, league), c)
    {
      playerIds := GroupRows(playerIds, PlayersIn(players, season, league));
    }

    /** `matchPlayerIds`: a club without a cached list is a `KeyError`; otherwise each lineup
        keeps its length and order, and each slot is resolved against its club's squad. */
    method MatchPlayerIds(homeId: int, awayId: int, homeLineup: seq<Option<string>>, awayLineup: seq<Option<string>>, sim: Similarity)
      returns (r: Result<(seq<Option<int>>, seq<Option<int>>)>)
      ensures r == LineupPair(playerIds, homeId, awayId, homeLineup, awayLineup, sim)
      ensures homeId !in playerIds ==> r == Err(KeyErrorId(homeId))
      ensures homeId in playerIds && awayId !in playerIds ==> r.Err?
      ensures r.Ok? ==> |r.value.0| == |homeLineup| && |r.value.1| == |awayLineup|
      ensures r.Ok? ==> forall i :: 0 <= i < |homeLineup| ==>
                Ok(r.value.0[i]) == ResolveSlot(FromPairs(playerIds[homeId]), homeLineup[i], sim)
      ensures r.Ok? ==> forall i :: 0 <= i < |awayLineup| ==>
                Ok(r.value.1[i]) == ResolveSlot(FromPairs(playerIds[awayId]), awayLineup[i], sim)
    {
      var home := SquadLineup(playerIds, homeId, homeLineup, sim);
      if home.Err? {
        return Err(home.error);
      }
      var away := SquadLineup(playerIds, awayId, awayLineup, sim);
      if away.Err? {
        return Err(away.error);
      }
      r := Ok((home.value, away.value));
      ResolveAllSpec(FromPairs(playerIds[homeId]), homeLineup, sim);
      ResolveAllSpec(FromPairs(playerIds[awayId]), awayLineup, sim);
    }

    /** `updateMatch`: the goals and the 22 slots of the row with that `match_id`; the list of
        25 values is bound positionally, so too few raise `IndexError` and too many `TypeError`. */
    method UpdateMatch(matchId: int, homeGoals: int, awayGoals: int, homeIds: seq<Option<int>>, awayIds: seq<Option<int>>)
      returns (r: Result<()>)
      requires store.Valid()
      modifies store
      ensures store.Valid()
      ensures store.clubMatch == old(store.clubMatch) && store.nextId == old(store.nextId)
      ensures |homeIds| + |awayIds| < 2 * Slots ==> r == Err(IndexError) && store.rows == old(store.rows)
      ensures |homeIds| + |awayIds| > 2 * Slots ==> r == Err(TypeError) && store.rows == old(store.rows)
      ensures |homeIds| + |awayIds| == 2 * Slots ==>
                r == Ok(()) && store.rows == WithResult(old(store.rows), matchId, homeGoals, awayGoals, homeIds + awayIds)
    {
      r := store.UpdateResult(matchId, homeGoals, awayGoals, homeIds, awayIds);
    }

    /** One turn of the loop of `fetchUpcomingMatches`. */
    method RefreshOne(m: Upcoming, fetch: string -> Fetch<MatchPage>, sim: Similarity) returns (r: Result<()>)
      requires store.Valid()
      modifies this, store
      ensures store.Valid()
      ensures RefreshState(playerIds, store.rows) == Step(RefreshState(old(playerIds), old(store.rows)), m, players, fetch, sim).0
      ensures r == AsResult(Step(RefreshState(old(playerIds), old(store.rows)), m, players, fetch, sim).1)
    {
      if m.homeId !in playerIds || m.awayId !in playerIds {
        FetchPlayerIds(m.league, m.season);
      }
      var info := ExtractMatchInfo(fetch(m.link));
      if info.Err? || info.value.BareNone? {
        // an exception, or unpacking the `None` of a page without a lineup
        return if info.Err? then Err(info.error) else Err(TypeError);
      }
      var x := info.value;
      if Complete(x) {
        var ids := MatchPlayerIds(m.homeId, m.awayId, Named(x.homeLineup.value), Named(x.awayLineup.value), sim);
        if ids.Err? {
          return Err(ids.error);
        }
        r := UpdateMatch(m.matchId, x.homeGoals.value, x.awayGoals.value, ids.value.0, ids.value.1);
      } else {
        r := Ok(());
      }
    }

    /** `fetchUpcomingMatches` over the rows of the upcoming-match query. */
    method FetchUpcomingMatches(due: seq<Upcoming>, fetch: string -> Fetch<MatchPage>, sim: Similarity) returns (r: Result<()>)
      requires store.Valid()
      modifies this, store
      ensures store.Valid()
      ensures RefreshState(playerIds, store.rows) == RefreshAll(RefreshState(old(playerIds), old(store.rows)), due, players, fetch, sim).0
      ensures r == AsResult(RefreshAll(RefreshState(old(playerIds), old(store.rows)), due, players, fetch, sim).1)
    {
      ghost var s0 := RefreshState(playerIds, store.rows);
      for i := 0 to |due|
        invariant store.Valid()
        invariant RefreshAll(s0, due[..i], players, fetch, sim) == (RefreshState(playerIds, store.rows), None)
      {
        assert due[..i + 1][..i] == due[..i];
        r := RefreshOne(due[i], fetch, sim);
        if r.Err? {
          RefreshAllErr(s0, due, players, fetch, sim, i + 1, |due|);
          assert due[..|due|] == due;
          return;
        }
      }
      assert due[..|due|] == due;
      r := Ok(());
    }
  }

  /** Once a prefix of the loop raises, the longer prefixes end in the same state and error. */
  lemma {:induction false} RefreshAllErr(s: RefreshState, due: seq<Upcoming>, players: seq<PlayerRecord>,
                                        fetch: string -> Fetch<MatchPage>, sim: Similarity, i: nat, j: nat)
    requires i <= j <= |due|
    requires RefreshAll(s, due[..i], players, fetch, sim).1.Some?
    ensures RefreshAll(s, due[..j], players, fetch, sim) == RefreshAll(s, due[..i], players, fetch, sim)
    decreases j - i
  {
    if i < j {
      assert due[..i + 1][..i] == due[..i];
      RefreshAllErr(s, due, players, fetch, sim, i + 1, j);
    }
  }
}

=== FILE: matchinfo.dfy ===
/** Facts the match scrapers derive from a soccerway match page, taken from fields already
    read off the page: the status marker, the scoretime heading, the date text, the team
    titles and the rows of the two lineup tables. */
module MatchInfo {
  import opened Common

  /** The `h3.thick.scoretime` heading: the text of its `span` and its whole text. */
  datatype Scoretime = Scoretime(marker: string, text: string)

  /** The `div.match-info` block. */
  datatype Details = Details(scoretime: Option<Scoretime>, date: string, homeTeam: string, awayTeam: string)

  /** The `div.combined-lineups-container` block: the player name of each row of the left and
      right tables, in row order. */
  datatype LineupBlock = LineupBlock(homeRows: seq<string>, awayRows: seq<string>)

  datatype MatchPage = MatchPage(details: Option<Details>, lineups: Option<LineupBlock>)

  /** Players per side in a lineup. */
  const Starters: nat := 11

  /** The status stored for a match, from the scoretime marker. */
  function StatusOf(marker: string): (s: string)
    ensures s == "FT" <==> marker == "FT" || marker == "AET"
    ensures s == "UPCOMING" <==> marker == "KO"
    ensures s == "STARTED" <==> marker != "FT" && marker != "AET" && marker != "KO"
  {
    if marker == "FT" || marker == "AET" then "FT"
    else if marker == "KO" then "UPCOMING"
    else "STARTED"
  }

  /** Whether `(\d) - (\d)` matches at position `i`. */
  predicate ScoreAt(text: string, i: int)
  {
    0 <= i && i + 5 <= |text| && IsDigit(text[i]) && text[i + 1..i + 4] == " - " && IsDigit(text[i + 4])
  }

  /** Where `re.search(r'(\d) - (\d)', text[from..])` matches: the leftmost position at or
      after `from`, or -1. */
  function ScoreIndex(text: string, from: nat): (i: int)
    ensures i == -1 || (from <= i && ScoreAt(text, i))
    ensures i == -1 <==> forall j :: from <= j < |text| ==> !ScoreAt(text, j)
    ensures i != -1 ==> forall j :: from <= j < i ==> !ScoreAt(text, j)
    decreases |text| - from
  {
    if from + 5 > |text| then -1
    else if ScoreAt(text, from) then from
    else ScoreIndex(text, from + 1)
  }

  /** The scoreline: the two digits of the first single-digit `home - away` in the heading. */
  function Scoreline(text: string): (r: Option<(nat, nat)>)
    ensures r.Some? ==> r.value.0 < 10 && r.value.1 < 10
    ensures r.None? <==> forall j :: 0 <= j < |text| ==> !ScoreAt(text, j)
  {
    var i := ScoreIndex(text, 0);
    if i == -1 then None else Some((DigitValue(text[i]), DigitValue(text[i + 4])))
  }

  /** A heading that reads `<h> - <a>`, with no earlier match, has that scoreline. */
  lemma ScorelineOf(prefix: string, h: nat, a: nat, suffix: string)
    requires h < 10 && a < 10
    requires forall i :: 0 <= i < |prefix| ==> !ScoreAt(prefix + [DigitChar(h)] + " - " + [DigitChar(a)] + suffix, i)
    ensures Scoreline(prefix + [DigitChar(h)] + " - " + [DigitChar(a)] + suffix) == Some((h, a))
  {
    var text := prefix + [DigitChar(h)] + " - " + [DigitChar(a)] + suffix;
    var p := |prefix|;
    assert text[p] == DigitChar(h) && text[p + 4] == DigitChar(a);
    assert text[p + 1..p + 4] == " - ";
    assert ScoreAt(text, p);
    assert ScoreIndex(text, 0) == p;
  }

  /** The lineup completeness rule: a side with fewer than 12 rows means the lineups are not
      complete (`None`); otherwise each side is its first eleven rows. */
  function FullLineups(block: LineupBlock): (r: Option<(seq<string>, seq<string>)>)
    ensures r.None? <==> |block.homeRows| < Starters + 1 || |block.awayRows| < Starters + 1
    ensures r.Some? ==> |r.value.0| == Starters && |r.value.1| == Starters
    ensures r.Some? ==> r.value.0 == block.homeRows[..Starters] && r.value.1 == block.awayRows[..Starters]
  {
    if |block.homeRows| < 12 || |block.awayRows| < 12 then None
    else Some((block.homeRows[..11], block.awayRows[..11]))
  }

  /** Every name of a lineup, as an optional name. */
  function Named(names: seq<string>): (r: seq<Option<string>>)
    ensures |r| == |names|
    ensures forall i :: 0 <= i < |names| ==> r[i] == Some(names[i])
  {
    seq(|names|, i requires 0 <= i < |names| => Some(names[i]))
  }

  /** The eleven `None`s used when a page has no lineup block. */
  function NoLineup(): (r: seq<Option<string>>)
    ensures |r| == Starters && forall i :: 0 <= i < |r| ==> r[i].None?
  {
    seq(11, _ => None)
  }

  // Dates

  function IsLeapYear(y: int): bool
  {
    (y % 4 == 0 && y % 100 != 0) || y % 400 == 0
  }

  function DaysInMonth(m: int, y: int): int
    requires 1 <= m <= 12
  {
    if m == 2 then (if IsLeapYear(y) then 29 else 28)
    else if m == 4 || m == 6 || m == 9 || m == 11 then 30
    else 31
  }

  predicate ValidDate(y: int, m: int, d: int)
  {
    1 <= m <= 12 && 1 <= d <= DaysInMonth(m, y)
  }

  /** `n` written with exactly two digits. */
  function Two(n: nat): (s: string)
    requires n < 100
    ensures |s| == 2 && AllDigits(s)
  {
    [DigitChar(n / 10), DigitChar(n % 10)]
  }

  /** `n` written with exactly four digits. */
  function Four(n: nat): (s: string)
    requires n < 10000
    ensures |s| == 4 && AllDigits(s)
  {
    Two(n / 100) + Two(n % 100)
  }

  lemma ParseTwo(n: nat)
    requires n < 100
    ensures ParseDigits(Two(n)) == n
  {
    ParseTwoChars(DigitChar(n / 10), DigitChar(n % 10));
  }

  lemma ParseFour(n: nat)
    requires n < 10000
    ensures ParseDigits(Four(n)) == n
  {
    ParseConcat2(Two(n / 100), Two(n % 100));
    ParseTwo(n / 100);
    ParseTwo(n % 100);
  }

  /** Whether `t` is a form `%d` reads as day `d`: two digits for 1 to 31, and below ten also
      one digit, or a space and one digit. */
  predicate DayText(t: string, d: nat)
  {
    || (1 <= d <= 31 && t == Two(d))
    || (1 <= d <= 9 && (t == [DigitChar(d)] || t == [' ', DigitChar(d)]))
  }

  /** Whether `t` is a form `%m` reads as month `m`: two digits for 1 to 12, and below ten
      also one digit. */
  predicate MonthText(t: string, m: nat)
  {
    || (1 <= m <= 12 && t == Two(m))
    || (1 <= m <= 9 && t == [DigitChar(m)])
  }

  /** The day `%d` reads from a field, if the field is one of `3[01]|[12]\d|0[1-9]|[1-9]| [1-9]`. */
  function DayField(t: string): (r: Option<nat>)
    ensures r.Some? ==> 1 <= r.value <= 31
  {
    if |t| == 1 && IsDigit(t[0]) && t[0] != '0' then Some(DigitValue(t[0]))
    else if |t| == 2 && t[0] == ' ' && IsDigit(t[1]) && t[1] != '0' then Some(DigitValue(t[1]))
    else if |t| == 2 && AllDigits(t) && 1 <= ParseDigits(t) <= 31 then Some(ParseDigits(t))
    else None
  }

  /** The month `%m` reads from a field, if the field is one of `1[0-2]|0[1-9]|[1-9]`. */
  function MonthField(t: string): (r: Option<nat>)
    ensures r.Some? ==> 1 <= r.value <= 12
  {
    if |t| == 1 && IsDigit(t[0]) && t[0] != '0' then Some(DigitValue(t[0]))
    else if |t| == 2 && AllDigits(t) && 1 <= ParseDigits(t) <= 12 then Some(ParseDigits(t))
    else None
  }

  /** Where a day or month field ends: every form is one or two characters long and none holds
      a slash, so the field is one character when a slash follows it and two otherwise. */
  function FieldEnd(s: string): nat
  {
    if |s| > 1 && s[1] == '/' then 1 else 2
  }

  /** The three fields of `%d/%m/%Y`: a day of one or two characters, a slash, a month of one
      or two characters, a slash and exactly four digits. A field ends at the slash after its
      first character, or else after its second. */
  function SplitDate(s: string): (r: Option<(string, string, string)>)
    ensures r.Some? ==> var (dt, mt, yt) := r.value;
              && 1 <= |dt| <= 2 && 1 <= |mt| <= 2 && |yt| == 4 && AllDigits(yt)
              && s == dt + "/" + mt + "/" + yt
  {
    var i := FieldEnd(s);
    if |s| <= i || s[i] != '/' then None
    else
      var rest := s[i + 1..];
      var j := FieldEnd(rest);
      if |rest| != j + 5 || rest[j] != '/' || !AllDigits(rest[j + 1..]) then None
      else
        assert rest == rest[..j] + "/" + rest[j + 1..];
        assert s == s[..i] + "/" + rest;
        Some((s[..i], rest[..j], rest[j + 1..]))
  }

  /** Fields that do not themselves end early are split back out. */
  lemma SplitJoin(dt: string, mt: string, yt: string)
    requires 1 <= |dt| <= 2 && (|dt| == 2 ==> dt[1] != '/')
    requires 1 <= |mt| <= 2 && (|mt| == 2 ==> mt[1] != '/')
    requires |yt| == 4 && AllDigits(yt)
    ensures SplitDate(dt + "/" + mt + "/" + yt) == Some((dt, mt, yt))
  {
    var s := dt + "/" + mt + "/" + yt;
    assert s[..|dt|] == dt;
    var rest := s[|dt| + 1..];
    assert rest == mt + "/" + yt;
    assert rest[..|mt|] == mt && rest[|mt| + 1..] == yt;
  }

  /** `datetime.strptime(s, '%d/%m/%Y').strftime('%Y-%m-%d')`: a day field, a slash, a month
      field, a slash and four digits, with nothing after them, naming a calendar date from
      year 1 on; anything else is a `ValueError`. */
  function ReformatDate(s: string): (r: Result<string>)
    ensures r.Ok? ==> |r.value| == 10 && r.value[4] == '-' && r.value[7] == '-'
  {
    match SplitDate(s)
    case None => Err(ValueError)
    case Some((dt, mt, yt)) =>
      match (DayField(dt), MonthField(mt))
      case (Some(d), Some(m)) =>
        var y := ParseDigits(yt);
        DigitsRoundTrip4(yt);
        if 1 <= y && ValidDate(y, m, d) then Ok(YearFirst(y, m, d)) else Err(ValueError)
      case _ => Err(ValueError)
  }

  /** The stored date, year first. */
  function YearFirst(y: nat, m: nat, d: nat): string
    requires y < 10000 && m < 100 && d < 100
  {
    Four(y) + "-" + Two(m) + "-" + Two(d)
  }

  /** Every calendar date, printed day first in any of the forms `strptime` reads, is stored
      as the same date, year first. */
  lemma ReformatDayFirst(dt: string, mt: string, y: nat, m: nat, d: nat)
    requires 1 <= y < 10000 && ValidDate(y, m, d) && DayText(dt, d) && MonthText(mt, m)
    ensures ReformatDate(dt + "/" + mt + "/" + Four(y)) == Ok(YearFirst(y, m, d))
  {
    DayTextField(dt, d);
    MonthTextField(mt, m);
    ParseFour(y);
    SplitJoin(dt, mt, Four(y));
  }

  /** And only such strings are accepted: an accepted string is a valid date printed day
      first in one of those forms, and it is stored year first. */
  lemma ReformatAccepts(s: string)
    requires ReformatDate(s).Ok?
    ensures exists dt: string, mt: string, y: nat, m: nat, d: nat ::
              && 1 <= y < 10000 && ValidDate(y, m, d) && DayText(dt, d) && MonthText(mt, m)
              && s == dt + "/" + mt + "/" + Four(y) && ReformatDate(s) == Ok(YearFirst(y, m, d))
  {
    var (dt, mt, yt) := SplitDate(s).value;
    DayFieldText(dt);
    MonthFieldText(mt);
    DigitsRoundTrip4(yt);
  }

  lemma DayFieldText(t: string)
    requires DayField(t).Some?
    ensures DayText(t, DayField(t).value)
  {
    if |t| == 1 && IsDigit(t[0]) && t[0] != '0' {
      DigitCharValue(t[0]);
    } else if |t| == 2 && t[0] == ' ' && IsDigit(t[1]) && t[1] != '0' {
      DigitCharValue(t[1]);
    } else {
      DigitsRoundTrip2(t);
    }
  }

  lemma DayTextField(t: string, d: nat)
    requires DayText(t, d)
    ensures DayField(t) == Some(d)
  {
    if 1 <= d <= 31 && t == Two(d) {
      ParseTwo(d);
    }
  }

  lemma MonthFieldText(t: string)
    requires MonthField(t).Some?
    ensures MonthText(t, MonthField(t).value)
  {
    if |t| == 1 {
      DigitCharValue(t[0]);
    } else {
      DigitsRoundTrip2(t);
    }
  }

  lemma MonthTextField(t: string, m: nat)
    requires MonthText(t, m)
    ensures MonthField(t) == Some(m)
  {
    if 1 <= m <= 12 && t == Two(m) {
      ParseTwo(m);
    }
  }

  lemma ParseTwoChars(a: char, b: char)
    requires IsDigit(a) && IsDigit(b)
    ensures ParseDigits([a, b]) == 10 * DigitValue(a) + DigitValue(b)
  {
    assert [a][..0] == [];
    assert ParseDigits([a]) == DigitValue(a);
    assert [a, b][..1] == [a];
  }

  lemma DigitsRoundTrip2(s: string)
    requires |s| == 2 && AllDigits(s)
    ensures ParseDigits(s) < 100 && Two(ParseDigits(s)) == s
  {
    assert s == [s[0], s[1]];
    ParseTwoChars(s[0], s[1]);
    DigitCharValue(s[0]);
    DigitCharValue(s[1]);
  }

  lemma DigitsRoundTrip4(s: string)
    requires |s| == 4 && AllDigits(s)
    ensures ParseDigits(s) < 10000 && Four(ParseDigits(s)) == s
  {
    var hi := s[..2];
    var lo := s[2..];
    assert s == hi + lo;
    DigitsRoundTrip2(hi);
    DigitsRoundTrip2(lo);
    ParseConcat2(hi, lo);
    var n := ParseDigits(s);
    assert n / 100 == ParseDigits(hi) && n % 100 == ParseDigits(lo);
  }

  /** Reading four digits is reading the first two, times 100, plus the last two. */
  lemma ParseConcat2(hi: string, lo: string)
    requires |hi| == 2 && |lo| == 2 && AllDigits(hi) && AllDigits(lo)
    ensures AllDigits(hi + lo)
    ensures ParseDigits(hi + lo) == 100 * ParseDigits(hi) + ParseDigits(lo)
  {
    var s := hi + lo;
    assert s[..3] == hi + [lo[0]];
    assert s[..3][..2] == hi;
    assert lo == [lo[0], lo[1]];
    ParseTwoChars(lo[0], lo[1]);
  }

  lemma DigitCharValue(c: char)
    requires IsDigit(c)
    ensures DigitChar(DigitValue(c)) == c
  {
  }
}

=== FILE: odds.dfy ===
/** The odds builder: it reads a football-data CSV file, matches the club names written in it
    to the clubs stored for the league, and writes the odds onto the stored matches.
    The pandas column work (broker maxima, numeric and date conversion) is not modelled;
    what is modelled is the row shaping, the club-name matching and the update by key. */
module Odds {
  import opened Common
  import opened Dicts
  import opened Resolution
  import opened Store
  import opened Catalog

  // The similarity search over a list of names

  /** `findMostSimilarClubName`: an empty candidate list raises; otherwise the first of the
      most similar names, or "" when none is similar at all. */
  method FindMostSimilarClubName(clubName: string, candidates: seq<string>, sim: Similarity) returns (r: Result<string>)
    ensures candidates == [] <==> r.Err?
    ensures r.Err? ==> r.error == Raised("Cannot do similarity matching when the param:club_ids has length 0")
    ensures r.Ok? ==> r.value == ClosestName(candidates, clubName, sim)
    ensures r.Ok? && NoneSimilar(candidates, clubName, sim) ==> r.value == ""
    ensures r.Ok? && !NoneSimilar(candidates, clubName, sim) ==>
              exists k :: IsFirstArgMax(candidates, clubName, sim, k) && r.value == candidates[k]
  {
    if |candidates| == 0 {
      return Err(Raised("Cannot do similarity matching when the param:club_ids has length 0"));
    }
    var closest, _ := MostSimilar(candidates, clubName, sim);
    r := Ok(closest);
  }

  // Row shaping

  /** `line.split(',')`: the pieces between commas, at least one. */
  function Split(line: string): (r: seq<string>)
    ensures |r| >= 1
    ensures forall i :: 0 <= i < |r| ==> ',' !in r[i]
    decreases |line|
  {
    if line == [] then [""]
    else if line[0] == ',' then [""] + Split(line[1..])
    else
      var rest := Split(line[1..]);
      [[line[0]] + rest[0]] + rest[1..]
  }

  /** `','.join(fields)`. */
  function Join(fields: seq<string>): string
    requires |fields| >= 1
    decreases |fields|
  {
    if |fields| == 1 then fields[0] else fields[0] + "," + Join(fields[1..])
  }

  /** Splitting loses nothing: joining the pieces gives the line back. */
  lemma {:induction false} JoinSplit(line: string)
    ensures Join(Split(line)) == line
    decreases |line|
  {
    if line != [] {
      JoinSplit(line[1..]);
      var rest := Split(line[1..]);
      if line[0] != ',' {
        if |rest| == 1 {
          assert Join(Split(line)) == [line[0]] + rest[0];
        } else {
          assert Join(Split(line)) == ([line[0]] + rest[0]) + "," + Join(rest[1..]);
        }
      }
    }
  }

  /** A row cut or padded to the header width. */
  function Fitted(fields: seq<string>, width: nat): (row: seq<string>)
    ensures |row| == width
    ensures forall i :: 0 <= i < width && i < |fields| ==> row[i] == fields[i]
    ensures forall i :: |fields| <= i < width ==> row[i] == ""
  {
    if width <= |fields| then fields[..width] else fields + seq(width - |fields|, _ => "")
  }

  /** The `while len(split_line) < len(headers): split_line.append('')` loop and the cut
      `split_line[:len(headers)]`. */
  method PadRow(fields: seq<string>, width: nat) returns (row: seq<string>)
    ensures row == Fitted(fields, width)
  {
    var line := fields;
    while |line| < width
      invariant |fields| <= |line|
      invariant line[..|fields|] == fields
      invariant forall i :: |fields| <= i < |line| ==> line[i] == ""
      invariant |fields| < width ==> |line| <= width
      decreases width - |line|
    {
      line := line + [""];
    }
    row := line[..width];
  }

  /** The rows of the file, each split on commas and fitted to the header width. A file with no
      line at all has no header line (`lines[0]` raises). */
  method ParseRows(lines: seq<string>) returns (r: Result<seq<seq<string>>>)
    ensures lines == [] <==> r.Err?
    ensures r.Err? ==> r.error == IndexError
    ensures r.Ok? ==> |r.value| == |lines| - 1
    ensures r.Ok? ==> forall i :: 0 <= i < |r.value| ==> r.value[i] == Fitted(Split(lines[i + 1]), |Split(lines[0])|)
  {
    if lines == [] {
      return Err(IndexError);
    }
    var width := |Split(lines[0])|;
    var csv: seq<seq<string>> := [];
    for i := 1 to |lines|
      invariant |csv| == i - 1
      invariant forall j :: 0 <= j < |csv| ==> csv[j] == Fitted(Split(lines[j + 1]), width)
    {
      var row := PadRow(Split(lines[i]), width);
      csv := csv + [row];
    }
    r := Ok(csv);
  }

  // The clubs written in the file

  /** Each name stripped, the empty ones dropped, in order. */
  function NonEmptyStripped(names: seq<string>): (r: seq<string>)
    ensures forall x :: x in r <==> exists n :: n in names && n != "" && Strip(n) == x
    decreases |names|
  {
    if names == [] then []
    else
      assert forall n :: n in names <==> n == names[0] || n in names[1..];
      (if names[0] != "" then [Strip(names[0])] else []) + NonEmptyStripped(names[1..])
  }

  /** Each team name as stripped when the columns are cleaned. */
  function StripAll(names: seq<string>): (r: seq<string>)
    ensures |r| == |names| && forall i :: 0 <= i < |names| ==> r[i] == Strip(names[i])
  {
    seq(|names|, i requires 0 <= i < |names| => Strip(names[i]))
  }

  /** `clubs_in_csv_file`: the distinct team names of both columns (`unique()`), the empty
      ones dropped, stripped, each once (`set`; the model keeps first-occurrence order). */
  function CsvClubs(homeTeams: seq<string>, awayTeams: seq<string>): seq<string>
  {
    Dedup(NonEmptyStripped(Dedup(StripAll(homeTeams) + StripAll(awayTeams))))
  }

  /** The club list holds exactly the non-empty stripped team names, each once. */
  lemma CsvClubsSpec(homeTeams: seq<string>, awayTeams: seq<string>)
    ensures Distinct(CsvClubs(homeTeams, awayTeams))
    ensures forall x :: x in CsvClubs(homeTeams, awayTeams) ==> x != "" && IsStripped(x)
    ensures forall x :: x in CsvClubs(homeTeams, awayTeams) <==>
              x != "" && exists n :: n in homeTeams + awayTeams && Strip(n) == x
  {
    forall x | x in CsvClubs(homeTeams, awayTeams)
      ensures x != "" && IsStripped(x) && exists n :: n in homeTeams + awayTeams && Strip(n) == x
    {
      CsvClubFrom(homeTeams, awayTeams, x);
    }
    forall x, n | n in homeTeams + awayTeams && Strip(n) == x && x != ""
      ensures x in CsvClubs(homeTeams, awayTeams)
    {
      CsvClubTo(homeTeams, awayTeams, x, n);
    }
  }

  lemma CsvClubFrom(homeTeams: seq<string>, awayTeams: seq<string>, x: string)
    requires x in CsvClubs(homeTeams, awayTeams)
    ensures x != "" && IsStripped(x) && exists n :: n in homeTeams + awayTeams && Strip(n) == x
  {
    var all := homeTeams + awayTeams;
    var i := CsvClubSource(homeTeams, awayTeams, x);
    TeamsEntry(homeTeams, awayTeams, i);
    StrippedName(all[i], (StripAll(homeTeams) + StripAll(awayTeams))[i], x);
    assert all[i] in all;
  }

  /** Each club of the list comes from a non-empty cleaned team cell. */
  lemma CsvClubSource(homeTeams: seq<string>, awayTeams: seq<string>, x: string) returns (i: nat)
    requires x in CsvClubs(homeTeams, awayTeams)
    ensures i < |StripAll(homeTeams) + StripAll(awayTeams)|
    ensures (StripAll(homeTeams) + StripAll(awayTeams))[i] != ""
    ensures Strip((StripAll(homeTeams) + StripAll(awayTeams))[i]) == x
  {
    var teams := StripAll(homeTeams) + StripAll(awayTeams);
    assert x in NonEmptyStripped(Dedup(teams));
    var m :| m in Dedup(teams) && m != "" && Strip(m) == x;
    i :| 0 <= i < |teams| && teams[i] == m;
  }

  /** The cleaned team columns, entry by entry. */
  lemma TeamsEntry(homeTeams: seq<string>, awayTeams: seq<string>, i: nat)
    requires i < |homeTeams| + |awayTeams|
    ensures |StripAll(homeTeams) + StripAll(awayTeams)| == |homeTeams + awayTeams|
    ensures (StripAll(homeTeams) + StripAll(awayTeams))[i] == Strip((homeTeams + awayTeams)[i])
  {
    var h, a := StripAll(homeTeams), StripAll(awayTeams);
    if i < |homeTeams| {
      assert (h + a)[i] == h[i];
      assert (homeTeams + awayTeams)[i] == homeTeams[i];
    } else {
      var j := i - |homeTeams|;
      assert (h + a)[i] == a[j];
      assert (homeTeams + awayTeams)[i] == awayTeams[j];
    }
  }

  /** Stripping a stripped name changes nothing. */
  lemma StrippedName(n: string, m: string, x: string)
    requires m == Strip(n) && m != "" && Strip(m) == x
    ensures x == m && x != "" && IsStripped(x)
  {
    StripIdempotent(n);
    StripSpec(n);
  }

  lemma CsvClubTo(homeTeams: seq<string>, awayTeams: seq<string>, x: string, n: string)
    requires n in homeTeams + awayTeams && Strip(n) == x && x != ""
    ensures x in CsvClubs(homeTeams, awayTeams)
  {
    var all := homeTeams + awayTeams;
    var teams := StripAll(homeTeams) + StripAll(awayTeams);
    var i :| 0 <= i < |all| && all[i] == n;
    assert teams[i] == Strip(all[i]);
    StripIdempotent(n);
    assert x in Dedup(teams);
    assert x in NonEmptyStripped(Dedup(teams));
  }

  // The stored clubs

  /** The stored names of clubs the file spells differently, and the file's spelling. */
  const KnownAnomalies: map<string, string> := map[
    "RAEC Mons" := "Bergen",
    "Leeds United" := "Leeds",
    "Wolverhampton Wanderers" := "Wolves",
    "Sporting CP" := "Sp Lisbon",
    "Uni\U{00C3}\U{00A3}o de Leiria" := "Leiria",
    "Queens Park Rangers" := "QPR",
    "Stade Rennais FC" := "Rennes"]

  /** An alias table whose aliases are not themselves renamed and are not shared. */
  predicate WellFormedAliases(t: map<string, string>)
  {
    && (forall k :: k in t ==> t[k] !in t)
    && (forall a, b :: a in t && b in t && t[a] == t[b] ==> a == b)
  }

  lemma KnownAnomaliesWellFormed()
    ensures WellFormedAliases(KnownAnomalies)
  {
    KnownAliasesNotRenamed();
    KnownAliasesDistinct();
  }

  /** No file spelling is itself a stored name that gets renamed. */
  lemma KnownAliasesNotRenamed()
    ensures forall k :: k in KnownAnomalies ==> KnownAnomalies[k] !in KnownAnomalies
  {
  }

  /** No two stored names share a file spelling. */
  lemma KnownAliasesDistinct()
    ensures forall a, b :: a in KnownAnomalies && b in KnownAnomalies && KnownAnomalies[a] == KnownAnomalies[b] ==> a == b
  {
  }

  /** The name a club is stored under once renamed. */
  function AliasOf(t: map<string, string>, name: string): string
  {
    if name in t then t[name] else name
  }

  /** The stored clubs of the league; Bury is dropped from league 39. */
  function LeagueClubs(db: Dict, leagueId: int): Dict
  {
    if leagueId == 39 then Remove(db, "Bury") else db
  }

  /** Dropping Bury when it is not stored changes nothing. */
  lemma LeagueClubsWithoutBury(db: Dict, leagueId: int)
    requires "Bury" !in Keys(db)
    ensures LeagueClubs(db, leagueId) == db
  {
    RemoveAbsent(db, "Bury");
  }

  /** One turn of the renaming loop: `d[alias] = d.pop(name)`. Overwriting a key that is
      already there shrinks the dict, and the loop then fails. */
  function RenameStep(t: map<string, string>, cur: Dict, name: string): Result<Dict>
  {
    if name !in t || name !in Keys(cur) then Ok(cur)
    else if t[name] in Keys(cur) then Err(Raised("dictionary changed size during iteration"))
    else Ok(Put(Remove(cur, name), t[name], Get(cur, name)))
  }

  /** The dict after the renaming loop has visited `names`, in order. */
  function Renamed(t: map<string, string>, d: Dict, names: seq<string>): Result<Dict>
    decreases |names|
  {
    if names == [] then Ok(d)
    else
      match Renamed(t, d, names[..|names| - 1])
      case Err(e) => Err(e)
      case Ok(cur) => RenameStep(t, cur, names[|names| - 1])
  }

  /** The renaming loop, over the keys as they were when it started. */
  method RenameAnomalies(d: Dict) returns (r: Result<Dict>)
    ensures r == Renamed(KnownAnomalies, d, Keys(d))
  {
    var names := Keys(d);
    var cur := d;
    for i := 0 to |names|
      invariant Renamed(KnownAnomalies, d, names[..i]) == Ok(cur)
    {
      RenamedSnoc(KnownAnomalies, d, names, i, cur);
      var next := RenameStep(KnownAnomalies, cur, names[i]);
      if next.Err? {
        RenamedErr(KnownAnomalies, d, names, i + 1, |names|, next.error);
        assert names[..|names|] == names;
        return next;
      }
      cur := next.value;
    }
    assert names[..|names|] == names;
    r := Ok(cur);
  }

  /** One more turn after a prefix that did not fail. */
  lemma RenamedSnoc(t: map<string, string>, d: Dict, names: seq<string>, i: nat, cur: Dict)
    requires i < |names| && Renamed(t, d, names[..i]) == Ok(cur)
    ensures Renamed(t, d, names[..i + 1]) == RenameStep(t, cur, names[i])
  {
    assert names[..i + 1][..i] == names[..i];
  }

  lemma {:induction false} RenamedErr(t: map<string, string>, d: Dict, names: seq<string>, i: nat, j: nat, e: Error)
    requires i <= j <= |names|
    requires Renamed(t, d, names[..i]) == Err(e)
    ensures Renamed(t, d, names[..j]) == Err(e)
    decreases j - i
  {
    if i < j {
      assert names[..i + 1][..i] == names[..i];
      RenamedErr(t, d, names, i + 1, j, e);
    }
  }

  /** What a name has become once the loop has visited `done`. */
  function Image(t: map<string, string>, name: string, done: seq<string>): string
  {
    if name in done then AliasOf(t, name) else name
  }

  /** The visited name renamed to `k`, if any; otherwise `k` itself. */
  function Preimage(t: map<string, string>, done: seq<string>, k: string): string
    decreases |done|
  {
    if done == [] then k
    else
      var n := done[|done| - 1];
      if n in t && t[n] == k then n else Preimage(t, done[..|done| - 1], k)
  }

  /** The state of the renaming loop after visiting `done`: every stored club is present under
      its current name with its id, every present name is the current name of a stored club,
      and no visited club that was renamed had its alias stored. */
  ghost predicate RenamedState(t: map<string, string>, d: Dict, done: seq<string>, cur: Dict)
  {
    DistinctKeys(cur) && AllPresent(t, d, done, cur) && OnlyImages(t, d, done, cur) && AliasesFree(t, d, done)
  }

  ghost predicate AllPresent(t: map<string, string>, d: Dict, done: seq<string>, cur: Dict)
  {
    forall k :: k in Keys(d) ==> Image(t, k, done) in Keys(cur) && Get(cur, Image(t, k, done)) == Get(d, k)
  }

  ghost predicate OnlyImages(t: map<string, string>, d: Dict, done: seq<string>, cur: Dict)
  {
    forall k :: k in Keys(cur) ==> Preimage(t, done, k) in Keys(d) && Image(t, Preimage(t, done, k), done) == k
  }

  ghost predicate AliasesFree(t: map<string, string>, d: Dict, done: seq<string>)
  {
    forall k :: k in done && k in t ==> t[k] !in Keys(d)
  }

  /** The turn for `n` either fails or leaves the loop in its state for `done + [n]`. */
  ghost predicate StepKeepsState(t: map<string, string>, d: Dict, done: seq<string>, cur: Dict, n: string)
  {
    RenameStep(t, cur, n).Ok? ==> RenamedState(t, d, done + [n], RenameStep(t, cur, n).value)
  }

  lemma RenameStepState(t: map<string, string>, d: Dict, done: seq<string>, cur: Dict, n: string)
    requires WellFormedAliases(t) && DistinctKeys(d) && RenamedState(t, d, done, cur)
    requires n in Keys(d) && n !in done
    ensures RenameStep(t, cur, n).Err? ==> n in t && t[n] in Keys(d)
    ensures StepKeepsState(t, d, done, cur, n)
  {
    PresentSelf(t, d, done, cur, n);
    if n !in t {
      RenameStepSkip(t, d, done, cur, n);
    } else if t[n] in Keys(cur) {
      RenameClash(t, d, done, cur, n);
    } else {
      RenameStepMove(t, d, done, cur, n);
    }
  }

  lemma RenameStepSkip(t: map<string, string>, d: Dict, done: seq<string>, cur: Dict, n: string)
    requires RenamedState(t, d, done, cur) && n !in t
    ensures RenameStep(t, cur, n) == Ok(cur)
    ensures StepKeepsState(t, d, done, cur, n)
  {
    RenameSkips(t, d, done, cur, n);
  }

  lemma RenameStepMove(t: map<string, string>, d: Dict, done: seq<string>, cur: Dict, n: string)
    requires WellFormedAliases(t) && DistinctKeys(d) && RenamedState(t, d, done, cur)
    requires n in Keys(d) && n in Keys(cur) && n !in done && n in t && t[n] !in Keys(cur)
    ensures RenameStep(t, cur, n) == Ok(Put(Remove(cur, n), t[n], Get(cur, n)))
    ensures StepKeepsState(t, d, done, cur, n)
  {
    RenameMoves(t, d, done, cur, n);
  }

  /** A club the loop has not reached yet is still stored under its own name. */
  lemma PresentSelf(t: map<string, string>, d: Dict, done: seq<string>, cur: Dict, n: string)
    requires AllPresent(t, d, done, cur)
    requires n in Keys(d) && n !in done
    ensures n in Keys(cur)
  {
    assert Image(t, n, done) == n;
  }

  /** A club without an alias stays where it is. */
  lemma RenameSkips(t: map<string, string>, d: Dict, done: seq<string>, cur: Dict, n: string)
    requires RenamedState(t, d, done, cur) && n !in t
    ensures RenamedState(t, d, done + [n], cur)
  {
    var done' := done + [n];
    assert done'[..|done'| - 1] == done;
    assert forall k :: k in done' <==> k in done || k == n;
    assert forall k :: Image(t, k, done') == Image(t, k, done);
    assert forall k :: Preimage(t, done', k) == Preimage(t, done, k);
  }

  /** An alias that is already present was stored from the start. */
  lemma RenameClash(t: map<string, string>, d: Dict, done: seq<string>, cur: Dict, n: string)
    requires WellFormedAliases(t) && OnlyImages(t, d, done, cur)
    requires n in Keys(cur) && n !in done && n in t && t[n] in Keys(cur)
    ensures RenameStep(t, cur, n).Err? && StepKeepsState(t, d, done, cur, n)
    ensures t[n] in Keys(d)
  {
    var k0 := Preimage(t, done, t[n]);
    assert k0 in Keys(d) && t[n] == Image(t, k0, done);
  }

  /** The renaming turn that moves a stored club to its alias. */
  lemma RenameMoves(t: map<string, string>, d: Dict, done: seq<string>, cur: Dict, n: string)
    requires forall k :: k in t ==> t[k] !in t
    requires DistinctKeys(d) && RenamedState(t, d, done, cur)
    requires n in Keys(d) && n !in done && n in t && t[n] !in Keys(cur)
    ensures RenamedState(t, d, done + [n], Put(Remove(cur, n), t[n], Get(cur, n)))
  {
    AliasNotStored(t, d, done, cur, n);
    MovesPresent(t, d, done, cur, n);
    MovesImages(t, d, done, cur, n);
    MovesFree(t, d, done, n);
  }

  /** The alias of a club being moved is not one of the stored clubs, and the club itself is
      still present under its own name. */
  lemma AliasNotStored(t: map<string, string>, d: Dict, done: seq<string>, cur: Dict, n: string)
    requires forall k :: k in t ==> t[k] !in t
    requires AllPresent(t, d, done, cur)
    requires n in Keys(d) && n !in done && n in t && t[n] !in Keys(cur)
    ensures t[n] !in Keys(d) && n in Keys(cur)
  {
    assert Image(t, n, done) == n;
    assert Image(t, t[n], done) == t[n];
  }

  lemma MovesFree(t: map<string, string>, d: Dict, done: seq<string>, n: string)
    requires AliasesFree(t, d, done)
    requires n in t && t[n] !in Keys(d)
    ensures AliasesFree(t, d, done + [n])
  {
    forall k | k in done + [n] && k in t
      ensures t[k] !in Keys(d)
    {
      if k != n {
        assert k in done;
      }
    }
  }

  lemma MovesPresent(t: map<string, string>, d: Dict, done: seq<string>, cur: Dict, n: string)
    requires forall k :: k in t ==> t[k] !in t
    requires DistinctKeys(cur) && AllPresent(t, d, done, cur)
    requires n in Keys(d) && n !in done && n in t && t[n] !in Keys(cur)
    ensures AllPresent(t, d, done + [n], Put(Remove(cur, n), t[n], Get(cur, n)))
  {
    var done' := done + [n];
    var a := t[n];
    assert Image(t, n, done) == n;
    var v := Get(cur, n);
    var cur' := Put(Remove(cur, n), a, v);
    forall k | k in Keys(d)
      ensures Image(t, k, done') in Keys(cur') && Get(cur', Image(t, k, done')) == Get(d, k)
    {
      if k != n {
        var m := Image(t, k, done);
        assert k in done' <==> k in done;
        assert Image(t, k, done') == m;
        assert m != n;
        RemoveOther(cur, n, m);
        PutOther(Remove(cur, n), a, v, m);
      }
    }
  }

  lemma MovesImages(t: map<string, string>, d: Dict, done: seq<string>, cur: Dict, n: string)
    requires OnlyImages(t, d, done, cur)
    requires n in Keys(d) && n in Keys(cur) && n !in done && n in t && t[n] !in Keys(cur)
    ensures OnlyImages(t, d, done + [n], Put(Remove(cur, n), t[n], Get(cur, n)))
  {
    var done' := done + [n];
    var cur' := Put(Remove(cur, n), t[n], Get(cur, n));
    MovedKeys(cur, n, t[n], Get(cur, n));
    forall k | k in Keys(cur')
      ensures Preimage(t, done', k) in Keys(d) && Image(t, Preimage(t, done', k), done') == k
    {
      if k == t[n] {
        MovedImage(t, done, n);
      } else {
        KeptImage(t, d, done, cur, n, k);
      }
    }
  }

  /** After a move, the keys are the alias and the other keys that were there. */
  lemma MovedKeys(cur: Dict, n: string, a: string, v: int)
    ensures forall k :: k in Keys(Put(Remove(cur, n), a, v)) ==> k == a || (k in Keys(cur) && k != n)
  {
  }

  /** The alias a club was just moved to leads back to that club. */
  lemma MovedImage(t: map<string, string>, done: seq<string>, n: string)
    requires n in t
    ensures Preimage(t, done + [n], t[n]) == n && Image(t, n, done + [n]) == t[n]
  {
  }

  /** Any other present name keeps the club it came from. */
  lemma KeptImage(t: map<string, string>, d: Dict, done: seq<string>, cur: Dict, n: string, k: string)
    requires OnlyImages(t, d, done, cur)
    requires n !in done && n in t && k in Keys(cur) && k != n && k != t[n]
    ensures Preimage(t, done + [n], k) in Keys(d) && Image(t, Preimage(t, done + [n], k), done + [n]) == k
  {
    var done' := done + [n];
    assert done'[..|done'| - 1] == done;
    var p := Preimage(t, done, k);
    assert Preimage(t, done', k) == p;
    assert p != n;
    assert p in done' <==> p in done;
  }

  lemma {:induction false} RenamedPrefix(t: map<string, string>, d: Dict, i: nat)
    requires WellFormedAliases(t) && DistinctKeys(d) && i <= |d|
    ensures Renamed(t, d, Keys(d)[..i]).Err? ==> exists k :: k in Keys(d) && k in t && t[k] in Keys(d)
    ensures Renamed(t, d, Keys(d)[..i]).Ok? ==> RenamedState(t, d, Keys(d)[..i], Renamed(t, d, Keys(d)[..i]).value)
  {
    var ks := Keys(d);
    if i == 0 {
      assert ks[..0] == [];
      RenamedStart(t, d);
    } else {
      RenamedPrefix(t, d, i - 1);
      var done := ks[..i - 1];
      var n := ks[i - 1];
      NextKey(d, i);
      assert Renamed(t, d, ks[..i]) == match Renamed(t, d, done) case Err(e) => Err(e) case Ok(cur) => RenameStep(t, cur, n);
      if Renamed(t, d, done).Ok? {
        RenameStepState(t, d, done, Renamed(t, d, done).value, n);
      }
    }
  }

  /** Before the loop, every club is stored under its own name. */
  lemma RenamedStart(t: map<string, string>, d: Dict)
    requires DistinctKeys(d)
    ensures RenamedState(t, d, [], d)
  {
    assert forall k :: Preimage(t, [], k) == k && Image(t, k, []) == k;
  }

  /** The `i`-th key follows the first `i - 1` and is not among them. */
  lemma NextKey(d: Dict, i: nat)
    requires DistinctKeys(d) && 0 < i <= |d|
    ensures Keys(d)[..i] == Keys(d)[..i - 1] + [Keys(d)[i - 1]]
    ensures Keys(d)[..i][..i - 1] == Keys(d)[..i - 1]
    ensures Keys(d)[i - 1] in Keys(d) && Keys(d)[i - 1] !in Keys(d)[..i - 1]
  {
    var done := Keys(d)[..i - 1];
    assert forall j :: 0 <= j < i - 1 ==> done[j] == d[j].0;
  }

  /** With a well-formed alias table, the renaming fails exactly when a stored club that is
      renamed has an alias that is also stored. Otherwise every stored club keeps its id under
      its alias (its own name when it has none), and nothing else is in the dict. */
  lemma RenamedSpec(t: map<string, string>, d: Dict)
    requires WellFormedAliases(t) && DistinctKeys(d)
    ensures Renamed(t, d, Keys(d)).Err? <==> exists k :: k in Keys(d) && k in t && t[k] in Keys(d)
    ensures Renamed(t, d, Keys(d)).Ok? ==>
              && DistinctKeys(Renamed(t, d, Keys(d)).value)
              && (forall k :: k in Keys(d) ==>
                    && AliasOf(t, k) in Keys(Renamed(t, d, Keys(d)).value)
                    && Get(Renamed(t, d, Keys(d)).value, AliasOf(t, k)) == Get(d, k))
              && (forall k :: k in Keys(Renamed(t, d, Keys(d)).value) ==> exists k0 :: k0 in Keys(d) && k == AliasOf(t, k0))
  {
    RenamedPrefix(t, d, |d|);
    var ks := Keys(d);
    assert ks[..|d|] == ks;
    assert forall k :: k in ks ==> Image(t, k, ks) == AliasOf(t, k);
    var r := Renamed(t, d, ks);
    if r.Ok? {
      forall k | k in Keys(r.value)
        ensures exists k0 :: k0 in Keys(d) && k == AliasOf(t, k0)
      {
        var p := Preimage(t, ks, k);
        assert p in Keys(d) && k == AliasOf(t, p);
      }
    }
  }

  // Exact matches

  /** The entries of `d` whose name `keep` accepts, in order. */
  function FilterEntries(d: Dict, keep: string -> bool): (r: Dict)
    ensures forall e :: e in r <==> e in d && keep(e.0)
    ensures forall k :: k in Keys(r) <==> k in Keys(d) && keep(k)
    ensures DistinctKeys(d) ==> DistinctKeys(r)
    decreases |d|
  {
    if d == [] then []
    else
      var rest := FilterEntries(d[1..], keep);
      var r := if keep(d[0].0) then [d[0]] + rest else rest;
      FilterEntriesStep(d, keep, rest, r);
      FilterKeysStep(d, keep, rest, r);
      FilterDistinctStep(d, keep, rest, r);
      r
  }

  lemma FilterEntriesStep(d: Dict, keep: string -> bool, rest: Dict, r: Dict)
    requires d != []
    requires forall e :: e in rest <==> e in d[1..] && keep(e.0)
    requires r == if keep(d[0].0) then [d[0]] + rest else rest
    ensures forall e :: e in r <==> e in d && keep(e.0)
  {
    assert d == [d[0]] + d[1..];
  }

  lemma FilterKeysStep(d: Dict, keep: string -> bool, rest: Dict, r: Dict)
    requires d != []
    requires forall k :: k in Keys(rest) <==> k in Keys(d[1..]) && keep(k)
    requires r == if keep(d[0].0) then [d[0]] + rest else rest
    ensures forall k :: k in Keys(r) <==> k in Keys(d) && keep(k)
  {
    KeysCons(d[0], d[1..]);
    assert d == [d[0]] + d[1..];
    if keep(d[0].0) {
      KeysCons(d[0], rest);
    }
  }

  lemma FilterDistinctStep(d: Dict, keep: string -> bool, rest: Dict, r: Dict)
    requires d != []
    requires forall k :: k in Keys(rest) ==> k in Keys(d[1..])
    requires DistinctKeys(d[1..]) ==> DistinctKeys(rest)
    requires r == if keep(d[0].0) then [d[0]] + rest else rest
    ensures DistinctKeys(d) ==> DistinctKeys(r)
  {
    if DistinctKeys(d) {
      assert DistinctKeys(d[1..]) by {
        forall i, j | 0 <= i < j < |d[1..]|
          ensures d[1..][i].0 != d[1..][j].0
        {
          assert d[1..][i] == d[i + 1] && d[1..][j] == d[j + 1];
        }
      }
      if keep(d[0].0) {
        forall j | 0 < j < |r|
          ensures r[0].0 != r[j].0
        {
          assert Keys(rest)[j - 1] == r[j].0;
          var m := IndexOf(d[1..], r[j].0);
          assert d[0].0 != d[m + 1].0;
        }
        forall i, j | 0 <= i < j < |r|
          ensures r[i].0 != r[j].0
        {
          if i > 0 {
            assert r[i] == rest[i - 1] && r[j] == rest[j - 1];
          }
        }
      }
    }
  }

  /** The names of `xs` that `keep` accepts, in order. */
  function FilterNames(xs: seq<string>, keep: string -> bool): (r: seq<string>)
    ensures forall x :: x in r <==> x in xs && keep(x)
    ensures Distinct(xs) ==> Distinct(r)
    decreases |xs|
  {
    if xs == [] then []
    else
      assert forall x :: x in xs <==> x == xs[0] || x in xs[1..];
      (if keep(xs[0]) then [xs[0]] else []) + FilterNames(xs[1..], keep)
  }

  /** `matched_club_ids`: the stored clubs whose name is written in the file. */
  function Matched(db: Dict, csv: seq<string>): Dict
  {
    FilterEntries(db, k => k in csv)
  }

  /** `remaining_clubs_in_csv`: the names in the file that no stored club matched. */
  function Remaining(csv: seq<string>, matched: Dict): seq<string>
  {
    FilterNames(csv, x => x !in Keys(matched))
  }

  /** `unmatched_club_ids`: the stored clubs that no name in the file matched. */
  function Unmatched(db: Dict, matched: Dict): Dict
  {
    FilterEntries(db, k => k !in Keys(matched))
  }

  /** The three parts: the matched entries are the stored clubs named in the file, the
      remaining names are the file's names that are not stored, the unmatched entries are the
      stored clubs not named in the file. The first and last split the stored clubs. */
  lemma PartitionSpec(db: Dict, csv: seq<string>)
    ensures forall e :: e in Matched(db, csv) <==> e in db && e.0 in csv
    ensures forall x :: x in Remaining(csv, Matched(db, csv)) <==> x in csv && x !in Keys(db)
    ensures forall e :: e in Unmatched(db, Matched(db, csv)) <==> e in db && e.0 !in csv
    ensures forall k :: k in Keys(db) ==> (k in Keys(Matched(db, csv)) <==> k !in Keys(Unmatched(db, Matched(db, csv))))
    ensures Distinct(csv) ==> Distinct(Remaining(csv, Matched(db, csv)))
    ensures forall x :: x in Remaining(csv, Matched(db, csv)) ==> x !in Keys(Matched(db, csv))
  {
    forall e | e in db
      ensures e.0 in Keys(db)
    {
      var i :| 0 <= i < |db| && db[i] == e;
      assert Keys(db)[i] == e.0;
    }
  }

  // The greedy assignment

  /** `xs.remove(x)`: the first occurrence of `x` is taken out. */
  function RemoveFirst(xs: seq<string>, x: string): (r: seq<string>)
    requires x in xs
    ensures |r| == |xs| - 1
    ensures multiset(r) == multiset(xs) - multiset{x}
    decreases |xs|
  {
    assert xs == [xs[0]] + xs[1..];
    if xs[0] == x then xs[1..]
    else
      [xs[0]] + RemoveFirst(xs[1..], x)
  }

  /** The matched dict, the names left over, and the name each unmatched club was bound to. */
  datatype Assignment = Assignment(matched: Dict, remaining: seq<string>, chosen: seq<string>)

  /** The greedy loop: each unmatched stored club, in order, takes the most similar name left
      in the pool, which then leaves the pool. An empty pool raises; a closest name of "" is not
      in the pool, and removing it raises `ValueError`. */
  function Assign(matched: Dict, pending: Dict, pool: seq<string>, sim: Similarity): Result<Assignment>
    decreases |pending|
  {
    if pending == [] then Ok(Assignment(matched, pool, []))
    else if pool == [] then Err(Raised("Cannot do similarity matching when the param:club_ids has length 0"))
    else
      var c := ClosestName(pool, pending[0].0, sim);
      if c !in pool then Err(ValueError)
      else After([c], Assign(Put(matched, c, pending[0].1), pending[1..], RemoveFirst(pool, c), sim))
  }

  /** An outcome of the loop with `chosen` bound before it. */
  function After(chosen: seq<string>, r: Result<Assignment>): Result<Assignment>
  {
    match r
    case Err(e) => Err(e)
    case Ok(a) => Ok(a.(chosen := chosen + a.chosen))
  }

  /** The loop at the end of the name matching. */
  method AssignRemaining(matched: Dict, unmatched: Dict, remaining: seq<string>, sim: Similarity)
    returns (r: Result<Assignment>)
    ensures r == Assign(matched, unmatched, remaining, sim)
  {
    var ids, pool, chosen := matched, remaining, [];
    var i := 0;
    assert unmatched[0..] == unmatched;
    AfterNil(Assign(matched, unmatched, remaining, sim));
    while i < |unmatched|
      invariant 0 <= i <= |unmatched|
      invariant Assign(matched, unmatched, remaining, sim) == After(chosen, Assign(ids, unmatched[i..], pool, sim))
    {
      var (name, id) := unmatched[i];
      var closest := FindMostSimilarClubName(name, pool, sim);
      AssignUnfold(ids, unmatched, i, pool, sim);
      if closest.Err? || closest.value !in pool {
        return if closest.Err? then Err(closest.error) else Err(ValueError);
      }
      AfterAfter(chosen, closest.value, Assign(Put(ids, closest.value, id), unmatched[i + 1..], RemoveFirst(pool, closest.value), sim));
      ids := Put(ids, closest.value, id);
      pool := RemoveFirst(pool, closest.value);
      chosen := chosen + [closest.value];
      i := i + 1;
    }
    assert unmatched[i..] == [];
    assert chosen + [] == chosen;
    r := Ok(Assignment(ids, pool, chosen));
  }

  /** One turn of the loop, from the `i`-th unmatched name on. */
  lemma AssignUnfold(ids: Dict, unmatched: Dict, i: nat, pool: seq<string>, sim: Similarity)
    requires i < |unmatched|
    ensures pool == [] ==>
              Assign(ids, unmatched[i..], pool, sim) == Err(Raised("Cannot do similarity matching when the param:club_ids has length 0"))
    ensures var c := ClosestName(pool, unmatched[i].0, sim);
            pool != [] && c !in pool ==> Assign(ids, unmatched[i..], pool, sim) == Err(ValueError)
    ensures var c := ClosestName(pool, unmatched[i].0, sim);
            pool != [] && c in pool ==>
              Assign(ids, unmatched[i..], pool, sim) ==
              After([c], Assign(Put(ids, c, unmatched[i].1), unmatched[i + 1..], RemoveFirst(pool, c), sim))
  {
    assert unmatched[i..][0] == unmatched[i] && unmatched[i..][1..] == unmatched[i + 1..];
  }

  lemma AfterAfter(chosen: seq<string>, c: string, r: Result<Assignment>)
    ensures After(chosen, After([c], r)) == After(chosen + [c], r)
  {
    if r.Ok? {
      var a := r.value;
      assert chosen + ([c] + a.chosen) == chosen + [c] + a.chosen;
      assert After([c], r) == Ok(a.(chosen := [c] + a.chosen));
    }
  }

  lemma AfterNil(r: Result<Assignment>)
    ensures After([], r) == r
  {
    if r.Ok? {
      assert [] + r.value.chosen == r.value.chosen;
    }
  }

  /** The pool shrinks by one name per unmatched club: more unmatched clubs than names raises,
      and otherwise there is one chosen name per unmatched club, and the chosen names and the
      names left over make up the pool. */
  lemma {:induction false} AssignShape(matched: Dict, pending: Dict, pool: seq<string>, sim: Similarity)
    ensures |pending| > |pool| ==> Assign(matched, pending, pool, sim).Err?
    ensures Assign(matched, pending, pool, sim).Ok? ==>
              var a := Assign(matched, pending, pool, sim).value;
              && |a.remaining| == |pool| - |pending|
              && |a.chosen| == |pending|
              && multiset(a.remaining) + multiset(a.chosen) == multiset(pool)
    decreases |pending|
  {
    if pending != [] && pool != [] {
      var c := ClosestName(pool, pending[0].0, sim);
      if c in pool {
        var pool' := RemoveFirst(pool, c);
        AssignShape(Put(matched, c, pending[0].1), pending[1..], pool', sim);
        var r := Assign(Put(matched, c, pending[0].1), pending[1..], pool', sim);
        if r.Ok? {
          assert multiset([c] + r.value.chosen) == multiset{c} + multiset(r.value.chosen);
          assert multiset(pool) == multiset(pool') + multiset{c};
        }
      }
    }
  }

  /** No name is bound twice: every chosen name comes from the pool and is no longer in it,
      and when the pool has no repeats neither do the chosen names. */
  lemma {:induction false} AssignExclusive(matched: Dict, pending: Dict, pool: seq<string>, sim: Similarity)
    requires Distinct(pool)
    ensures Assign(matched, pending, pool, sim).Ok? ==>
              var a := Assign(matched, pending, pool, sim).value;
              && (forall x :: x in a.chosen ==> x in pool && x !in a.remaining)
              && (forall x :: x in a.remaining ==> x in pool)
              && Distinct(a.chosen)
    decreases |pending|
  {
    if pending != [] && pool != [] {
      var c := ClosestName(pool, pending[0].0, sim);
      if c in pool {
        var pool' := RemoveFirst(pool, c);
        DistinctRemoveFirst(pool, c);
        AssignExclusive(Put(matched, c, pending[0].1), pending[1..], pool', sim);
        var r := Assign(Put(matched, c, pending[0].1), pending[1..], pool', sim);
        if r.Ok? {
          var chosen := [c] + r.value.chosen;
          assert forall x :: x in chosen <==> x == c || x in r.value.chosen;
          assert c !in r.value.chosen;
        }
      }
    }
  }

  /** Taking a name out of a list without repeats leaves the others, still without repeats. */
  lemma {:induction false} DistinctRemoveFirst(xs: seq<string>, x: string)
    requires Distinct(xs) && x in xs
    ensures Distinct(RemoveFirst(xs, x))
    ensures forall y :: y in RemoveFirst(xs, x) <==> y in xs && y != x
    decreases |xs|
  {
    assert forall y :: y in xs <==> y == xs[0] || y in xs[1..];
    assert forall i :: 0 <= i < |xs| - 1 ==> xs[1..][i] == xs[i + 1];
    if xs[0] != x {
      DistinctRemoveFirst(xs[1..], x);
      assert xs[0] !in xs[1..];
    }
  }

  /** Every unmatched club ends up bound to its chosen name with its own id, and the clubs
      already matched keep their ids. */
  lemma {:induction false} AssignBinds(matched: Dict, pending: Dict, pool: seq<string>, sim: Similarity)
    requires Distinct(pool)
    requires forall x :: x in pool ==> x !in Keys(matched)
    ensures Assign(matched, pending, pool, sim).Ok? ==>
              var a := Assign(matched, pending, pool, sim).value;
              && |a.chosen| == |pending|
              && (forall k :: k in Keys(matched) ==> k in Keys(a.matched) && Get(a.matched, k) == Get(matched, k))
              && (forall i :: 0 <= i < |pending| ==> a.chosen[i] in Keys(a.matched) && Get(a.matched, a.chosen[i]) == pending[i].1)
    decreases |pending|
  {
    if pending != [] && pool != [] {
      var c := ClosestName(pool, pending[0].0, sim);
      if c in pool {
        var pool' := RemoveFirst(pool, c);
        var m' := Put(matched, c, pending[0].1);
        DistinctRemoveFirst(pool, c);
        AssignBinds(m', pending[1..], pool', sim);
        var r := Assign(m', pending[1..], pool', sim);
        if r.Ok? {
          AssignBindsStep(matched, pending, c, r.value);
        }
      }
    }
  }

  /** Binding the first unmatched club to `c` in front of a loop that bound the others. */
  lemma AssignBindsStep(matched: Dict, pending: Dict, c: string, a: Assignment)
    requires pending != [] && c !in Keys(matched)
    requires |a.chosen| == |pending| - 1
    requires forall k :: k in Keys(Put(matched, c, pending[0].1)) ==>
               k in Keys(a.matched) && Get(a.matched, k) == Get(Put(matched, c, pending[0].1), k)
    requires forall i :: 0 <= i < |pending[1..]| ==> a.chosen[i] in Keys(a.matched) && Get(a.matched, a.chosen[i]) == pending[1..][i].1
    ensures |[c] + a.chosen| == |pending|
    ensures forall k :: k in Keys(matched) ==> k in Keys(a.matched) && Get(a.matched, k) == Get(matched, k)
    ensures forall i :: 0 <= i < |pending| ==>
              ([c] + a.chosen)[i] in Keys(a.matched) && Get(a.matched, ([c] + a.chosen)[i]) == pending[i].1
  {
    var m' := Put(matched, c, pending[0].1);
    forall k | k in Keys(matched)
      ensures k in Keys(a.matched) && Get(a.matched, k) == Get(matched, k)
    {
      PutOther(matched, c, pending[0].1, k);
    }
    var chosen := [c] + a.chosen;
    forall i | 0 <= i < |pending|
      ensures chosen[i] in Keys(a.matched) && Get(a.matched, chosen[i]) == pending[i].1
    {
      if i > 0 {
        assert pending[i] == pending[1..][i - 1];
        assert chosen[i] == a.chosen[i - 1];
      }
    }
  }

  /** Binding keeps the names already in the dict and adds only chosen names; the keys stay
      distinct. */
  lemma {:induction false} AssignKeys(matched: Dict, pending: Dict, pool: seq<string>, sim: Similarity)
    ensures Assign(matched, pending, pool, sim).Ok? ==>
              var a := Assign(matched, pending, pool, sim).value;
              && (forall k :: k in Keys(a.matched) ==> k in Keys(matched) || k in a.chosen)
              && (DistinctKeys(matched) ==> DistinctKeys(a.matched))
    decreases |pending|
  {
    if pending != [] && pool != [] {
      var c := ClosestName(pool, pending[0].0, sim);
      if c in pool {
        var m' := Put(matched, c, pending[0].1);
        AssignKeys(m', pending[1..], RemoveFirst(pool, c), sim);
        var r := Assign(m', pending[1..], RemoveFirst(pool, c), sim);
        if r.Ok? {
          assert forall k :: k in Keys(m') ==> k in Keys(matched) || k == c;
          assert forall k :: k in [c] + r.value.chosen <==> k == c || k in r.value.chosen;
        }
      }
    }
  }

  // The whole name matching

  /** `fetchClubIds`: `dict` of the `(club_name, club_id)` rows of the league. */
  function FetchClubIds(clubs: seq<ClubRecord>, leagueId: int): Dict
  {
    FromPairs(ClubsOfLeague(clubs, leagueId))
  }

  /** The name-to-id dict `parseCSV` maps the team columns with: the league's stored clubs,
      renamed by the alias table `t`, matched exactly to the file's names, and the rest bound
      greedily to the most similar names left. */
  function ClubIds(t: map<string, string>, db: Dict, leagueId: int, homeTeams: seq<string>, awayTeams: seq<string>, sim: Similarity): Result<Dict>
  {
    var stored := LeagueClubs(db, leagueId);
    var csv := CsvClubs(homeTeams, awayTeams);
    match Renamed(t, stored, Keys(stored))
    case Err(e) => Err(e)
    case Ok(renamed) =>
      var matched := Matched(renamed, csv);
      match Assign(matched, Unmatched(renamed, matched), Remaining(csv, matched), sim)
      case Err(e) => Err(e)
      case Ok(a) => Ok(a.matched)
  }

  /** The club matching in `parseCSV`, step by step. */
  method MatchClubNames(db: Dict, leagueId: int, homeTeams: seq<string>, awayTeams: seq<string>, sim: Similarity)
    returns (r: Result<Dict>)
    ensures r == ClubIds(KnownAnomalies, db, leagueId, homeTeams, awayTeams, sim)
  {
    var csv := CsvClubs(homeTeams, awayTeams);
    var stored := LeagueClubs(db, leagueId);
    var renamed := RenameAnomalies(stored);
    if renamed.Err? {
      return Err(renamed.error);
    }
    var matched := Matched(renamed.value, csv);
    var remaining := Remaining(csv, matched);
    var unmatched := Unmatched(renamed.value, matched);
    var outcome := AssignRemaining(matched, unmatched, remaining, sim);
    if outcome.Err? {
      return Err(outcome.error);
    }
    r := Ok(outcome.value.matched);
  }

  /** With stored club names that are distinct and a well-formed alias table, a successful
      matching maps only names written in the file, each once, and every stored club of the
      league keeps its id under some name. */
  lemma ClubIdsSpec(t: map<string, string>, db: Dict, leagueId: int, homeTeams: seq<string>, awayTeams: seq<string>, sim: Similarity)
    requires WellFormedAliases(t) && DistinctKeys(db)
    ensures ClubIds(t, db, leagueId, homeTeams, awayTeams, sim).Ok? ==>
              var ids := ClubIds(t, db, leagueId, homeTeams, awayTeams, sim).value;
              && DistinctKeys(ids)
              && (forall x :: x in Keys(ids) ==> x in CsvClubs(homeTeams, awayTeams))
              && (forall k :: k in Keys(LeagueClubs(db, leagueId)) ==>
                    exists x :: x in Keys(ids) && Get(ids, x) == Get(LeagueClubs(db, leagueId), k))
  {
    var stored := LeagueClubs(db, leagueId);
    var csv := CsvClubs(homeTeams, awayTeams);
    var rr := Renamed(t, stored, Keys(stored));
    if rr.Ok? {
      RenamedSpec(t, stored);
      var renamed := rr.value;
      var matched := Matched(renamed, csv);
      var pending := Unmatched(renamed, matched);
      var pool := Remaining(csv, matched);
      var ra := Assign(matched, pending, pool, sim);
      if ra.Ok? {
        var a := ra.value;
        CsvClubsSpec(homeTeams, awayTeams);
        PartitionSpec(renamed, csv);
        AssignKeys(matched, pending, pool, sim);
        AssignExclusive(matched, pending, pool, sim);
        AssignBinds(matched, pending, pool, sim);
        forall k | k in Keys(stored)
          ensures exists x :: x in Keys(a.matched) && Get(a.matched, x) == Get(stored, k)
        {
          StoredClubBound(renamed, csv, matched, pending, a, AliasOf(t, k));
        }
      }
    }
  }

  /** A renamed club ends up under its own name when the file has it, and under the name it
      was bound to otherwise. */
  lemma StoredClubBound(renamed: Dict, csv: seq<string>, matched: Dict, pending: Dict, a: Assignment, n: string)
    requires DistinctKeys(renamed) && n in Keys(renamed)
    requires matched == Matched(renamed, csv) && pending == Unmatched(renamed, matched)
    requires forall k :: k in Keys(matched) ==> k in Keys(a.matched) && Get(a.matched, k) == Get(matched, k)
    requires |a.chosen| == |pending|
    requires forall i :: 0 <= i < |pending| ==> a.chosen[i] in Keys(a.matched) && Get(a.matched, a.chosen[i]) == pending[i].1
    ensures exists x :: x in Keys(a.matched) && Get(a.matched, x) == Get(renamed, n)
  {
    var v := Get(renamed, n);
    GetEntry(renamed, n, v);
    if n in Keys(matched) {
      GetEntry(matched, n, v);
      assert Get(a.matched, n) == v;
    } else {
      assert (n, v) in pending;
      var i :| 0 <= i < |pending| && pending[i] == (n, v);
      assert Get(a.matched, a.chosen[i]) == v;
    }
  }

  // The odds update

  /** One row of the file after the column work: the eleven odds, the two team names as the
      file writes them and the match date. */
  datatype CsvMatch = CsvMatch(odds: Odds, homeTeam: string, awayTeam: string, date: string)

  /** The `HomeTeam` column of the file after `str.strip()`. */
  function HomeTeams(file: seq<CsvMatch>): (r: seq<string>)
    ensures |r| == |file| && forall i :: 0 <= i < |file| ==> r[i] == Strip(file[i].homeTeam)
  {
    seq(|file|, i requires 0 <= i < |file| => Strip(file[i].homeTeam))
  }

  /** The `AwayTeam` column of the file after `str.strip()`. */
  function AwayTeams(file: seq<CsvMatch>): (r: seq<string>)
    ensures |r| == |file| && forall i :: 0 <= i < |file| ==> r[i] == Strip(file[i].awayTeam)
  {
    seq(|file|, i requires 0 <= i < |file| => Strip(file[i].awayTeam))
  }

  /** A team cell after `replace({'HomeTeam': ids, 'AwayTeam': ids})` and `replace({'': None})`:
      a known name becomes its id, an empty cell becomes NULL, and any other name stays text. */
  function TeamId(ids: Dict, name: string): (r: KeyCell)
    ensures r.Name? <==> name != "" && name !in Keys(ids)
    ensures r.Null? <==> name == "" && name !in Keys(ids)
    ensures name in Keys(ids) ==> r == Id(Get(ids, name))
    ensures r.Name? ==> r.name == name
  {
    if name in Keys(ids) then Id(Get(ids, name))
    else if name == "" then Null
    else Name(name)
  }

  /** Whether a team cell holds a name that was not matched. */
  predicate Unknown(ids: Dict, name: string)
  {
    name != "" && name !in Keys(ids)
  }

  /** Whether a row's two team cells, stripped, both name a matched club. */
  predicate BothKnown(ids: Dict, m: CsvMatch)
  {
    Strip(m.homeTeam) in Keys(ids) && Strip(m.awayTeam) in Keys(ids)
  }

  /** The payload of the update: one row per row of the file, in file order, with the team
      names stripped before they are replaced by ids. The filter
      `filteredData.HomeTeam != None` compares element by element with `None`, which is true
      for every row, so rows whose team cell became NULL stay in. */
  function Payload(rows: seq<CsvMatch>, ids: Dict): (r: seq<OddsRow>)
    ensures |r| == |rows|
    ensures forall i :: 0 <= i < |rows| ==>
              r[i] == OddsRow(rows[i].odds, TeamId(ids, Strip(rows[i].homeTeam)), TeamId(ids, Strip(rows[i].awayTeam)), rows[i].date)
  {
    seq(|rows|, i requires 0 <= i < |rows| =>
      OddsRow(rows[i].odds, TeamId(ids, Strip(rows[i].homeTeam)), TeamId(ids, Strip(rows[i].awayTeam)), rows[i].date))
  }

  /** The update is accepted exactly when the file has rows, no stripped team cell holds an
      unmatched name, and some row has a matched home team and some row a matched away team; it then
      sets the odds of exactly the `(key, odds)` of the rows with both teams matched. */
  lemma PayloadSpec(rows: seq<CsvMatch>, ids: Dict)
    ensures OddsError(Payload(rows, ids)).None? <==>
              && rows != []
              && (forall i :: 0 <= i < |rows| ==> !Unknown(ids, Strip(rows[i].homeTeam)))
              && (forall i :: 0 <= i < |rows| ==> !Unknown(ids, Strip(rows[i].awayTeam)))
              && (exists i :: 0 <= i < |rows| && Strip(rows[i].homeTeam) in Keys(ids))
              && (exists i :: 0 <= i < |rows| && Strip(rows[i].awayTeam) in Keys(ids))
    ensures forall k :: k in Keyed(Payload(rows, ids)) <==>
              exists i :: 0 <= i < |rows| && BothKnown(ids, rows[i]) &&
                k == (MatchKey(Get(ids, Strip(rows[i].homeTeam)), Get(ids, Strip(rows[i].awayTeam)), rows[i].date), rows[i].odds)
  {
    PayloadAccepted(rows, ids);
    PayloadKeyed(rows, ids);
  }

  lemma PayloadAccepted(rows: seq<CsvMatch>, ids: Dict)
    ensures OddsError(Payload(rows, ids)).None? <==>
              && rows != []
              && (forall i :: 0 <= i < |rows| ==> !Unknown(ids, Strip(rows[i].homeTeam)))
              && (forall i :: 0 <= i < |rows| ==> !Unknown(ids, Strip(rows[i].awayTeam)))
              && (exists i :: 0 <= i < |rows| && Strip(rows[i].homeTeam) in Keys(ids))
              && (exists i :: 0 <= i < |rows| && Strip(rows[i].awayTeam) in Keys(ids))
  {
    var p := Payload(rows, ids);
    HomeColumn(rows, ids);
    AwayColumn(rows, ids);
    assert OddsError(p).None? <==>
             p != [] && !HoldsName(HomeCells(p)) && !HoldsName(AwayCells(p)) && HoldsId(HomeCells(p)) && HoldsId(AwayCells(p));
  }

  /** The `home_id` column holds a name exactly when some stripped home name is unmatched,
      and an id exactly when some stripped home name is matched. */
  lemma HomeColumn(rows: seq<CsvMatch>, ids: Dict)
    ensures HoldsName(HomeCells(Payload(rows, ids))) <==> exists i :: 0 <= i < |rows| && Unknown(ids, Strip(rows[i].homeTeam))
    ensures HoldsId(HomeCells(Payload(rows, ids))) <==> exists i :: 0 <= i < |rows| && Strip(rows[i].homeTeam) in Keys(ids)
  {
    var c := HomeCells(Payload(rows, ids));
    assert forall i :: 0 <= i < |rows| ==> c[i] == TeamId(ids, Strip(rows[i].homeTeam));
  }

  /** The same for the `away_id` column. */
  lemma AwayColumn(rows: seq<CsvMatch>, ids: Dict)
    ensures HoldsName(AwayCells(Payload(rows, ids))) <==> exists i :: 0 <= i < |rows| && Unknown(ids, Strip(rows[i].awayTeam))
    ensures HoldsId(AwayCells(Payload(rows, ids))) <==> exists i :: 0 <= i < |rows| && Strip(rows[i].awayTeam) in Keys(ids)
  {
    var c := AwayCells(Payload(rows, ids));
    assert forall i :: 0 <= i < |rows| ==> c[i] == TeamId(ids, Strip(rows[i].awayTeam));
  }

  lemma PayloadKeyed(rows: seq<CsvMatch>, ids: Dict)
    ensures forall k :: k in Keyed(Payload(rows, ids)) <==>
              exists i :: 0 <= i < |rows| && BothKnown(ids, rows[i]) &&
                k == (MatchKey(Get(ids, Strip(rows[i].homeTeam)), Get(ids, Strip(rows[i].awayTeam)), rows[i].date), rows[i].odds)
  {
    var p := Payload(rows, ids);
    KeyedSpec(p);
    assert forall i :: 0 <= i < |rows| ==> (p[i].home.Id? && p[i].away.Id? <==> BothKnown(ids, rows[i]));
  }

  /** A file with rows whose home cells are all blank (empty or only whitespace) is sent with a
      home column of NULLs only, which PostgreSQL types as text and cannot compare with the
      integer key. */
  lemma BlankHomeTeamsRefused(rows: seq<CsvMatch>, ids: Dict)
    requires rows != [] && "" !in Keys(ids)
    requires forall i :: 0 <= i < |rows| ==> Strip(rows[i].homeTeam) == ""
    requires forall i :: 0 <= i < |rows| ==> !Unknown(ids, Strip(rows[i].awayTeam))
    ensures OddsError(Payload(rows, ids)) == Some(SqlError("operator does not exist: integer = text"))
  {
    var p := Payload(rows, ids);
    assert forall i :: 0 <= i < |rows| ==> HomeCells(p)[i] == Null;
    assert forall i :: 0 <= i < |rows| ==> !AwayCells(p)[i].Name?;
  }

  /** A row whose team names carry stray spaces around two matched names is accepted on its
      own, and its odds are the one update, keyed by the match between those clubs. */
  lemma PaddedNamesMatch(rows: seq<CsvMatch>, ids: Dict)
    requires |rows| == 1 && Strip(rows[0].homeTeam) in Keys(ids) && Strip(rows[0].awayTeam) in Keys(ids)
    ensures OddsError(Payload(rows, ids)).None?
    ensures (MatchKey(Get(ids, Strip(rows[0].homeTeam)), Get(ids, Strip(rows[0].awayTeam)), rows[0].date), rows[0].odds)
              in Keyed(Payload(rows, ids))
    ensures |Keyed(Payload(rows, ids))| == 1
  {
    PaddedNamesKeyed(rows, ids);
    PaddedNamesAccepted(rows, ids);
    KeyedLength(Payload(rows, ids));
  }

  lemma PaddedNamesKeyed(rows: seq<CsvMatch>, ids: Dict)
    requires |rows| == 1 && Strip(rows[0].homeTeam) in Keys(ids) && Strip(rows[0].awayTeam) in Keys(ids)
    ensures (MatchKey(Get(ids, Strip(rows[0].homeTeam)), Get(ids, Strip(rows[0].awayTeam)), rows[0].date), rows[0].odds)
              in Keyed(Payload(rows, ids))
  {
    PayloadKeyed(rows, ids);
    assert BothKnown(ids, rows[0]);
  }

  lemma PaddedNamesAccepted(rows: seq<CsvMatch>, ids: Dict)
    requires |rows| == 1 && Strip(rows[0].homeTeam) in Keys(ids) && Strip(rows[0].awayTeam) in Keys(ids)
    ensures OddsError(Payload(rows, ids)).None?
  {
    var p := Payload(rows, ids);
    var h, a := HomeCells(p), AwayCells(p);
    assert |h| == 1 && |a| == 1;
    assert h[0].Id? && a[0].Id?;
    assert HoldsId(h) && HoldsId(a);
    assert !HoldsName(h) by {
      forall i | 0 <= i < |h| ensures !h[i].Name? { assert i == 0; }
    }
    assert !HoldsName(a) by {
      forall i | 0 <= i < |a| ensures !a[i].Name? { assert i == 0; }
    }
  }

  /** What a successful or failed `parseCSV` leaves in the `match` table: a page that could
      not be fetched changes nothing, and so does any failure before or in the update. */
  function OddsOutcome(t: map<string, string>, rows: map<int, MatchRow>, page: Option<seq<CsvMatch>>, leagueId: int,
                       clubs: seq<ClubRecord>, sim: Similarity): Result<map<int, MatchRow>>
  {
    match page
    case None => Ok(rows)
    case Some(file) =>
      var homeTeams := HomeTeams(file);
      var awayTeams := AwayTeams(file);
      match ClubIds(t, FetchClubIds(clubs, leagueId), leagueId, homeTeams, awayTeams, sim)
      case Err(e) => Err(e)
      case Ok(ids) =>
        var payload := Payload(file, ids);
        match OddsError(payload)
        case Some(e) => Err(e)
        case None => Ok(WithOdds(rows, Keyed(payload)))
  }

  /** Whatever the file holds, the odds update adds no match, removes none, and changes only
      the odds of the matches it touches. */
  lemma OddsOutcomeOnlyOdds(t: map<string, string>, rows: map<int, MatchRow>, page: Option<seq<CsvMatch>>, leagueId: int,
                            clubs: seq<ClubRecord>, sim: Similarity)
    ensures OddsOutcome(t, rows, page, leagueId, clubs, sim).Ok? ==>
              var after := OddsOutcome(t, rows, page, leagueId, clubs, sim).value;
              && after.Keys == rows.Keys
              && forall id :: id in rows ==> after[id] == rows[id].(odds := after[id].odds)
  {
    var out := OddsOutcome(t, rows, page, leagueId, clubs, sim);
    if page.Some? {
      var file := page.value;
      var ids := ClubIds(t, FetchClubIds(clubs, leagueId), leagueId, HomeTeams(file), AwayTeams(file), sim);
      if ids.Ok? {
        var payload := Payload(file, ids.value);
        if OddsError(payload).None? {
          assert out == Ok(WithOdds(rows, Keyed(payload)));
          WithOddsOnlyOdds(rows, Keyed(payload));
        } else {
          assert out.Err?;
        }
      } else {
        assert out.Err?;
      }
    } else {
      assert out == Ok(rows);
    }
  }

  /** The odds update changes the odds of some rows and nothing else. */
  lemma WithOddsOnlyOdds(rows: map<int, MatchRow>, payload: seq<(MatchKey, Odds)>)
    ensures WithOdds(rows, payload).Keys == rows.Keys
    ensures forall id :: id in rows ==> WithOdds(rows, payload)[id] == rows[id].(odds := WithOdds(rows, payload)[id].odds)
  {
  }

  class OddsBuilder {
    /** The database the builder writes to. */
    const store: MatchTable

    constructor (store: MatchTable)
      ensures this.store == store
    {
      this.store := store;
    }

    /** `insertMatches`: the update by key, committed when accepted. */
    method InsertMatches(payload: seq<OddsRow>) returns (r: Result<()>)
      requires store.Valid()
      modifies store
      ensures store.Valid()
      ensures store.clubMatch == old(store.clubMatch) && store.nextId == old(store.nextId)
      ensures payload == [] ==> r == Err(SqlError("syntax error at end of VALUES")) && store.rows == old(store.rows)
      ensures OddsError(payload).Some? ==> r == Err(OddsError(payload).value) && store.rows == old(store.rows)
      ensures OddsError(payload).None? ==> r == Ok(()) && store.rows == WithOdds(old(store.rows), Keyed(payload))
    {
      r := store.UpdateOdds(payload);
    }

    /** `parseCSV` for one league: the file's rows, or `None` when the page request failed,
        and the stored clubs. */
    method ParseCsv(page: Option<seq<CsvMatch>>, leagueId: int, clubs: seq<ClubRecord>, sim: Similarity)
      returns (r: Result<()>)
      requires store.Valid()
      modifies store
      ensures store.Valid()
      ensures store.clubMatch == old(store.clubMatch) && store.nextId == old(store.nextId)
      ensures OddsOutcome(KnownAnomalies, old(store.rows), page, leagueId, clubs, sim).Ok? ==>
                r == Ok(()) && store.rows == OddsOutcome(KnownAnomalies, old(store.rows), page, leagueId, clubs, sim).value
      ensures OddsOutcome(KnownAnomalies, old(store.rows), page, leagueId, clubs, sim).Err? ==>
                r == Err(OddsOutcome(KnownAnomalies, old(store.rows), page, leagueId, clubs, sim).error)
                && store.rows == old(store.rows)
    {
      if page.None? {
        return Ok(());
      }
      var file := page.value;
      var homeTeams := HomeTeams(file);
      var awayTeams := AwayTeams(file);
      var ids := MatchClubNames(FetchClubIds(clubs, leagueId), leagueId, homeTeams, awayTeams, sim);
      if ids.Err? {
        return Err(ids.error);
      }
      var payload := Payload(file, ids.value);
      r := InsertMatches(payload);
    }
  }
}

=== FILE: periods.dfy ===
/** The two fixed period tables the link generators slice from, and the pattern sets they
    are used with. */
module PeriodTables {
  import opened Common
  import opened Seasons

  /** `["{}<sep>{}".format(i, i + 1) for i in range(first, first + count)]`. */
  function Periods(first: nat, count: nat, sep: string): (ps: seq<string>)
    ensures |ps| == count
    ensures forall k :: 0 <= k < count ==> ps[k] == NatToString(first + k) + sep + NatToString(first + k + 1)
  {
    seq(count, k requires 0 <= k < count => NatToString(first + k) + sep + NatToString(first + k + 1))
  }

  /** The first year of each table. */
  const SoccerwayFirst: nat := 2011
  const LineupsFirst: nat := 1990

  /** The Soccerway seasons: `"2011-2012"`, then `"20122013"` to `"20202021"`. */
  const SoccerwayYears: seq<string> := Periods(SoccerwayFirst, 1, "-") + Periods(SoccerwayFirst + 1, 9, "")

  /** The football-lineups seasons: `"1990--1991"` to `"2020--2021"`. */
  const LineupsYears: seq<string> := Periods(LineupsFirst, 31, "--")

  /** The Soccerway generator: the seed's period is `\d{4}-?\d{4}`, and so is the tag
      pattern, but the substitution only rewrites `\d{4}-\d{4}`. */
  const SoccerwayFormat := PeriodFormat(["-", ""], ["-", ""], ["-"])

  /** The football-lineups generators use `\d{4}--\d{4}` throughout. */
  const LineupsFormat := PeriodFormat(["--"], ["--"], ["--"])

  /** The last two digits of a year. */
  function EndDigits(y: nat): (s: string)
    ensures |s| == 2 && AllDigits(s)
  {
    [DigitChar(y / 10 % 10), DigitChar(y % 10)]
  }

  /** Four digits, a separator, four digits: a period at the start of the string. */
  lemma PeriodOf(a: string, sep: string, b: string)
    requires |a| == 4 && |b| == 4 && AllDigits(a) && AllDigits(b)
    ensures PeriodAt(a + sep + b, 0, sep)
  {
    var s := a + sep + b;
    assert forall k :: 0 <= k < 4 ==> s[k] == a[k];
    assert forall k :: 0 <= k < |sep| ==> s[4 + k] == sep[k];
    assert forall k :: 4 + |sep| <= k < 8 + |sep| ==> s[k] == b[k - 4 - |sep|];
  }

  /** A year between 1000 and 9999 prints as four digits ending in its last two. */
  lemma YearDigits(y: nat)
    requires 1000 <= y < 10000
    ensures |NatToString(y)| == 4 && NatToString(y)[2..4] == EndDigits(y)
  {
    FourDigits(y);
  }

  /** Each Soccerway entry is a pair of consecutive years, hyphenated only for the first. */
  lemma SoccerwayEntry(k: nat)
    requires k < |SoccerwayYears|
    ensures SoccerwayYears[k] == NatToString(2011 + k) + (if k == 0 then "-" else "") + NatToString(2012 + k)
  {
    var head := Periods(SoccerwayFirst, 1, "-");
    var tail := Periods(SoccerwayFirst + 1, 9, "");
    if k == 0 {
      assert SoccerwayYears[k] == head[0];
    } else {
      assert SoccerwayYears[k] == tail[k - 1];
      assert tail[k - 1] == NatToString(2011 + k) + "" + NatToString(2012 + k);
    }
  }

  /** The first four characters of a Soccerway entry are its first year. */
  lemma SoccerwayHead(k: nat)
    requires k < |SoccerwayYears|
    ensures |SoccerwayYears[k]| >= 4 && SoccerwayYears[k][..4] == NatToString(2011 + k)
  {
    SoccerwayEntry(k);
    YearHead(2011 + k, (if k == 0 then "-" else "") + NatToString(2012 + k));
  }

  /** A period of two four-digit years that the pattern matches whole is tagged with the
      last two digits of each year. */
  lemma YearsTag(y: nat, sep: string, seps: seq<string>)
    requires 1000 <= y && y + 1 < 10000
    requires MatchLen(NatToString(y) + sep + NatToString(y + 1), 0, seps) == 8 + |sep|
    ensures Tag(NatToString(y) + sep + NatToString(y + 1), seps) == Some(EndDigits(y) + EndDigits(y + 1))
  {
    YearDigits(y);
    YearDigits(y + 1);
    TagOfPeriod(NatToString(y), sep, NatToString(y + 1), seps);
  }

  /** `\d{4}-?\d{4}` matches two hyphenated years whole. */
  lemma HyphenMatch(a: string, b: string)
    requires |a| == 4 && |b| == 4 && AllDigits(a) && AllDigits(b)
    ensures MatchLen(a + "-" + b, 0, ["-", ""]) == 9
  {
    PeriodOf(a, "-", b);
  }

  /** `\d{4}-?\d{4}` matches two adjacent years whole, the hyphen being optional. */
  lemma PlainMatch(a: string, b: string)
    requires |a| == 4 && |b| == 4 && AllDigits(a) && AllDigits(b)
    ensures MatchLen(a + "" + b, 0, ["-", ""]) == 8
  {
    PeriodOf(a, "", b);
    assert (a + "" + b)[4] == b[0];
    assert !PeriodAt(a + "" + b, 0, "-");
    assert ["-", ""][1..] == [""];
  }

  /** Every Soccerway season is tagged with the last two digits of both its years. */
  lemma SoccerwayTag(k: nat)
    requires k < |SoccerwayYears|
    ensures Tag(SoccerwayYears[k], SoccerwayFormat.tag) == Some(EndDigits(2011 + k) + EndDigits(2012 + k))
  {
    YearDigits(2011 + k);
    YearDigits(2012 + k);
    SoccerwayEntry(k);
    if k == 0 {
      HyphenMatch(NatToString(2011), NatToString(2012));
      YearsTag(2011, "-", SoccerwayFormat.tag);
    } else {
      PlainMatch(NatToString(2011 + k), NatToString(2012 + k));
      YearsTag(2011 + k, "", SoccerwayFormat.tag);
    }
  }

  /** The Soccerway table: ten chronological seasons, from 2011-2012 to 2020-2021, each
      tagged with the last two digits of both its years. */
  lemma SoccerwayTable()
    ensures |SoccerwayYears| == 10
    ensures SoccerwayYears[0] == "2011-2012" && SoccerwayYears[9] == "20202021"
    ensures forall k :: 0 <= k < 10 ==>
              Tag(SoccerwayYears[k], SoccerwayFormat.tag) == Some(EndDigits(2011 + k) + EndDigits(2012 + k))
  {
    SoccerwayEnds();
    forall k | 0 <= k < 10
      ensures Tag(SoccerwayYears[k], SoccerwayFormat.tag) == Some(EndDigits(2011 + k) + EndDigits(2012 + k))
    {
      SoccerwayTag(k);
    }
  }

  lemma SoccerwayEnds()
    ensures |SoccerwayYears| == 10
    ensures SoccerwayYears[0] == "2011-2012" && SoccerwayYears[9] == "20202021"
  {
    SoccerwayEntry(0);
    SoccerwayEntry(9);
    SoccerwayFirstText();
    LastYearsText();
  }

  /** The decimal text of the years at the start of the Soccerway table. */
  lemma SoccerwayFirstText()
    ensures NatToString(2011) == "2011" && NatToString(2012) == "2012"
  {
  }

  /** The decimal text of the years at the start of the football-lineups table. */
  lemma LineupsFirstText()
    ensures NatToString(1990) == "1990" && NatToString(1991) == "1991"
  {
  }

  /** The decimal text of the years at the end of both tables. */
  lemma LastYearsText()
    ensures NatToString(2020) == "2020" && NatToString(2021) == "2021"
  {
  }

  /** Every football-lineups season is tagged with the last two digits of both its years. */
  lemma LineupsTag(k: nat)
    requires k < |LineupsYears|
    ensures Tag(LineupsYears[k], LineupsFormat.tag) == Some(EndDigits(1990 + k) + EndDigits(1991 + k))
  {
    YearDigits(1990 + k);
    YearDigits(1991 + k);
    PeriodOf(NatToString(1990 + k), "--", NatToString(1991 + k));
    YearsTag(1990 + k, "--", LineupsFormat.tag);
  }

  lemma LineupsEnds()
    ensures |LineupsYears| == 31
    ensures LineupsYears[0] == "1990--1991" && LineupsYears[30] == "2020--2021"
  {
    LineupsFirstText();
    LastYearsText();
  }

  /** The football-lineups table: 31 chronological seasons, from 1990--1991 to 2020--2021,
      each tagged with the last two digits of both its years. */
  lemma LineupsTable()
    ensures |LineupsYears| == 31
    ensures LineupsYears[0] == "1990--1991" && LineupsYears[30] == "2020--2021"
    ensures forall k :: 0 <= k < 31 ==>
              Tag(LineupsYears[k], LineupsFormat.tag) == Some(EndDigits(1990 + k) + EndDigits(1991 + k))
  {
    LineupsEnds();
    forall k | 0 <= k < 31
      ensures Tag(LineupsYears[k], LineupsFormat.tag) == Some(EndDigits(1990 + k) + EndDigits(1991 + k))
    {
      LineupsTag(k);
    }
  }

  /** Entries of a table of four-digit years that start with different years differ. */
  lemma DistinctYears(s: string, t: string, y: nat, z: nat)
    requires 1000 <= y < 10000 && 1000 <= z < 10000 && y != z
    requires |s| >= 4 && |t| >= 4 && s[..4] == NatToString(y) && t[..4] == NatToString(z)
    ensures s != t
  {
    FourDigits(y);
    FourDigits(z);
    ParseNatToString(y);
    ParseNatToString(z);
  }

  /** No season appears twice, so `years.index` finds each at its own place. */
  lemma TablesDistinct()
    ensures forall k :: 0 <= k < |SoccerwayYears| ==> Position(SoccerwayYears, SoccerwayYears[k]) == Some(k)
    ensures forall k :: 0 <= k < |LineupsYears| ==> Position(LineupsYears, LineupsYears[k]) == Some(k)
  {
    forall k | 0 <= k < |SoccerwayYears|
      ensures Position(SoccerwayYears, SoccerwayYears[k]) == Some(k)
    {
      SoccerwayPosition(k);
    }
    forall k | 0 <= k < |LineupsYears|
      ensures Position(LineupsYears, LineupsYears[k]) == Some(k)
    {
      LineupsPosition(k);
    }
  }

  lemma SoccerwayPosition(k: nat)
    requires k < |SoccerwayYears|
    ensures Position(SoccerwayYears, SoccerwayYears[k]) == Some(k)
  {
    forall l | 0 <= l < k
      ensures SoccerwayYears[l] != SoccerwayYears[k]
    {
      SoccerwayDiffer(l, k);
    }
    PositionFirst(SoccerwayYears, k);
  }

  lemma LineupsPosition(k: nat)
    requires k < |LineupsYears|
    ensures Position(LineupsYears, LineupsYears[k]) == Some(k)
  {
    forall l | 0 <= l < k
      ensures LineupsYears[l] != LineupsYears[k]
    {
      LineupsDiffer(l, k);
    }
    PositionFirst(LineupsYears, k);
  }

  /** An entry that differs from every earlier one is found at its own place. */
  lemma PositionFirst(years: seq<string>, k: nat)
    requires k < |years| && forall l :: 0 <= l < k ==> years[l] != years[k]
    ensures Position(years, years[k]) == Some(k)
  {
  }

  lemma SoccerwayDiffer(l: nat, k: nat)
    requires l < k < |SoccerwayYears|
    ensures SoccerwayYears[l] != SoccerwayYears[k]
  {
    SoccerwayHead(k);
    SoccerwayHead(l);
    DistinctYears(SoccerwayYears[l], SoccerwayYears[k], 2011 + l, 2011 + k);
  }

  lemma LineupsDiffer(l: nat, k: nat)
    requires l < k < |LineupsYears|
    ensures LineupsYears[l] != LineupsYears[k]
  {
    YearHead(1990 + l, "--" + NatToString(1991 + l));
    YearHead(1990 + k, "--" + NatToString(1991 + k));
    assert LineupsYears[l] == NatToString(1990 + l) + "--" + NatToString(1991 + l);
    assert LineupsYears[k] == NatToString(1990 + k) + "--" + NatToString(1991 + k);
    DistinctYears(LineupsYears[l], LineupsYears[k], 1990 + l, 1990 + k);
  }

  /** A four-digit year followed by anything starts with that year. */
  lemma YearHead(y: nat, rest: string)
    requires 1000 <= y < 10000
    ensures |NatToString(y) + rest| >= 4 && (NatToString(y) + rest)[..4] == NatToString(y)
  {
    FourDigits(y);
  }

  /** Every Soccerway season has a tag. */
  lemma SoccerwayTagged()
    ensures forall i :: 0 <= i < |SoccerwayYears| ==> Tag(SoccerwayYears[i], SoccerwayFormat.tag).Some?
  {
    forall i | 0 <= i < |SoccerwayYears|
      ensures Tag(SoccerwayYears[i], SoccerwayFormat.tag).Some?
    {
      SoccerwayTag(i);
    }
  }

  /** Every football-lineups season has a tag. */
  lemma LineupsTagged()
    ensures forall i :: 0 <= i < |LineupsYears| ==> Tag(LineupsYears[i], LineupsFormat.tag).Some?
  {
    forall i | 0 <= i < |LineupsYears|
      ensures Tag(LineupsYears[i], LineupsFormat.tag).Some?
    {
      LineupsTag(i);
    }
  }

  /** A Soccerway league whose seed names season `k`: one link for each season from `k` to
      2020-2021, tagged with its years' endings, the seed's hyphenated periods rewritten. */
  lemma SoccerwayLeague(code: string, link: string, k: nat)
    requires k < |SoccerwayYears| && Search(link, SoccerwayFormat.search) == Some(SoccerwayYears[k])
    ensures LeagueLinks(code, link, SoccerwayYears, SoccerwayFormat).Ok?
    ensures var ls := LeagueLinks(code, link, SoccerwayYears, SoccerwayFormat).value;
            && |ls| == 10 - k
            && forall j :: 0 <= j < |ls| ==>
                 ls[j] == SeasonLink(code, EndDigits(2011 + k + j) + EndDigits(2012 + k + j),
                                     Sub(link, 0, ["-"], SoccerwayYears[k + j]))
  {
    SoccerwayTagged();
    SoccerwayPosition(k);
    LeagueFrom(code, link, SoccerwayYears, SoccerwayFormat, k);
    var ls := LeagueLinks(code, link, SoccerwayYears, SoccerwayFormat).value;
    forall j | 0 <= j < |ls|
      ensures ls[j] == SeasonLink(code, EndDigits(2011 + k + j) + EndDigits(2012 + k + j),
                                  Sub(link, 0, ["-"], SoccerwayYears[k + j]))
    {
      SoccerwayTag(k + j);
    }
  }

  /** A Soccerway seed without a hyphenated period is left as it is: every link of its
      league is the seed itself. */
  lemma SoccerwayPlainSeed(code: string, link: string)
    requires LeagueLinks(code, link, SoccerwayYears, SoccerwayFormat).Ok?
    requires Find(link, 0, ["-"]) == -1
    ensures forall l :: l in LeagueLinks(code, link, SoccerwayYears, SoccerwayFormat).value ==> l.url == link
  {
    PlainSeedKept(code, link, SoccerwayYears, SoccerwayFormat);
  }

  /** A football-lineups league whose seed names season `k`: one link for each season from
      `k` to 2020--2021, tagged with its years' endings, the seed's periods rewritten. */
  lemma LineupsLeague(code: string, link: string, k: nat)
    requires k < |LineupsYears| && Search(link, LineupsFormat.search) == Some(LineupsYears[k])
    ensures LeagueLinks(code, link, LineupsYears, LineupsFormat).Ok?
    ensures var ls := LeagueLinks(code, link, LineupsYears, LineupsFormat).value;
            && |ls| == 31 - k
            && forall j :: 0 <= j < |ls| ==>
                 ls[j] == SeasonLink(code, EndDigits(1990 + k + j) + EndDigits(1991 + k + j),
                                     Sub(link, 0, ["--"], LineupsYears[k + j]))
  {
    LineupsTagged();
    LineupsPosition(k);
    LeagueFrom(code, link, LineupsYears, LineupsFormat, k);
    var ls := LeagueLinks(code, link, LineupsYears, LineupsFormat).value;
    forall j | 0 <= j < |ls|
      ensures ls[j] == SeasonLink(code, EndDigits(1990 + k + j) + EndDigits(1991 + k + j),
                                  Sub(link, 0, ["--"], LineupsYears[k + j]))
    {
      LineupsTag(k + j);
    }
  }

  /** When a football-lineups seed has one period only, the first link of its league is the
      seed itself. */
  lemma LineupsFirstLink(code: string, link: string, k: nat)
    requires k < |LineupsYears| && Search(link, LineupsFormat.search) == Some(LineupsYears[k])
    requires Find(link, Find(link, 0, ["--"]) + MatchLen(link, Find(link, 0, ["--"]), ["--"]), ["--"]) == -1
    ensures LeagueLinks(code, link, LineupsYears, LineupsFormat).Ok?
    ensures |LeagueLinks(code, link, LineupsYears, LineupsFormat).value| == 31 - k
    ensures LeagueLinks(code, link, LineupsYears, LineupsFormat).value[0].url == link
  {
    LineupsTagged();
    LineupsPosition(k);
    FirstLinkFrom(code, link, LineupsYears, LineupsFormat, k);
  }
}

=== FILE: players.dfy ===
/** The sofifa player scrapers: each list page's rows become player tuples, a club seen for
    the first time is inserted and cached, and the list is followed page by page until sofifa
    redirects to its home page. The earlier scraper (`Alpha1`) raises on a failed request and
    cleans names and values its own way; the later one (`Alpha3`) gives up on the list. */
module Players {
  import opened Common
  import opened Http
  import opened Store
  import opened SofifaLinks
  import opened SofifaValues

  /** One `td` of a player row, by its `class`: the name cell with its player tooltip (name,
      position link, country flag title), the name cell without one (the club link), the
      rating, age, value and total cells, any other class, and a cell without a class. */
  datatype Cell =
    | NameCell(name: string, position: string, country: string)
    | ClubCell(club: string)
    | OverallCell(overall: string)
    | PotentialCell(potential: string)
    | AgeCell(age: string)
    | ValueCell(value: string)
    | TotalCell(total: string)
    | OtherCell
    | UnclassedCell

  /** `current_player`, key by key. */
  datatype Fields = Fields(
    name: Option<string>, position: Option<string>, country: Option<string>, clubId: Option<int>,
    overall: Option<string>, potential: Option<string>, age: Option<string>, value: Option<string>,
    total: Option<string>)

  const NoFields: Fields := Fields(None, None, None, None, None, None, None, None, None)

  /** `(name, club_id, overall_rating, potential_rating, position, age, value, country,
      total_rating)`. */
  datatype PlayerTuple = PlayerTuple(
    name: string, clubId: int, overall: string, potential: string, position: string,
    age: string, value: string, country: string, total: string)

  /** The tuple, read key by key in its own order: the first missing key is a `KeyError`. */
  function Tuple(f: Fields): (r: Result<PlayerTuple>)
    ensures r.Ok? <==>
              && f.name.Some? && f.clubId.Some? && f.overall.Some? && f.potential.Some? && f.position.Some?
              && f.age.Some? && f.value.Some? && f.country.Some? && f.total.Some?
  {
    if f.name.None? then Err(KeyError("name"))
    else if f.clubId.None? then Err(KeyError("club_id"))
    else if f.overall.None? then Err(KeyError("overall_rating"))
    else if f.potential.None? then Err(KeyError("potential_rating"))
    else if f.position.None? then Err(KeyError("position"))
    else if f.age.None? then Err(KeyError("age"))
    else if f.value.None? then Err(KeyError("value"))
    else if f.country.None? then Err(KeyError("country"))
    else if f.total.None? then Err(KeyError("total_rating"))
    else Ok(PlayerTuple(f.name.value, f.clubId.value, f.overall.value, f.potential.value, f.position.value,
                        f.age.value, f.value.value, f.country.value, f.total.value))
  }

  // The club cache

  /** `club_ids` together with the `club` table and its id sequence. */
  datatype Clubs = Clubs(cache: map<string, int>, table: map<int, (int, string)>, nextId: int)

  /** The club cell: a cached name gives its id; any other name is inserted (the later
      scraper with `ON CONFLICT DO NOTHING`) and its new id cached. */
  function ClubId(v: Version, st: Clubs, leagueId: int, name: string): (Result<int>, Clubs)
  {
    if name in st.cache then (Ok(st.cache[name]), st)
    else
      var (r, table, nextId) := ClubInsert(st.table, st.nextId, leagueId, name, v == Alpha3);
      (r, Clubs(if r.Ok? then st.cache[name := r.value] else st.cache, table, nextId))
  }

  /** The cache holds exactly the league's stored clubs, each under its own id; this is what
      `fetchClubIds` starts from. */
  predicate Consistent(st: Clubs, leagueId: int)
  {
    && ClubsValid(st.table, st.nextId)
    && (forall n :: n in st.cache ==> st.cache[n] in st.table && st.table[st.cache[n]] == (leagueId, n))
    && (forall id :: id in st.table && st.table[id].0 == leagueId ==> st.table[id].1 in st.cache)
  }

  /** From a consistent cache a club lookup never fails: a cached name gives its id and changes
      nothing, a new name is inserted once under the next id and cached; the cache stays
      consistent. */
  lemma ClubIdSpec(v: Version, st: Clubs, leagueId: int, name: string)
    requires Consistent(st, leagueId)
    ensures var (r, st') := ClubId(v, st, leagueId, name);
            && r.Ok? && Consistent(st', leagueId)
            && name in st'.cache && st'.cache[name] == r.value && st'.table[r.value] == (leagueId, name)
            && (name in st.cache ==> st' == st)
            && (name !in st.cache ==>
                  && r.value == st.nextId && st'.nextId == st.nextId + 1
                  && st'.table == st.table[st.nextId := (leagueId, name)])
  {
    if name !in st.cache {
      ClubInsertSpec(st.table, st.nextId, leagueId, name, v == Alpha3);
      assert !ClubTaken(st.table, leagueId, name);
      var (r, st') := ClubId(v, st, leagueId, name);
      forall id | id in st'.table && st'.table[id].0 == leagueId
        ensures st'.table[id].1 in st'.cache
      {
        if id != st.nextId {
          assert id in st.table;
        }
      }
    }
  }

  /** A club is inserted at most once: looking the same name up again gives the same id and
      changes nothing. */
  lemma ClubIdReuse(v: Version, st: Clubs, leagueId: int, name: string)
    requires Consistent(st, leagueId)
    ensures var (r, st') := ClubId(v, st, leagueId, name);
            ClubId(v, st', leagueId, name) == (r, st')
  {
    ClubIdSpec(v, st, leagueId, name);
  }

  // Rows

  /** The earlier scraper drops the first character of the tooltip text (`[1:]`). */
  function PlayerName(v: Version, text: string): string
  {
    if v == Alpha1 && text != [] then text[1..] else text
  }

  /** One cell of a row; a cell without a class raises `KeyError('class')`. */
  function CellStep(v: Version, cell: Cell, f: Fields, leagueId: int, st: Clubs): (Result<Fields>, Clubs)
  {
    match cell
    case NameCell(name, position, country) =>
      (Ok(f.(name := Some(PlayerName(v, name)), position := Some(position), country := Some(country))), st)
    case ClubCell(club) =>
      var (r, st') := ClubId(v, st, leagueId, club);
      (if r.Ok? then Ok(f.(clubId := Some(r.value))) else Err(r.error), st')
    case OverallCell(text) => (Ok(f.(overall := Some(text))), st)
    case PotentialCell(text) => (Ok(f.(potential := Some(text))), st)
    case AgeCell(text) => (Ok(f.(age := Some(text))), st)
    case ValueCell(text) =>
      var r := ValueText(v, text);
      (if r.Ok? then Ok(f.(value := Some(r.value))) else Err(r.error), st)
    case TotalCell(text) => (Ok(f.(total := Some(text))), st)
    case OtherCell => (Ok(f), st)
    case UnclassedCell => (Err(KeyError("class")), st)
  }

  /** The cell loop of one row, from `cells` on. */
  function CellsFrom(v: Version, cells: seq<Cell>, f: Fields, leagueId: int, st: Clubs): (Result<Fields>, Clubs)
    decreases |cells|
  {
    if cells == [] then (Ok(f), st)
    else
      var (r, st') := CellStep(v, cells[0], f, leagueId, st);
      if r.Err? then (Err(r.error), st') else CellsFrom(v, cells[1..], r.value, leagueId, st')
  }

  /** One table row: its cells, then its tuple. */
  function RowParse(v: Version, cells: seq<Cell>, leagueId: int, st: Clubs): (Result<PlayerTuple>, Clubs)
  {
    var (r, st') := CellsFrom(v, cells, NoFields, leagueId, st);
    (if r.Ok? then Tuple(r.value) else Err(r.error), st')
  }

  /** `parseHTML`: every row in order, the club state threaded through. */
  function RowsFrom(v: Version, rows: seq<seq<Cell>>, leagueId: int, st: Clubs): (Result<seq<PlayerTuple>>, Clubs)
    decreases |rows|
  {
    if rows == [] then (Ok([]), st)
    else
      var (r, st') := RowParse(v, rows[0], leagueId, st);
      if r.Err? then (Err(r.error), st')
      else
        var (rest, st'') := RowsFrom(v, rows[1..], leagueId, st');
        (if rest.Ok? then Ok([r.value] + rest.value) else rest, st'')
  }

  /** A row laid out as sofifa lays it out gives the tuple in its fixed order, with the
      club's id and the stored value. */
  lemma RowTupleOrder(v: Version, st: Clubs, leagueId: int,
                      name: string, position: string, country: string, club: string,
                      overall: string, potential: string, age: string, value: string, total: string)
    requires Consistent(st, leagueId) && ValueText(v, value).Ok?
    ensures var cells := [NameCell(name, position, country), ClubCell(club), OverallCell(overall),
                          PotentialCell(potential), AgeCell(age), ValueCell(value), TotalCell(total)];
            var (id, st') := ClubId(v, st, leagueId, club);
            && id.Ok?
            && RowParse(v, cells, leagueId, st) ==
                 (Ok(PlayerTuple(PlayerName(v, name), id.value, overall, potential, position, age,
                                 ValueText(v, value).value, country, total)), st')
  {
    ClubIdSpec(v, st, leagueId, club);
    var cells := [NameCell(name, position, country), ClubCell(club), OverallCell(overall),
                  PotentialCell(potential), AgeCell(age), ValueCell(value), TotalCell(total)];
    var (id, st') := ClubId(v, st, leagueId, club);
    var f1 := NoFields.(name := Some(PlayerName(v, name)), position := Some(position), country := Some(country));
    var f2 := f1.(clubId := Some(id.value));
    assert CellsFrom(v, cells, NoFields, leagueId, st) == CellsFrom(v, cells[1..], f1, leagueId, st);
    assert CellsFrom(v, cells[1..], f1, leagueId, st) == CellsFrom(v, cells[2..], f2, leagueId, st');
    TextCells(v, overall, potential, age, value, total, f2, leagueId, st');
  }

  /** The five text cells after the club fill in their keys and leave the clubs alone. */
  lemma TextCells(v: Version, overall: string, potential: string, age: string, value: string, total: string,
                  f: Fields, leagueId: int, st: Clubs)
    requires ValueText(v, value).Ok?
    ensures CellsFrom(v, [OverallCell(overall), PotentialCell(potential), AgeCell(age), ValueCell(value), TotalCell(total)],
                      f, leagueId, st) ==
              (Ok(f.(overall := Some(overall), potential := Some(potential), age := Some(age),
                     value := Some(ValueText(v, value).value), total := Some(total))), st)
  {
    var cells := [OverallCell(overall), PotentialCell(potential), AgeCell(age), ValueCell(value), TotalCell(total)];
    var f3 := f.(overall := Some(overall));
    var f4 := f3.(potential := Some(potential));
    var f5 := f4.(age := Some(age));
    var f6 := f5.(value := Some(ValueText(v, value).value));
    var f7 := f6.(total := Some(total));
    assert CellsFrom(v, cells, f, leagueId, st) == CellsFrom(v, cells[1..], f3, leagueId, st);
    assert CellsFrom(v, cells[1..], f3, leagueId, st) == CellsFrom(v, cells[2..], f4, leagueId, st);
    assert CellsFrom(v, cells[2..], f4, leagueId, st) == CellsFrom(v, cells[3..], f5, leagueId, st);
    assert CellsFrom(v, cells[3..], f5, leagueId, st) == CellsFrom(v, cells[4..], f6, leagueId, st);
    assert CellsFrom(v, cells[4..], f6, leagueId, st) == CellsFrom(v, cells[5..], f7, leagueId, st);
    assert cells[5..] == [];
  }

  /** Cell by cell the cache stays consistent, so the only errors a row can raise are a cell
      without a class and a value `int` cannot read. */
  lemma {:induction false} CellsConsistent(v: Version, cells: seq<Cell>, f: Fields, leagueId: int, st: Clubs)
    requires Consistent(st, leagueId)
    ensures Consistent(CellsFrom(v, cells, f, leagueId, st).1, leagueId)
    ensures CellsFrom(v, cells, f, leagueId, st).0.Err? ==>
              CellsFrom(v, cells, f, leagueId, st).0.error in {KeyError("class"), ValueError}
    decreases |cells|
  {
    if cells != [] {
      if cells[0].ClubCell? {
        ClubIdSpec(v, st, leagueId, cells[0].club);
      }
      if cells[0].ValueCell? {
        ValueErrors(v, cells[0].value);
      }
      var (r, st') := CellStep(v, cells[0], f, leagueId, st);
      if r.Ok? {
        CellsConsistent(v, cells[1..], r.value, leagueId, st');
      }
    }
  }

  lemma ValueErrors(v: Version, text: string)
    ensures ValueText(v, text).Err? ==> ValueText(v, text).error == ValueError
  {
  }

  /** Row by row likewise; a completed page has exactly one tuple per row. */
  lemma {:induction false} RowsSpec(v: Version, rows: seq<seq<Cell>>, leagueId: int, st: Clubs)
    requires Consistent(st, leagueId)
    ensures Consistent(RowsFrom(v, rows, leagueId, st).1, leagueId)
    ensures RowsFrom(v, rows, leagueId, st).0.Ok? ==> |RowsFrom(v, rows, leagueId, st).0.value| == |rows|
    decreases |rows|
  {
    if rows != [] {
      CellsConsistent(v, rows[0], NoFields, leagueId, st);
      var (r, st') := RowParse(v, rows[0], leagueId, st);
      if r.Ok? {
        RowsSpec(v, rows[1..], leagueId, st');
      }
    }
  }

  /** `players` in front of the tuples of the remaining rows. */
  function AfterRows(players: seq<PlayerTuple>, r: (Result<seq<PlayerTuple>>, Clubs)): (Result<seq<PlayerTuple>>, Clubs)
  {
    (if r.0.Ok? then Ok(players + r.0.value) else r.0, r.1)
  }

  lemma AfterRowsNil(r: (Result<seq<PlayerTuple>>, Clubs))
    ensures AfterRows([], r) == r
  {
    if r.0.Ok? {
      assert [] + r.0.value == r.0.value;
    }
  }

  lemma AfterRowsStep(players: seq<PlayerTuple>, t: PlayerTuple, r: (Result<seq<PlayerTuple>>, Clubs))
    ensures AfterRows(players, (if r.0.Ok? then Ok([t] + r.0.value) else r.0, r.1)) == AfterRows(players + [t], r)
  {
    if r.0.Ok? {
      assert players + ([t] + r.0.value) == players + [t] + r.0.value;
    }
  }

  // Pages

  /** A list page as requested: the URL it ended up at and its rows. */
  datatype SofifaPage = SofifaPage(url: string, rows: seq<seq<Cell>>)

  /** `requestPage`: the later scraper returns `None` on any failure, the earlier one raises. */
  function Request(v: Version, f: Fetch<SofifaPage>): Result<Option<SofifaPage>>
  {
    match v
    case Alpha3 => Ok(Lenient(f))
    case Alpha1 =>
      match Strict(f)
      case Err(e) => Err(e)
      case Ok(page) => Ok(Some(page))
  }

  /** `acc` in front of the players of a completed list. */
  function Prepend(acc: seq<PlayerTuple>, r: Result<Option<seq<PlayerTuple>>>): Result<Option<seq<PlayerTuple>>>
  {
    if r.Ok? && r.value.Some? then Ok(Some(acc + r.value.value)) else r
  }

  /** One turn of the page loop: parse the page's rows, compute the next link and request it;
      the outcome is a failure, `None` from a failed request, or the page's players with the
      next page. */
  function PageTurn(v: Version, server: string -> Fetch<SofifaPage>, page: SofifaPage, leagueId: int, st: Clubs)
    : (Result<Option<(seq<PlayerTuple>, SofifaPage)>>, Clubs)
  {
    var (parsed, st') := RowsFrom(v, page.rows, leagueId, st);
    if parsed.Err? then (Err(parsed.error), st')
    else
      match NextLink(page.url)
      case Err(e) => (Err(e), st')
      case Ok(next) =>
        match Request(v, server(next))
        case Err(e) => (Err(e), st')
        case Ok(None) => (Ok(None), st')
        case Ok(Some(nextPage)) => (Ok(Some((parsed.value, nextPage))), st')
  }

  /** The `while` loop from `page` on, for at most `fuel` pages: stop at the home page,
      otherwise take a turn on the page. */
  function Pages(v: Version, server: string -> Fetch<SofifaPage>, fuel: nat, page: SofifaPage, leagueId: int, st: Clubs)
    : (Result<Option<seq<PlayerTuple>>>, Clubs)
    decreases fuel, 0
  {
    if page.url == Home then (Ok(Some([])), st)
    else if fuel == 0 then (Err(OutOfFuel), st)
    else Turn(v, server, fuel - 1, page, leagueId, st)
  }

  /** A turn of the loop on `page`, then the loop from the next page with `fuel` pages left. */
  function Turn(v: Version, server: string -> Fetch<SofifaPage>, fuel: nat, page: SofifaPage, leagueId: int, st: Clubs)
    : (Result<Option<seq<PlayerTuple>>>, Clubs)
    decreases fuel, 1
  {
    var (turn, st') := PageTurn(v, server, page, leagueId, st);
    match turn
    case Err(e) => (Err(e), st')
    case Ok(None) => (Ok(None), st')
    case Ok(Some((parsed, nextPage))) =>
      var (rest, st'') := Pages(v, server, fuel, nextPage, leagueId, st');
      (Prepend(parsed, rest), st'')
  }

  lemma PrependNil(r: Result<Option<seq<PlayerTuple>>>)
    ensures Prepend([], r) == r
  {
    if r.Ok? && r.value.Some? {
      assert [] + r.value.value == r.value.value;
    }
  }

  /** `players` in front of the players of the remaining pages. */
  function AfterPages(players: seq<PlayerTuple>, r: (Result<Option<seq<PlayerTuple>>>, Clubs)): (Result<Option<seq<PlayerTuple>>>, Clubs)
  {
    (Prepend(players, r.0), r.1)
  }

  /** Players collected in two steps are the players collected at once. */
  lemma PrependTwice(players: seq<PlayerTuple>, parsed: seq<PlayerTuple>, r: Result<Option<seq<PlayerTuple>>>)
    ensures Prepend(players, Prepend(parsed, r)) == Prepend(players + parsed, r)
  {
    if r.Ok? && r.value.Some? {
      assert players + (parsed + r.value.value) == players + parsed + r.value.value;
    }
  }

  /** A turn that fails or gets `None` ends the loop with its outcome. */
  lemma PagesStop(v: Version, server: string -> Fetch<SofifaPage>, left: nat, page: SofifaPage, leagueId: int, st: Clubs,
                  players: seq<PlayerTuple>, turn: Result<Option<(seq<PlayerTuple>, SofifaPage)>>, st': Clubs)
    requires page.url != Home && left > 0
    requires PageTurn(v, server, page, leagueId, st) == (turn, st') && (turn.Err? || turn.value.None?)
    ensures AfterPages(players, Pages(v, server, left, page, leagueId, st)) ==
              (if turn.Err? then Err(turn.error) else Ok(None), st')
  {
    assert Pages(v, server, left, page, leagueId, st) == Turn(v, server, left - 1, page, leagueId, st);
  }

  /** A turn that goes on to the next page adds the page's players behind those collected. */
  lemma PagesNext(v: Version, server: string -> Fetch<SofifaPage>, left: nat, page: SofifaPage, leagueId: int, st: Clubs,
                  players: seq<PlayerTuple>, parsed: seq<PlayerTuple>, st': Clubs, next: SofifaPage)
    requires page.url != Home && left > 0
    requires PageTurn(v, server, page, leagueId, st) == (Ok(Some((parsed, next))), st')
    ensures AfterPages(players, Pages(v, server, left, page, leagueId, st)) ==
              AfterPages(players + parsed, Pages(v, server, left - 1, next, leagueId, st'))
  {
    assert Pages(v, server, left, page, leagueId, st) == Turn(v, server, left - 1, page, leagueId, st);
    PrependTwice(players, parsed, Pages(v, server, left - 1, next, leagueId, st').0);
  }

  /** `preprocess` for one list, from the league's cached clubs. */
  function ListPlayers(v: Version, server: string -> Fetch<SofifaPage>, fuel: nat, link: string, leagueId: int, st: Clubs)
    : (Result<Option<seq<PlayerTuple>>>, Clubs)
  {
    match Request(v, server(link))
    case Err(e) => (Err(e), st)
    case Ok(None) => (Ok(None), st)
    case Ok(Some(page)) => Pages(v, server, fuel, page, leagueId, st)
  }

  /** The earlier scraper never returns `None`: a list either completes or raises. */
  lemma {:induction false} StrictNeverNone(server: string -> Fetch<SofifaPage>, fuel: nat, page: SofifaPage, leagueId: int, st: Clubs)
    ensures Pages(Alpha1, server, fuel, page, leagueId, st).0 != Ok(None)
    decreases fuel
  {
    if page.url != Home && fuel > 0 {
      assert Pages(Alpha1, server, fuel, page, leagueId, st) == Turn(Alpha1, server, fuel - 1, page, leagueId, st);
      var (turn, st') := PageTurn(Alpha1, server, page, leagueId, st);
      if turn.Ok? {
        StrictNeverNone(server, fuel - 1, turn.value.value.1, leagueId, st');
      }
    }
  }

  /** The later scraper returns `None`, whatever it had collected, when a page of the list
      fails to load; the first page failing returns `None` at once. */
  lemma LenientFirstPage(server: string -> Fetch<SofifaPage>, fuel: nat, link: string, leagueId: int, st: Clubs)
    ensures !IsOk(server(link)) ==> ListPlayers(Alpha3, server, fuel, link, leagueId, st) == (Ok(None), st)
    ensures IsOk(server(link)) ==>
              ListPlayers(Alpha3, server, fuel, link, leagueId, st) == Pages(Alpha3, server, fuel, server(link).page, leagueId, st)
  {
  }

  /** Across pages the club cache stays consistent. */
  lemma {:induction false} PagesConsistent(v: Version, server: string -> Fetch<SofifaPage>, fuel: nat, page: SofifaPage, leagueId: int, st: Clubs)
    requires Consistent(st, leagueId)
    ensures Consistent(Pages(v, server, fuel, page, leagueId, st).1, leagueId)
    decreases fuel
  {
    if page.url != Home && fuel > 0 {
      RowsSpec(v, page.rows, leagueId, st);
      assert Pages(v, server, fuel, page, leagueId, st) == Turn(v, server, fuel - 1, page, leagueId, st);
      var (turn, st') := PageTurn(v, server, page, leagueId, st);
      if turn.Ok? && turn.value.Some? {
        PagesConsistent(v, server, fuel - 1, turn.value.value.1, leagueId, st');
      }
    }
  }

  /** `(league, season, players_location)` rows. */
  function PlayerLinkRows(links: seq<PlayerLink>): (rows: seq<LinkRow>)
    ensures |rows| == |links|
    ensures forall i :: 0 <= i < |links| ==> rows[i] == LinkRow(LeagueKey(links[i].code, links[i].season), None, links[i].url)
  {
    seq(|links|, i requires 0 <= i < |links| => LinkRow(LeagueKey(links[i].code, links[i].season), None, links[i].url))
  }

  /** `(league, season, link)` payload rows. */
  function PlayerLinkPairs(links: seq<PlayerLink>): (ps: seq<(LeagueKey, string)>)
    ensures |ps| == |links|
    ensures forall i :: 0 <= i < |links| ==> ps[i] == (LeagueKey(links[i].code, links[i].season), links[i].url)
  {
    seq(|links|, i requires 0 <= i < |links| => (LeagueKey(links[i].code, links[i].season), links[i].url))
  }

  class PlayerScraper {
    const version: Version
    const store: LeagueTable
    const clubs: ClubTable

    constructor (version: Version, store: LeagueTable, clubs: ClubTable)
      ensures this.version == version && this.store == store && this.clubs == clubs
    {
      this.version := version;
      this.store := store;
      this.clubs := clubs;
    }

    /** `linkGenerator`. */
    method LinkGenerator(editions: seq<(string, int)>, leagues: seq<(string, int)>) returns (links: seq<PlayerLink>)
      ensures links == Product(editions, leagues)
    {
      links := [];
      for i := 0 to |leagues|
        invariant links == Product(editions, leagues[..i])
      {
        ghost var before := links;
        for j := 0 to |editions|
          invariant links == before + EditionLinks(editions, leagues[i].0, leagues[i].1)[..j]
        {
          EditionStep(editions, leagues[i].0, leagues[i].1, j);
          links := links + [PlayerLink(leagues[i].0, editions[j].0, SofifaUrl(leagues[i].1, editions[j].1))];
        }
        ProductStep(editions, leagues, i);
        assert EditionLinks(editions, leagues[i].0, leagues[i].1)[..|editions|] == EditionLinks(editions, leagues[i].0, leagues[i].1);
      }
      assert leagues[..|leagues|] == leagues;
    }

    /** `insertLinksToDB`: the later scraper inserts or updates `players_location`; the earlier
        one only updates the rows already stored. */
    method InsertLinksToDB(links: seq<PlayerLink>) returns (r: Result<()>)
      modifies store
      ensures links == [] ==> r == Err(SqlError("syntax error at end of VALUES")) && store.rows == old(store.rows)
      ensures version == Alpha3 && links != [] && !DistinctLinkKeys(PlayerLinkRows(links)) ==>
                r == Err(SqlError("ON CONFLICT DO UPDATE command cannot affect row a second time"))
                && store.rows == old(store.rows)
      ensures version == Alpha3 && links != [] && DistinctLinkKeys(PlayerLinkRows(links)) ==>
                r == Ok(()) && store.rows == Upserted(old(store.rows), PlayerLinkRows(links), PlayersLocation)
      ensures version == Alpha1 && links != [] ==>
                r == Ok(()) && store.rows == UpdatedLocations(old(store.rows), PlayerLinkPairs(links), PlayersLocation)
    {
      if version == Alpha3 {
        r := store.Upsert(PlayerLinkRows(links), PlayersLocation);
      } else {
        r := store.UpdateExisting(PlayerLinkPairs(links), PlayersLocation);
      }
    }

    /** The cells of one row, with `club_ids` updated in place. */
    method ParseRow(cells: seq<Cell>, cache: map<string, int>, leagueId: int) returns (r: Result<PlayerTuple>, cache': map<string, int>)
      requires clubs.Valid()
      modifies clubs
      ensures clubs.Valid()
      ensures (r, Clubs(cache', clubs.clubs, clubs.nextId)) ==
                RowParse(version, cells, leagueId, Clubs(cache, old(clubs.clubs), old(clubs.nextId)))
    {
      ghost var st0 := Clubs(cache, clubs.clubs, clubs.nextId);
      var f := NoFields;
      cache' := cache;
      for j := 0 to |cells|
        invariant clubs.Valid()
        invariant CellsFrom(version, cells, NoFields, leagueId, st0) ==
                    CellsFrom(version, cells[j..], f, leagueId, Clubs(cache', clubs.clubs, clubs.nextId))
      {
        assert cells[j..][0] == cells[j] && cells[j..][1..] == cells[j + 1..];
        match cells[j]
        case ClubCell(club) =>
          if club in cache' {
            f := f.(clubId := Some(cache'[club]));
          } else {
            var id := clubs.InsertClub(leagueId, club, version == Alpha3);
            if id.Err? {
              return Err(id.error), cache';
            }
            cache' := cache'[club := id.value];
            f := f.(clubId := Some(id.value));
          }
        case UnclassedCell =>
          return Err(KeyError("class")), cache';
        case ValueCell(text) =>
          var value := ValueText(version, text);
          if value.Err? {
            return Err(value.error), cache';
          }
          f := f.(value := Some(value.value));
        case _ =>
          f := CellStep(version, cells[j], f, leagueId, Clubs(cache', clubs.clubs, clubs.nextId)).0.value;
      }
      r := Tuple(f);
    }

    /** `parseHTML`: the rows of one page, in order. */
    method ParseHTML(rows: seq<seq<Cell>>, cache: map<string, int>, leagueId: int)
      returns (r: Result<seq<PlayerTuple>>, cache': map<string, int>)
      requires clubs.Valid()
      modifies clubs
      ensures clubs.Valid()
      ensures (r, Clubs(cache', clubs.clubs, clubs.nextId)) ==
                RowsFrom(version, rows, leagueId, Clubs(cache, old(clubs.clubs), old(clubs.nextId)))
    {
      ghost var st0 := Clubs(cache, clubs.clubs, clubs.nextId);
      var players: seq<PlayerTuple> := [];
      cache' := cache;
      assert rows[0..] == rows;
      AfterRowsNil(RowsFrom(version, rows, leagueId, st0));
      for i := 0 to |rows|
        invariant clubs.Valid()
        invariant RowsFrom(version, rows, leagueId, st0) ==
                    AfterRows(players, RowsFrom(version, rows[i..], leagueId, Clubs(cache', clubs.clubs, clubs.nextId)))
      {
        assert rows[i..][0] == rows[i] && rows[i..][1..] == rows[i + 1..];
        ghost var before := players;
        ghost var st := Clubs(cache', clubs.clubs, clubs.nextId);
        var t;
        t, cache' := ParseRow(rows[i], cache', leagueId);
        if t.Err? {
          assert RowsFrom(version, rows[i..], leagueId, st) == (Err(t.error), Clubs(cache', clubs.clubs, clubs.nextId));
          return Err(t.error), cache';
        }
        players := players + [t.value];
        AfterRowsStep(before, t.value, RowsFrom(version, rows[i + 1..], leagueId, Clubs(cache', clubs.clubs, clubs.nextId)));
      }
      assert rows[|rows|..] == [];
      assert players + [] == players;
      r := Ok(players);
    }

    /** `preprocess`: request the list's first page, then parse and follow pages until the
        home page, for at most `fuel` pages. */
    method Preprocess(server: string -> Fetch<SofifaPage>, fuel: nat, link: string, leagueId: int, cache: map<string, int>)
      returns (r: Result<Option<seq<PlayerTuple>>>)
      requires clubs.Valid()
      modifies clubs
      ensures clubs.Valid()
      ensures var (spec, st) := ListPlayers(version, server, fuel, link, leagueId, Clubs(cache, old(clubs.clubs), old(clubs.nextId)));
              r == spec && clubs.clubs == st.table && clubs.nextId == st.nextId
    {
      ghost var st0 := Clubs(cache, clubs.clubs, clubs.nextId);
      var response := Request(version, server(link));
      if response.Err? || response.value.None? {
        // an exception, or `None` when the first page fails to load
        return if response.Err? then Err(response.error) else Ok(None);
      }
      var page := response.value.value;
      ghost var spec := Pages(version, server, fuel, page, leagueId, st0);
      assert spec == ListPlayers(version, server, fuel, link, leagueId, st0);
      var players: seq<PlayerTuple> := [];
      var clubIds := cache;
      var left := fuel;
      PrependNil(spec.0);
      while page.url != Home
        invariant clubs.Valid()
        invariant spec == AfterPages(players, Pages(version, server, left, page, leagueId, Clubs(clubIds, clubs.clubs, clubs.nextId)))
        decreases left
      {
        if left == 0 {
          return Err(OutOfFuel);
        }
        ghost var st := Clubs(clubIds, clubs.clubs, clubs.nextId);
        var turn;
        turn, clubIds := TurnPage(server, page, leagueId, clubIds);
        if turn.Err? || turn.value.None? {
          // an exception, or `None` from a failed request
          r := if turn.Err? then Err(turn.error) else Ok(None);
          PagesStop(version, server, left, page, leagueId, st, players, turn, Clubs(clubIds, clubs.clubs, clubs.nextId));
          return;
        }
        var (extracted, next) := turn.value.value;
        PagesNext(version, server, left, page, leagueId, st, players, extracted, Clubs(clubIds, clubs.clubs, clubs.nextId), next);
        players := players + extracted;
        page := next;
        left := left - 1;
      }
      assert players + [] == players;
      r := Ok(Some(players));
    }

    /** The body of the page loop: `parseHTML` on the page, then the next link and its
        request. */
    method TurnPage(server: string -> Fetch<SofifaPage>, page: SofifaPage, leagueId: int, cache: map<string, int>)
      returns (r: Result<Option<(seq<PlayerTuple>, SofifaPage)>>, cache': map<string, int>)
      requires clubs.Valid()
      modifies clubs
      ensures clubs.Valid()
      ensures (r, Clubs(cache', clubs.clubs, clubs.nextId)) ==
                PageTurn(version, server, page, leagueId, Clubs(cache, old(clubs.clubs), old(clubs.nextId)))
    {
      var extracted;
      extracted, cache' := ParseHTML(page.rows, cache, leagueId);
      if extracted.Err? {
        return Err(extracted.error), cache';
      }
      var next := NextLink(page.url);
      if next.Err? {
        return Err(next.error), cache';
      }
      var response := Request(version, server(next.value));
      if response.Err? {
        return Err(response.error), cache';
      }
      if response.value.None? {
        return Ok(None), cache';
      }
      r := Ok(Some((extracted.value, response.value.value)));
    }
  }
}

=== FILE: predict.dfy ===
/** The predictor's scraping front end: for one fixture link it reads the date, the teams and
    the lineups off the match page, then resolves them to the stored ids of the league's clubs
    and players. The betting model that consumes the ids is not part of this model. */
module Predict {
  import opened Common
  import opened Dicts
  import opened Resolution
  import opened Catalog
  import opened MatchInfo
  import opened Http

  /** The `match_info` dict `extractMatchInfo` returns. */
  datatype PredictInfo = PredictInfo(
    gameDate: string, homeTeam: string, awayTeam: string,
    homeLineup: seq<Option<string>>, awayLineup: seq<Option<string>>)

  /** The lineups of a page: the first eleven names of each side when both tables have at
      least twelve rows, nothing when either is shorter, and eleven `None`s on each side when
      the page has no lineup block. */
  function PageLineups(lineups: Option<LineupBlock>): (r: Option<(seq<Option<string>>, seq<Option<string>>)>)
    ensures lineups.None? ==> r == Some((NoLineup(), NoLineup()))
    ensures lineups.Some? ==> (r.None? <==> FullLineups(lineups.value).None?)
    ensures r.Some? ==> |r.value.0| == Starters && |r.value.1| == Starters
  {
    match lineups
    case None => Some((NoLineup(), NoLineup()))
    case Some(block) =>
      match FullLineups(block)
      case None => None
      case Some((home, away)) => Some((Named(home), Named(away)))
  }

  /** `extractMatchInfo` on the outcome of requesting the fixture link. The date is converted
      before the lineups are looked at, so a bad date raises even on a page whose lineups are
      short. The final check that all five keys are present always holds. */
  function ExtractMatchInfo(f: Fetch<MatchPage>): (r: Result<Option<PredictInfo>>)
    // A failed connection or a 500 gives no match; any other non-200 status raises.
    ensures f.ConnectionError? || (f.Reply? && f.status == 500) ==> r == Ok(None)
    ensures f.Reply? && f.status != 200 && f.status != 500 ==> r == Err(HttpStatus(f.status))
    // A page without the match-info block gives no match.
    ensures IsOk(f) && f.page.details.None? ==> r == Ok(None)
    // A date `strptime` refuses raises.
    ensures IsOk(f) && f.page.details.Some? ==>
              (ReformatDate(f.page.details.value.date).Err? ==> r == Err(ValueError))
    // A lineup table shorter than twelve rows gives no match.
    ensures IsOk(f) && f.page.details.Some? && ReformatDate(f.page.details.value.date).Ok? ==>
              (f.page.lineups.Some? && FullLineups(f.page.lineups.value).None? ==> r == Ok(None))
    // Otherwise the match is returned, with the converted date, the team titles, and eleven
    // lineup entries per side: the first eleven names, or all `None` without lineups.
    ensures r.Ok? && r.value.Some? ==>
              var info := r.value.value;
              && IsOk(f) && f.page.details.Some?
              && Ok(info.gameDate) == ReformatDate(f.page.details.value.date)
              && info.homeTeam == f.page.details.value.homeTeam && info.awayTeam == f.page.details.value.awayTeam
              && |info.homeLineup| == Starters && |info.awayLineup| == Starters
              && (f.page.lineups.None? ==> info.homeLineup == NoLineup() && info.awayLineup == NoLineup())
              && (f.page.lineups.Some? ==>
                    && |f.page.lineups.value.homeRows| > Starters && |f.page.lineups.value.awayRows| > Starters
                    && forall i :: 0 <= i < Starters ==>
                         info.homeLineup[i] == Some(f.page.lineups.value.homeRows[i]) &&
                         info.awayLineup[i] == Some(f.page.lineups.value.awayRows[i]))
  {
    match SkipServerErrors(f)
    case Err(e) => Err(e)
    case Ok(None) => Ok(None)
    case Ok(Some(page)) =>
      match page.details
      case None => Ok(None)
      case Some(details) =>
        match ReformatDate(details.date)
        case Err(e) => Err(e)
        case Ok(gameDate) =>
          match PageLineups(page.lineups)
          case None => Ok(None)
          case Some((home, away)) => Ok(Some(PredictInfo(gameDate, details.homeTeam, details.awayTeam, home, away)))
  }

  /** A well-formed page with full lineups is always returned, its date stored year first,
      whichever of the day and month forms it is printed with. */
  lemma ExtractMatchInfoDate(page: MatchPage, dt: string, mt: string, y: nat, m: nat, d: nat)
    requires 1 <= y < 10000 && ValidDate(y, m, d) && DayText(dt, d) && MonthText(mt, m)
    requires page.details.Some? && page.details.value.date == dt + "/" + mt + "/" + Four(y)
    requires page.lineups.None? || FullLineups(page.lineups.value).Some?
    ensures ExtractMatchInfo(Reply(200, page)).Ok?
    ensures ExtractMatchInfo(Reply(200, page)).value.Some?
    ensures ExtractMatchInfo(Reply(200, page)).value.value.gameDate == YearFirst(y, m, d)
  {
    ReformatDayFirst(dt, mt, y, m, d);
  }

  /** A match `extractMatchInfo` returns fills the eleven slots of each side once resolved. */
  lemma ResolvedLineupsFit(f: Fetch<MatchPage>, clubIds: Dict, playerIds: map<int, seq<(string, int)>>,
                           season: string, league: string, sim: Similarity)
    requires ExtractMatchInfo(f).Ok? && ExtractMatchInfo(f).value.Some?
    ensures var info := ExtractMatchInfo(f).value.value;
            var m := ResolveMatch(clubIds, playerIds, season, league, info.homeTeam, info.awayTeam,
                                  info.homeLineup, info.awayLineup, sim);
            m.Ok? ==> |m.value.homeIds| == Starters && |m.value.awayIds| == Starters
  {
    var info := ExtractMatchInfo(f).value.value;
    ResolveMatchSpec(clubIds, playerIds, season, league, info.homeTeam, info.awayTeam,
                     info.homeLineup, info.awayLineup, sim);
  }

  class Predictor {
    const link: string
    const league: string
    const season: string
    /** `_club_ids`: the league's club names and ids, read once. */
    const clubIds: Dict
    /** `_player_ids`: per club of the league, its players, read once. */
    const playerIds: map<int, seq<(string, int)>>

    /** Reads the league's clubs (`fetchClubIds`) and groups its players by club in row order
        (`fetchPlayerIds`). */
    constructor (link: string, league: string, season: string, clubs: seq<ClubRecord>, players: seq<PlayerRecord>)
      ensures this.link == link && this.league == league && this.season == season
      ensures clubIds == FromPairs(ClubsIn(clubs, league, season))
      ensures playerIds == Grouped(map[], PlayersIn(players, season, league))
      ensures forall c :: c in playerIds <==> HasClub(PlayersIn(players, season, league), c)
      ensures forall c :: c in playerIds ==> playerIds[c] == RowsOf(PlayersIn(players, season, league), c)
    {
      this.link := link;
      this.league := league;
      this.season := season;
      clubIds := FromPairs(ClubsIn(clubs, league, season));
      var groups := GroupRows(map[], PlayersIn(players, season, league));
      playerIds := groups;
    }

    /** `extractLineups`: the ids of the match's teams and of its two lineups. */
    method ExtractLineups(info: PredictInfo, sim: Similarity) returns (r: Result<ResolvedMatch>)
      ensures r == ResolveMatch(clubIds, playerIds, season, league, info.homeTeam, info.awayTeam,
                                info.homeLineup, info.awayLineup, sim)
      ensures clubIds == [] ==> r == Err(NoClubs(season, league))
      ensures r.Ok? ==> |r.value.homeIds| == |info.homeLineup| && |r.value.awayIds| == |info.awayLineup|
    {
      r := ResolveMatchIds(clubIds, playerIds, season, league, info.homeTeam, info.awayTeam,
                           info.homeLineup, info.awayLineup, sim);
    }
  }
}

=== FILE: resolution.dfy ===
/** Name resolution: a scraped club or player name is turned into a stored id, by exact
    lookup first and otherwise by the `closest = ("", 0.0)` arg-max over a similarity score.
    The score (`difflib.SequenceMatcher(None, key, name).ratio()`) is a parameter. */
module Resolution {
  import opened Common
  import opened Dicts

  /** `sim(key, name)` scores a candidate key against the scraped name. */
  type Similarity = (string, string) -> real

  /** The `closest` accumulator after scanning `cands` in order: the index of the candidate it
      holds (-1 while it still holds the initial "") and that candidate's score. It is replaced
      only by a strictly higher score. */
  function Scan(cands: seq<string>, name: string, sim: Similarity): (r: (int, real))
    ensures -1 <= r.0 < |cands|
    decreases |cands|
  {
    if cands == [] then (-1, 0.0)
    else
      var n := |cands| - 1;
      var prev := Scan(cands[..n], name, sim);
      if prev.1 < sim(cands[n], name) then (n, sim(cands[n], name)) else prev
  }

  /** `k` holds the first of the highest scores, and that score is positive. */
  predicate IsFirstArgMax(cands: seq<string>, name: string, sim: Similarity, k: int)
  {
    && 0 <= k < |cands|
    && 0.0 < sim(cands[k], name)
    && (forall j :: 0 <= j < k ==> sim(cands[j], name) < sim(cands[k], name))
    && (forall j :: k < j < |cands| ==> sim(cands[j], name) <= sim(cands[k], name))
  }

  /** No candidate scores above zero (in particular, there is no candidate). */
  predicate NoneSimilar(cands: seq<string>, name: string, sim: Similarity)
  {
    forall j :: 0 <= j < |cands| ==> sim(cands[j], name) <= 0.0
  }

  /** The scan ends on the first maximal candidate; it ends on "" with score 0.0 exactly when
      nothing scores above zero. A later candidate with an equal score never wins. */
  lemma {:induction false} ScanSpec(cands: seq<string>, name: string, sim: Similarity)
    ensures Scan(cands, name, sim).0 == -1 <==> NoneSimilar(cands, name, sim)
    ensures Scan(cands, name, sim).0 == -1 ==> Scan(cands, name, sim).1 == 0.0
    ensures Scan(cands, name, sim).0 != -1 ==>
              && IsFirstArgMax(cands, name, sim, Scan(cands, name, sim).0)
              && Scan(cands, name, sim).1 == sim(cands[Scan(cands, name, sim).0], name)
    decreases |cands|
  {
    if cands != [] {
      var n := |cands| - 1;
      var init := cands[..n];
      ScanSpec(init, name, sim);
      assert forall j :: 0 <= j < n ==> init[j] == cands[j];
      var (i, best) := Scan(init, name, sim);
      if best < sim(cands[n], name) {
        assert IsFirstArgMax(cands, name, sim, n);
      } else if i != -1 {
        assert IsFirstArgMax(cands, name, sim, i);
      }
    }
  }

  /** The name the scan settles on: a candidate, or "" when nothing scores above zero. */
  function ClosestName(cands: seq<string>, name: string, sim: Similarity): string
  {
    var k := Scan(cands, name, sim).0;
    if k == -1 then "" else cands[k]
  }

  /** The `for key in ...: if closest[1] < similarity: closest = (key, similarity)` loop. */
  method MostSimilar(cands: seq<string>, name: string, sim: Similarity) returns (closest: string, score: real)
    ensures closest == ClosestName(cands, name, sim) && score == Scan(cands, name, sim).1
    ensures NoneSimilar(cands, name, sim) ==> closest == "" && score == 0.0
    ensures !NoneSimilar(cands, name, sim) ==>
              exists k :: IsFirstArgMax(cands, name, sim, k) && closest == cands[k] && score == sim(cands[k], name)
  {
    closest, score := "", 0.0;
    ghost var k := -1;
    for i := 0 to |cands|
      invariant -1 <= k < |cands|
      invariant (k, score) == Scan(cands[..i], name, sim)
      invariant closest == if k == -1 then "" else cands[k]
    {
      assert cands[..i + 1][..i] == cands[..i];
      var similarity := sim(cands[i], name);
      if score < similarity {
        closest, score, k := cands[i], similarity, i;
      }
    }
    assert cands[..|cands|] == cands;
    ScanSpec(cands, name, sim);
  }

  /** `searchSimilar`: the id stored under the closest key. When nothing scores above zero
      the key looked up is "", which is a `KeyError` unless "" is itself a key. */
  function Similar(d: Dict, name: string, sim: Similarity): Result<int>
  {
    var c := ClosestName(Keys(d), name, sim);
    if c in Keys(d) then Ok(Get(d, c)) else Err(KeyError(c))
  }

  lemma SimilarSpec(d: Dict, name: string, sim: Similarity)
    ensures !NoneSimilar(Keys(d), name, sim) ==>
              exists k :: IsFirstArgMax(Keys(d), name, sim, k) && Similar(d, name, sim) == Ok(d[k].1)
    ensures NoneSimilar(Keys(d), name, sim) ==>
              Similar(d, name, sim) == if "" in Keys(d) then Ok(Get(d, "")) else Err(KeyError(""))
  {
    var ks := Keys(d);
    ScanSpec(ks, name, sim);
    var k := Scan(ks, name, sim).0;
    if k != -1 {
      // an earlier entry with the same key would have scored the same and won
      var j := IndexOf(d, ks[k]);
      assert ks[j] == ks[k];
      assert j == k;
    }
  }

  method SearchSimilar(d: Dict, name: string, sim: Similarity) returns (r: Result<int>)
    ensures r == Similar(d, name, sim)
  {
    var closest, _ := MostSimilar(Keys(d), name, sim);
    if closest in Keys(d) {
      r := Ok(Get(d, closest));
    } else {
      r := Err(KeyError(closest));
    }
  }

  /** Exact key first, otherwise the most similar key. */
  function Resolve(d: Dict, name: string, sim: Similarity): Result<int>
  {
    if name in Keys(d) then Ok(Get(d, name)) else Similar(d, name, sim)
  }

  /** A name that is a key resolves to its own id; any other name resolves as `searchSimilar`. */
  lemma ResolveSpec(d: Dict, name: string, sim: Similarity, v: int)
    requires DistinctKeys(d)
    ensures (name, v) in d ==> Resolve(d, name, sim) == Ok(v)
    ensures name !in Keys(d) ==> Resolve(d, name, sim) == Similar(d, name, sim)
  {
    GetEntry(d, name, v);
  }

  /** The squad of a club as `dict(player_ids[club])`: a `KeyError` when the club has no list. */
  function Squad(playerIds: map<int, seq<(string, int)>>, club: int): (r: Result<Dict>)
    ensures r.Ok? <==> club in playerIds
    ensures r.Ok? ==> r.value == FromPairs(playerIds[club])
  {
    if club in playerIds then Ok(FromPairs(playerIds[club])) else Err(KeyErrorId(club))
  }

  /** One lineup slot: `None` stays `None`, a name resolves against the squad. */
  function ResolveSlot(squad: Dict, slot: Option<string>, sim: Similarity): Result<Option<int>>
  {
    match slot
    case None => Ok(None)
    case Some(n) =>
      match Resolve(squad, n, sim)
      case Ok(id) => Ok(Some(id))
      case Err(e) => Err(e)
  }

  /** The lineup append loop, left to right: the first slot that fails stops it. */
  function ResolveAll(squad: Dict, names: seq<Option<string>>, sim: Similarity): Result<seq<Option<int>>>
    decreases |names|
  {
    if names == [] then Ok([])
    else
      var n := |names| - 1;
      match ResolveAll(squad, names[..n], sim)
      case Err(e) => Err(e)
      case Ok(ids) =>
        match ResolveSlot(squad, names[n], sim)
        case Err(e) => Err(e)
        case Ok(id) => Ok(ids + [id])
  }

  /** The lineup resolves exactly when every name does; the ids then keep the length and order
      of the names, `None` where the name was `None`, and each name's own resolution. */
  lemma {:induction false} ResolveAllSpec(squad: Dict, names: seq<Option<string>>, sim: Similarity)
    ensures ResolveAll(squad, names, sim).Ok? <==>
              forall i :: 0 <= i < |names| ==> ResolveSlot(squad, names[i], sim).Ok?
    ensures ResolveAll(squad, names, sim).Ok? ==>
              && |ResolveAll(squad, names, sim).value| == |names|
              && forall i :: 0 <= i < |names| ==>
                   Ok(ResolveAll(squad, names, sim).value[i]) == ResolveSlot(squad, names[i], sim)
    decreases |names|
  {
    if names != [] {
      var n := |names| - 1;
      ResolveAllSpec(squad, names[..n], sim);
      assert forall i :: 0 <= i < n ==> names[..n][i] == names[i];
    }
  }

  /** The `for h_name in lineup:` loop of `matchPlayerIds` / `extractLineups`. */
  method ResolveLineup(squad: Dict, names: seq<Option<string>>, sim: Similarity) returns (r: Result<seq<Option<int>>>)
    ensures r == ResolveAll(squad, names, sim)
    ensures r.Ok? ==> |r.value| == |names|
    ensures r.Ok? ==> forall i :: 0 <= i < |names| ==> (r.value[i].None? <==> names[i].None?)
  {
    var ids: seq<Option<int>> := [];
    for i := 0 to |names|
      invariant ResolveAll(squad, names[..i], sim) == Ok(ids)
    {
      assert names[..i + 1][..i] == names[..i];
      var slot := names[i];
      if slot.None? {
        ids := ids + [None];
      } else if slot.value in Keys(squad) {
        ids := ids + [Some(Get(squad, slot.value))];
      } else {
        var found := SearchSimilar(squad, slot.value, sim);
        if found.Err? {
          assert names[..i + 1] == names[..i] + [slot];
          assert forall j :: i < j <= |names| ==> ResolveAll(squad, names[..j], sim) == Err(found.error) by {
            forall j | i < j <= |names|
              ensures ResolveAll(squad, names[..j], sim) == Err(found.error)
            {
              ResolveAllErr(squad, names, sim, i + 1, j, found.error);
            }
          }
          assert names[..|names|] == names;
          ResolveAllSpec(squad, names, sim);
          return Err(found.error);
        }
        ids := ids + [Some(found.value)];
      }
    }
    assert names[..|names|] == names;
    r := Ok(ids);
    ResolveAllSpec(squad, names, sim);
  }

  /** Once a prefix fails, every longer prefix fails with the same error. */
  lemma {:induction false} ResolveAllErr(squad: Dict, names: seq<Option<string>>, sim: Similarity, i: nat, j: nat, e: Error)
    requires i <= j <= |names|
    requires ResolveAll(squad, names[..i], sim) == Err(e)
    ensures ResolveAll(squad, names[..j], sim) == Err(e)
    decreases j - i
  {
    if i < j {
      assert names[..i + 1][..i] == names[..i];
      ResolveAllErr(squad, names, sim, i + 1, j, e);
    }
  }

  /** A club's lineup ids: `dict(player_ids[club])`, then the lineup loop over it. */
  function LineupIds(playerIds: map<int, seq<(string, int)>>, club: int, names: seq<Option<string>>, sim: Similarity): Result<seq<Option<int>>>
  {
    match Squad(playerIds, club)
    case Err(e) => Err(e)
    case Ok(squad) => ResolveAll(squad, names, sim)
  }

  method SquadLineup(playerIds: map<int, seq<(string, int)>>, club: int, names: seq<Option<string>>, sim: Similarity)
    returns (r: Result<seq<Option<int>>>)
    ensures r == LineupIds(playerIds, club, names, sim)
    ensures club !in playerIds ==> r == Err(KeyErrorId(club))
    ensures r.Ok? ==> |r.value| == |names|
  {
    var squad := Squad(playerIds, club);
    if squad.Err? {
      return Err(squad.error);
    }
    r := ResolveLineup(squad.value, names, sim);
  }

  // A whole match

  /** The exception raised when the league has no stored clubs. */
  function NoClubs(season: string, league: string): Error
  {
    Raised("No Club IDs for " + season + " - " + league + ", perhaps you need to run the player scraper")
  }

  /** The ids of one scraped match: both teams and both lineups. */
  datatype ResolvedMatch = ResolvedMatch(homeId: int, awayId: int, homeIds: seq<Option<int>>, awayIds: seq<Option<int>>)

  /** `extractLineups`: the teams resolved against the league's clubs, then each lineup against
      the squad of its club. */
  function ResolveMatch(clubIds: Dict, playerIds: map<int, seq<(string, int)>>, season: string, league: string,
                        homeTeam: string, awayTeam: string, homeLineup: seq<Option<string>>, awayLineup: seq<Option<string>>,
                        sim: Similarity): Result<ResolvedMatch>
  {
    if clubIds == [] then Err(NoClubs(season, league))
    else
      match (Resolve(clubIds, homeTeam, sim), Resolve(clubIds, awayTeam, sim))
      case (Err(e), _) => Err(e)
      case (_, Err(e)) => Err(e)
      case (Ok(home), Ok(away)) =>
        match (LineupIds(playerIds, home, homeLineup, sim), LineupIds(playerIds, away, awayLineup, sim))
        case (Err(e), _) => Err(e)
        case (_, Err(e)) => Err(e)
        case (Ok(homeIds), Ok(awayIds)) => Ok(ResolvedMatch(home, away, homeIds, awayIds))
  }

  /** An empty club map raises; otherwise each team resolves exact-first, then by similarity,
      and each lineup keeps its length and order, `None` names giving `None` and every other
      slot its own resolution against the squad of its club. */
  lemma ResolveMatchSpec(clubIds: Dict, playerIds: map<int, seq<(string, int)>>, season: string, league: string,
                         homeTeam: string, awayTeam: string, homeLineup: seq<Option<string>>, awayLineup: seq<Option<string>>,
                         sim: Similarity)
    ensures clubIds == [] ==>
              ResolveMatch(clubIds, playerIds, season, league, homeTeam, awayTeam, homeLineup, awayLineup, sim) == Err(NoClubs(season, league))
    ensures ResolveMatch(clubIds, playerIds, season, league, homeTeam, awayTeam, homeLineup, awayLineup, sim).Ok? ==>
              var m := ResolveMatch(clubIds, playerIds, season, league, homeTeam, awayTeam, homeLineup, awayLineup, sim).value;
              && Resolve(clubIds, homeTeam, sim) == Ok(m.homeId)
              && Resolve(clubIds, awayTeam, sim) == Ok(m.awayId)
              && |m.homeIds| == |homeLineup| && |m.awayIds| == |awayLineup|
              && m.homeId in playerIds && m.awayId in playerIds
              && (forall i :: 0 <= i < |homeLineup| ==>
                    Ok(m.homeIds[i]) == ResolveSlot(FromPairs(playerIds[m.homeId]), homeLineup[i], sim))
              && (forall i :: 0 <= i < |awayLineup| ==>
                    Ok(m.awayIds[i]) == ResolveSlot(FromPairs(playerIds[m.awayId]), awayLineup[i], sim))
  {
    var p := ResolveMatch(clubIds, playerIds, season, league, homeTeam, awayTeam, homeLineup, awayLineup, sim);
    if p.Ok? {
      ResolveAllSpec(FromPairs(playerIds[p.value.homeId]), homeLineup, sim);
      ResolveAllSpec(FromPairs(playerIds[p.value.awayId]), awayLineup, sim);
    }
  }

  /** The steps of `extractLineups`, in order. */
  method ResolveMatchIds(clubIds: Dict, playerIds: map<int, seq<(string, int)>>, season: string, league: string,
                         homeTeam: string, awayTeam: string, homeLineup: seq<Option<string>>, awayLineup: seq<Option<string>>,
                         sim: Similarity) returns (r: Result<ResolvedMatch>)
    ensures r == ResolveMatch(clubIds, playerIds, season, league, homeTeam, awayTeam, homeLineup, awayLineup, sim)
    ensures clubIds == [] ==> r == Err(NoClubs(season, league))
    ensures r.Ok? ==> |r.value.homeIds| == |homeLineup| && |r.value.awayIds| == |awayLineup|
  {
    if clubIds == [] {
      return Err(NoClubs(season, league));
    }
    var home := if homeTeam in Keys(clubIds) then Ok(Get(clubIds, homeTeam)) else Similar(clubIds, homeTeam, sim);
    if home.Err? {
      return Err(home.error);
    }
    var away := if awayTeam in Keys(clubIds) then Ok(Get(clubIds, awayTeam)) else Similar(clubIds, awayTeam, sim);
    if away.Err? {
      return Err(away.error);
    }
    var homeIds := SquadLineup(playerIds, home.value, homeLineup, sim);
    if homeIds.Err? {
      return Err(homeIds.error);
    }
    var awayIds := SquadLineup(playerIds, away.value, awayLineup, sim);
    if awayIds.Err? {
      return Err(awayIds.error);
    }
    r := Ok(ResolvedMatch(home.value, away.value, homeIds.value, awayIds.value));
  }
}

=== FILE: seasons.dfy ===
/** Season link generation, shared by the link generators: a seed URL per league names one
    season period; the generator finds that period in a fixed table and emits one link per
    period from there to the end of the table, each with a short season tag and the seed URL
    with the period replaced. The regular expressions involved all match four digits, a
    separator, and four digits; they are modelled directly on strings. */
module Seasons {
  import opened Common

  // The period patterns

  /** Whether four digits, `sep`, and four more digits start at position `i` of `s`. */
  predicate PeriodAt(s: string, i: nat, sep: string)
  {
    && i + 8 + |sep| <= |s|
    && (forall k :: i <= k < i + 4 ==> IsDigit(s[k]))
    && (forall k :: 0 <= k < |sep| ==> s[i + 4 + k] == sep[k])
    && (forall k :: i + 4 + |sep| <= k < i + 8 + |sep| ==> IsDigit(s[k]))
  }

  /** The length of the match of `\d{4}<sep>\d{4}` at position `i`, trying the separators in
      order (`["-", ""]` is the greedy `-?`), or 0 when there is none. */
  function MatchLen(s: string, i: nat, seps: seq<string>): (n: nat)
    ensures n == 0 || i + 8 <= i + n <= |s|
    decreases |seps|
  {
    if seps == [] then 0
    else if PeriodAt(s, i, seps[0]) then 8 + |seps[0]|
    else MatchLen(s, i, seps[1..])
  }

  /** There is a match exactly when some separator fits, and then it is the first one that
      fits, as a regular expression alternation tries them. */
  lemma {:induction false} MatchLenSpec(s: string, i: nat, seps: seq<string>)
    ensures MatchLen(s, i, seps) == 0 <==> forall k :: 0 <= k < |seps| ==> !PeriodAt(s, i, seps[k])
    ensures MatchLen(s, i, seps) > 0 ==>
              exists k :: 0 <= k < |seps| && PeriodAt(s, i, seps[k]) && MatchLen(s, i, seps) == 8 + |seps[k]|
                       && forall l :: 0 <= l < k ==> !PeriodAt(s, i, seps[l])
    decreases |seps|
  {
    if seps != [] {
      MatchLenSpec(s, i, seps[1..]);
      assert forall k :: 1 <= k < |seps| ==> seps[k] == seps[1..][k - 1];
      if !PeriodAt(s, i, seps[0]) && MatchLen(s, i, seps) > 0 {
        var k :| 0 <= k < |seps[1..]| && PeriodAt(s, i, seps[1..][k]) && MatchLen(s, i, seps[1..]) == 8 + |seps[1..][k]|
                 && forall l :: 0 <= l < k ==> !PeriodAt(s, i, seps[1..][l]);
        assert PeriodAt(s, i, seps[k + 1]);
      }
    }
  }

  /** Where `re.search` matches in `s[from..]`: the leftmost start of a match, or -1. */
  function Find(s: string, from: nat, seps: seq<string>): (i: int)
    ensures i == -1 || (from <= i < |s| && MatchLen(s, i, seps) > 0)
    decreases |s| - from
  {
    if from >= |s| then -1
    else if MatchLen(s, from, seps) > 0 then from
    else Find(s, from + 1, seps)
  }

  /** The match found is the leftmost one; there is none only when no position matches. */
  lemma {:induction false} FindLeftmost(s: string, from: nat, seps: seq<string>)
    ensures Find(s, from, seps) != -1 ==> forall j :: from <= j < Find(s, from, seps) ==> MatchLen(s, j, seps) == 0
    ensures Find(s, from, seps) == -1 ==> forall j :: from <= j < |s| ==> MatchLen(s, j, seps) == 0
    ensures (forall j :: from <= j < |s| ==> MatchLen(s, j, seps) == 0) ==> Find(s, from, seps) == -1
    decreases |s| - from
  {
    if from >= |s| {
      assert Find(s, from, seps) == -1;
    } else if MatchLen(s, from, seps) > 0 {
      assert Find(s, from, seps) == from;
      assert !(forall j :: from <= j < |s| ==> MatchLen(s, j, seps) == 0) by {
        assert from <= from < |s| && MatchLen(s, from, seps) != 0;
      }
    } else {
      FindLeftmost(s, from + 1, seps);
      assert Find(s, from, seps) == Find(s, from + 1, seps);
      assert (forall j :: from <= j < |s| ==> MatchLen(s, j, seps) == 0) <==>
             (forall j :: from + 1 <= j < |s| ==> MatchLen(s, j, seps) == 0);
    }
  }

  /** `re.search(pattern, s).group(0)`, `None` when nothing matches. */
  function Search(s: string, seps: seq<string>): (r: Option<string>)
    ensures r.None? <==> Find(s, 0, seps) == -1
    ensures r.Some? ==> r.value == s[Find(s, 0, seps)..Find(s, 0, seps) + MatchLen(s, Find(s, 0, seps), seps)]
  {
    var i := Find(s, 0, seps);
    if i == -1 then None else Some(s[i..i + MatchLen(s, i, seps)])
  }

  /** `group(1) + group(2)` of `\d\d(\d\d)<sep>\d\d(\d\d)`: the last two digits of each year of
      the first match, `None` when nothing matches. */
  function Tag(s: string, seps: seq<string>): (r: Option<string>)
    ensures r.None? <==> Find(s, 0, seps) == -1
    ensures r.Some? ==> |r.value| == 4
  {
    var i := Find(s, 0, seps);
    if i == -1 then None
    else
      var n := MatchLen(s, i, seps);
      Some(s[i + 2..i + 4] + s[i + n - 2..i + n])
  }

  /** `re.sub(pattern, rep, s[from..])`: every match, left to right and without overlaps,
      replaced by `rep`. */
  function Sub(s: string, from: nat, seps: seq<string>, rep: string): string
    decreases |s| - from
  {
    if from >= |s| then []
    else
      var n := MatchLen(s, from, seps);
      if n > 0 then rep + Sub(s, from + n, seps, rep) else [s[from]] + Sub(s, from + 1, seps, rep)
  }

  /** A string without a match is left as it is. */
  lemma {:induction false} SubNoMatch(s: string, from: nat, seps: seq<string>, rep: string)
    requires from <= |s| && Find(s, from, seps) == -1
    ensures Sub(s, from, seps, rep) == s[from..]
    decreases |s| - from
  {
    if from < |s| {
      SubNoMatch(s, from + 1, seps, rep);
    }
  }

  /** One step of the substitution from a position where nothing matches. */
  lemma SubSkip(s: string, from: nat, seps: seq<string>, rep: string)
    requires from < |s| && MatchLen(s, from, seps) == 0
    ensures Sub(s, from, seps, rep) == [s[from]] + Sub(s, from + 1, seps, rep)
  {
  }

  /** Up to the first match the string is kept; the match becomes `rep`; the rest is
      substituted in turn. */
  lemma {:induction false} SubFirst(s: string, from: nat, seps: seq<string>, rep: string)
    requires Find(s, from, seps) != -1
    ensures var i := Find(s, from, seps);
            Sub(s, from, seps, rep) == s[from..i] + rep + Sub(s, i + MatchLen(s, i, seps), seps, rep)
    decreases |s| - from
  {
    var i := Find(s, from, seps);
    var after := Sub(s, i + MatchLen(s, i, seps), seps, rep);
    if MatchLen(s, from, seps) == 0 {
      assert Find(s, from + 1, seps) == i;
      SubFirst(s, from + 1, seps, rep);
      SubFirstStep(s, from, i, seps, rep, after);
    } else {
      SubAtMatch(s, from, seps, rep);
    }
  }

  /** A match at the start becomes `rep`. */
  lemma SubAtMatch(s: string, from: nat, seps: seq<string>, rep: string)
    requires from < |s| && MatchLen(s, from, seps) > 0
    ensures Sub(s, from, seps, rep) == s[from..from] + rep + Sub(s, from + MatchLen(s, from, seps), seps, rep)
  {
    assert s[from..from] == [];
  }

  /** The text kept before a match grows by one character for each position that does not
      match. */
  lemma SubFirstStep(s: string, from: nat, i: nat, seps: seq<string>, rep: string, after: string)
    requires from < i <= |s| && MatchLen(s, from, seps) == 0
    requires Sub(s, from + 1, seps, rep) == s[from + 1..i] + rep + after
    ensures Sub(s, from, seps, rep) == s[from..i] + rep + after
  {
    SubSkip(s, from, seps, rep);
    assert s[from..i] == [s[from]] + s[from + 1..i];
  }

  /** A period written as two four-digit years around a separator that the pattern tries
      first has the last two digits of each year as its tag. */
  lemma TagOfPeriod(a: string, sep: string, b: string, seps: seq<string>)
    requires |a| == 4 && |b| == 4 && AllDigits(a) && AllDigits(b)
    requires MatchLen(a + sep + b, 0, seps) == 8 + |sep|
    ensures Tag(a + sep + b, seps) == Some(a[2..4] + b[2..4])
  {
    var s := a + sep + b;
    assert Find(s, 0, seps) == 0;
    assert s[2..4] == a[2..4];
    assert s[8 + |sep| - 2..8 + |sep|] == b[2..4];
  }

  // Generation

  /** One generated link: league code, season tag, URL. */
  datatype SeasonLink = SeasonLink(code: string, tag: string, url: string)

  /** How a generator spells periods: the separators of the pattern that finds the seed's
      period, of the one whose groups give the tag, and of the one `re.sub` replaces. */
  datatype PeriodFormat = PeriodFormat(search: seq<string>, tag: seq<string>, sub: seq<string>)

  /** `years.index(p)`, `None` for the `ValueError` of a missing period. */
  function Position(years: seq<string>, p: string): (r: Option<nat>)
    ensures r.None? <==> p !in years
    ensures r.Some? ==> r.value < |years| && years[r.value] == p && forall k :: 0 <= k < r.value ==> years[k] != p
    decreases |years|
  {
    if years == [] then None
    else if years[0] == p then Some(0)
    else
      assert forall k :: 1 <= k < |years| ==> years[k] == years[1..][k - 1];
      assert p in years <==> p in years[1..];
      match Position(years[1..], p)
      case None => None
      case Some(k) => Some(k + 1)
  }

  /** The inner loop: one link per period of `ys`, in order. */
  function LinksFrom(code: string, link: string, ys: seq<string>, fmt: PeriodFormat): Result<seq<SeasonLink>>
    decreases |ys|
  {
    if ys == [] then Ok([])
    else
      var n := |ys| - 1;
      match LinksFrom(code, link, ys[..n], fmt)
      case Err(e) => Err(e)
      case Ok(prev) =>
        match Tag(ys[n], fmt.tag)
        case None => Err(AttributeError)
        case Some(tag) => Ok(prev + [SeasonLink(code, tag, Sub(link, 0, fmt.sub, ys[n]))])
  }

  /** The inner loop succeeds exactly when every period has a tag. */
  lemma {:induction false} LinksFromOk(code: string, link: string, ys: seq<string>, fmt: PeriodFormat)
    ensures LinksFrom(code, link, ys, fmt).Ok? <==> forall j :: 0 <= j < |ys| ==> Tag(ys[j], fmt.tag).Some?
    decreases |ys|
  {
    if ys != [] {
      var n := |ys| - 1;
      LinksFromOk(code, link, ys[..n], fmt);
      assert forall j :: 0 <= j < n ==> ys[..n][j] == ys[j];
    }
  }

  /** When it succeeds, it emits exactly one link per period, in table order, each with that
      period's tag and the seed rewritten to it. */
  lemma {:induction false} LinksFromSpec(code: string, link: string, ys: seq<string>, fmt: PeriodFormat)
    requires LinksFrom(code, link, ys, fmt).Ok?
    ensures |LinksFrom(code, link, ys, fmt).value| == |ys|
    ensures forall j :: 0 <= j < |ys| ==>
              && Tag(ys[j], fmt.tag).Some?
              && LinksFrom(code, link, ys, fmt).value[j] == SeasonLink(code, Tag(ys[j], fmt.tag).value, Sub(link, 0, fmt.sub, ys[j]))
    decreases |ys|
  {
    if ys != [] {
      var n := |ys| - 1;
      LinksFromSpec(code, link, ys[..n], fmt);
      assert forall j :: 0 <= j < n ==> ys[..n][j] == ys[j];
    }
  }

  lemma {:induction false} LinksFromErr(code: string, link: string, ys: seq<string>, fmt: PeriodFormat, j: nat, e: Error)
    requires j <= |ys|
    requires LinksFrom(code, link, ys[..j], fmt) == Err(e)
    ensures LinksFrom(code, link, ys, fmt) == Err(e)
    decreases |ys| - j
  {
    if j < |ys| {
      assert ys[..j + 1][..j] == ys[..j];
      LinksFromErr(code, link, ys, fmt, j + 1, e);
    } else {
      assert ys[..j] == ys;
    }
  }

  /** One league: find the seed's period, look it up in the table, and emit the links of the
      periods from there to the end. */
  function LeagueLinks(code: string, link: string, years: seq<string>, fmt: PeriodFormat): Result<seq<SeasonLink>>
  {
    match Search(link, fmt.search)
    case None => Err(AttributeError)
    case Some(period) =>
      match Position(years, period)
      case None => Err(ValueError)
      case Some(start) => LinksFrom(code, link, years[start..], fmt)
  }

  /** The outer loop: the leagues in order, each league's links after the previous ones; the
      first league that raises stops it. */
  function SeasonLinks(urls: seq<(string, string)>, years: seq<string>, fmt: PeriodFormat): Result<seq<SeasonLink>>
    decreases |urls|
  {
    if urls == [] then Ok([])
    else
      var n := |urls| - 1;
      match SeasonLinks(urls[..n], years, fmt)
      case Err(e) => Err(e)
      case Ok(prev) =>
        match LeagueLinks(urls[n].0, urls[n].1, years, fmt)
        case Err(e) => Err(e)
        case Ok(ls) => Ok(prev + ls)
  }

  lemma {:induction false} SeasonLinksErr(urls: seq<(string, string)>, years: seq<string>, fmt: PeriodFormat, i: nat, e: Error)
    requires i <= |urls|
    requires SeasonLinks(urls[..i], years, fmt) == Err(e)
    ensures SeasonLinks(urls, years, fmt) == Err(e)
    decreases |urls| - i
  {
    if i < |urls| {
      assert urls[..i + 1][..i] == urls[..i];
      SeasonLinksErr(urls, years, fmt, i + 1, e);
    } else {
      assert urls[..i] == urls;
    }
  }

  /** The leagues' links, first league first: the reference order of the generated list. */
  function Concat(urls: seq<(string, string)>, years: seq<string>, fmt: PeriodFormat): seq<SeasonLink>
    requires forall i :: 0 <= i < |urls| ==> LeagueLinks(urls[i].0, urls[i].1, years, fmt).Ok?
    decreases |urls|
  {
    if urls == [] then []
    else LeagueLinks(urls[0].0, urls[0].1, years, fmt).value + Concat(urls[1..], years, fmt)
  }

  lemma {:induction false} ConcatSnoc(urls: seq<(string, string)>, years: seq<string>, fmt: PeriodFormat)
    requires urls != []
    requires forall i :: 0 <= i < |urls| ==> LeagueLinks(urls[i].0, urls[i].1, years, fmt).Ok?
    ensures Concat(urls, years, fmt) ==
              Concat(urls[..|urls| - 1], years, fmt) + LeagueLinks(urls[|urls| - 1].0, urls[|urls| - 1].1, years, fmt).value
    decreases |urls|
  {
    var n := |urls| - 1;
    if n > 0 {
      ConcatSnoc(urls[1..], years, fmt);
      assert urls[1..][..n - 1] == urls[..n][1..];
      assert urls[1..][n - 1] == urls[n];
    }
  }

  /** Generation succeeds exactly when every league does. */
  lemma {:induction false} SeasonLinksOk(urls: seq<(string, string)>, years: seq<string>, fmt: PeriodFormat)
    ensures SeasonLinks(urls, years, fmt).Ok? <==>
              forall i :: 0 <= i < |urls| ==> LeagueLinks(urls[i].0, urls[i].1, years, fmt).Ok?
    decreases |urls|
  {
    if urls != [] {
      var n := |urls| - 1;
      SeasonLinksOk(urls[..n], years, fmt);
      LeaguesOkSnoc(urls, urls[..n], years, fmt);
    }
  }

  /** Every league of a non-empty list succeeds exactly when those before the last one do and
      the last one does. */
  lemma LeaguesOkSnoc(urls: seq<(string, string)>, pre: seq<(string, string)>, years: seq<string>, fmt: PeriodFormat)
    requires urls != [] && pre == urls[..|urls| - 1]
    ensures (forall i :: 0 <= i < |urls| ==> LeagueLinks(urls[i].0, urls[i].1, years, fmt).Ok?) <==>
              && (forall i :: 0 <= i < |pre| ==> LeagueLinks(pre[i].0, pre[i].1, years, fmt).Ok?)
              && LeagueLinks(urls[|pre|].0, urls[|pre|].1, years, fmt).Ok?
  {
    assert forall i :: 0 <= i < |pre| ==> pre[i] == urls[i];
  }

  /** Its links are then each league's links in league order, so the count is the sum of the
      leagues' counts. */
  lemma {:induction false} SeasonLinksSpec(urls: seq<(string, string)>, years: seq<string>, fmt: PeriodFormat)
    requires forall i :: 0 <= i < |urls| ==> LeagueLinks(urls[i].0, urls[i].1, years, fmt).Ok?
    ensures SeasonLinks(urls, years, fmt) == Ok(Concat(urls, years, fmt))
    decreases |urls|
  {
    SeasonLinksOk(urls, years, fmt);
    if urls != [] {
      var n := |urls| - 1;
      SeasonLinksOk(urls[..n], years, fmt);
      assert forall i :: 0 <= i < n ==> urls[..n][i] == urls[i];
      SeasonLinksSpec(urls[..n], years, fmt);
      ConcatSnoc(urls, years, fmt);
    }
  }

  /** For a league whose seed names a period of the table: as many links as periods from the
      seed's onwards, link `j` being for period `start + j`, with its tag, and with the seed's
      first period replaced by it. */
  lemma LeagueLinksSpec(code: string, link: string, years: seq<string>, fmt: PeriodFormat)
    requires LeagueLinks(code, link, years, fmt).Ok?
    ensures Search(link, fmt.search).Some? && Search(link, fmt.search).value in years
    ensures var start := Position(years, Search(link, fmt.search).value).value;
            var ls := LeagueLinks(code, link, years, fmt).value;
            && |ls| == |years| - start
            && forall j :: 0 <= j < |ls| ==>
                 Tag(years[start + j], fmt.tag).Some? &&
                 ls[j] == SeasonLink(code, Tag(years[start + j], fmt.tag).value, Sub(link, 0, fmt.sub, years[start + j]))
  {
    var start := Position(years, Search(link, fmt.search).value).value;
    LinksFromSpec(code, link, years[start..], fmt);
    assert forall j :: 0 <= j < |years| - start ==> years[start..][j] == years[start + j];
  }

  /** Over a table whose periods all have tags, a league fails only on its seed: with no
      period in it (`AttributeError`) or with one the table lacks (`ValueError`). */
  lemma LeagueLinksOutcome(code: string, link: string, years: seq<string>, fmt: PeriodFormat)
    requires forall k :: 0 <= k < |years| ==> Tag(years[k], fmt.tag).Some?
    ensures Search(link, fmt.search).None? ==> LeagueLinks(code, link, years, fmt) == Err(AttributeError)
    ensures Search(link, fmt.search).Some? && Search(link, fmt.search).value !in years ==>
              LeagueLinks(code, link, years, fmt) == Err(ValueError)
    ensures Search(link, fmt.search).Some? && Search(link, fmt.search).value in years ==>
              LeagueLinks(code, link, years, fmt).Ok?
  {
    var period := Search(link, fmt.search);
    if period.Some? && period.value in years {
      var start := Position(years, period.value).value;
      assert forall j :: 0 <= j < |years| - start ==> years[start..][j] == years[start + j];
      LinksFromOk(code, link, years[start..], fmt);
    }
  }

  /** When the substitution uses the search pattern, each link is the seed with its first
      period replaced by the link's own period, and the rest of the seed substituted. */
  lemma SeedRewritten(code: string, link: string, years: seq<string>, fmt: PeriodFormat)
    requires fmt.sub == fmt.search
    requires LeagueLinks(code, link, years, fmt).Ok?
    ensures var i := Find(link, 0, fmt.search);
            var after := i + MatchLen(link, i, fmt.search);
            var start := Position(years, Search(link, fmt.search).value).value;
            var ls := LeagueLinks(code, link, years, fmt).value;
            && 0 <= i < after <= |link|
            && link[i..after] == years[start]
            && |ls| == |years| - start
            && (forall j :: 0 <= j < |ls| ==>
                  ls[j].url == link[..i] + years[start + j] + Sub(link, after, fmt.sub, years[start + j]))
  {
    LeagueLinksSpec(code, link, years, fmt);
    var i := Find(link, 0, fmt.search);
    var start := Position(years, Search(link, fmt.search).value).value;
    var ls := LeagueLinks(code, link, years, fmt).value;
    forall j | 0 <= j < |ls|
      ensures ls[j].url == link[..i] + years[start + j] + Sub(link, i + MatchLen(link, i, fmt.search), fmt.sub, years[start + j])
    {
      SubFirst(link, 0, fmt.sub, years[start + j]);
    }
  }

  /** A seed that names the `k`-th period of a table whose periods all have tags: one link
      per period from the `k`-th on, each with that period's tag and the seed rewritten. */
  lemma LeagueFrom(code: string, link: string, years: seq<string>, fmt: PeriodFormat, k: nat)
    requires k < |years| && Search(link, fmt.search) == Some(years[k]) && Position(years, years[k]) == Some(k)
    requires forall i :: 0 <= i < |years| ==> Tag(years[i], fmt.tag).Some?
    ensures LeagueLinks(code, link, years, fmt).Ok?
    ensures var ls := LeagueLinks(code, link, years, fmt).value;
            && |ls| == |years| - k
            && forall j :: 0 <= j < |ls| ==>
                 ls[j] == SeasonLink(code, Tag(years[k + j], fmt.tag).value, Sub(link, 0, fmt.sub, years[k + j]))
  {
    LeagueLinksOutcome(code, link, years, fmt);
    LeagueLinksSpec(code, link, years, fmt);
  }

  /** A seed without a period the substitution rewrites gives every link of its league the
      seed itself. */
  lemma PlainSeedKept(code: string, link: string, years: seq<string>, fmt: PeriodFormat)
    requires LeagueLinks(code, link, years, fmt).Ok?
    requires Find(link, 0, fmt.sub) == -1
    ensures forall l :: l in LeagueLinks(code, link, years, fmt).value ==> l.url == link
  {
    LeagueLinksSpec(code, link, years, fmt);
    var ls := LeagueLinks(code, link, years, fmt).value;
    forall l | l in ls
      ensures l.url == link
    {
      var j :| 0 <= j < |ls| && ls[j] == l;
      var start := Position(years, Search(link, fmt.search).value).value;
      SubNoMatch(link, 0, fmt.sub, years[start + j]);
    }
  }

  /** If the seed has no second period, the rest of the seed is kept, so the first link, for
      the seed's own period, is the seed itself. */
  lemma SeedKept(code: string, link: string, years: seq<string>, fmt: PeriodFormat)
    requires fmt.sub == fmt.search
    requires LeagueLinks(code, link, years, fmt).Ok?
    requires Find(link, Find(link, 0, fmt.search) + MatchLen(link, Find(link, 0, fmt.search), fmt.search), fmt.search) == -1
    ensures var i := Find(link, 0, fmt.search);
            var after := i + MatchLen(link, i, fmt.search);
            var start := Position(years, Search(link, fmt.search).value).value;
            var ls := LeagueLinks(code, link, years, fmt).value;
            && 0 <= i < after <= |link|
            && |ls| == |years| - start > 0
            && (forall j :: 0 <= j < |ls| ==> ls[j].url == link[..i] + years[start + j] + link[after..])
            && ls[0].url == link
  {
    SeedRewritten(code, link, years, fmt);
    var i := Find(link, 0, fmt.search);
    var after := i + MatchLen(link, i, fmt.search);
    var start := Position(years, Search(link, fmt.search).value).value;
    var ls := LeagueLinks(code, link, years, fmt).value;
    forall j | 0 <= j < |ls|
      ensures ls[j].url == link[..i] + years[start + j] + link[after..]
    {
      SubNoMatch(link, after, fmt.sub, years[start + j]);
    }
    assert link == link[..i] + link[i..after] + link[after..];
  }

  /** A seed that names the `k`-th period, once and with the pattern the substitution uses,
      is itself the first link of its league. */
  lemma FirstLinkFrom(code: string, link: string, years: seq<string>, fmt: PeriodFormat, k: nat)
    requires fmt.sub == fmt.search
    requires k < |years| && Search(link, fmt.search) == Some(years[k]) && Position(years, years[k]) == Some(k)
    requires forall i :: 0 <= i < |years| ==> Tag(years[i], fmt.tag).Some?
    requires Find(link, Find(link, 0, fmt.search) + MatchLen(link, Find(link, 0, fmt.search), fmt.search), fmt.search) == -1
    ensures LeagueLinks(code, link, years, fmt).Ok?
    ensures |LeagueLinks(code, link, years, fmt).value| == |years| - k
    ensures LeagueLinks(code, link, years, fmt).value[0].url == link
  {
    LeagueLinksOutcome(code, link, years, fmt);
    SeedKept(code, link, years, fmt);
  }

  /** The nested loops of `seasonLinkFetcher`. */
  method FetchSeasonLinks(urls: seq<(string, string)>, years: seq<string>, fmt: PeriodFormat) returns (r: Result<seq<SeasonLink>>)
    ensures r == SeasonLinks(urls, years, fmt)
  {
    var links: seq<SeasonLink> := [];
    for i := 0 to |urls|
      invariant SeasonLinks(urls[..i], years, fmt) == Ok(links)
    {
      assert urls[..i + 1][..i] == urls[..i];
      var league := FetchLeagueLinks(urls[i].0, urls[i].1, years, fmt);
      if league.Err? {
        SeasonLinksErr(urls, years, fmt, i + 1, league.error);
        return Err(league.error);
      }
      links := links + league.value;
    }
    assert urls[..|urls|] == urls;
    r := Ok(links);
  }

  /** One league of `seasonLinkFetcher`: the seed's period looked up, then the inner loop
      over the periods from there on. */
  method FetchLeagueLinks(code: string, link: string, years: seq<string>, fmt: PeriodFormat) returns (r: Result<seq<SeasonLink>>)
    ensures r == LeagueLinks(code, link, years, fmt)
  {
    var period := Search(link, fmt.search);
    if period.None? {
      return Err(AttributeError);
    }
    var start := Position(years, period.value);
    if start.None? {
      return Err(ValueError);
    }
    var ys := years[start.value..];
    var league: seq<SeasonLink> := [];
    for j := 0 to |ys|
      invariant LinksFrom(code, link, ys[..j], fmt) == Ok(league)
    {
      assert ys[..j + 1][..j] == ys[..j];
      var tag := Tag(ys[j], fmt.tag);
      if tag.None? {
        LinksFromErr(code, link, ys, fmt, j + 1, AttributeError);
        return Err(AttributeError);
      }
      league := league + [SeasonLink(code, tag.value, Sub(link, 0, fmt.sub, ys[j]))];
    }
    assert ys[..|ys|] == ys;
    r := Ok(league);
  }
}

=== FILE: sofifa_links.dfy ===
/** The sofifa player-list links: one first page per (league, edition), and the next page of a
    list obtained by adding 60 to the trailing `offset=` number of the current page's URL. */
module SofifaLinks {
  import opened Common
  import opened Dicts

  /** The first page of a league's players in one edition of the game. */
  function SofifaUrl(league: int, edition: int): string
  {
    "https://sofifa.com/players?type=all&lg%5B0%5D=" + IntToString(league) + "&r=" + IntToString(edition) + "&set=true&offset=0"
  }

  /** `(league_identifier, season, base_url)`. */
  datatype PlayerLink = PlayerLink(code: string, season: string, url: string)

  /** The inner loop: one league over every edition, in the editions' order. */
  function EditionLinks(editions: Dict, code: string, league: int): (r: seq<PlayerLink>)
    ensures |r| == |editions|
    ensures forall j :: 0 <= j < |editions| ==> r[j] == PlayerLink(code, editions[j].0, SofifaUrl(league, editions[j].1))
  {
    seq(|editions|, j requires 0 <= j < |editions| => PlayerLink(code, editions[j].0, SofifaUrl(league, editions[j].1)))
  }

  /** `linkGenerator`: leagues in the outer loop, editions in the inner one. */
  function Product(editions: Dict, leagues: Dict): seq<PlayerLink>
    decreases |leagues|
  {
    if leagues == [] then []
    else
      var n := |leagues| - 1;
      Product(editions, leagues[..n]) + EditionLinks(editions, leagues[n].0, leagues[n].1)
  }

  /** The inner loop's next link. */
  lemma EditionStep(editions: Dict, code: string, league: int, j: nat)
    requires j < |editions|
    ensures EditionLinks(editions, code, league)[..j + 1] ==
              EditionLinks(editions, code, league)[..j] + [PlayerLink(code, editions[j].0, SofifaUrl(league, editions[j].1))]
  {
    PrefixSnoc(EditionLinks(editions, code, league), j);
  }

  /** The outer loop's next league. */
  lemma ProductStep(editions: Dict, leagues: Dict, i: nat)
    requires i < |leagues|
    ensures Product(editions, leagues[..i + 1]) == Product(editions, leagues[..i]) + EditionLinks(editions, leagues[i].0, leagues[i].1)
  {
    assert leagues[..i + 1][..i] == leagues[..i];
  }

  lemma {:induction false} ProductLength(editions: Dict, leagues: Dict)
    ensures |Product(editions, leagues)| == |leagues| * |editions|
    decreases |leagues|
  {
    if leagues != [] {
      var n := |leagues| - 1;
      ProductLength(editions, leagues[..n]);
      assert |leagues| * |editions| == n * |editions| + |editions|;
    }
  }

  /** The links of one league are a block of `|editions|` consecutive links, and the block of
      the `i`-th league starts at `i * |editions|`. */
  lemma {:induction false} ProductSpec(editions: Dict, leagues: Dict, i: nat, j: nat)
    requires i < |leagues| && j < |editions|
    ensures |Product(editions, leagues)| == |leagues| * |editions|
    ensures i * |editions| + j < |Product(editions, leagues)|
    ensures Product(editions, leagues)[i * |editions| + j] ==
              PlayerLink(leagues[i].0, editions[j].0, SofifaUrl(leagues[i].1, editions[j].1))
    decreases |leagues|
  {
    ProductLength(editions, leagues);
    var n := |leagues| - 1;
    var pre := leagues[..n];
    ProductLength(editions, pre);
    assert i * |editions| + j < (i + 1) * |editions| <= |leagues| * |editions| by {
      assert (i + 1) * |editions| == i * |editions| + |editions|;
      MulMono(i + 1, |leagues|, |editions|);
    }
    if i < n {
      ProductSpec(editions, pre, i, j);
      assert pre[i] == leagues[i];
    } else {
      assert i * |editions| == |Product(editions, pre)|;
    }
  }

  lemma MulMono(a: nat, b: nat, c: nat)
    requires a <= b
    ensures a * c <= b * c
  {
  }

  /** A URL that asks for the list from its first player. */
  predicate FirstPage(url: string)
  {
    |url| >= 8 && url[|url| - 8..] == "offset=0"
  }

  lemma SofifaUrlFirstPage(league: int, edition: int)
    ensures FirstPage(SofifaUrl(league, edition))
  {
    var head := "https://sofifa.com/players?type=all&lg%5B0%5D=" + IntToString(league) + "&r=" + IntToString(edition) + "&set=true&";
    assert SofifaUrl(league, edition) == head + "offset=0";
  }

  /** Every generated link is the first page of its list. */
  lemma {:induction false} ProductFirstPages(editions: Dict, leagues: Dict)
    ensures forall l :: l in Product(editions, leagues) ==> FirstPage(l.url)
    decreases |leagues|
  {
    if leagues != [] {
      var n := |leagues| - 1;
      ProductFirstPages(editions, leagues[..n]);
      var row := EditionLinks(editions, leagues[n].0, leagues[n].1);
      forall l | l in row
        ensures FirstPage(l.url)
      {
        var j :| 0 <= j < |row| && row[j] == l;
        SofifaUrlFirstPage(leagues[n].1, editions[j].1);
      }
    }
  }

  /** The editions and leagues of the deployed scraper. */
  const MainEditions: Dict := [
    ("1112", 120002), ("1213", 130034), ("1314", 140052), ("1415", 150059), ("1516", 160058),
    ("1617", 170099), ("1718", 180084), ("1819", 190075), ("1920", 200061), ("2021", 210055)]

  const MainLeagues: Dict := [
    ("B1", 4), ("E0", 13), ("E1", 14), ("F1", 16), ("D1", 19),
    ("I1", 31), ("N1", 10), ("P1", 308), ("SP1", 53), ("SC0", 50)]

  /** Ten editions of ten leagues give a hundred links, the first of which is Belgium's first
      edition. */
  lemma MainLinks()
    ensures |Product(MainEditions, MainLeagues)| == 100
    ensures Product(MainEditions, MainLeagues)[0] == PlayerLink("B1", "1112", SofifaUrl(4, 120002))
  {
    ProductSpec(MainEditions, MainLeagues, 0, 0);
  }

  // Pagination

  /** The URL sofifa redirects to once a list is exhausted. */
  const Home: string := "https://sofifa.com/players"

  /** The length of the run of digits `s` ends with. */
  function TrailingDigits(s: string): (k: nat)
    ensures k <= |s| && AllDigits(s[|s| - k..])
    ensures k < |s| ==> !IsDigit(s[|s| - k - 1])
    decreases |s|
  {
    if s != [] && IsDigit(s[|s| - 1]) then
      var k := TrailingDigits(s[..|s| - 1]);
      TrailingSnoc(s, k);
      k + 1
    else 0
  }

  /** A run of `k` digits before a final digit is a run of `k + 1` digits. */
  lemma TrailingSnoc(s: string, k: nat)
    requires s != [] && IsDigit(s[|s| - 1])
    requires k <= |s| - 1 && AllDigits(s[..|s| - 1][|s| - 1 - k..])
    requires k < |s| - 1 ==> !IsDigit(s[..|s| - 1][|s| - 1 - k - 1])
    ensures AllDigits(s[|s| - (k + 1)..])
    ensures k + 1 < |s| ==> !IsDigit(s[|s| - (k + 1) - 1])
  {
    assert s[|s| - (k + 1)..] == s[..|s| - 1][|s| - 1 - k..] + [s[|s| - 1]];
  }

  /** The URL with `offset=(\d+)\Z` read, 60 added, and the trailing digits (`\d+\Z`)
      replaced by the sum; a URL that does not end that way raises `AttributeError`. */
  function NextLink(url: string): Result<string>
  {
    var k := TrailingDigits(url);
    var p := url[..|url| - k];
    if k > 0 && |p| >= 7 && p[|p| - 7..] == "offset=" then Ok(p + NatToString(ParseDigits(url[|url| - k..]) + 60))
    else Err(AttributeError)
  }

  /** A page at offset `n` is followed by the page at offset `n + 60`, the rest of the URL kept. */
  lemma NextLinkOffset(p: string, n: nat)
    ensures NextLink(p + "offset=" + NatToString(n)) == Ok(p + "offset=" + NatToString(n + 60))
  {
    var url := p + "offset=" + NatToString(n);
    var digits := NatToString(n);
    var k := TrailingDigits(url);
    assert url[|url| - |digits|..] == digits;
    assert url[|url| - |digits| - 1] == '=';
    TrailingExact(url, |digits|);
    assert url[..|url| - k] == p + "offset=";
    ParseNatToString(n);
  }

  /** The trailing run is exactly `k` long when the last `k` characters are digits and the one
      before them is not. */
  lemma {:induction false} TrailingExact(s: string, k: nat)
    requires k < |s| && AllDigits(s[|s| - k..]) && !IsDigit(s[|s| - k - 1])
    ensures TrailingDigits(s) == k
    decreases k
  {
    if k > 0 {
      var t := s[..|s| - 1];
      assert t[|t| - (k - 1)..] == s[|s| - k..|s| - 1];
      assert s[|s| - 1] == s[|s| - k..][k - 1];
      TrailingExact(t, k - 1);
    }
  }

  /** `offset=` at `q`, followed by digits up to the end. */
  predicate OffsetAt(url: string, q: int)
  {
    0 <= q && q + 7 < |url| && url[q..q + 7] == "offset=" && AllDigits(url[q + 7..])
  }

  /** A URL has a next page exactly when it ends in `offset=` and at least one digit. */
  lemma NextLinkDefined(url: string)
    ensures NextLink(url).Ok? <==>
              exists q :: OffsetAt(url, q)
  {
    var k := TrailingDigits(url);
    var p := url[..|url| - k];
    if NextLink(url).Ok? {
      var q := |p| - 7;
      assert url[q..q + 7] == p[|p| - 7..];
      assert url[q + 7..] == url[|url| - k..];
      assert OffsetAt(url, q);
    }
    if exists q :: OffsetAt(url, q) {
      var q :| OffsetAt(url, q);
      assert url[q + 6] == url[q..q + 7][6];
      assert url[|url| - (|url| - q - 7)..] == url[q + 7..];
      TrailingExact(url, |url| - q - 7);
      assert p[|p| - 7..] == url[q..q + 7];
    }
  }
}

=== FILE: sofifa_values.dfy ===
/** The market-value cell of a sofifa player row: the euro sign (read from the page as the
    three characters of its UTF-8 bytes decoded as Windows-1252) is removed, then the `M` and
    `K` suffixes are dealt with, differently by the two scrapers. */
module SofifaValues {
  import opened Common

  /** `"â‚¬"`. */
  const Euro: string := "\U{00E2}\U{201A}\U{00AC}"

  /** `s.replace(pat, "")`: occurrences removed left to right, without overlap. */
  function Remove(s: string, pat: string): (r: string)
    requires pat != []
    ensures |r| <= |s|
    decreases |s|
  {
    if |s| < |pat| then s
    else if s[..|pat|] == pat then Remove(s[|pat|..], pat)
    else [s[0]] + Remove(s[1..], pat)
  }

  /** Removing a single character deletes exactly its occurrences and keeps the rest in order. */
  lemma {:induction false} RemoveChar(s: string, c: char)
    ensures c !in Remove(s, [c])
    ensures Remove(s, [c]) == s <==> c !in s
    ensures multiset(Remove(s, [c]))[c] == 0
    ensures forall x :: x != c ==> multiset(Remove(s, [c]))[x] == multiset(s)[x]
    decreases |s|
  {
    if s != [] {
      RemoveChar(s[1..], c);
      assert s == [s[0]] + s[1..];
      if s[..1] == [c] {
        assert s[0] == c;
        assert |Remove(s, [c])| < |s|;
      } else {
        assert s[0] != c;
      }
    }
  }

  /** A string without the pattern's first character is left alone. */
  lemma {:induction false} RemoveAbsent(s: string, pat: string)
    requires pat != [] && pat[0] !in s
    ensures Remove(s, pat) == s
    decreases |s|
  {
    if |s| >= |pat| {
      assert s[..|pat|][0] == s[0];
      RemoveAbsent(s[1..], pat);
      assert s == [s[0]] + s[1..];
    }
  }

  /** A leading occurrence goes, and so does every later one. */
  lemma RemoveLeading(pat: string, s: string)
    requires pat != []
    ensures Remove(pat + s, pat) == Remove(s, pat)
  {
    assert (pat + s)[..|pat|] == pat;
    assert (pat + s)[|pat|..] == s;
  }

  lemma {:induction false} RemoveCharConcat(a: string, b: string, c: char)
    ensures Remove(a + b, [c]) == Remove(a, [c]) + Remove(b, [c])
    decreases |a|
  {
    if a != [] {
      assert (a + b)[1..] == a[1..] + b;
      assert (a + b)[..1] == a[..1];
      RemoveCharConcat(a[1..], b, c);
    } else {
      assert a + b == b;
    }
  }

  /** `int(s)` on a string: surrounding whitespace, an optional sign and at least one digit;
      anything else is a `ValueError`. */
  function PyInt(s: string): Result<int>
  {
    var t := Strip(s);
    if t != [] && (t[0] == '+' || t[0] == '-') then
      var body := t[1..];
      if body != [] && AllDigits(body) then Ok(if t[0] == '-' then -(ParseDigits(body) as int) else ParseDigits(body))
      else Err(ValueError)
    else if t != [] && AllDigits(t) then Ok(ParseDigits(t))
    else Err(ValueError)
  }

  /** `int` reads back what `str` writes. */
  lemma PyIntRoundTrip(n: int)
    ensures PyInt(IntToString(n)) == Ok(n)
  {
    var s := IntToString(n);
    var digits := NatToString(if n < 0 then -n else n);
    NoSpace(digits);
    ParseNatToString(if n < 0 then -n else n);
    if n < 0 {
      assert s == "-" + digits;
      assert s[|s| - 1] == digits[|digits| - 1];
      StripUnchanged(s);
      assert s[1..] == digits;
    } else {
      StripUnchanged(s);
    }
  }

  /** A string that neither starts nor ends with whitespace is its own `strip()`. */
  lemma StripUnchanged(s: string)
    requires s != [] && !IsSpace(s[0]) && !IsSpace(s[|s| - 1])
    ensures Strip(s) == s
  {
    assert StripLeft(s) == s;
  }

  lemma NoSpace(s: string)
    requires s != [] && AllDigits(s)
    ensures !IsSpace(s[0]) && !IsSpace(s[|s| - 1])
  {
  }

  /** The digits after the point of `f / 1000` for `f < 1000`, trailing zeros dropped but at
      least one digit kept. */
  function Fraction(f: nat): (s: string)
    requires f < 1000
    ensures 1 <= |s| <= 3 && AllDigits(s)
  {
    if f == 0 then "0"
    else if f % 100 == 0 then [DigitChar(f / 100)]
    else if f % 10 == 0 then [DigitChar(f / 100), DigitChar(f / 10 % 10)]
    else [DigitChar(f / 100), DigitChar(f / 10 % 10), DigitChar(f % 10)]
  }

  /** `str(n / 1000)` for the thousands the scraper divides: Python prints the quotient in
      positional notation with the shortest fraction that reads back, which for
      `abs(n) < 10 ** 15` is the exact decimal with its trailing zeros dropped. */
  function Thousandths(n: int): string
  {
    var a := if n < 0 then -n else n;
    (if n < 0 then "-" else "") + NatToString(a / 1000) + "." + Fraction(a % 1000)
  }

  function Pow10(k: nat): nat
  {
    if k == 0 then 1 else 10 * Pow10(k - 1)
  }

  /** The fraction's digits, read as a number and scaled back to three places, give `f`. */
  lemma FractionDigits(f: nat)
    requires f < 1000
    ensures |Fraction(f)| == 1 ==> ParseDigits(Fraction(f)) * 100 == f
    ensures |Fraction(f)| == 2 ==> ParseDigits(Fraction(f)) * 10 == f
    ensures |Fraction(f)| == 3 ==> ParseDigits(Fraction(f)) == f
  {
    var s := Fraction(f);
    if |s| == 1 {
      assert ParseDigits(s) == DigitValue(s[0]) by { assert s[..0] == []; }
    } else if |s| == 2 {
      FractionTwo(f);
    } else {
      FractionThree(f);
    }
  }

  lemma FractionTwo(f: nat)
    requires f < 1000 && f % 100 != 0 && f % 10 == 0
    ensures ParseDigits(Fraction(f)) * 10 == f
  {
    ParseTwoDigits(f / 100, f / 10 % 10);
    DecimalSplit(f);
  }

  lemma FractionThree(f: nat)
    requires f < 1000 && f % 10 != 0
    ensures ParseDigits(Fraction(f)) == f
  {
    ParseThreeDigits(f / 100, f / 10 % 10, f % 10);
    DecimalSplit(f);
  }

  /** A number below 1000 is its hundreds, tens and units. */
  lemma DecimalSplit(f: nat)
    requires f < 1000
    ensures f / 100 < 10 && f == 100 * (f / 100) + 10 * (f / 10 % 10) + f % 10
  {
  }

  lemma ParseTwoDigits(a: nat, b: nat)
    requires a < 10 && b < 10
    ensures ParseDigits([DigitChar(a), DigitChar(b)]) == 10 * a + b
  {
    var s := [DigitChar(a), DigitChar(b)];
    assert s[..1] == [DigitChar(a)];
    assert s[..1][..0] == [];
    assert ParseDigits(s[..1]) == a;
    assert ParseDigits(s) == 10 * ParseDigits(s[..1]) + DigitValue(s[1]);
  }

  lemma ParseThreeDigits(a: nat, b: nat, c: nat)
    requires a < 10 && b < 10 && c < 10
    ensures ParseDigits([DigitChar(a), DigitChar(b), DigitChar(c)]) == 100 * a + 10 * b + c
  {
    var s := [DigitChar(a), DigitChar(b), DigitChar(c)];
    assert s[..2] == [DigitChar(a), DigitChar(b)];
    ParseTwoDigits(a, b);
    assert ParseDigits(s) == 10 * ParseDigits(s[..2]) + DigitValue(s[2]);
  }

  /** Read as a decimal, the fraction is the thousandths it was made from, and it is the
      shortest such fraction. */
  lemma FractionValue(f: nat)
    requires f < 1000
    ensures ParseDigits(Fraction(f)) as real / Pow10(|Fraction(f)|) as real == f as real / 1000.0
    ensures Fraction(f) == "0" || Fraction(f)[|Fraction(f)| - 1] != '0'
  {
    var s := Fraction(f);
    FractionDigits(f);
    assert Pow10(1) == 10 && Pow10(2) == 100 && Pow10(3) == 1000;
    var p := ParseDigits(s);
    if |s| == 1 {
      assert p as real / 10.0 == (p * 100) as real / 1000.0;
    } else if |s| == 2 {
      assert p as real / 100.0 == (p * 10) as real / 1000.0;
    }
  }

  /** `str(n / 1000)` for a non-negative `n`: whole part, point, fraction, whose value is
      `n / 1000`. */
  lemma ThousandthsValue(n: nat)
    ensures exists whole: string, frac: string ::
              && Thousandths(n) == whole + "." + frac
              && whole == NatToString(n / 1000) && AllDigits(frac) && 1 <= |frac| <= 3
              && ParseDigits(whole) as real + ParseDigits(frac) as real / Pow10(|frac|) as real == n as real / 1000.0
              && (frac == "0" || frac[|frac| - 1] != '0')
  {
    var whole := NatToString(n / 1000);
    var frac := Fraction(n % 1000);
    assert Thousandths(n) == whole + "." + frac;
    ParseNatToString(n / 1000);
    FractionValue(n % 1000);
    assert n == 1000 * (n / 1000) + n % 1000;
  }

  /** The two scrapers. */
  datatype Version = Alpha1 | Alpha3

  /** The value cell's text as stored. The later scraper keeps millions as they are and turns
      thousands into millions (`int(...) / 1000`, a `ValueError` when the rest is not an
      integer); the earlier one only deletes the `M` and `K`. */
  function ValueText(v: Version, text: string): Result<string>
  {
    var w := Remove(text, Euro);
    match v
    case Alpha1 => Ok(Remove(Remove(w, "M"), "K"))
    case Alpha3 =>
      if 'M' in w then Ok(Remove(w, "M"))
      else if 'K' in w then
        match PyInt(Remove(w, "K"))
        case Err(e) => Err(e)
        case Ok(n) => Ok(Thousandths(n))
      else Ok(w)
  }

  /** The euro sign in front of a string without `â` is the only thing removed. */
  lemma RemoveEuro(w: string)
    requires Euro[0] !in w
    ensures Remove(Euro + w, Euro) == w
  {
    RemoveLeading(Euro, w);
    RemoveAbsent(w, Euro);
  }

  /** A trailing suffix letter is removed from a string without it. */
  lemma RemoveSuffix(x: string, c: char)
    requires c !in x
    ensures Remove(x + [c], [c]) == x
  {
    RemoveCharConcat(x, [c], c);
    RemoveChar(x, c);
    assert [c][..1] == [c];
    assert [c][1..] == [];
  }

  /** `€<n>K` is stored as the same amount in millions by the later scraper, and as the bare
      number of thousands by the earlier one. */
  lemma ValueThousands(n: nat)
    ensures ValueText(Alpha3, Euro + NatToString(n) + "K") == Ok(Thousandths(n))
    ensures ValueText(Alpha1, Euro + NatToString(n) + "K") == Ok(NatToString(n))
  {
    var digits := NatToString(n);
    var w := digits + "K";
    assert Euro + digits + "K" == Euro + w;
    assert Euro[0] !in w && 'M' !in w && 'K' !in digits;
    RemoveEuro(w);
    assert 'K' in w by { assert w[|w| - 1] == 'K'; }
    RemoveSuffix(digits, 'K');
    RemoveChar(w, 'M');
    PyIntRoundTrip(n);
  }

  /** `€<x>M` is stored as `<x>` by both scrapers, for any amount written without letters. */
  lemma ValueMillions(x: string)
    requires forall i :: 0 <= i < |x| ==> IsDigit(x[i]) || x[i] == '.'
    ensures ValueText(Alpha3, Euro + x + "M") == Ok(x)
    ensures ValueText(Alpha1, Euro + x + "M") == Ok(x)
  {
    var w := x + "M";
    assert Euro + x + "M" == Euro + w;
    assert Euro[0] !in w && 'M' !in x && 'K' !in x;
    RemoveEuro(w);
    assert 'M' in w by { assert w[|w| - 1] == 'M'; }
    RemoveSuffix(x, 'M');
    RemoveChar(x, 'K');
  }

  /** A value with neither suffix nor euro sign is stored unchanged by both scrapers. */
  lemma ValuePlain(text: string)
    requires Euro[0] !in text && 'M' !in text && 'K' !in text
    ensures ValueText(Alpha3, text) == Ok(text)
    ensures ValueText(Alpha1, text) == Ok(text)
  {
    RemoveAbsent(text, Euro);
    RemoveChar(text, 'M');
    RemoveChar(text, 'K');
  }

  /** The earlier scraper never leaves a suffix behind. */
  lemma Alpha1NoSuffix(text: string)
    ensures ValueText(Alpha1, text).Ok?
    ensures 'M' !in ValueText(Alpha1, text).value && 'K' !in ValueText(Alpha1, text).value
  {
    var w := Remove(text, Euro);
    RemoveChar(w, 'M');
    RemoveChar(Remove(w, "M"), 'K');
    var r := Remove(Remove(w, "M"), "K");
    assert multiset(r)['M'] == multiset(Remove(w, "M"))['M'] == 0;
  }
}

=== FILE: store.dfy ===
/** The relational store as the scrapers change it: the `match`, `club_match`, `league` and
    `club` tables, each a map inside a class, with the effect of every statement the core
    issues. Keys and uniqueness follow the statements' ON CONFLICT targets:
    match on (home_id, away_id, game_date), league on (league, season), club on
    (league_id, club_name). */
module Store {
  import opened Common

  /** A value bound into a statement and stored as given. Odds are floats in the source;
      they stay uninterpreted text here. */
  type Cell = Option<string>

  /** The number of player slots per side (`h1_player_id` .. `h11_player_id`). */
  const Slots: nat := 11

  datatype MatchKey = MatchKey(homeId: int, awayId: int, gameDate: string)

  /** The eleven odds columns, in the order of the odds update statement. */
  datatype Odds = Odds(
    homeMax: Cell, drawMax: Cell, awayMax: Cell,
    brokerHomeMax: Cell, brokerDrawMax: Cell, brokerAwayMax: Cell,
    marketHomeMax: Cell, marketDrawMax: Cell, marketAwayMax: Cell,
    maxOver25: Cell, maxUnder25: Cell)

  const NoOdds := Odds(None, None, None, None, None, None, None, None, None, None, None)

  datatype MatchRow = MatchRow(
    key: MatchKey, status: Option<string>, link: Option<string>,
    homeSlots: seq<Option<int>>, awaySlots: seq<Option<int>>,
    homeGoals: Option<int>, awayGoals: Option<int>, odds: Odds)

  /** Whether some stored match has key `k`. */
  predicate KeyTaken(rows: map<int, MatchRow>, k: MatchKey)
  {
    exists id :: id in rows && rows[id].key == k
  }

  /** Whether every row of `rows` is still in `rows'`, unchanged. */
  predicate Kept(rows: map<int, MatchRow>, rows': map<int, MatchRow>)
  {
    forall id :: id in rows ==> id in rows' && rows'[id] == rows[id]
  }

  /** A stored key stays stored when the rows are kept. */
  lemma KeptTaken(rows: map<int, MatchRow>, rows': map<int, MatchRow>, k: MatchKey)
    requires Kept(rows, rows') && KeyTaken(rows, k)
    ensures KeyTaken(rows', k)
  {
    var id :| id in rows && rows[id].key == k;
    assert rows'[id].key == k;
  }

  /** The error a second row with a stored key raises. */
  const UniqueViolation := SqlError("duplicate key value violates unique constraint")

  /** The error every statement raises on a connection whose transaction a failed statement
      aborted, until it is rolled back. */
  const InFailedTransaction := SqlError("current transaction is aborted, commands ignored until end of transaction block")

  /** The odds of the first payload row with key `k`, if any (PostgreSQL leaves the choice
      among several matching payload rows open; the model takes the first). */
  function OddsFor(payload: seq<(MatchKey, Odds)>, k: MatchKey): (r: Option<Odds>)
    ensures r.None? <==> forall i :: 0 <= i < |payload| ==> payload[i].0 != k
    ensures r.Some? ==> exists i :: 0 <= i < |payload| && payload[i] == (k, r.value)
  {
    if payload == [] then None
    else if payload[0].0 == k then Some(payload[0].1)
    else
      var r := OddsFor(payload[1..], k);
      assert forall i :: 1 <= i < |payload| ==> payload[i] == payload[1..][i - 1];
      r
  }

  /** The rows after `UPDATE match SET <odds> FROM (VALUES payload) WHERE keys match`. */
  function WithOdds(rows: map<int, MatchRow>, payload: seq<(MatchKey, Odds)>): map<int, MatchRow>
  {
    map id | id in rows ::
      match OddsFor(payload, rows[id].key)
      case None => rows[id]
      case Some(o) => rows[id].(odds := o)
  }

  /** The odds update inserts nothing and deletes nothing; a row whose key is in the payload
      gets all eleven odds columns from it and keeps every other column; any other row is
      left as it was. */
  lemma WithOddsSpec(rows: map<int, MatchRow>, payload: seq<(MatchKey, Odds)>)
    ensures WithOdds(rows, payload).Keys == rows.Keys
    ensures forall id :: id in rows && (exists i :: 0 <= i < |payload| && payload[i].0 == rows[id].key) ==>
              exists o ::
                && (rows[id].key, o) in payload
                && WithOdds(rows, payload)[id] == rows[id].(odds := o)
    ensures forall id :: id in rows && (forall i :: 0 <= i < |payload| ==> payload[i].0 != rows[id].key) ==>
              WithOdds(rows, payload)[id] == rows[id]
  {
    forall id | id in rows && (exists i :: 0 <= i < |payload| && payload[i].0 == rows[id].key)
      ensures exists o :: (rows[id].key, o) in payload && WithOdds(rows, payload)[id] == rows[id].(odds := o)
    {
      var o := OddsFor(payload, rows[id].key).value;
      var i :| 0 <= i < |payload| && payload[i] == (rows[id].key, o);
      assert (rows[id].key, o) in payload;
    }
  }

  /** A team cell of the odds payload as psycopg2 binds it: an integer, NULL, or a quoted
      name. */
  datatype KeyCell = Id(id: int) | Null | Name(name: string)

  /** One row of the odds payload: the eleven odds, the two team cells and the date text. */
  datatype OddsRow = OddsRow(odds: Odds, home: KeyCell, away: KeyCell, date: string)

  /** The `home_id` and the `away_id` column of the payload. */
  function HomeCells(payload: seq<OddsRow>): (r: seq<KeyCell>)
    ensures |r| == |payload| && forall i :: 0 <= i < |payload| ==> r[i] == payload[i].home
  {
    seq(|payload|, i requires 0 <= i < |payload| => payload[i].home)
  }

  function AwayCells(payload: seq<OddsRow>): (r: seq<KeyCell>)
    ensures |r| == |payload| && forall i :: 0 <= i < |payload| ==> r[i] == payload[i].away
  {
    seq(|payload|, i requires 0 <= i < |payload| => payload[i].away)
  }

  predicate HoldsId(cells: seq<KeyCell>)
  {
    exists i :: 0 <= i < |cells| && cells[i].Id?
  }

  predicate HoldsName(cells: seq<KeyCell>)
  {
    exists i :: 0 <= i < |cells| && cells[i].Name?
  }

  /** Why PostgreSQL refuses the odds update, if it does. An empty `VALUES` list is a syntax
      error. A column of the list is typed integer when some row holds an integer and text
      otherwise, NULLs and quoted names being untyped: a name in an integer column cannot be
      read as one, and a text column cannot be compared with the integer key. */
  function OddsError(payload: seq<OddsRow>): Option<Error>
  {
    if payload == [] then Some(SqlError("syntax error at end of VALUES"))
    else if (HoldsId(HomeCells(payload)) && HoldsName(HomeCells(payload)))
         || (HoldsId(AwayCells(payload)) && HoldsName(AwayCells(payload))) then
      Some(SqlError("invalid input syntax for type integer"))
    else if !HoldsId(HomeCells(payload)) || !HoldsId(AwayCells(payload)) then
      Some(SqlError("operator does not exist: integer = text"))
    else None
  }

  /** The payload rows that can meet a stored match: both teams given as ids. A NULL never
      compares equal, and an accepted payload holds no name. */
  function Keyed(payload: seq<OddsRow>): (r: seq<(MatchKey, Odds)>)
    decreases |payload|
  {
    if payload == [] then []
    else
      var p := payload[0];
      (if p.home.Id? && p.away.Id? then [(MatchKey(p.home.id, p.away.id, p.date), p.odds)] else [])
        + Keyed(payload[1..])
  }

  /** The keyed rows are exactly the `(key, odds)` of the payload rows with two ids. */
  lemma {:induction false} KeyedSpec(payload: seq<OddsRow>)
    ensures forall k :: k in Keyed(payload) <==>
              exists i :: 0 <= i < |payload| && payload[i].home.Id? && payload[i].away.Id? &&
                k == (MatchKey(payload[i].home.id, payload[i].away.id, payload[i].date), payload[i].odds)
    decreases |payload|
  {
    if payload != [] {
      KeyedSpec(payload[1..]);
      assert forall i :: 1 <= i < |payload| ==> payload[i] == payload[1..][i - 1];
      forall k | k in Keyed(payload[1..])
        ensures exists i :: 0 <= i < |payload| && payload[i].home.Id? && payload[i].away.Id? &&
                  k == (MatchKey(payload[i].home.id, payload[i].away.id, payload[i].date), payload[i].odds)
      {
        var j :| 0 <= j < |payload[1..]| && payload[1..][j].home.Id? && payload[1..][j].away.Id? &&
                 k == (MatchKey(payload[1..][j].home.id, payload[1..][j].away.id, payload[1..][j].date), payload[1..][j].odds);
        assert payload[j + 1] == payload[1..][j];
      }
    }
  }

  /** Each payload row contributes at most one keyed row. */
  lemma {:induction false} KeyedLength(payload: seq<OddsRow>)
    ensures |Keyed(payload)| <= |payload|
    decreases |payload|
  {
    if payload != [] {
      KeyedLength(payload[1..]);
    }
  }

  /** A row with a NULL team changes neither whether an accepted update is accepted nor what
      it does. */
  lemma NullRowInert(payload: seq<OddsRow>, row: OddsRow)
    requires OddsError(payload).None?
    requires (row.home.Null? && !row.away.Name?) || (row.away.Null? && !row.home.Name?)
    ensures OddsError(payload + [row]).None?
    ensures Keyed(payload + [row]) == Keyed(payload)
  {
    CellsSnoc(payload, row);
    HoldsSnoc(HomeCells(payload), row.home);
    HoldsSnoc(AwayCells(payload), row.away);
    KeyedSnocNull(payload, row);
  }

  lemma CellsSnoc(payload: seq<OddsRow>, row: OddsRow)
    ensures HomeCells(payload + [row]) == HomeCells(payload) + [row.home]
    ensures AwayCells(payload + [row]) == AwayCells(payload) + [row.away]
  {
  }

  lemma HoldsSnoc(cells: seq<KeyCell>, c: KeyCell)
    ensures HoldsId(cells + [c]) <==> HoldsId(cells) || c.Id?
    ensures HoldsName(cells + [c]) <==> HoldsName(cells) || c.Name?
  {
    if HoldsId(cells + [c]) && !c.Id? {
      var i :| 0 <= i < |cells + [c]| && (cells + [c])[i].Id?;
      assert cells[i].Id?;
    }
    if HoldsName(cells + [c]) && !c.Name? {
      var i :| 0 <= i < |cells + [c]| && (cells + [c])[i].Name?;
      assert cells[i].Name?;
    }
    if HoldsId(cells) {
      var i :| 0 <= i < |cells| && cells[i].Id?;
      assert (cells + [c])[i].Id?;
    }
    if HoldsName(cells) {
      var i :| 0 <= i < |cells| && cells[i].Name?;
      assert (cells + [c])[i].Name?;
    }
    if c.Id? || c.Name? {
      assert (cells + [c])[|cells|] == c;
    }
  }

  lemma {:induction false} KeyedSnocNull(payload: seq<OddsRow>, row: OddsRow)
    requires !(row.home.Id? && row.away.Id?)
    ensures Keyed(payload + [row]) == Keyed(payload)
    decreases |payload|
  {
    if payload == [] {
      assert Keyed([row]) == [] + Keyed([row][1..]);
    } else {
      assert (payload + [row])[0] == payload[0];
      assert (payload + [row])[1..] == payload[1..] + [row];
      KeyedSnocNull(payload[1..], row);
    }
  }

  /** The rows after the refresher's update of goals and slots for one `match_id`. The 22
      slot values are bound positionally, so they are split after the eleventh. */
  function WithResult(rows: map<int, MatchRow>, matchId: int, homeGoals: int, awayGoals: int, slots: seq<Option<int>>): map<int, MatchRow>
    requires |slots| == 2 * Slots
  {
    if matchId in rows then
      rows[matchId := rows[matchId].(homeGoals := Some(homeGoals), awayGoals := Some(awayGoals),
                                     homeSlots := slots[..Slots], awaySlots := slots[Slots..])]
    else rows
  }

  /** The 22 slot values of a match statement. psycopg2 binds the flat parameter tuple
      positionally, so the two lineups only count together: too few values leave a
      placeholder without one (`IndexError`), too many leave one unconverted (`TypeError`),
      and exactly 22 are split after the eleventh, wherever the sides divided them. */
  function BindSlots(home: seq<Option<int>>, away: seq<Option<int>>): (r: Result<(seq<Option<int>>, seq<Option<int>>)>)
    ensures |home| + |away| < 2 * Slots ==> r == Err(IndexError)
    ensures |home| + |away| > 2 * Slots ==> r == Err(TypeError)
    ensures |home| + |away| == 2 * Slots ==>
              r.Ok? && |r.value.0| == Slots && |r.value.1| == Slots && r.value.0 + r.value.1 == home + away
  {
    var all := home + away;
    if |all| < 2 * Slots then Err(IndexError)
    else if |all| > 2 * Slots then Err(TypeError)
    else
      assert all == all[..Slots] + all[Slots..];
      Ok((all[..Slots], all[Slots..]))
  }

  /** The row an insert stores: `row` with its slots bound positionally. */
  function Bound(row: MatchRow): (r: Result<MatchRow>)
    ensures r.Err? <==> |row.homeSlots| + |row.awaySlots| != 2 * Slots
    ensures r.Err? ==> r.error == BindSlots(row.homeSlots, row.awaySlots).error
    ensures r.Ok? ==> r.value.key == row.key && |r.value.homeSlots| == Slots && |r.value.awaySlots| == Slots
    ensures r.Ok? ==> r.value == row.(homeSlots := r.value.homeSlots, awaySlots := r.value.awaySlots)
    ensures r.Ok? ==> r.value.homeSlots + r.value.awaySlots == row.homeSlots + row.awaySlots
    ensures |row.homeSlots| == Slots && |row.awaySlots| == Slots ==> r == Ok(row)
  {
    match BindSlots(row.homeSlots, row.awaySlots)
    case Err(e) => Err(e)
    case Ok((home, away)) =>
      assert |row.homeSlots| == Slots ==> home == row.homeSlots && away == row.awaySlots by {
        if |row.homeSlots| == Slots {
          assert home == (home + away)[..Slots];
          assert row.homeSlots == (row.homeSlots + row.awaySlots)[..Slots];
          assert away == (home + away)[Slots..];
          assert row.awaySlots == (row.homeSlots + row.awaySlots)[Slots..];
        }
      }
      Ok(row.(homeSlots := home, awaySlots := away))
  }

  class MatchTable {
    /** `match`, by `match_id`. */
    var rows: map<int, MatchRow>
    /** `club_match`, one `(club_id, match_id)` pair per row, in insertion order. */
    var clubMatch: seq<(int, int)>
    /** The next value of the `match_id` sequence. */
    var nextId: int

    ghost predicate Valid()
      reads this
    {
      && 1 <= nextId
      && (forall id :: id in rows ==> 1 <= id < nextId)
      && (forall a, b :: a in rows && b in rows && rows[a].key == rows[b].key ==> a == b)
      && (forall id :: id in rows ==> |rows[id].homeSlots| == Slots && |rows[id].awaySlots| == Slots)
    }

    constructor ()
      ensures Valid()
      ensures rows == map[] && clubMatch == [] && nextId == 1
    {
      rows, clubMatch, nextId := map[], [], 1;
    }

    /** `INSERT ... ON CONFLICT (home_id, away_id, game_date) DO NOTHING`. The slots are bound
        positionally first, and a count other than 22 raises before the statement is sent. A
        row whose key is already stored is skipped (PostgreSQL still draws a `match_id` for
        it). The result says whether a row was added. */
    method InsertIfAbsent(row: MatchRow) returns (r: Result<bool>)
      requires Valid()
      modifies this
      ensures Valid()
      ensures clubMatch == old(clubMatch)
      ensures Bound(row).Err? ==> r == Err(Bound(row).error) && rows == old(rows) && nextId == old(nextId)
      ensures Bound(row).Ok? && KeyTaken(old(rows), row.key) ==>
                r == Ok(false) && rows == old(rows) && nextId == old(nextId) + 1
      ensures Bound(row).Ok? && !KeyTaken(old(rows), row.key) ==>
                r == Ok(true) && rows == old(rows)[old(nextId) := Bound(row).value] && nextId == old(nextId) + 1
    {
      var bound := Bound(row);
      if bound.Err? {
        return Err(bound.error);
      }
      if KeyTaken(rows, row.key) {
        r := Ok(false);
      } else {
        rows := rows[nextId := bound.value];
        r := Ok(true);
      }
      nextId := nextId + 1;
    }

    /** A plain `INSERT ... RETURNING match_id`, bound the same way: a stored key is a unique
        violation. */
    method InsertReturning(row: MatchRow) returns (r: Result<int>)
      requires Valid()
      modifies this
      ensures Valid()
      ensures clubMatch == old(clubMatch)
      ensures Bound(row).Err? ==> r == Err(Bound(row).error) && rows == old(rows) && nextId == old(nextId)
      ensures Bound(row).Ok? && KeyTaken(old(rows), row.key) ==>
                && r == Err(UniqueViolation)
                && rows == old(rows) && nextId == old(nextId) + 1
      ensures Bound(row).Ok? && !KeyTaken(old(rows), row.key) ==>
                && r == Ok(old(nextId)) && old(nextId) !in old(rows)
                && rows == old(rows)[old(nextId) := Bound(row).value] && nextId == old(nextId) + 1
    {
      var bound := Bound(row);
      if bound.Err? {
        return Err(bound.error);
      }
      if KeyTaken(rows, row.key) {
        r := Err(UniqueViolation);
      } else {
        rows := rows[nextId := bound.value];
        r := Ok(nextId);
      }
      nextId := nextId + 1;
    }

    /** `INSERT INTO club_match VALUES (home, match), (away, match)`. */
    method LinkClubs(homeId: int, awayId: int, matchId: int)
      requires Valid()
      modifies this
      ensures Valid()
      ensures rows == old(rows) && nextId == old(nextId)
      ensures clubMatch == old(clubMatch) + [(homeId, matchId), (awayId, matchId)]
    {
      clubMatch := clubMatch + [(homeId, matchId), (awayId, matchId)];
    }

    /** The odds update: refused as `OddsError` says, changing nothing; otherwise every
        stored match whose key is among the keyed rows gets its odds. */
    method UpdateOdds(payload: seq<OddsRow>) returns (r: Result<()>)
      requires Valid()
      modifies this
      ensures Valid()
      ensures clubMatch == old(clubMatch) && nextId == old(nextId)
      ensures OddsError(payload).Some? ==> r == Err(OddsError(payload).value) && rows == old(rows)
      ensures OddsError(payload).None? ==> r == Ok(()) && rows == WithOdds(old(rows), Keyed(payload))
    {
      var e := OddsError(payload);
      if e.Some? {
        return Err(e.value);
      }
      var keyed := Keyed(payload);
      WithOddsSpec(rows, keyed);
      rows := WithOdds(rows, keyed);
      r := Ok(());
    }

    /** The refresher's update: `match_id`, the two goals and the 22 slots are bound to the 25
        placeholders positionally, so a slot count other than 22 raises before the statement
        is sent. Only the row with that `match_id` changes. */
    method UpdateResult(matchId: int, homeGoals: int, awayGoals: int, homeIds: seq<Option<int>>, awayIds: seq<Option<int>>)
      returns (r: Result<()>)
      requires Valid()
      modifies this
      ensures Valid()
      ensures clubMatch == old(clubMatch) && nextId == old(nextId)
      ensures BindSlots(homeIds, awayIds).Err? ==> r == Err(BindSlots(homeIds, awayIds).error) && rows == old(rows)
      ensures BindSlots(homeIds, awayIds).Ok? ==>
                r == Ok(()) && rows == WithResult(old(rows), matchId, homeGoals, awayGoals, homeIds + awayIds)
    {
      var slots := BindSlots(homeIds, awayIds);
      if slots.Err? {
        return Err(slots.error);
      }
      rows := WithResult(rows, matchId, homeGoals, awayGoals, homeIds + awayIds);
      r := Ok(());
    }
  }

  datatype LeagueKey = LeagueKey(league: string, season: string)

  /** The `league` columns the link writers fill. */
  datatype Location = MatchLocation | PlayersLocation | LineupsLocation | ResultsLocation

  datatype LeagueRow = LeagueRow(leagueName: Option<string>, locations: map<Location, string>)

  /** One row of an insert-or-update batch: key, `league_name` for a new row, the location. */
  datatype LinkRow = LinkRow(key: LeagueKey, name: Option<string>, location: string)

  predicate DistinctLinkKeys(batch: seq<LinkRow>)
  {
    forall i, j :: 0 <= i < j < |batch| ==> batch[i].key != batch[j].key
  }

  /** The league rows after `INSERT ... ON CONFLICT (league, season) DO UPDATE SET loc`,
      one batch row at a time. */
  function Upserted(rows: map<LeagueKey, LeagueRow>, batch: seq<LinkRow>, loc: Location): map<LeagueKey, LeagueRow>
    decreases |batch|
  {
    if batch == [] then rows
    else
      var b := batch[0];
      Upserted(rows[b.key := UpsertedRow(rows, b, loc)], batch[1..], loc)
  }

  /** For a batch without repeated keys: exactly the batch keys are added; a batch key that
      was stored keeps its name and other locations and gets the new location; a new key gets
      the batch name and only that location; all other rows are untouched. */
  lemma UpsertedSpec(rows: map<LeagueKey, LeagueRow>, batch: seq<LinkRow>, loc: Location)
    requires DistinctLinkKeys(batch)
    ensures Upserted(rows, batch, loc).Keys == rows.Keys + set b | b in batch :: b.key
    ensures forall i :: 0 <= i < |batch| && batch[i].key in rows ==>
              Upserted(rows, batch, loc)[batch[i].key]
                == rows[batch[i].key].(locations := rows[batch[i].key].locations[loc := batch[i].location])
    ensures forall i :: 0 <= i < |batch| && batch[i].key !in rows ==>
              Upserted(rows, batch, loc)[batch[i].key] == LeagueRow(batch[i].name, map[loc := batch[i].location])
    ensures forall k :: k in rows && (forall b :: b in batch ==> b.key != k) ==> Upserted(rows, batch, loc)[k] == rows[k]
  {
    UpsertedKeys(rows, batch, loc);
    UpsertedOthers(rows, batch, loc);
    forall i | 0 <= i < |batch|
      ensures Upserted(rows, batch, loc)[batch[i].key] == UpsertedRow(rows, batch[i], loc)
    {
      UpsertedAt(rows, batch, loc, i);
    }
  }

  /** The row a batch row leaves behind when its key is not repeated later in the batch. */
  function UpsertedRow(rows: map<LeagueKey, LeagueRow>, b: LinkRow, loc: Location): LeagueRow
  {
    if b.key in rows then rows[b.key].(locations := rows[b.key].locations[loc := b.location])
    else LeagueRow(b.name, map[loc := b.location])
  }

  lemma {:induction false} UpsertedKeys(rows: map<LeagueKey, LeagueRow>, batch: seq<LinkRow>, loc: Location)
    ensures Upserted(rows, batch, loc).Keys == rows.Keys + set b | b in batch :: b.key
    decreases |batch|
  {
    if batch != [] {
      var b := batch[0];
      UpsertedKeys(rows[b.key := UpsertedRow(rows, b, loc)], batch[1..], loc);
      assert forall x :: x in batch <==> x == b || x in batch[1..];
    }
  }

  lemma {:induction false} UpsertedOthers(rows: map<LeagueKey, LeagueRow>, batch: seq<LinkRow>, loc: Location)
    ensures forall k :: k in rows && (forall b :: b in batch ==> b.key != k) ==>
              k in Upserted(rows, batch, loc) && Upserted(rows, batch, loc)[k] == rows[k]
    decreases |batch|
  {
    if batch != [] {
      var b := batch[0];
      UpsertedOthers(rows[b.key := UpsertedRow(rows, b, loc)], batch[1..], loc);
      assert forall x :: x in batch[1..] ==> x in batch;
    }
  }

  lemma {:induction false} UpsertedAt(rows: map<LeagueKey, LeagueRow>, batch: seq<LinkRow>, loc: Location, i: nat)
    requires DistinctLinkKeys(batch) && i < |batch|
    ensures batch[i].key in Upserted(rows, batch, loc)
    ensures Upserted(rows, batch, loc)[batch[i].key] == UpsertedRow(rows, batch[i], loc)
    decreases |batch|
  {
    var b := batch[0];
    var rows' := rows[b.key := UpsertedRow(rows, b, loc)];
    var rest := batch[1..];
    assert DistinctLinkKeys(rest) by {
      assert forall j :: 0 <= j < |rest| ==> rest[j] == batch[j + 1];
    }
    if i == 0 {
      assert forall x :: x in rest ==> x.key != b.key by {
        forall x | x in rest
          ensures x.key != b.key
        {
          var j :| 0 <= j < |rest| && rest[j] == x;
          assert x == batch[j + 1];
        }
      }
      UpsertedOthers(rows', rest, loc);
    } else {
      assert batch[i] == rest[i - 1] && batch[i].key != b.key;
      UpsertedAt(rows', rest, loc, i - 1);
    }
  }

  /** The league rows after `UPDATE league SET loc FROM (VALUES ...) WHERE keys match`: the
      first payload row with a stored key wins; nothing is inserted. */
  function UpdatedLocations(rows: map<LeagueKey, LeagueRow>, batch: seq<(LeagueKey, string)>, loc: Location): map<LeagueKey, LeagueRow>
  {
    map k | k in rows ::
      match FirstLocation(batch, k)
      case None => rows[k]
      case Some(v) => rows[k].(locations := rows[k].locations[loc := v])
  }

  function FirstLocation(batch: seq<(LeagueKey, string)>, k: LeagueKey): (r: Option<string>)
    ensures r.None? <==> forall i :: 0 <= i < |batch| ==> batch[i].0 != k
    ensures r.Some? ==> (k, r.value) in batch
  {
    if batch == [] then None
    else if batch[0].0 == k then Some(batch[0].1)
    else
      var r := FirstLocation(batch[1..], k);
      assert forall i :: 1 <= i < |batch| ==> batch[i] == batch[1..][i - 1];
      r
  }

  class LeagueTable {
    var rows: map<LeagueKey, LeagueRow>

    constructor ()
      ensures rows == map[]
    {
      rows := map[];
    }

    /** Insert-or-update of one location column. An empty batch leaves `VALUES` empty, a
        syntax error; a key repeated in the batch makes PostgreSQL refuse to update the same
        row twice. Either way nothing changes. */
    method Upsert(batch: seq<LinkRow>, loc: Location) returns (r: Result<()>)
      modifies this
      ensures batch == [] ==> r == Err(SqlError("syntax error at end of VALUES")) && rows == old(rows)
      ensures batch != [] && !DistinctLinkKeys(batch) ==>
                r == Err(SqlError("ON CONFLICT DO UPDATE command cannot affect row a second time")) && rows == old(rows)
      ensures batch != [] && DistinctLinkKeys(batch) ==> r == Ok(()) && rows == Upserted(old(rows), batch, loc)
    {
      if batch == [] {
        return Err(SqlError("syntax error at end of VALUES"));
      }
      if !DistinctLinkKeys(batch) {
        return Err(SqlError("ON CONFLICT DO UPDATE command cannot affect row a second time"));
      }
      var i := 0;
      while i < |batch|
        invariant 0 <= i <= |batch|
        invariant Upserted(old(rows), batch, loc) == Upserted(rows, batch[i..], loc)
      {
        var b := batch[i];
        if b.key in rows {
          rows := rows[b.key := rows[b.key].(locations := rows[b.key].locations[loc := b.location])];
        } else {
          rows := rows[b.key := LeagueRow(b.name, map[loc := b.location])];
        }
        assert batch[i..][1..] == batch[i + 1..];
        i := i + 1;
      }
      r := Ok(());
    }

    /** Update of one location column for the stored keys only. */
    method UpdateExisting(batch: seq<(LeagueKey, string)>, loc: Location) returns (r: Result<()>)
      modifies this
      ensures batch == [] ==> r == Err(SqlError("syntax error at end of VALUES")) && rows == old(rows)
      ensures batch != [] ==> r == Ok(()) && rows == UpdatedLocations(old(rows), batch, loc)
      ensures rows.Keys == old(rows).Keys
    {
      if batch == [] {
        return Err(SqlError("syntax error at end of VALUES"));
      }
      rows := UpdatedLocations(rows, batch, loc);
      r := Ok(());
    }
  }

  /** The update never inserts, and it changes only the one location column of rows whose
      key the batch names. */
  lemma UpdatedLocationsSpec(rows: map<LeagueKey, LeagueRow>, batch: seq<(LeagueKey, string)>, loc: Location, k: LeagueKey)
    requires k in rows
    ensures UpdatedLocations(rows, batch, loc).Keys == rows.Keys
    ensures (forall i :: 0 <= i < |batch| ==> batch[i].0 != k) ==> UpdatedLocations(rows, batch, loc)[k] == rows[k]
    ensures (exists i :: 0 <= i < |batch| && batch[i].0 == k) ==>
              exists v :: (k, v) in batch
                && UpdatedLocations(rows, batch, loc)[k] == rows[k].(locations := rows[k].locations[loc := v])
  {
    var r := FirstLocation(batch, k);
    if r.Some? {
      assert (k, r.value) in batch;
    }
  }

  /** Whether the league already has a club of that name. */
  predicate ClubTaken(clubs: map<int, (int, string)>, leagueId: int, name: string)
  {
    exists id :: id in clubs && clubs[id] == (leagueId, name)
  }

  /** The shape of `club` the sequence keeps: ids below the next one, each (league, name)
      stored under one id only. */
  predicate ClubsValid(clubs: map<int, (int, string)>, nextId: int)
  {
    && 1 <= nextId
    && (forall id :: id in clubs ==> 1 <= id < nextId)
    && (forall a, b :: a in clubs && b in clubs && clubs[a] == clubs[b] ==> a == b)
  }

  /** `INSERT INTO club ... RETURNING club_id` on the table's contents and its id sequence.
      With `skipTaken` (ON CONFLICT DO NOTHING) a taken name returns no row and reading its id
      fails with a `TypeError`; without it a taken name is a unique violation. Either way the
      sequence advances. A new name gets the next id. */
  function ClubInsert(clubs: map<int, (int, string)>, nextId: int, leagueId: int, name: string, skipTaken: bool)
    : (Result<int>, map<int, (int, string)>, int)
  {
    if ClubTaken(clubs, leagueId, name) then
      (if skipTaken then Err(TypeError) else Err(UniqueViolation), clubs, nextId + 1)
    else (Ok(nextId), clubs[nextId := (leagueId, name)], nextId + 1)
  }

  /** The insert keeps the table's shape, fails exactly on a taken name, and otherwise stores
      the name under an id that was not in use. */
  lemma ClubInsertSpec(clubs: map<int, (int, string)>, nextId: int, leagueId: int, name: string, skipTaken: bool)
    requires ClubsValid(clubs, nextId)
    ensures var (r, clubs', nextId') := ClubInsert(clubs, nextId, leagueId, name, skipTaken);
            && ClubsValid(clubs', nextId')
            && (r.Err? <==> ClubTaken(clubs, leagueId, name))
            && (r.Err? ==> clubs' == clubs)
            && (r.Ok? ==> r.value !in clubs && clubs' == clubs[r.value := (leagueId, name)])
  {
  }

  class ClubTable {
    /** `club`, by `club_id`: the owning league and the club name. */
    var clubs: map<int, (int, string)>
    var nextId: int

    ghost predicate Valid()
      reads this
    {
      ClubsValid(clubs, nextId)
    }

    constructor ()
      ensures Valid() && clubs == map[] && nextId == 1
    {
      clubs, nextId := map[], 1;
    }

    method InsertClub(leagueId: int, name: string, skipTaken: bool) returns (r: Result<int>)
      requires Valid()
      modifies this
      ensures Valid()
      ensures (r, clubs, nextId) == ClubInsert(old(clubs), old(nextId), leagueId, name, skipTaken)
    {
      ClubInsertSpec(clubs, nextId, leagueId, name, skipTaken);
      if ClubTaken(clubs, leagueId, name) {
        r := if skipTaken then Err(TypeError) else Err(UniqueViolation);
      } else {
        clubs := clubs[nextId := (leagueId, name)];
        r := Ok(nextId);
      }
      nextId := nextId + 1;
    }
  }
}

=== FILE: sw_lineup_scraper.dfy ===
/** The early soccerway lineup scraper: for each match link of one league and season it reads
    the teams, the score, the date and the two lineups off the page, resolves them to stored
    ids, and writes a new match row linked to both clubs. */
module SWLineupScraper {
  import opened Common
  import opened Dicts
  import opened Resolution
  import opened Store
  import opened Catalog
  import opened MatchInfo
  import opened Http

  // The season key of the club query

  /** Whether eight digits start at position `i`. */
  predicate SeasonAt(s: string, i: int)
  {
    0 <= i && i + 8 <= |s| && AllDigits(s[i..i + 8])
  }

  /** Where `re.search(r"\d\d(\d\d)\d\d(\d\d)", s[from..])` matches, or -1. */
  function SeasonIndex(s: string, from: nat): (i: int)
    ensures i == -1 || (from <= i && SeasonAt(s, i))
    ensures i == -1 <==> forall j :: from <= j < |s| ==> !SeasonAt(s, j)
    ensures i != -1 ==> forall j :: from <= j < i ==> !SeasonAt(s, j)
    decreases |s| - from
  {
    if from + 8 > |s| then -1
    else if SeasonAt(s, from) then from
    else SeasonIndex(s, from + 1)
  }

  /** The season as the `league` table stores it: the last two digits of each year of the
      first run of eight digits. Without such a run the match object is `None` and reading its
      groups raises `AttributeError`. */
  function ShortSeason(season: string): (r: Result<string>)
    ensures r.Err? <==> forall j :: 0 <= j < |season| ==> !SeasonAt(season, j)
    ensures r.Err? ==> r.error == AttributeError
    ensures r.Ok? ==> |r.value| == 4 && AllDigits(r.value)
  {
    var i := SeasonIndex(season, 0);
    if i == -1 then Err(AttributeError)
    else
      var run := season[i..i + 8];
      Ok([run[2], run[3], run[6], run[7]])
  }

  /** Two four-digit years written together compress to the two-digit endings of each. */
  lemma ShortSeasonOfYears(y1: nat, y2: nat)
    requires y1 < 10000 && y2 < 10000
    ensures ShortSeason(Four(y1) + Four(y2)) == Ok(Two(y1 % 100) + Two(y2 % 100))
  {
    var s := Four(y1) + Four(y2);
    assert s[0..8] == s;
    assert SeasonAt(s, 0);
    assert SeasonIndex(s, 0) == 0;
    var a, b := Two(y1 % 100), Two(y2 % 100);
    assert Four(y1) == Two(y1 / 100) + a && Four(y2) == Two(y2 / 100) + b;
    assert s[2] == a[0] && s[3] == a[1] && s[6] == b[0] && s[7] == b[1];
    assert [s[2], s[3], s[6], s[7]] == a + b;
  }

  /** The season the scraper is run with. */
  lemma ShortSeasonExample()
    ensures ShortSeason("20202021") == Ok("2021")
  {
    ShortSeasonOfYears(2020, 2021);
    assert Four(2020) == "2020" && Four(2021) == "2021";
    assert "20202021" == Four(2020) + Four(2021);
  }

  /** `fetchClubIds`: the clubs of the league in the compressed season. */
  function ClubIdsFor(clubs: seq<ClubRecord>, league: string, season: string): (r: Result<Dict>)
    ensures r.Err? <==> ShortSeason(season).Err?
    ensures r.Ok? ==> DistinctKeys(r.value)
    ensures r.Ok? ==> Keys(r.value) == Dedup(Keys(ClubsIn(clubs, league, ShortSeason(season).value)))
  {
    match ShortSeason(season)
    case Err(e) => Err(e)
    case Ok(short) =>
      FromPairsKeys(ClubsIn(clubs, league, short));
      Ok(FromPairs(ClubsIn(clubs, league, short)))
  }

  /** The rows a lineup is read from: at most the first eleven. */
  function FirstRows(rows: seq<string>): (r: seq<Option<string>>)
    ensures |r| == if |rows| < Starters then |rows| else Starters
    ensures forall i :: 0 <= i < |r| ==> r[i] == Some(rows[i])
  {
    Named(if |rows| < 11 then rows else rows[..11])
  }

  // One match page

  /** The teams and the date of a page, resolved: the step that may raise before any
      lineup is read. */
  datatype Heading = Heading(homeId: int, awayId: int, gameDate: string, scoretime: Scoretime, lineups: LineupBlock)

  /** The heading of a page. `aborted` says whether the connection's transaction was aborted by
      an earlier failed statement: the club query is then refused. */
  function HeadingOf(clubs: seq<ClubRecord>, league: string, season: string, aborted: bool, page: MatchPage, sim: Similarity)
    : (r: Result<Heading>)
    ensures r.Ok? ==> page.details.Some? && page.details.value.scoretime == Some(r.value.scoretime)
    ensures r.Ok? ==> page.lineups == Some(r.value.lineups)
    ensures r.Ok? ==> Ok(r.value.gameDate) == ReformatDate(page.details.value.date)
    ensures page.details.None? ==> r == Err(AttributeError)
    ensures page.details.Some? && ShortSeason(season).Ok? && aborted ==> r == Err(InFailedTransaction)
  {
    match page.details
    case None => Err(AttributeError)
    case Some(details) =>
      match ClubIdsFor(clubs, league, season)
      case Err(e) => Err(e)
      case Ok(clubIds) =>
        if aborted then Err(InFailedTransaction)
        else
        match (Resolve(clubIds, details.homeTeam, sim), Resolve(clubIds, details.awayTeam, sim))
        case (Err(e), _) => Err(e)
        case (_, Err(e)) => Err(e)
        case (Ok(home), Ok(away)) =>
          match details.scoretime
          case None => Err(AttributeError)
          case Some(scoretime) =>
            match ReformatDate(details.date)
            case Err(e) => Err(e)
            case Ok(gameDate) =>
              match page.lineups
              case None => Err(AttributeError)
              case Some(block) => Ok(Heading(home, away, gameDate, scoretime, block))
  }

  /** `extractLineups` up to the insert: an exception, no row (the scoreline was not found, so
      reading the goals raises a `KeyError` that is caught), or the row handed to
      `insertMatch`. The status is derived from the page but never written. */
  function Scraped(clubs: seq<ClubRecord>, players: seq<PlayerRecord>, league: string, season: string, aborted: bool,
                   f: Fetch<MatchPage>, sim: Similarity): Result<Option<MatchRow>>
  {
    match Strict(f)
    case Err(e) => Err(e)
    case Ok(page) =>
      match HeadingOf(clubs, league, season, aborted, page, sim)
      case Err(e) => Err(e)
      case Ok(h) =>
        var homeSquad := FromPairs(SquadOf(players, h.homeId));
        var awaySquad := FromPairs(SquadOf(players, h.awayId));
        match (ResolveAll(homeSquad, FirstRows(h.lineups.homeRows), sim), ResolveAll(awaySquad, FirstRows(h.lineups.awayRows), sim))
        case (Err(e), _) => Err(e)
        case (_, Err(e)) => Err(e)
        case (Ok(homeIds), Ok(awayIds)) =>
          match Scoreline(h.scoretime.text)
          case None => Ok(None)
          case Some((homeGoals, awayGoals)) =>
            Ok(Some(MatchRow(MatchKey(h.homeId, h.awayId, h.gameDate), None, None, homeIds, awayIds,
                             Some(homeGoals), Some(awayGoals), NoOdds)))
  }

  /** A page that does not raise had a 200 reply with a heading, a score-and-time block and
      a lineups block, and met a live transaction; no row is written exactly when the heading
      has no scoreline. */
  lemma ScrapedSpec(clubs: seq<ClubRecord>, players: seq<PlayerRecord>, league: string, season: string, aborted: bool,
                    f: Fetch<MatchPage>, sim: Similarity)
    requires Scraped(clubs, players, league, season, aborted, f, sim).Ok?
    ensures !aborted
    ensures IsOk(f) && f.page.details.Some? && f.page.details.value.scoretime.Some? && f.page.lineups.Some?
    ensures var heading := f.page.details.value.scoretime.value.text;
            Scraped(clubs, players, league, season, aborted, f, sim).value.None? <==> Scoreline(heading).None?
  {
  }

  /** What `extractLineups` promises about the key and goals of the row it hands to
      `insertMatch`: the key is the two resolved clubs and the converted date, the goals are
      the first `d - d` of the heading. */
  lemma ScrapedRow(clubs: seq<ClubRecord>, players: seq<PlayerRecord>, league: string, season: string, aborted: bool,
                   f: Fetch<MatchPage>, sim: Similarity, row: MatchRow)
    requires Scraped(clubs, players, league, season, aborted, f, sim) == Ok(Some(row))
    ensures IsOk(f) && f.page.details.Some? && f.page.details.value.scoretime.Some?
    ensures ClubIdsFor(clubs, league, season).Ok?
    ensures var details := f.page.details.value;
            var clubIds := ClubIdsFor(clubs, league, season).value;
            && Resolve(clubIds, details.homeTeam, sim) == Ok(row.key.homeId)
            && Resolve(clubIds, details.awayTeam, sim) == Ok(row.key.awayId)
            && ReformatDate(details.date) == Ok(row.key.gameDate)
            && row.homeGoals.Some? && row.awayGoals.Some?
            && Scoreline(details.scoretime.value.text) == Some((row.homeGoals.value, row.awayGoals.value))
  {
  }

  /** What `extractLineups` promises about the lineups of the row it hands to `insertMatch`:
      each side holds one id per lineup row, at most eleven, each the row's name resolved
      exact-first against the squad of its club. */
  lemma ScrapedSlots(clubs: seq<ClubRecord>, players: seq<PlayerRecord>, league: string, season: string, aborted: bool,
                     f: Fetch<MatchPage>, sim: Similarity, row: MatchRow)
    requires Scraped(clubs, players, league, season, aborted, f, sim) == Ok(Some(row))
    ensures IsOk(f) && f.page.lineups.Some?
    ensures var block := f.page.lineups.value;
            && |row.homeSlots| == |FirstRows(block.homeRows)| <= 11
            && |row.awaySlots| == |FirstRows(block.awayRows)| <= 11
            && (forall i :: 0 <= i < |row.homeSlots| ==>
                  ResolveSlot(FromPairs(SquadOf(players, row.key.homeId)), Some(block.homeRows[i]), sim) == Ok(row.homeSlots[i]))
            && (forall i :: 0 <= i < |row.awaySlots| ==>
                  ResolveSlot(FromPairs(SquadOf(players, row.key.awayId)), Some(block.awayRows[i]), sim) == Ok(row.awaySlots[i]))
  {
    var page := Strict(f).value;
    var h := HeadingOf(clubs, league, season, aborted, page, sim).value;
    assert row.key.homeId == h.homeId && row.key.awayId == h.awayId;
    SideSlots(FromPairs(SquadOf(players, h.homeId)), h.lineups.homeRows, sim, row.homeSlots);
    SideSlots(FromPairs(SquadOf(players, h.awayId)), h.lineups.awayRows, sim, row.awaySlots);
  }

  /** One side's lineup: one id per row of the first eleven, each resolved on its own. */
  lemma SideSlots(squad: Dict, rows: seq<string>, sim: Similarity, ids: seq<Option<int>>)
    requires ResolveAll(squad, FirstRows(rows), sim) == Ok(ids)
    ensures |ids| == |FirstRows(rows)| <= 11
    ensures forall i :: 0 <= i < |ids| ==> ResolveSlot(squad, Some(rows[i]), sim) == Ok(ids[i])
  {
    ResolveAllSpec(squad, FirstRows(rows), sim);
  }

  // The pages of one run

  /** What the scraper's connection and tables hold between pages: the `match` rows, the
      `club_match` rows, the next `match_id`, and whether the transaction is aborted. */
  datatype ScrapeState = ScrapeState(rows: map<int, MatchRow>, links: seq<(int, int)>, nextId: int, aborted: bool)

  /** The change one page makes: none when it raises or has no scoreline. A row is handed to
      `insertMatch`, whose exceptions are caught: on an aborted transaction the insert is
      refused; slots that do not bind raise before the statement is sent; a stored key is a
      unique violation, which draws a `match_id` and, as nothing rolls the transaction back,
      leaves it aborted; otherwise the bound row lands under the next `match_id` with its two
      `club_match` links. */
  function ScrapeStep(outcome: Result<Option<MatchRow>>, st: ScrapeState): ScrapeState
  {
    if outcome.Err? || outcome.value.None? || st.aborted then st
    else
      var row := outcome.value.value;
      match Bound(row)
      case Err(_) => st
      case Ok(bound) =>
        if KeyTaken(st.rows, row.key) then st.(nextId := st.nextId + 1, aborted := true)
        else ScrapeState(st.rows[st.nextId := bound], st.links + [(row.key.homeId, st.nextId), (row.key.awayId, st.nextId)],
                         st.nextId + 1, false)
  }

  /** What `extractLineups` makes of each page in link order, each page meeting the state the
      pages before it left, and the state after the last. */
  function Run(clubs: seq<ClubRecord>, players: seq<PlayerRecord>, league: string, season: string,
               pages: seq<Fetch<MatchPage>>, sim: Similarity, st: ScrapeState): (r: (seq<Result<Option<MatchRow>>>, ScrapeState))
    ensures |r.0| == |pages|
    decreases |pages|
  {
    if pages == [] then ([], st)
    else
      var o := Scraped(clubs, players, league, season, st.aborted, pages[0], sim);
      var rest := Run(clubs, players, league, season, pages[1..], sim, ScrapeStep(o, st));
      ([o] + rest.0, rest.1)
  }

  /** Whether an outcome that writes a row whose slots bind has its key stored. */
  predicate Lands(outcome: Result<Option<MatchRow>>, rows: map<int, MatchRow>)
  {
    outcome.Ok? && outcome.value.Some? && Bound(outcome.value.value).Ok? ==>
      KeyTaken(rows, outcome.value.value.key)
  }

  /** One page keeps every stored row and link, lands its row unless the transaction was
      aborted before it, and aborts the transaction exactly when it was aborted or the page's
      row binds and has a stored key. */
  lemma ScrapeStepSpec(outcome: Result<Option<MatchRow>>, st: ScrapeState)
    requires forall id :: id in st.rows ==> id < st.nextId
    ensures var st' := ScrapeStep(outcome, st);
            && Kept(st.rows, st'.rows) && st.links <= st'.links
            && (!st.aborted ==> Lands(outcome, st'.rows))
            && (st'.aborted <==> st.aborted || (outcome.Ok? && outcome.value.Some? &&
                                               Bound(outcome.value.value).Ok? && KeyTaken(st.rows, outcome.value.value.key)))
  {
    var st' := ScrapeStep(outcome, st);
    if outcome.Ok? && outcome.value.Some? && !st.aborted {
      var row := outcome.value.value;
      if Bound(row).Ok? && !KeyTaken(st.rows, row.key) {
        assert st'.rows[st.nextId].key == row.key;
      }
    }
  }

  /** Once the transaction is aborted, every later page raises and nothing more is written. */
  lemma {:induction false} AbortedRunFails(clubs: seq<ClubRecord>, players: seq<PlayerRecord>, league: string, season: string,
                                           pages: seq<Fetch<MatchPage>>, sim: Similarity, st: ScrapeState)
    requires st.aborted
    ensures var run := Run(clubs, players, league, season, pages, sim, st);
            run.1 == st && forall i :: 0 <= i < |pages| ==> run.0[i].Err?
    decreases |pages|
  {
    if pages != [] {
      var o := Scraped(clubs, players, league, season, true, pages[0], sim);
      AbortedPageFails(clubs, players, league, season, pages[0], sim);
      assert ScrapeStep(o, st) == st;
      AbortedRunFails(clubs, players, league, season, pages[1..], sim, st);
      var run := Run(clubs, players, league, season, pages, sim, st);
      var rest := Run(clubs, players, league, season, pages[1..], sim, st);
      assert run.0 == [o] + rest.0;
    }
  }

  /** On an aborted transaction a page raises, whatever it holds. */
  lemma AbortedPageFails(clubs: seq<ClubRecord>, players: seq<PlayerRecord>, league: string, season: string,
                         f: Fetch<MatchPage>, sim: Similarity)
    ensures Scraped(clubs, players, league, season, true, f, sim).Err?
  {
    if Strict(f).Ok? {
      var page := Strict(f).value;
      if page.details.Some? && ShortSeason(season).Ok? {
        assert HeadingOf(clubs, league, season, true, page, sim) == Err(InFailedTransaction);
      }
    }
  }

  /** One turn of the run, read off the list of remaining pages: the page meets the state the
      earlier pages left, and the rest of the run continues from the state it leaves. */
  lemma RunUnfold(clubs: seq<ClubRecord>, players: seq<PlayerRecord>, league: string, season: string,
                  pages: seq<Fetch<MatchPage>>, sim: Similarity, st: ScrapeState, i: nat,
                  outcomes: seq<Result<Option<MatchRow>>>, last: ScrapeState)
    requires i < |pages| && |outcomes| == |pages|
    requires Run(clubs, players, league, season, pages[i..], sim, st) == (outcomes[i..], last)
    ensures outcomes[i] == Scraped(clubs, players, league, season, st.aborted, pages[i], sim)
    ensures Run(clubs, players, league, season, pages[i + 1..], sim, ScrapeStep(outcomes[i], st)) == (outcomes[i + 1..], last)
  {
    assert pages[i..][0] == pages[i];
    assert pages[i..][1..] == pages[i + 1..];
    assert outcomes[i..][0] == outcomes[i];
    assert outcomes[i..][1..] == outcomes[i + 1..];
  }

  /** Whatever state a page meets, it keeps every stored row and link and lands its row. */
  lemma PageLands(clubs: seq<ClubRecord>, players: seq<PlayerRecord>, league: string, season: string,
                  f: Fetch<MatchPage>, sim: Similarity, st: ScrapeState)
    requires forall id :: id in st.rows ==> id < st.nextId
    ensures var o := Scraped(clubs, players, league, season, st.aborted, f, sim);
            var st' := ScrapeStep(o, st);
            Kept(st.rows, st'.rows) && st.links <= st'.links && Lands(o, st'.rows)
  {
    var o := Scraped(clubs, players, league, season, st.aborted, f, sim);
    ScrapeStepSpec(o, st);
    if st.aborted {
      AbortedPageFails(clubs, players, league, season, f, sim);
    }
  }

  /** Whether the first `n` outcomes all land. */
  predicate AllLand(outcomes: seq<Result<Option<MatchRow>>>, rows: map<int, MatchRow>, n: int)
    requires n <= |outcomes|
  {
    forall j :: 0 <= j < n ==> Lands(outcomes[j], rows)
  }

  lemma AllLandStep(outcomes: seq<Result<Option<MatchRow>>>, before: map<int, MatchRow>, after: map<int, MatchRow>, i: nat)
    requires i < |outcomes|
    requires Kept(before, after) && AllLand(outcomes, before, i) && Lands(outcomes[i], after)
    ensures AllLand(outcomes, after, i + 1)
  {
    forall j | 0 <= j < i
      ensures Lands(outcomes[j], after)
    {
      var o := outcomes[j];
      if o.Ok? && o.value.Some? && Bound(o.value.value).Ok? {
        KeptTaken(before, after, o.value.value.key);
      }
    }
  }

  class LineupScraper {
    const league: string
    const season: string
    /** The `club` and `player` rows the scraper reads. */
    const clubs: seq<ClubRecord>
    const players: seq<PlayerRecord>
    /** The `match` and `club_match` tables it writes. */
    const store: MatchTable
    /** Whether a failed statement has aborted the connection's transaction; nothing in the
        scraper rolls it back. */
    var aborted: bool

    constructor (store: MatchTable, league: string, season: string, clubs: seq<ClubRecord>, players: seq<PlayerRecord>)
      ensures this.store == store && this.league == league && this.season == season
      ensures this.clubs == clubs && this.players == players
      ensures !aborted
    {
      this.store := store;
      this.league := league;
      this.season := season;
      this.clubs := clubs;
      this.players := players;
      this.aborted := false;
    }

    /** The connection and the tables, as one state. */
    ghost function State(): ScrapeState
      reads this, store
    {
      ScrapeState(store.rows, store.clubMatch, store.nextId, aborted)
    }

    /** `insertMatch`: the match row, then one `club_match` row per club for the returned
        `match_id`. On an aborted transaction the first statement is refused; a unique
        violation aborts it. A failure of the first statement adds no row to either table. */
    method InsertMatch(row: MatchRow) returns (r: Result<int>)
      requires store.Valid()
      modifies this, store
      ensures store.Valid()
      ensures State() == ScrapeStep(Ok(Some(row)), old(State()))
      ensures old(aborted) ==> r == Err(InFailedTransaction)
      ensures !old(aborted) && Bound(row).Err? ==> r == Err(Bound(row).error)
      ensures !old(aborted) && Bound(row).Ok? && KeyTaken(old(store.rows), row.key) ==> r == Err(UniqueViolation)
      ensures r.Ok? <==> !old(aborted) && Bound(row).Ok? && !KeyTaken(old(store.rows), row.key)
      ensures r.Ok? ==> r.value == old(store.nextId) && store.rows[r.value] == Bound(row).value
    {
      if aborted {
        return Err(InFailedTransaction);
      }
      var matchId := store.InsertReturning(row);
      if matchId.Err? {
        if matchId.error.SqlError? {
          aborted := true;
        }
        return Err(matchId.error);
      }
      store.LinkClubs(row.key.homeId, row.key.awayId, matchId.value);
      r := matchId;
    }

    /** `extractLineups` for one page: the exception it raises, or 200 once the insert has
        been attempted; exceptions of the insert are caught. */
    method ExtractLineups(f: Fetch<MatchPage>, sim: Similarity) returns (r: Result<int>)
      requires store.Valid()
      modifies this, store
      ensures store.Valid()
      ensures State() == ScrapeStep(Scraped(clubs, players, league, season, old(aborted), f, sim), old(State()))
      ensures r.Err? <==> Scraped(clubs, players, league, season, old(aborted), f, sim).Err?
      ensures r.Err? ==> r.error == Scraped(clubs, players, league, season, old(aborted), f, sim).error
      ensures r.Ok? ==> r.value == 200
    {
      var page := Strict(f);
      if page.Err? {
        return Err(page.error);
      }
      var heading := HeadingOf(clubs, league, season, aborted, page.value, sim);
      if heading.Err? {
        return Err(heading.error);
      }
      var h := heading.value;
      var homeIds := ResolveLineup(FromPairs(SquadOf(players, h.homeId)), FirstRows(h.lineups.homeRows), sim);
      if homeIds.Err? {
        return Err(homeIds.error);
      }
      var awayIds := ResolveLineup(FromPairs(SquadOf(players, h.awayId)), FirstRows(h.lineups.awayRows), sim);
      if awayIds.Err? {
        return Err(awayIds.error);
      }
      var goals := Scoreline(h.scoretime.text);
      if goals.Some? {
        var row := MatchRow(MatchKey(h.homeId, h.awayId, h.gameDate), None, None, homeIds.value, awayIds.value,
                            Some(goals.value.0), Some(goals.value.1), NoOdds);
        var _ := InsertMatch(row);
      }
      r := Ok(200);
    }

    /** `runner`: every page is handled in link order, then the first exception is raised.
        The tables and the connection end as `Run` says; stored rows are never changed, links
        are only appended, and every page that wrote a row whose slots bind has that row's
        key stored afterwards. */
    method Runner(pages: seq<Fetch<MatchPage>>, sim: Similarity) returns (r: Result<()>)
      requires store.Valid()
      modifies this, store
      ensures store.Valid()
      ensures r == FirstError(Run(clubs, players, league, season, pages, sim, old(State())).0)
      ensures State() == Run(clubs, players, league, season, pages, sim, old(State())).1
      ensures Kept(old(store.rows), store.rows)
      ensures old(store.clubMatch) <= store.clubMatch
      ensures AllLand(Run(clubs, players, league, season, pages, sim, old(State())).0, store.rows, |pages|)
    {
      ghost var run := Run(clubs, players, league, season, pages, sim, State());
      ghost var outcomes := run.0;
      ghost var rows0 := store.rows;
      ghost var links0 := store.clubMatch;
      r := Ok(());
      for i := 0 to |pages|
        invariant store.Valid()
        invariant Run(clubs, players, league, season, pages[i..], sim, State()) == (outcomes[i..], run.1)
        invariant Kept(rows0, store.rows)
        invariant links0 <= store.clubMatch
        invariant AllLand(outcomes, store.rows, i)
        invariant r == FirstError(outcomes[..i])
      {
        ghost var st := State();
        RunUnfold(clubs, players, league, season, pages, sim, st, i, outcomes, run.1);
        PageLands(clubs, players, league, season, pages[i], sim, st);
        var status := ExtractLineups(pages[i], sim);
        AllLandStep(outcomes, st.rows, store.rows, i);
        FirstErrorNext(outcomes, i);
        if status.Err? && r.Ok? {
          r := Err(status.error);
        }
      }
      assert outcomes[..|pages|] == outcomes;
      assert pages[|pages|..] == [];
    }
  }
}

=== FILE: sw_link_gen.dfy ===
/** The Soccerway link generator: candidate season links from one seed URL per league, kept
    only when the page answers, and written to the `match_location` column of `league`. */
module SWLinkGen {
  import opened Common
  import opened Http
  import opened Seasons
  import opened PeriodTables
  import opened Store

  /** `[link for link in season_links if link[2] in working_links]`. */
  function Survivors(cands: seq<SeasonLink>, working: set<string>): seq<SeasonLink>
    decreases |cands|
  {
    if cands == [] then []
    else (if cands[0].url in working then [cands[0]] else []) + Survivors(cands[1..], working)
  }

  /** The filter keeps exactly the candidates whose URL is working, and drops some exactly
      when some URL is not. */
  lemma {:induction false} SurvivorsSpec(cands: seq<SeasonLink>, working: set<string>)
    ensures forall c :: c in Survivors(cands, working) <==> c in cands && c.url in working
    ensures |Survivors(cands, working)| <= |cands|
    ensures |Survivors(cands, working)| == |cands| <==> forall i :: 0 <= i < |cands| ==> cands[i].url in working
    decreases |cands|
  {
    if cands != [] {
      SurvivorsSpec(cands[1..], working);
      assert forall i :: 1 <= i < |cands| ==> cands[i] == cands[1..][i - 1];
      assert forall c :: c in cands <==> c == cands[0] || c in cands[1..];
    }
  }

  /** The filter keeps the candidates' order: filtering a concatenation filters each part. */
  lemma {:induction false} SurvivorsConcat(a: seq<SeasonLink>, b: seq<SeasonLink>, working: set<string>)
    ensures Survivors(a + b, working) == Survivors(a, working) + Survivors(b, working)
    decreases |a|
  {
    if a != [] {
      var head := if a[0].url in working then [a[0]] else [];
      assert (a + b)[0] == a[0];
      assert (a + b)[1..] == a[1..] + b;
      SurvivorsConcat(a[1..], b, working);
      calc {
        Survivors(a + b, working);
        head + Survivors(a[1..] + b, working);
        head + (Survivors(a[1..], working) + Survivors(b, working));
        (head + Survivors(a[1..], working)) + Survivors(b, working);
        Survivors(a, working) + Survivors(b, working);
      }
    } else {
      assert a + b == b;
    }
  }

  /** Whether probing `url` put it in `working_links`: the probe returns the URL on a 200,
      and only a non-empty URL is truthy. */
  predicate Answered(f: Fetch<()>, url: string)
  {
    Probe(f, url) == Ok(Some(url)) && url != []
  }

  /** The URLs of `cands` that answered. */
  function WorkingUrls(cands: seq<SeasonLink>, server: string -> Fetch<()>): set<string>
  {
    set c | c in cands && Answered(server(c.url), c.url) :: c.url
  }

  /** `seasonLinkFetcher`: generate the candidates, probe each one; a failed connection makes
      a probe raise out of the pool, otherwise the candidates whose page answered remain. */
  function FetchedLinks(urls: seq<(string, string)>, server: string -> Fetch<()>): (r: Result<seq<SeasonLink>>)
  {
    match SeasonLinks(urls, SoccerwayYears, SoccerwayFormat)
    case Err(e) => Err(e)
    case Ok(cands) =>
      if exists i :: 0 <= i < |cands| && server(cands[i].url).ConnectionError? then Err(AttributeError)
      else Ok(Survivors(cands, WorkingUrls(cands, server)))
  }

  /** The fetcher raises exactly when generation does or some candidate's connection fails;
      otherwise it returns the candidates whose page replied 200, in candidate order, and
      drops some exactly when one did not. */
  lemma FetchedLinksSpec(urls: seq<(string, string)>, server: string -> Fetch<()>)
    ensures var gen := SeasonLinks(urls, SoccerwayYears, SoccerwayFormat);
            && (gen.Err? ==> FetchedLinks(urls, server) == Err(gen.error))
            && (gen.Ok? ==>
                  (FetchedLinks(urls, server).Err? <==>
                     exists i :: 0 <= i < |gen.value| && server(gen.value[i].url).ConnectionError?))
            && (gen.Ok? && FetchedLinks(urls, server).Ok? ==>
                  var r := FetchedLinks(urls, server).value;
                  && (forall c :: c in r <==> c in gen.value && IsOk(server(c.url)) && c.url != [])
                  && (|r| < |gen.value| <==>
                        exists i :: 0 <= i < |gen.value| && !(IsOk(server(gen.value[i].url)) && gen.value[i].url != [])))
  {
    var gen := SeasonLinks(urls, SoccerwayYears, SoccerwayFormat);
    if gen.Ok? {
      var cands := gen.value;
      var w := WorkingUrls(cands, server);
      SurvivorsSpec(cands, w);
      forall c | c in cands
        ensures c.url in w <==> IsOk(server(c.url)) && c.url != []
      {
        if IsOk(server(c.url)) && c.url != [] {
          assert Answered(server(c.url), c.url);
        }
        if c.url in w {
          var d :| d in cands && Answered(server(d.url), d.url) && d.url == c.url;
          assert Answered(server(c.url), c.url);
        }
      }
    }
  }

  /** The store rows of a batch of links: `(league, season, location)`, no league name. */
  function LinkRows(links: seq<SeasonLink>): (rows: seq<LinkRow>)
    ensures |rows| == |links|
    ensures forall i :: 0 <= i < |links| ==>
              rows[i] == LinkRow(LeagueKey(links[i].code, links[i].tag), None, links[i].url)
  {
    seq(|links|, i requires 0 <= i < |links| => LinkRow(LeagueKey(links[i].code, links[i].tag), None, links[i].url))
  }

  class LinkGenerator {
    const store: LeagueTable

    constructor (store: LeagueTable)
      ensures this.store == store
    {
      this.store := store;
    }

    /** The pool's probes, one after another: `working_links` as a set of URLs, or the
        `AttributeError` a failed connection raises. */
    method ProbeAll(cands: seq<SeasonLink>, server: string -> Fetch<()>) returns (r: Result<set<string>>)
      ensures r.Err? <==> exists i :: 0 <= i < |cands| && server(cands[i].url).ConnectionError?
      ensures r.Err? ==> r.error == AttributeError
      ensures r.Ok? ==> r.value == WorkingUrls(cands, server)
    {
      var working: seq<string> := [];
      for i := 0 to |cands|
        invariant forall j :: 0 <= j < i ==> !server(cands[j].url).ConnectionError?
        invariant forall u :: u in working <==> exists j :: 0 <= j < i && cands[j].url == u && Answered(server(u), u)
      {
        var probed := Probe(server(cands[i].url), cands[i].url);
        if probed.Err? {
          return Err(probed.error);
        }
        if probed.value.Some? && probed.value.value != [] {
          working := working + [probed.value.value];
        }
      }
      var workingSet := set u | u in working;
      forall u
        ensures u in workingSet <==> u in WorkingUrls(cands, server)
      {
        if u in workingSet {
          var j :| 0 <= j < |cands| && cands[j].url == u && Answered(server(u), u);
          assert cands[j] in cands;
        }
      }
      r := Ok(workingSet);
    }

    /** `seasonLinkFetcher`, the pool run one probe after another. */
    method SeasonLinkFetcher(urls: seq<(string, string)>, server: string -> Fetch<()>) returns (r: Result<seq<SeasonLink>>)
      ensures r == FetchedLinks(urls, server)
    {
      var gen := FetchSeasonLinks(urls, SoccerwayYears, SoccerwayFormat);
      if gen.Err? {
        return Err(gen.error);
      }
      var working := ProbeAll(gen.value, server);
      if working.Err? {
        return Err(working.error);
      }
      r := Ok(Survivors(gen.value, working.value));
    }

    /** `insertLinkIntoDB`: insert-or-update on `(league, season)` of `match_location`. */
    method InsertLinkIntoDB(links: seq<SeasonLink>) returns (r: Result<()>)
      modifies store
      ensures links == [] ==> r == Err(SqlError("syntax error at end of VALUES")) && store.rows == old(store.rows)
      ensures links != [] && !DistinctLinkKeys(LinkRows(links)) ==>
                r == Err(SqlError("ON CONFLICT DO UPDATE command cannot affect row a second time"))
                && store.rows == old(store.rows)
      ensures links != [] && DistinctLinkKeys(LinkRows(links)) ==>
                r == Ok(()) && store.rows == Upserted(old(store.rows), LinkRows(links), MatchLocation)
    {
      r := store.Upsert(LinkRows(links), MatchLocation);
    }
  }
}
